=== FILE: README.md ===
# MeMin core in Dafny

MeMin minimises incompletely specified Mealy machines. Its inputs and outputs are
bit patterns over `0`, `1` and `-`. A machine is read from a KISS2 file. MeMin then:

- removes the states that cannot be reached from the reset state;
- computes which pairs of states are incompatible;
- splits the input patterns into pairwise disjoint atomic inputs;
- looks for the smallest number of classes into which the states can be merged, so that no class holds incompatible states and every class has, on every input, one class holding all its successors.

The last step is posed as a SAT problem. Each state must lie in a class, and
incompatible states never share one. Every class must have, on every input, one
class that holds all its successors. The first class count whose CNF the solver
satisfies is turned into the minimised machine, which is written back as a KISS2
file. A separate tool, MealyCover, decides whether one machine covers another.
When it does not, it prints an input sequence that tells them apart.

The Dafny modules follow the source files:

| module | models |
|---|---|
| `Patterns` | the `IncSpecSeq` pattern class: compatibility, intersection, difference, subset, order, equality |
| `Machines`, `TableIndex` | the state/transition representation and the `ai` table index |
| `Reachability` | `removeUnreachableStates` |
| `Predecessors` | `computePredecessorMap` |
| `Incompatibility` | `computeIncompMatrix` and `propagateIncompStates` |
| `CompatibleGroups` | `getTransitivelyCompatibleStates` |
| `DisjointInputs` | `getDisjointInputSet` |
| `SplitTables` | `splitTransitions` |
| `LowerBound` | `incStateComp` and `findPairwiseIncStates` |
| `InputAlphabet` | `computeReducedInputAlphabet` and its template variant |
| `Cnf`, `DimacsWriter` | `buildCNF`: the formula as symbolic clauses, and the encoder that writes them as DIMACS literals |
| `MachineBuilder` | `buildMachine` |
| `KissWriter` | `writeKISSFile` |
| `KissParser` | `parseKISSFile` |
| `ClassSearch` | the class-count loop of `main` |
| `MealyCover` | `findDistinguishingInput` and the verdict of the cover tool's `main` |

The meaning of a pattern is the set of concrete words it matches. Most
properties are stated against that meaning: compatibility means a common word,
and subset means inclusion of word sets. Incompatibility of states is defined
inductively, as a direct output conflict or a pair of successors that are
incompatible on an overlapping input. The SAT solver is a parameter. It is
assumed that a SAT answer satisfies every clause it was given, and that an UNSAT
answer means no valuation does. The class count found is proved minimal for a
solver that, like `solveLimited` without a budget, always answers SAT or UNSAT.

## Model

| member | source | states |
|---|---|---|
| `Patterns.StringRoundTrip` | IncSpecSeq.h:178-190 | printing the pattern read from a string of `0`, `1` and `-` gives back that string |
| `Patterns.PatternRoundTrip` | IncSpecSeq.h:42-70 | reading a printed pattern gives back the pattern, and the printed form uses only `0`, `1` and `-` |
| `Patterns.FullySpecifiedFlag` | IncSpecSeq.h:42-70 | the constructor's fullySpecified flag is set exactly when the parsed pattern has no free bit |
| `Patterns.CompatibleIffCommonWord` | IncSpecSeq.h:74-81 | two patterns of one width are compatible exactly when some word matches both |
| `Patterns.DisjointIsNotCompatible` | IncSpecSeq.h:106-113 | isDisjoint is the negation of isCompatible |
| `Patterns.SubsetIffWordInclusion` | IncSpecSeq.h:146-155 | isSubset holds exactly when every word of the first pattern is a word of the second |
| `Patterns.SubsetKeepsDisjoint` | IncSpecSeq.h:146-155 | a subset of a pattern disjoint from c is disjoint from c |
| `Patterns.IntersectMatches` | IncSpecSeq.h:86-103 | for compatible patterns, the intersection matches exactly the words both match |
| `Patterns.IntersectSymmetric` | IncSpecSeq.h:86-103 | intersection does not depend on operand order |
| `Patterns.IntersectFullySpecifiedHint` | IncSpecSeq.h:86-103 | the fullySpecified flag intersect sets is sound: the intersection of a fully specified pattern has no free bit |
| `Patterns.Diff` | IncSpecSeq.h:117-144 | the fragments of diff(a, b): at most one per free bit of a; each lies within a, is disjoint from b and from the other fragments; together with a ∩ b they partition a |
| `Patterns.DiffPartition` | IncSpecSeq.h:117-144 | when a and b overlap, every word of a is matched by exactly one of the fragments and a ∩ b, and by nothing outside a |
| `Patterns.EqualsIsIdentity` | IncSpecSeq.h:166-176 | equals (same mask, same specified values) holds exactly for identical patterns |
| `Patterns.LessStrictTotalOrder` | IncSpecSeq.h:160-164 | operator< is irreflexive, transitive and total on distinct patterns |
| `Patterns.HashRespectsEquals` | IncSpecSeq.h:214-224 | equal patterns hash equally; `0` and `-` collide although they differ |
| `TableIndex.AiInjective` | DIMACSWriter.h:41-43 | distinct cells of a table have distinct `ai` indices |
| `TableIndex.AiBound` | DIMACSWriter.h:41-43 | every cell index lies inside the table's entries |
| `Reachability.ReachableInClosedSet` | minimizer.cpp:217-238 | the reachable states lie inside every successor-closed set that holds the reset state |
| `Reachability.MarkReachable` | minimizer.cpp:218-238 | after the breadth-first search, a state is flagged exactly when it is reachable from the reset state |
| `Reachability.SearchComplete` | minimizer.cpp:224-238 | once the queue is empty, the flagged states are closed under successors |
| `Reachability.Compact` | minimizer.cpp:240-262 | after compaction, slot j holds original state origin[j], which is reachable, and every reachable state has exactly one slot |
| `Reachability.RenameTargets` | minimizer.cpp:264-272 | every target is renamed to the slot of the original target; inputs and outputs are untouched |
| `Reachability.RemoveUnreachableStates` | minimizer.cpp:217-273 | the result holds exactly the reachable states, each once; the reset state is in range; every transition is the original one with its target renamed |
| `Predecessors.ComputePredecessorMap` | minimizer.cpp:275-286 | pred[t] has one entry per distinct input into t, and lists each source state once per transition |
| `Predecessors.PredEntrySound` | minimizer.cpp:275-286 | a listed predecessor has a transition into t on that entry's input |
| `Predecessors.PredEntryComplete` | minimizer.cpp:275-286 | every transition is listed in the entry of its input at its target |
| `Incompatibility.IncompatibleSymmetric` | minimizer.cpp:318-357 | incompatibility of states is symmetric |
| `Incompatibility.FindConflict` | minimizer.cpp:328-354 | it reports a conflict exactly when a transition of each state fires on a common word with incompatible outputs |
| `Incompatibility.Propagate` | minimizer.cpp:288-316 | after propagation, every predecessor pair on overlapping inputs is marked, and so is everything those marks imply; the matrix stays sound and symmetric and only gains marks |
| `Incompatibility.MarksComplete` | minimizer.cpp:288-357 | at the fixed point, every incompatible pair is marked |
| `Incompatibility.ComputeIncompMatrix` | minimizer.cpp:318-357 | incompMatrix[ai(x, y)] is set exactly when x and y are incompatible |
| `CompatibleGroups.TransCompatibleTransitive` | minimizer.cpp:361-396 | linked-by-compatible-states is transitive |
| `CompatibleGroups.ClosedGroupHoldsChain` | minimizer.cpp:374-391 | a closed class holds every state linked to one of its members |
| `CompatibleGroups.GetTransitivelyCompatibleStates` | minimizer.cpp:361-396 | the classes partition the states; two states share a class exactly when a chain of compatible states links them |
| `DisjointInputs.Refine` | minimizer.cpp:512-562 | every word of every queued pattern is matched by a member lying within that pattern; every member lies within a queued pattern; pairwise disjointness is kept |
| `DisjointInputs.SplitRefines` | minimizer.cpp:520-551 | replacing a member by a partition of it refines the working set |
| `DisjointInputs.FullySpecifiedUnion` | minimizer.cpp:500-510 | without free bits, the union of the inputs already has the properties of the refined set |
| `DisjointInputs.GetDisjointInputSet` | minimizer.cpp:466-571 | corrected version: the atomic inputs are distinct and pairwise disjoint and lie within an input of the class; every word of every input is matched by an atom within it; without free bits they are exactly the inputs |
| `DisjointInputs.GetDisjointInputSetAsWritten` | minimizer.cpp:466-571 | as written: the same coverage, but disjoint only when the seed taken from the first member is disjoint |
| `DisjointInputs.SeedOverlapExample` | minimizer.cpp:478-483 | a state with inputs `0-` and `-0` gives an as-written result that is not pairwise disjoint |
| `DisjointInputs.AtomSplitsInput` | minimizer.cpp:440-451 | each atomic input lies wholly within, or wholly outside, each input of the class |
| `SplitTables.AssignIds` | minimizer.cpp:405-417 | each group's atoms have the properties of the corrected getDisjointInputSet (see Findings); the alphabet lists every distinct atom of every group once, and an atom's id is its position in the alphabet |
| `SplitTables.HitsIffSubset` | minimizer.cpp:440-451 | the two branches of the row fill agree: an input writes an atom's column exactly when the atom lies within it |
| `SplitTables.CellMeaning` | minimizer.cpp:428-453 | a cell is -1 exactly when no input contains the atom; otherwise it holds the target and output of the last transition containing it |
| `SplitTables.CellsConflict` | minimizer.cpp:428-453 | two states with cells in one atom's column whose outputs contradict conflict directly: their transitions fire on a common word |
| `SplitTables.SplitConflictsMarked` | minimizer.cpp:399-457 | with a matrix marking every incompatible pair, states whose outputs contradict in a column they both fill are marked |
| `SplitTables.SplitTransitions` | minimizer.cpp:399-457 | the groups partition the states; each state's row is built over the atoms of its own group, as CellMeaning says |
| `LowerBound.DegreeIsCount` | minimizer.cpp:576-585 | a state's degree is the number of its incompatible partners |
| `LowerBound.IncStateComp` | minimizer.cpp:576-585 | nIncomp holds the degree of every state |
| `LowerBound.SortByDegree` | minimizer.cpp:595-600 | the order is by descending degree and is a permutation of the states |
| `LowerBound.FindPairwiseIncStates` | minimizer.cpp:592-615 | the result is distinct and pairwise incompatible, and no further state could join it |
| `LowerBound.PairwiseIncompatibleIsLowerBound` | minimizer.cpp:592-615 | any class map that separates incompatible states needs at least as many classes as the result has states |
| `InputAlphabet.ComputeReducedInputAlphabet` | DIMACSWriter.cpp:11-65 | an input is kept exactly when no smaller input has the same next-state vector |
| `InputAlphabet.ReducedIsRepresentative` | DIMACSWriter.cpp:11-65 | no two kept inputs share a vector, and every input has a kept input, no larger, with its vector |
| `InputAlphabet.ComputeInputAlphabet` | DIMACSWriter.h:62-69 | the alphabet is the union of the inputs of all states |
| `InputAlphabet.ComputeReducedKeyedAlphabet` | DIMACSWriter.h:71-130 | an input is kept exactly when no earlier input has its vector, and the map records each kept vector |
| `Cnf.FirstTrueSpec` | DIMACSWriter.cpp:205-218 | smallestSuccClass is the first flagged class, and is numClasses + 1 when none is flagged |
| `Cnf.LastTrueSpec` | DIMACSWriter.cpp:205-218 | largestSuccClass is the last flagged class, and is 0 when none is flagged |
| `Cnf.AnchorsHold` | DIMACSWriter.cpp:136-141 | a model puts the anchor state of every class i into class i |
| `Cnf.EveryStateCovered` | DIMACSWriter.cpp:153-160 | a model puts every state into some class it is allowed in |
| `Cnf.UnitHolds` | DIMACSWriter.cpp:162-171 | a model keeps states incompatible with the anchor of class i out of class i |
| `Cnf.NoConflicts` | DIMACSWriter.cpp:173-184 | a model never puts two incompatible states into one class |
| `Cnf.ClosureHolds` | DIMACSWriter.cpp:193-247 | a model is closed: for every input and class, one class holds the successors of all its states |
| `Cnf.ModelGivesCover` | DIMACSWriter.cpp:122-264 | when the matrix is symmetric and marks no state incompatible with itself, a model of the formula is a closed cover: every state lies in a class, no class holds marked states, every class has a successor class on every input, and each anchor lies in its own class |
| `Cnf.SelfIncompatibleModelled` | DIMACSWriter.cpp:162-184 | the clauses do not keep a state marked incompatible with itself out of a class: one such state and one class give a satisfiable formula whose model is not a closed cover |
| `Cnf.CoverGivesModel` | DIMACSWriter.cpp:122-264 | conversely, a closed cover with each anchor in its own class, together with the auxiliary variables of the closed flagged classes, is a model of the formula |
| `Cnf.AnchorFirst` | DIMACSWriter.cpp:136-141 | renaming classes turns any closed cover into one that puts the i-th of the pairwise incompatible states into class i |
| `Cnf.FormulaComplete` | DIMACSWriter.cpp:122-264 | with pairwise incompatible anchors, the formula of a class count is satisfiable whenever a closed cover with that many classes exists |
| `Cnf.CoverHasAnchorClasses` | minimizer.cpp:152 | a closed cover has at least as many classes as there are pairwise incompatible states |
| `Cnf.CoverIgnoresAnchors` | DIMACSWriter.cpp:136-141 | whether a set of variables is a closed cover does not depend on the anchors |
| `Cnf.SingletonsCover` | minimizer.cpp:152 | when no state is marked incompatible with itself, one class per state is a closed cover |
| `Cnf.SameColumnClosed` | DIMACSWriter.cpp:185-196 | inputs dropped from the reduced alphabet have the successor classes of a kept input |
| `DimacsWriter.Encoder.GetStateLiteral` | DIMACSWriter.cpp:71-81 | the literal of "state s in class c" names that variable; a variable that already has a literal keeps it and nothing is allocated, otherwise exactly one literal, the next one, is allocated |
| `DimacsWriter.Encoder.GetAuxLiteral` | DIMACSWriter.cpp:84-94 | the literal of auxiliary variable j of the current round; reused when it exists, otherwise exactly one literal, the next one, is allocated |
| `DimacsWriter.Encoder.AddLitToCurrentClause` | DIMACSWriter.cpp:96-106 | the literal is appended to the open clause; nothing else changes |
| `DimacsWriter.Encoder.AddClause` | DIMACSWriter.cpp:108-116 | the open clause is appended to the clause list and reset |
| `DimacsWriter.FlagSuccessors` | DIMACSWriter.cpp:204-221 | the flags are the classes the successors may lie in, with the first and last flagged class |
| `DimacsWriter.StatesThatCanBeInClass` | DIMACSWriter.cpp:143-151 | for every class, the states allowed in it, in increasing order |
| `DimacsWriter.Encoder.EmitClosureOf` | DIMACSWriter.cpp:199-246 | the clauses written for class i on input a are that class's closure clauses |
| `DimacsWriter.Encoder.LiteralToStateClass` | DIMACSWriter.cpp:252-263 | every state literal maps back to its state and class; every other literal maps to (-1, -1) |
| `DimacsWriter.BuildCnf` | DIMACSWriter.cpp:122-264 | the integer clauses, read back through the literal table, are exactly the formula; literalToStateClass inverts the table; every clause literal has a variable, and each table entry is a state and class of the problem or (-1, -1) |
| `MachineBuilder.MembersMeaning` | MachineBuilder.cpp:12-33 | a state is a member of class c exactly when a true literal puts it there |
| `MachineBuilder.ResetMeaning` | MachineBuilder.cpp:19-33 | the new reset is a class holding the original reset state, when a true literal names that state |
| `MachineBuilder.MergeIsIntersection` | MachineBuilder.cpp:46-63 | for pairwise compatible outputs, the merged output refines each output and matches exactly their common words |
| `MachineBuilder.MergeOfEqual` | MachineBuilder.cpp:51-57 | merging equal outputs gives that output |
| `MachineBuilder.FirstHoldingSpec` | MachineBuilder.cpp:67-94 | the corrected search returns the smallest class holding every successor, and -1 only when no class holds them all |
| `MachineBuilder.FindSuccClassAsWritten` | MachineBuilder.cpp:67-94 | the search as written: it aborts only when the last class holds the first successor, and otherwise may fall through silently |
| `MachineBuilder.SearchAsWrittenMisses` | MachineBuilder.cpp:67-94 | with successors in no common class and the last class not holding the first successor, the as-written search ends without a class and without the abort |
| `MachineBuilder.FindSuccClass` | MachineBuilder.cpp:67-94 | corrected: the first class holding every successor, or -1 for the abort |
| `MachineBuilder.BuildMachine` | MachineBuilder.cpp:9-97 | with the corrected successor search (see Findings), it aborts exactly when some class has successors that share no class; otherwise the tables are the quotient tables and the reset is the class of the original reset |
| `MachineBuilder.QuotientNextMeaning` | MachineBuilder.cpp:41-94 | a class goes on input a to the smallest class holding every member's successor; it has no transition when no member has one |
| `MachineBuilder.QuotientOutputMeaning` | MachineBuilder.cpp:41-63 | the output is null exactly when no member has a transition; otherwise, when the outputs agree, it refines each member's output |
| `MachineBuilder.ModelNeverStuck` | MachineBuilder.cpp:89-93 | on an assignment that satisfies the CNF, the build never reaches the abort |
| `KissWriter.StateNameInjective` | MachineBuilder.cpp:102-106 | different states get different names |
| `KissWriter.EntriesMember` | MachineBuilder.cpp:111-157 | exactly the defined entries of the tables become transition lines |
| `KissWriter.WriteKiss` | MachineBuilder.cpp:99-176 | the file is the header followed by one line per defined entry, state by state and input by input |
| `KissWriter.LineRoundTrip` | MachineBuilder.cpp:118-155 | the parser cuts a written transition line back into its four fields |
| `KissWriter.ReadBack` | MachineBuilder.cpp:165-173 | a written file parses, with the written bit counts, and the reset is the first state the parser meets |
| `KissParser.DecimalRoundTrip` | KISSParser.cpp:51-56 | the digits of a number read back as that number |
| `KissParser.ReadIntRoundTrip` | KISSParser.cpp:51-56 | what operator<< writes for an int, operator>> reads back |
| `KissParser.NamesDistinct` | KISSParser.cpp:87-97 | no state name gets two ids |
| `KissParser.NamesMember` | KISSParser.cpp:87-97 | a name gets a state exactly when some line mentions it |
| `KissParser.NamesPrefix` | KISSParser.cpp:87-97 | ids are handed out in order of first mention and never change |
| `KissParser.ParseKiss` | KISSParser.cpp:29-126 | the parse of the file's lines, read in order, is the machine the lines describe |
| `KissParser.ParsedWellFormed` | KISSParser.cpp:29-126 | every target of a parsed machine is a state, and the reset is -1 or a state |
| `KissParser.FirstStateIsReset` | KISSParser.cpp:87-97 | with firstStateReset and no `.r` line, the reset is the first state other than `*` that a transition names; without firstStateReset there is none |
| `KissParser.LastResetAt` | KISSParser.cpp:43-50 | the last `.r` line names the reset state |
| `KissParser.InputBitsAt` | KISSParser.cpp:51-53 | the last `.i` line sets the input bit count |
| `KissParser.OutputBitsAt` | KISSParser.cpp:54-56 | the last `.o` line sets the output bit count |
| `KissParser.AppendDeferred` | KISSParser.cpp:113-119 | every transition from `*` is appended, in file order, to every state |
| `ClassSearch.DimacsOutput` | minimizer.cpp:184-192 | the true literals of the model, in variable order |
| `ClassSearch.AssignmentModels` | minimizer.cpp:184-192 | the variables the model sets satisfy every decoded clause of the formula |
| `ClassSearch.Round` | minimizer.cpp:155-213 | for one class count: gives up only when the solver refuses that count's formula, and otherwise returns a solution |
| `ClassSearch.ValuationSatisfies` | minimizer.cpp:170-179 | a set of variables modelling the decoded formula gives the solver a valuation satisfying the integer clauses |
| `ClassSearch.CoverBlocksRefusal` | minimizer.cpp:170-179 | a correct solver that always decides answers SAT on the formula of any class count that has a closed cover |
| `ClassSearch.RefusedBelowNoCover` | minimizer.cpp:152-179 | when every count from the lower bound up to m was refused, no closed cover has fewer than m classes |
| `ClassSearch.Minimise` | minimizer.cpp:152-213 | stops at the first count from the lower bound whose formula the solver satisfies, and every smaller count from there was refused; when no state is marked incompatible with itself, the classes found form a closed cover; with a solver that always decides, no closed cover has fewer classes, and when no state is incompatible with itself the search succeeds with at most one class per state |
| `ClassSearch.SearchMinimal` | minimizer.cpp:152-213 | the minimality and success conclusions of Minimise, from the refusals it records |
| `ClassSearch.MembersAgree` | MachineBuilder.cpp:46-63 | the members of a class of the solution that have a transition on an input have compatible outputs there |
| `ClassSearch.ResultClosed` | minimizer.cpp:178-211 | the minimised machine is closed: a class with a member transition goes to a class holding all its members' successors, and has an output that refines the output of each such member |
| `ClassSearch.ResetClass` | minimizer.cpp:196-199 | the reset of the minimised machine is a class holding the original reset state |
| `MealyCover.PathInside` | MealyCover.cpp:38-114 | a path from a pair of a simulation stays inside the simulation |
| `MealyCover.SimulationRefutes` | MealyCover.cpp:38-114 | no counterexample starts at a pair of a simulation |
| `MealyCover.CounterexampleRefutes` | MealyCover.cpp:38-114 | a counterexample rules covering out |
| `MealyCover.MatchInput` | MealyCover.cpp:63-101 | the fragment list left after matching one input of the m1 state is exactly the words not yet matched, or a mismatch is reported |
| `MealyCover.CheckTransition` | MealyCover.cpp:57-109 | every word of one m2 transition is first matched by an m1 transition with a refining output, or a distinguishing sequence is returned |
| `MealyCover.CheckPair` | MealyCover.cpp:56-111 | all transitions of the m2 state are handled, or a distinguishing sequence is returned |
| `MealyCover.Find` | MealyCover.cpp:38-114 | the empty sequence exactly when m1 covers m2 from the reset pair; otherwise a sequence leading to a pair it tells apart |
| `MealyCover.MatchingState` | MealyCover.cpp:173-181 | found exactly when some state of m1 covers the given state of m2 |
| `MealyCover.Decide` | MealyCover.cpp:153-188 | invalid exactly for an empty machine; refused exactly when only one machine has a reset; covered exactly as Find or MatchingState say; otherwise a counterexample or the first unmatched state |

## Left out

- MiniSat is not part of this model. The solver is a function parameter, assumed to return, on SAT, a value for each variable that satisfies every clause, and to answer UNSAT only when no valuation satisfies them. An Indeterminate answer moves the search on to the next count, as an Unsat answer does, which is what the source does.
- Command-line parsing, timing, verbosity output, `operator<<` of patterns, and the file opening and closing of every tool are not modelled. The parser reads a list of lines; a file that cannot be opened ends the program, and the model returns no parse.
- The toCString cache, the packing of bits into machine words, and pointer identity of patterns are replaced by value semantics: a pattern is a sequence of bits.
- Patterns.LessStrictTotalOrder: operator< is modelled as a lexicographic order on bit sequences, not as the comparison of the packed words. Only the total order is claimed; the exact order of ordered containers is not.
- Patterns.HashRespectsEquals: hash values are modelled only up to what the set lookups need (value bits), not the source's numeric hash.
- The fullySpecified flag is modelled as the predicate "no free bit". On intersections the source's flag may be unset although the result is fully specified; IntersectFullySpecifiedHint proves only the direction the flag is used in.
- An empty pattern string makes the source's word count wrap around (the length minus one is unsigned), so it allocates 2^27 zero words; the model gives the empty pattern and does not model that allocation.
- DisjointInputs.Refine: the source keeps the working set in an `unordered_set` and splits against the first overlapping member in hash order (minimizer.cpp:521); the model keeps it as a sequence and splits against the first overlapping member in that sequence. Which member is split first, and so the exact fragments produced, may differ from the source; the proved properties (coverage, lying within the queued inputs, pairwise disjointness) hold for any choice.
- SplitTables.AssignIds: dense ids are handed out while iterating the per-group `unordered_set`s (minimizer.cpp:410), so the source's id order is hash order; the model hands them out in the order of its atom sequences. The id order decides the column order of the tables, the numbering of the DIMACS variables and the order of the lines of the written KISS2 file, none of which the proved properties depend on.
- SplitTables.AssignIds, SplitTables.SplitTransitions, ClassSearch.Minimise: each group's atomic inputs are built with the corrected `DisjointInputs.GetDisjointInputSet` of the first finding below, not with the as-written version that minimizer.cpp:410 calls. For a group whose first member has overlapping inputs (one state with `0-` and `-0`), the source keeps those overlapping patterns as columns while the model splits them into disjoint atoms. The model's split tables, DIMACS variables and CNF then differ from the source's, and what is proved about the tables and the search holds for the corrected atoms only. When the first member's inputs are pairwise disjoint, `DisjointInputs.GetDisjointInputSetAsWritten` ensures the same properties the tables rely on.
- MachineBuilder.BuildMachine: the successor class is found with the corrected `FindSuccClass` of the second finding below, not the as-written search of MachineBuilder.cpp:67-94. The two differ only on assignments that are not models of the formula; on those the source may drop a transition where the model aborts. main passes only solver models, and `MachineBuilder.ModelNeverStuck` shows a model never reaches the abort.
- LowerBound.SortByDegree: std::sort is not stable; the model fixes one order by descending degree, an insertion sort, so states of equal degree may be visited in a different order than the source visits them.
- ClassSearch.Minimise: the class count is a C++ int. The model gives up once it passes INT_MAX, where the source would overflow.
- ClassSearch.Minimise: minimality and success are promised only for a solver that always decides (`Decisive`). `solveLimited` answers l_Undef only under a conflict or propagation budget or an interrupt, and main sets none; with such answers a count could be skipped. Success within INT_MAX, and a closed cover as the result, are promised only when no state is marked incompatible with itself. Such a mark is possible: the incompatibility scan includes the diagonal (minimizer.cpp:323), and one state may have two overlapping transitions with contradicting outputs. No clause of the formula keeps such a state out of a class (`Cnf.SelfIncompatibleModelled`). The formula may then still be satisfiable, the classes returned need not be a closed cover, and nothing is promised about them.
- The solver branch of addLitToCurrentClause and addClause is left out: main attaches the solver while the CNF is built, and the model instead builds the clause list and hands it to the solver afterwards. The clauses are the same; creating solver variables on demand is not modelled.
- KissWriter.ReadBack: it holds for tables whose patterns have at least one bit; a line with an empty input or output would be read differently, and that case is not covered.
- KissParser: unsigned truncation of the `npos` positions is modelled as -1 and ends the parse of a line the source could not cut; integers read by `operator>>` saturate at the int bounds.
- MealyCover.Find: both machines must have the same input and output widths. The dangling reference to the popped `statePair` is modelled as a copy of the pair.
- The `states` vector passed to parseKISSFile is assumed empty on entry.

## Findings

| source | as written | input that shows it | evidently intended | confidence | as-written member | corrected member |
|---|---|---|---|---|---|---|
| minimizer.cpp:478-483 | the working set starts as the inputs of the first member, and those are never checked against each other | one state with transitions on `0-` and `-0`: both stay in the result, and both match `00` | the atomic inputs are pairwise disjoint | not executed | `DisjointInputs.GetDisjointInputSetAsWritten`, `DisjointInputs.SeedOverlapExample` | `DisjointInputs.GetDisjointInputSet` |
| MachineBuilder.cpp:67-94 | the abort is checked only in rounds whose class holds the first successor, so it is reached only when the last class holds it | class 0 holds states 0 and 1, class 1 holds state 2, successors 1 and 2: no class is found, no abort, and the transition is silently dropped | abort whenever no class holds every successor | not executed; unreachable from main, since a model of the CNF never gets stuck (`MachineBuilder.ModelNeverStuck`) | `MachineBuilder.FindSuccClassAsWritten`, `MachineBuilder.SearchAsWrittenMisses` | `MachineBuilder.FindSuccClass` |

=== FILE: ClassSearch.dfy ===
/**
 * The search for the smallest number of classes (minimizer.cpp, lines
 * 152-213): starting from the number of pairwise incompatible states, build
 * the CNF of "the states fit into nClasses classes", ask the SAT solver, and
 * on the first satisfiable count read the assignment (lines 184-192), build
 * the minimised machine and write it as a KISS2 file.
 *
 * MiniSat is not part of this model: the solver is a parameter, assumed to
 * return, when it answers SAT, a value for each of its variables that makes
 * every clause true.  The loop counter is a C++ int, so the search gives up
 * once nClasses passes INT_MAX.
 */
module ClassSearch {
  import opened Patterns
  import opened Machines
  import opened Incompatibility
  import opened Cnf
  import opened DimacsWriter
  import opened MachineBuilder
  import opened LowerBound
  import KissParser
  import KissWriter

  /** MiniSat's lbool. */
  datatype LBool = LTrue | LFalse | LUndef

  /** What solveLimited returns, with the model when it is l_True. */
  datatype Answer = Sat(model: seq<LBool>) | Unsat | Indeterminate

  /** The DIMACS literal l is true under the model. */
  predicate LitTrue(model: seq<LBool>, l: int) {
    (0 < l <= |model| && model[l - 1] == LTrue) || (0 < -l <= |model| && model[-l - 1] == LFalse)
  }

  /** The clause has a true literal. */
  predicate ClauseTrue(model: seq<LBool>, c: seq<int>) {
    exists k :: 0 <= k < |c| && LitTrue(model, c[k])
  }

  /** Every clause has a true literal. */
  predicate Satisfies(model: seq<LBool>, cs: seq<seq<int>>) {
    forall x :: 0 <= x < |cs| ==> ClauseTrue(model, cs[x])
  }

  /**
   * What the model assumes of the solver: a SAT answer on n variables
   * values each of them and satisfies the clauses, and an UNSAT answer
   * means that no valuation of the n variables satisfies them.
   */
  ghost predicate SolverOk(solve: (nat, seq<seq<int>>) -> Answer) {
    forall n, cs ::
      && (solve(n, cs).Sat? ==> |solve(n, cs).model| == n && Satisfies(solve(n, cs).model, cs))
      && (solve(n, cs).Unsat? ==> forall model: seq<LBool> :: |model| == n ==> !Satisfies(model, cs))
  }

  /** The solver always decides: solveLimited with no budget and no interrupt never answers l_Undef. */
  ghost predicate Decisive(solve: (nat, seq<seq<int>>) -> Answer) {
    forall n, cs :: !solve(n, cs).Indeterminate?
  }

  /** The valuation of the variables vars that sets exactly those in T. */
  function Valuation(T: set<Var>, vars: seq<Var>): (model: seq<LBool>)
    ensures |model| == |vars|
    ensures forall l :: 0 <= l < |vars| ==> (model[l] == LTrue <==> vars[l] in T) && model[l] != LUndef
  {
    seq(|vars|, l requires 0 <= l < |vars| => if vars[l] in T then LTrue else LFalse)
  }

  /** A set of variables modelling the decoded clauses gives a valuation that satisfies the integer clauses. */
  lemma ValuationSatisfies(T: set<Var>, cs: seq<seq<int>>, vars: seq<Var>)
    requires ClausesOk(cs, |vars|) && Models(T, DecodeAll(cs, vars))
    ensures Satisfies(Valuation(T, vars), cs)
  {
    var model := Valuation(T, vars);
    var f := DecodeAll(cs, vars);
    forall x | 0 <= x < |cs|
      ensures ClauseTrue(model, cs[x])
    {
      assert f[x] in f;
      assert ClauseHolds(T, f[x]);
      var k :| 0 <= k < |f[x]| && Holds(T, f[x][k]);
      assert f[x] == DecodeClause(cs[x], vars);
      assert f[x][k] == DecodeLit(cs[x][k], vars);
      assert 0 <= k < |cs[x]| && LitTrue(model, cs[x][k]);
    }
  }

  /** Lines 184-192: the literals the model makes true, in variable order; unvalued variables are skipped. */
  method DimacsOutput(model: seq<LBool>) returns (dout: seq<int>)
    ensures forall l :: l in dout <==> LitTrue(model, l)
    ensures |dout| <= |model|
  {
    dout := [];
    var i := 0;
    while i < |model|
      invariant i <= |model| && |dout| <= i
      invariant forall l :: l in dout <==> LitTrue(model, l) && -i <= l <= i
    {
      if model[i] != LUndef {
        var lit := i + 1;
        if model[i] == LFalse {
          lit := -lit;
        }
        dout := dout + [lit];
      }
      i := i + 1;
    }
  }

  /** A literal the model makes true holds in the set of variables the assignment sets. */
  lemma LitHolds(model: seq<LBool>, vars: seq<Var>, dout: seq<int>, l: int)
    requires Distinct(vars) && LitOk(l, |vars|) && |model| == |vars| && LitTrue(model, l)
    requires forall l' :: l' in dout <==> LitTrue(model, l')
    ensures Holds(TrueVars(dout, vars), DecodeLit(l, vars))
  {
    if l < 0 {
      forall l' | l' in dout && 0 < l' <= |vars|
        ensures vars[l' - 1] != vars[-l - 1]
      {
        assert model[l' - 1] == LTrue;
      }
    } else {
      assert l in dout;
    }
  }

  /** The bridge from the solver's model to the symbolic formula: the variables it sets satisfy every decoded clause. */
  lemma AssignmentModels(model: seq<LBool>, clauses: seq<seq<int>>, vars: seq<Var>, dout: seq<int>)
    requires Distinct(vars) && ClausesOk(clauses, |vars|) && |model| == |vars| && Satisfies(model, clauses)
    requires forall l :: l in dout <==> LitTrue(model, l)
    ensures Models(TrueVars(dout, vars), DecodeAll(clauses, vars))
  {
    var f := DecodeAll(clauses, vars);
    forall c | c in f
      ensures ClauseHolds(TrueVars(dout, vars), c)
    {
      var x :| 0 <= x < |f| && f[x] == c;
      assert ClauseTrue(model, clauses[x]);
      var k :| 0 <= k < |clauses[x]| && LitTrue(model, clauses[x][k]);
      LitHolds(model, vars, dout, clauses[x][k]);
      assert c[k] == DecodeLit(clauses[x][k], vars);
    }
  }

  /** Every true literal of the model names a variable of the encoder. */
  lemma AssignmentInRange(model: seq<LBool>, dout: seq<int>, lts: seq<(int, int)>, vars: seq<Var>)
    requires NamesVars(lts, vars) && |model| == |vars|
    requires forall l :: l in dout <==> LitTrue(model, l)
    ensures LitsOk(dout, lts)
  {
    forall k | 0 <= k < |dout| && dout[k] > 0
      ensures dout[k] < |lts|
    {
      assert LitTrue(model, dout[k]);
    }
  }

  /** Line 154: the anchors of the classes; none when partial solutions are switched off. */
  function Anchored(pis: seq<nat>, noPartialSolutionInSat: bool): (anchors: seq<nat>)
    ensures |anchors| <= |pis| && forall i :: 0 <= i < |anchors| ==> anchors[i] == pis[i]
  {
    if noPartialSolutionInSat then [] else pis
  }

  /** The solver refused some encoding of the formula for p. */
  ghost predicate Refused(solve: (nat, seq<seq<int>>) -> Answer, p: Problem) {
    && ValidProblem(p)
    && exists cs: seq<seq<int>>, vs: seq<Var> :: ClausesOk(cs, |vs|) && DecodeAll(cs, vs) == Formula(p) && !solve(|vs|, cs).Sat?
  }

  /** A round whose clauses decode to the formula and that the solver does not satisfy. */
  lemma RefusedRound(solve: (nat, seq<seq<int>>) -> Answer, p: Problem, clauses: seq<seq<int>>, vars: seq<Var>, n: nat)
    requires ValidProblem(p) && ClausesOk(clauses, |vars|) && DecodeAll(clauses, vars) == Formula(p)
    requires n == |vars| && !solve(n, clauses).Sat?
    ensures Refused(solve, p)
  {
  }

  /**
   * A correct solver that always decides never refuses the formula of a
   * problem that has a closed cover.
   */
  lemma CoverBlocksRefusal(solve: (nat, seq<seq<int>>) -> Answer, p: Problem, C: set<Var>)
    requires SolverOk(solve) && Decisive(solve) && ValidProblem(p) && PairwiseIncompatible(p.Ms, |p.next|, p.pis)
    ensures ClosedCover(p, C) ==> !Refused(solve, p)
  {
    if ClosedCover(p, C) {
      FormulaComplete(p, C);
      var T :| Models(T, Formula(p));
      forall cs: seq<seq<int>>, vs: seq<Var> | ClausesOk(cs, |vs|) && DecodeAll(cs, vs) == Formula(p)
        ensures solve(|vs|, cs).Sat?
      {
        ValuationSatisfies(T, cs, vs);
      }
    }
  }

  /** No closed cover with fewer than m classes exists. */
  ghost predicate NoCoverBelow(next: seq<seq<int>>, Ms: seq<bool>, maxInput: int, m: int) {
    forall k: nat, C: set<Var> :: k < m ==> !ClosedCover(Problem(k, next, Ms, [], maxInput), C)
  }

  /**
   * Counts below |pis| have no closed cover, since pis are pairwise
   * incompatible; every count from |pis| up to m was refused, and a correct
   * deciding solver refuses only formulas without a cover.
   */
  lemma RefusedBelowNoCover(solve: (nat, seq<seq<int>>) -> Answer, next: seq<seq<int>>, Ms: seq<bool>, pis: seq<nat>,
                            anchors: seq<nat>, maxInput: int, m: int)
    requires SolverOk(solve) && Decisive(solve)
    requires ValidProblem(Problem(|pis|, next, Ms, pis, maxInput)) && PairwiseIncompatible(Ms, |next|, pis)
    requires anchors == pis || anchors == []
    requires RefusedBelow(solve, next, Ms, anchors, maxInput, |pis|, m)
    ensures NoCoverBelow(next, Ms, maxInput, m)
  {
    forall k: nat, C: set<Var> | k < m
      ensures !ClosedCover(Problem(k, next, Ms, [], maxInput), C)
    {
      var P0 := Problem(k, next, Ms, [], maxInput);
      var Pp := Problem(k, next, Ms, pis, maxInput);
      var Pa := Problem(k, next, Ms, anchors, maxInput);
      CoverIgnoresAnchors(P0, Pp, C);
      CoverIgnoresAnchors(P0, Pa, C);
      CoverHasAnchorClasses(Pp, C);
      if |pis| <= k {
        assert Refused(solve, Pa);
        CoverBlocksRefusal(solve, Pa, C);
      }
    }
  }

  /** Every class count from lo up to hi was refused. */
  ghost predicate RefusedBelow(solve: (nat, seq<seq<int>>) -> Answer, next: seq<seq<int>>, Ms: seq<bool>, anchors: seq<nat>,
                               maxInput: int, lo: nat, hi: int) {
    forall k :: lo <= k < hi ==> Refused(solve, Problem(k, next, Ms, anchors, maxInput))
  }

  lemma RefusedNext(solve: (nat, seq<seq<int>>) -> Answer, next: seq<seq<int>>, Ms: seq<bool>, anchors: seq<nat>,
                    maxInput: int, lo: nat, hi: nat)
    requires RefusedBelow(solve, next, Ms, anchors, maxInput, lo, hi) && Refused(solve, Problem(hi, next, Ms, anchors, maxInput))
    ensures RefusedBelow(solve, next, Ms, anchors, maxInput, lo, hi + 1)
  {
  }

  /** The arguments of the search, as the earlier stages of the program leave them. */
  ghost predicate SearchOk(next: seq<seq<int>>, out: seq<seq<Pattern>>, Ms: seq<bool>, pis: seq<nat>, maxInput: int,
                           inputs: seq<Pattern>, no: nat) {
    && ValidProblem(Problem(|pis|, next, Ms, pis, maxInput)) && Symmetric(Ms, |next|)
    && OutputsOk(next, out, no) && |inputs| == maxInput + 1
    && PairwiseIncompatible(Ms, |next|, pis) && ConflictsMarked(next, out, Ms)
  }

  /** The outcome of the search: the class count, the assignment, the minimised tables and the file, or nothing. */
  datatype Outcome =
    | Minimised(classes: nat, dout: seq<int>, lts: seq<(int, int)>, table: seq<seq<int>>, outputs: seq<seq<Output>>,
                resetClass: int, file: seq<string>)
    | GaveUp

  /** A found machine: the assignment satisfies the formula for its class count, and the tables are those buildMachine builds from it. */
  ghost predicate Solution(r: Outcome, vars: seq<Var>, next: seq<seq<int>>, out: seq<seq<Pattern>>, Ms: seq<bool>,
                           anchors: seq<nat>, maxInput: int, reset: int, inputLength: int, outputLength: int,
                           inputs: seq<Pattern>, no: nat)
    requires r.Minimised?
  {
    var p := Problem(r.classes, next, Ms, anchors, maxInput);
    && ValidProblem(p)
    && LitsOk(r.dout, r.lts) && NamesVars(r.lts, vars) && TableOk(r.lts, |next|, r.classes)
    && Models(TrueVars(r.dout, vars), Formula(p))
    && BuildOk(r.classes, r.dout, r.lts, next, out, maxInput, no)
    && |r.table| == r.classes && |r.outputs| == r.classes
    && (forall i :: 0 <= i < r.classes ==> |r.table[i]| == maxInput + 1 && |r.outputs[i]| == maxInput + 1)
    && (forall i, a :: 0 <= i < r.classes && 0 <= a <= maxInput ==>
          && r.table[i][a] == QuotientNext(r.classes, r.dout, r.lts, next, maxInput, i, a)
          && r.outputs[i][a] == QuotientOutput(r.classes, r.dout, r.lts, next, out, maxInput, no, i, a))
    && r.resetClass == ResetAfter(r.dout, r.lts, reset, -1, |r.dout|)
    && KissWriter.TablesOk(r.table, r.outputs, inputs)
    && var es := KissWriter.Entries(r.table, r.outputs, inputs, r.classes);
       r.file == KissWriter.Header(inputLength, outputLength, |es|, r.classes, r.resetClass) + KissWriter.Lines(es)
  }

  /**
   * Lines 152-214.  The search stops at the first class count, from the
   * number of pairwise incompatible states on, whose formula the solver
   * satisfies; every smaller count from there was refused.  Past INT_MAX it
   * gives up.  With a solver that always decides, the count found is the
   * minimum: no closed cover has fewer classes, and the classes found form
   * one.  When no state is incompatible with itself the search succeeds
   * with at most one class per state.
   */
  method Minimise(next: seq<seq<int>>, out: seq<seq<Pattern>>, Ms: seq<bool>, pis: seq<nat>, maxInput: int, reset: int,
                  inputLength: int, outputLength: int, inputs: seq<Pattern>, noPartialSolutionInSat: bool,
                  solve: (nat, seq<seq<int>>) -> Answer, ghost no: nat)
    returns (r: Outcome, ghost vars: seq<Var>)
    requires SearchOk(next, out, Ms, pis, maxInput, inputs, no) && SolverOk(solve)
    ensures r.Minimised? ==> |pis| <= r.classes <= KissParser.IntMax
    ensures r.Minimised? ==>
      Solution(r, vars, next, out, Ms, Anchored(pis, noPartialSolutionInSat), maxInput, reset, inputLength, outputLength, inputs, no)
    ensures r.Minimised? ==> RefusedBelow(solve, next, Ms, Anchored(pis, noPartialSolutionInSat), maxInput, |pis|, r.classes)
    ensures r.GaveUp? ==> RefusedBelow(solve, next, Ms, Anchored(pis, noPartialSolutionInSat), maxInput, |pis|, KissParser.IntMax + 1)
    ensures r.Minimised? && SelfCompatible(Ms, |next|) ==> ClosedCover(Problem(r.classes, next, Ms, [], maxInput), TrueVars(r.dout, vars))
    ensures Decisive(solve) && r.Minimised? ==> NoCoverBelow(next, Ms, maxInput, r.classes)
    ensures Decisive(solve) && r.GaveUp? ==> NoCoverBelow(next, Ms, maxInput, KissParser.IntMax + 1)
    ensures Decisive(solve) && |next| <= KissParser.IntMax && SelfCompatible(Ms, |next|) ==> r.Minimised? && r.classes <= |next|
  {
    var anchors := pis;
    var nClasses := |pis|;
    while nClasses <= KissParser.IntMax
      invariant |pis| <= nClasses && (nClasses == |pis| || nClasses <= KissParser.IntMax + 1)
      invariant anchors == pis || anchors == Anchored(pis, noPartialSolutionInSat)
      invariant RefusedBelow(solve, next, Ms, Anchored(pis, noPartialSolutionInSat), maxInput, |pis|, nClasses)
      decreases KissParser.IntMax + 1 - nClasses
    {
      if noPartialSolutionInSat {
        anchors := [];
      }
      var p := Problem(nClasses, next, Ms, anchors, maxInput);
      r, vars := Round(p, solve, out, reset, inputLength, outputLength, inputs, no);
      if r.Minimised? {
        SearchMinimal(r, vars, next, out, Ms, pis, maxInput, reset, inputLength, outputLength, inputs, noPartialSolutionInSat, solve, no);
        return;
      }
      RefusedNext(solve, next, Ms, anchors, maxInput, |pis|, nClasses);
      nClasses := nClasses + 1;
    }
    r, vars := GaveUp, [];
    SearchMinimal(r, vars, next, out, Ms, pis, maxInput, reset, inputLength, outputLength, inputs, noPartialSolutionInSat, solve, no);
  }

  /** What the outcome of the search says about closed covers. */
  lemma SearchMinimal(r: Outcome, vars: seq<Var>, next: seq<seq<int>>, out: seq<seq<Pattern>>, Ms: seq<bool>, pis: seq<nat>,
                      maxInput: int, reset: int, inputLength: int, outputLength: int, inputs: seq<Pattern>,
                      noPartialSolutionInSat: bool, solve: (nat, seq<seq<int>>) -> Answer, no: nat)
    requires SearchOk(next, out, Ms, pis, maxInput, inputs, no) && SolverOk(solve)
    requires r.Minimised? ==> |pis| <= r.classes <= KissParser.IntMax
    requires r.Minimised? ==>
      Solution(r, vars, next, out, Ms, Anchored(pis, noPartialSolutionInSat), maxInput, reset, inputLength, outputLength, inputs, no)
    requires r.Minimised? ==> RefusedBelow(solve, next, Ms, Anchored(pis, noPartialSolutionInSat), maxInput, |pis|, r.classes)
    requires r.GaveUp? ==> RefusedBelow(solve, next, Ms, Anchored(pis, noPartialSolutionInSat), maxInput, |pis|, KissParser.IntMax + 1)
    ensures r.Minimised? && SelfCompatible(Ms, |next|) ==> ClosedCover(Problem(r.classes, next, Ms, [], maxInput), TrueVars(r.dout, vars))
    ensures Decisive(solve) && r.Minimised? ==> NoCoverBelow(next, Ms, maxInput, r.classes)
    ensures Decisive(solve) && r.GaveUp? ==> NoCoverBelow(next, Ms, maxInput, KissParser.IntMax + 1)
    ensures Decisive(solve) && |next| <= KissParser.IntMax && SelfCompatible(Ms, |next|) ==> r.Minimised? && r.classes <= |next|
  {
    var anchors := Anchored(pis, noPartialSolutionInSat);
    var m := if r.Minimised? then r.classes else KissParser.IntMax + 1;
    if r.Minimised? && SelfCompatible(Ms, |next|) {
      var pa := Problem(r.classes, next, Ms, anchors, maxInput);
      ModelGivesCover(pa, TrueVars(r.dout, vars));
      CoverIgnoresAnchors(pa, Problem(r.classes, next, Ms, [], maxInput), TrueVars(r.dout, vars));
    }
    if Decisive(solve) {
      RefusedBelowNoCover(solve, next, Ms, pis, anchors, maxInput, m);
      SingletonsCover(Problem(|next|, next, Ms, [], maxInput));
    }
  }

  /** Lines 155-213 for one class count: GaveUp when the solver does not satisfy the formula. */
  method Round(p: Problem, solve: (nat, seq<seq<int>>) -> Answer, out: seq<seq<Pattern>>, reset: int,
               inputLength: int, outputLength: int, inputs: seq<Pattern>, ghost no: nat)
    returns (r: Outcome, ghost vars: seq<Var>)
    requires ValidProblem(p) && Symmetric(p.Ms, |p.next|) && OutputsOk(p.next, out, no) && |inputs| == p.maxInput + 1
    requires SolverOk(solve)
    ensures r.Minimised? ==> r.classes == p.numClasses
    ensures r.Minimised? ==> Solution(r, vars, p.next, out, p.Ms, p.pis, p.maxInput, reset, inputLength, outputLength, inputs, no)
    ensures r.GaveUp? ==> Refused(solve, p)
  {
    var clauses, lts, vs := BuildCnf(p);
    var answer := solve(|lts| - 1, clauses);
    vars := vs;
    if answer.Sat? {
      r := Conclude(p, clauses, lts, vs, answer.model, out, reset, inputLength, outputLength, inputs, no);
    } else {
      RefusedRound(solve, p, clauses, vs, |lts| - 1);
      r := GaveUp;
    }
  }

  /** Lines 178-211 for a satisfiable count: read the model, build the machine and write it. */
  method Conclude(p: Problem, clauses: seq<seq<int>>, lts: seq<(int, int)>, ghost vars: seq<Var>, model: seq<LBool>,
                  out: seq<seq<Pattern>>, reset: int, inputLength: int, outputLength: int, inputs: seq<Pattern>, ghost no: nat)
    returns (r: Outcome)
    requires ValidProblem(p) && Symmetric(p.Ms, |p.next|) && OutputsOk(p.next, out, no) && |inputs| == p.maxInput + 1
    requires Distinct(vars) && ClausesOk(clauses, |vars|) && DecodeAll(clauses, vars) == Formula(p)
    requires NamesVars(lts, vars) && forall l :: 0 <= l < |vars| && vars[l].X? ==> vars[l].s < |p.next| && vars[l].c < p.numClasses
    requires |model| == |vars| && Satisfies(model, clauses)
    ensures r.Minimised? && r.classes == p.numClasses
    ensures Solution(r, vars, p.next, out, p.Ms, p.pis, p.maxInput, reset, inputLength, outputLength, inputs, no)
  {
    var dout := DimacsOutput(model);
    AssignmentModels(model, clauses, vars, dout);
    AssignmentInRange(model, dout, lts, vars);
    NamesVarsTableOk(lts, vars, |p.next|, p.numClasses);
    NeverStuck(p, dout, lts, vars);
    var built := BuildMachine(p.numClasses, dout, lts, p.next, out, reset, -1, p.maxInput, no);
    BuiltTablesOk(p.numClasses, dout, lts, p.next, out, p.maxInput, no, built, inputs);
    var file := KissWriter.WriteKiss(built.next, built.output, built.reset, inputLength, outputLength, inputs);
    r := Minimised(p.numClasses, dout, lts, built.next, built.output, built.reset, file);
  }

  /** buildMachine never reaches the abort of line 91 on a model of the formula. */
  lemma NeverStuck(p: Problem, dout: seq<int>, lts: seq<(int, int)>, vars: seq<Var>)
    requires ValidProblem(p) && Symmetric(p.Ms, |p.next|) && Models(TrueVars(dout, vars), Formula(p))
    requires LitsOk(dout, lts) && NamesVars(lts, vars) && TableOk(lts, |p.next|, p.numClasses)
    ensures forall i, a :: 0 <= i < p.numClasses && 0 <= a <= p.maxInput ==> !Stuck(p.numClasses, dout, lts, p.next, p.maxInput, i, a)
  {
    forall i, a | 0 <= i < p.numClasses && 0 <= a <= p.maxInput
      ensures !Stuck(p.numClasses, dout, lts, p.next, p.maxInput, i, a)
    {
      ModelNeverStuck(p, dout, lts, vars, i, a);
    }
  }

  /** The built tables are ones writeKISSFile accepts: every defined successor is a class and has an output. */
  lemma BuiltTablesOk(nClasses: nat, dout: seq<int>, lts: seq<(int, int)>, next: seq<seq<int>>, out: seq<seq<Pattern>>,
                      maxInput: int, no: nat, built: Built, inputs: seq<Pattern>)
    requires BuildOk(nClasses, dout, lts, next, out, maxInput, no) && |inputs| == maxInput + 1
    requires forall i, a :: 0 <= i < nClasses && 0 <= a <= maxInput ==> !Stuck(nClasses, dout, lts, next, maxInput, i, a)
    requires built.NoSuccessorClass? <==>
      exists i, a :: 0 <= i < nClasses && 0 <= a <= maxInput && Stuck(nClasses, dout, lts, next, maxInput, i, a)
    requires built.Built? ==> |built.next| == nClasses && |built.output| == nClasses
    requires built.Built? ==> forall i :: 0 <= i < nClasses ==> |built.next[i]| == maxInput + 1 && |built.output[i]| == maxInput + 1
    requires built.Built? ==> forall i, a :: 0 <= i < nClasses && 0 <= a <= maxInput ==>
      && built.next[i][a] == QuotientNext(nClasses, dout, lts, next, maxInput, i, a)
      && built.output[i][a] == QuotientOutput(nClasses, dout, lts, next, out, maxInput, no, i, a)
    ensures built.Built? && KissWriter.TablesOk(built.next, built.output, inputs)
  {
    forall i, a | 0 <= i < nClasses && 0 <= a <= maxInput && built.next[i][a] != -1
      ensures 0 <= built.next[i][a] < nClasses && built.output[i][a].Out?
    {
      QuotientNextMeaning(nClasses, dout, lts, next, maxInput, i, a);
      QuotientOutputMeaning(nClasses, dout, lts, next, out, maxInput, no, i, a, []);
    }
  }

  /**
   * The minimised machine is closed: on every input, a class some member
   * of which has a transition goes to a class holding the successors of all
   * its members and has an output; otherwise it has neither.
   */
  lemma ResultClosed(r: Outcome, vars: seq<Var>, next: seq<seq<int>>, out: seq<seq<Pattern>>, Ms: seq<bool>,
                     anchors: seq<nat>, maxInput: int, reset: int, inputLength: int, outputLength: int,
                     inputs: seq<Pattern>, no: nat, i: nat, a: nat)
    requires r.Minimised? && Solution(r, vars, next, out, Ms, anchors, maxInput, reset, inputLength, outputLength, inputs, no)
    requires Symmetric(Ms, |next|) && ConflictsMarked(next, out, Ms) && i < r.classes && a <= maxInput
    ensures HasTransition(r.dout, r.lts, next, maxInput, i, a) ==>
      && 0 <= r.table[i][a] < r.classes && r.outputs[i][a].Out?
      && HoldsSuccessors(r.dout, r.lts, next, maxInput, i, a, r.table[i][a])
      && (forall s :: 0 <= s < |next| && Member(r.dout, r.lts, s, i) && next[s][a] != -1 ==>
            |out[s][a]| == no == |r.outputs[i][a].pattern| && Subset(r.outputs[i][a].pattern, out[s][a]))
    ensures !HasTransition(r.dout, r.lts, next, maxInput, i, a) ==> r.table[i][a] == -1 && r.outputs[i][a].NoOutput?
  {
    var p := Problem(r.classes, next, Ms, anchors, maxInput);
    ModelNeverStuck(p, r.dout, r.lts, vars, i, a);
    QuotientNextMeaning(r.classes, r.dout, r.lts, next, maxInput, i, a);
    MembersAgree(r, vars, next, out, Ms, anchors, maxInput, reset, inputLength, outputLength, inputs, no, i, a);
    QuotientOutputMeaning(r.classes, r.dout, r.lts, next, out, maxInput, no, i, a, []);
  }

  /** No class of the solution holds two states whose outputs contradict on an input both of them take. */
  lemma MembersAgree(r: Outcome, vars: seq<Var>, next: seq<seq<int>>, out: seq<seq<Pattern>>, Ms: seq<bool>,
                     anchors: seq<nat>, maxInput: int, reset: int, inputLength: int, outputLength: int,
                     inputs: seq<Pattern>, no: nat, i: nat, a: nat)
    requires r.Minimised? && Solution(r, vars, next, out, Ms, anchors, maxInput, reset, inputLength, outputLength, inputs, no)
    requires Symmetric(Ms, |next|) && ConflictsMarked(next, out, Ms) && i < r.classes && a <= maxInput
    ensures OutputsAgree(r.dout, r.lts, next, out, maxInput, no, i, a)
  {
    var p := Problem(r.classes, next, Ms, anchors, maxInput);
    var T := TrueVars(r.dout, vars);
    NoConflicts(p, T);
    forall s, t | 0 <= s < |next| && 0 <= t < |next| && Member(r.dout, r.lts, s, i) && Member(r.dout, r.lts, t, i)
                  && next[s][a] != -1 && next[t][a] != -1
      ensures Compatible(out[s][a], out[t][a])
    {
      MemberIsTrueVar(r.dout, r.lts, vars, s, i);
      MemberIsTrueVar(r.dout, r.lts, vars, t, i);
      SubsetReflexive(out[s][a]);
    }
  }

  /** Line 198: the reset state of the minimised machine is a class holding the original reset state. */
  lemma ResetClass(r: Outcome, vars: seq<Var>, next: seq<seq<int>>, out: seq<seq<Pattern>>, Ms: seq<bool>,
                   anchors: seq<nat>, maxInput: int, reset: int, inputLength: int, outputLength: int,
                   inputs: seq<Pattern>, no: nat)
    requires r.Minimised? && Solution(r, vars, next, out, Ms, anchors, maxInput, reset, inputLength, outputLength, inputs, no)
    requires 0 <= reset < |next|
    ensures 0 <= r.resetClass < r.classes && Member(r.dout, r.lts, reset, r.resetClass)
  {
    var p := Problem(r.classes, next, Ms, anchors, maxInput);
    EveryStateCovered(p, TrueVars(r.dout, vars));
    assert Covered(p, TrueVars(r.dout, vars), reset);
    var c :| 0 <= c < r.classes && X(reset, c) in TrueVars(r.dout, vars);
    MemberIsTrueVar(r.dout, r.lts, vars, reset, c);
    var k :| 0 <= k < |r.dout| && Places(r.dout, r.lts, k, reset, c);
    assert NamesState(r.dout, r.lts, |r.dout|, reset);
    ResetMeaning(r.dout, r.lts, reset, -1, |r.dout|);
    var k' :| 0 <= k' < |r.dout| && Places(r.dout, r.lts, k', reset, r.resetClass);
    assert r.lts[r.dout[k']] == (reset, r.resetClass);
  }
}

=== FILE: Cnf.dfy ===
/**
 * The propositional encoding of "the machine has a closed cover with
 * numClasses classes" that buildCNF (DIMACSWriter.cpp) writes, stated over
 * symbolic variables: X(s, c) says that state s lies in class c, and
 * Aux(a, i, j) says that on input a the successors of class i lie in
 * class j.  Each group of clauses is a fold that mirrors the loop emitting
 * it, so that the encoder can be proved to produce exactly `Formula(p)`.
 *
 * The second half states what a model of the formula means: the anchor
 * states sit in their own classes, every state is in some class, no class
 * holds two incompatible states, and every class has, for every input, one
 * class that holds all its successors.
 */
module Cnf {
  import opened TableIndex
  import opened Incompatibility
  import opened InputAlphabet
  import opened LowerBound

  /** State s lies in class c, or the successors of class i on input a lie in class j. */
  datatype Var = X(s: nat, c: nat) | Aux(a: nat, i: nat, j: nat)

  datatype Lit = Pos(v: Var) | Neg(v: Var)

  type Clause = seq<Lit>

  /**
   * The arguments of buildCNF: the number of classes, the dense next-state
   * table (one row per state, one column per input of the split alphabet,
   * -1 where undefined), the incompatibility matrix, the pairwise
   * incompatible states that anchor the first classes, and the largest input.
   */
  datatype Problem = Problem(numClasses: nat, next: seq<seq<int>>, Ms: seq<bool>, pis: seq<nat>, maxInput: int)

  /** What buildCNF expects of its arguments. */
  predicate ValidProblem(p: Problem) {
    && p.maxInput >= -1
    && Rows(p.next, p.maxInput + 1)
    && (forall s, a :: 0 <= s < |p.next| && 0 <= a <= p.maxInput ==> -1 <= p.next[s][a] < |p.next|)
    && |p.Ms| == Ai(|p.next|, 0, |p.next|)
    && |p.pis| <= p.numClasses
    && (forall i :: 0 <= i < |p.pis| ==> p.pis[i] < |p.next|)
  }

  /** State s may lie in class i: it is not incompatible with the anchor of class i. */
  predicate Permitted(p: Problem, s: int, i: nat) {
    !(i < |p.pis| && s >= 0 && Mk(p.Ms, |p.next|, s, p.pis[i]))
  }

  // ---------------------------------------------------------------------
  // The clause groups, one fold per loop of buildCNF
  // ---------------------------------------------------------------------

  /** Lines 136-141: the anchor of class i lies in class i, for i < k. */
  function Anchors(p: Problem, k: nat): seq<Clause>
    requires k <= |p.pis|
  {
    if k == 0 then [] else Anchors(p, k - 1) + [[Pos(X(p.pis[k - 1], k - 1))]]
  }

  /** Lines 143-151: the states below t that may lie in class i, in increasing order. */
  function CanBeIn(p: Problem, i: nat, t: nat): seq<nat> {
    if t == 0 then [] else CanBeIn(p, i, t - 1) + (if Permitted(p, t - 1, i) then [t - 1] else [])
  }

  /** Lines 154-158: the classes below k that state s may lie in. */
  function CoverLits(p: Problem, s: nat, k: nat): Clause {
    if k == 0 then [] else CoverLits(p, s, k - 1) + (if Permitted(p, s, k - 1) then [Pos(X(s, k - 1))] else [])
  }

  /** Lines 153-160: every state below t lies in some class. */
  function Coverage(p: Problem, t: nat): seq<Clause> {
    if t == 0 then [] else Coverage(p, t - 1) + [CoverLits(p, t - 1, p.numClasses)]
  }

  /** Lines 166-170: no state below t incompatible with the anchor of class i lies in class i. */
  function UnitsOf(p: Problem, i: nat, t: nat): seq<Clause>
    requires i < |p.pis|
  {
    if t == 0 then []
    else UnitsOf(p, i, t - 1) + (if Mk(p.Ms, |p.next|, p.pis[i], t - 1) then [[Neg(X(t - 1, i))]] else [])
  }

  /** Lines 162-171. */
  function Units(p: Problem, k: nat): seq<Clause>
    requires k <= |p.pis|
  {
    if k == 0 then [] else Units(p, k - 1) + UnitsOf(p, k - 1, |p.next|)
  }

  /** Lines 177-182: s and each incompatible state between s and t do not share class i. */
  function PairsOf(p: Problem, s: nat, i: nat, t: nat): seq<Clause> {
    if t <= s + 1 then []
    else PairsOf(p, s, i, t - 1) + (if Mk(p.Ms, |p.next|, s, t - 1) then [[Neg(X(s, i)), Neg(X(t - 1, i))]] else [])
  }

  /** Lines 174-183: the pair clauses of state s for the classes below k it may lie in. */
  function PairsOfState(p: Problem, s: nat, k: nat): seq<Clause> {
    if k == 0 then []
    else PairsOfState(p, s, k - 1) + (if Permitted(p, s, k - 1) then PairsOf(p, s, k - 1, |p.next|) else [])
  }

  /** Lines 173-184. */
  function Pairs(p: Problem, t: nat): seq<Clause> {
    if t == 0 then [] else Pairs(p, t - 1) + PairsOfState(p, t - 1, p.numClasses)
  }

  /** The successor of state s on input a; -1 (or any negative entry) marks a missing one. */
  function Succ(p: Problem, s: nat, a: nat): int {
    if s < |p.next| && a < |p.next[s]| then p.next[s][a] else -1
  }

  /**
   * Lines 208-220: the flags `possibleSuccClasses` after the first m states of
   * L: class j is flagged once the successor on input a of one of them may lie in it.
   */
  function PossibleAfter(p: Problem, a: nat, L: seq<nat>, m: nat): (poss: seq<bool>)
    requires m <= |L|
    ensures |poss| == p.numClasses
  {
    seq(p.numClasses, j => Possible(p, a, L, m, j))
  }

  /** Class j is flagged after the first m states of L. */
  predicate Possible(p: Problem, a: nat, L: seq<nat>, m: nat, j: int)
    requires m <= |L|
  {
    m > 0 && (Possible(p, a, L, m - 1, j) || (Succ(p, L[m - 1], a) >= 0 && j >= 0 && Permitted(p, Succ(p, L[m - 1], a), j)))
  }

  /** `smallestSuccClass`: the first flagged class from j on, or |poss| + 1 when none is. */
  function FirstTrue(poss: seq<bool>, j: nat): nat
    requires j <= |poss|
    decreases |poss| - j
  {
    if j == |poss| then |poss| + 1 else if poss[j] then j else FirstTrue(poss, j + 1)
  }

  /** FirstTrue finds the first flagged class from j on, and says |poss| + 1 only when there is none. */
  lemma {:induction false} FirstTrueSpec(poss: seq<bool>, j: nat)
    requires j <= |poss|
    ensures j <= FirstTrue(poss, j)
    ensures FirstTrue(poss, j) < |poss| ==> poss[FirstTrue(poss, j)]
    ensures FirstTrue(poss, j) == |poss| + 1 || FirstTrue(poss, j) < |poss|
    ensures forall x :: j <= x < |poss| && x < FirstTrue(poss, j) ==> !poss[x]
    decreases |poss| - j
  {
    if j < |poss| && !poss[j] {
      FirstTrueSpec(poss, j + 1);
    }
  }

  /** `largestSuccClass`: the last flagged class below k, or 0 when none is. */
  function LastTrue(poss: seq<bool>, k: nat): nat
    requires k <= |poss|
  {
    if k == 0 then 0 else if poss[k - 1] then k - 1 else LastTrue(poss, k - 1)
  }

  /** LastTrue finds the last flagged class below k, and says 0 when there is none. */
  lemma {:induction false} LastTrueSpec(poss: seq<bool>, k: nat)
    requires k <= |poss|
    ensures (LastTrue(poss, k) < k && poss[LastTrue(poss, k)]) || (LastTrue(poss, k) == 0 && forall x :: 0 <= x < k ==> !poss[x])
    ensures forall x :: LastTrue(poss, k) < x < k ==> !poss[x]
  {
    if k > 0 && !poss[k - 1] {
      LastTrueSpec(poss, k - 1);
    }
  }

  /** Lines 223-227: the flagged classes j with lo <= j < k, as positive auxiliary literals. */
  function AuxLits(a: nat, i: nat, poss: seq<bool>, lo: nat, k: nat): Clause
    decreases k
  {
    if k <= lo then []
    else AuxLits(a, i, poss, lo, k - 1) + (if k - 1 < |poss| && poss[k - 1] then [Pos(Aux(a, i, k - 1))] else [])
  }

  /** Lines 237-244: the implications for state s with successor succ. */
  function ImplFor(a: nat, i: nat, s: nat, succ: nat, poss: seq<bool>, lo: nat, k: nat): seq<Clause>
    decreases k
  {
    if k <= lo then []
    else
      ImplFor(a, i, s, succ, poss, lo, k - 1)
      + (if k - 1 < |poss| && poss[k - 1] then [[Neg(Aux(a, i, k - 1)), Neg(X(s, i)), Pos(X(succ, k - 1))]] else [])
  }

  /** Lines 232-245: the implications for the first m states of L. */
  function Implications(p: Problem, a: nat, i: nat, poss: seq<bool>, lo: nat, hi: nat, L: seq<nat>, m: nat): seq<Clause>
    requires m <= |L|
  {
    if m == 0 then []
    else
      var succ := Succ(p, L[m - 1], a);
      Implications(p, a, i, poss, lo, hi, L, m - 1)
      + (if succ < 0 then [] else ImplFor(a, i, L[m - 1], succ, poss, lo, hi + 1))
  }

  /** Lines 221-227: the auxiliary clause of class i on input a, listing the flagged classes. */
  function OrClause(p: Problem, a: nat, i: nat): Clause {
    var L := CanBeIn(p, i, |p.next|);
    var poss := PossibleAfter(p, a, L, |L|);
    AuxLits(a, i, poss, FirstTrue(poss, 0), LastTrue(poss, |poss|) + 1)
  }

  /** Lines 199-246: the closure clauses of class i on input a (none when the auxiliary clause is empty). */
  function ClosureOf(p: Problem, a: nat, i: nat): seq<Clause> {
    var L := CanBeIn(p, i, |p.next|);
    var poss := PossibleAfter(p, a, L, |L|);
    var lo := FirstTrue(poss, 0);
    var hi := LastTrue(poss, |poss|);
    var or := OrClause(p, a, i);
    if or == [] then [] else [or] + Implications(p, a, i, poss, lo, hi, L, |L|)
  }

  /** Lines 199-247: the closure clauses of the classes below k on input a. */
  function ClosureOfInput(p: Problem, a: nat, k: nat): seq<Clause> {
    Concat((i: nat) => ClosureOf(p, a, i), k)
  }

  /** The clause groups f(0), ..., f(k - 1), in this order. */
  function Concat(f: nat -> seq<Clause>, k: nat): seq<Clause> {
    if k == 0 then [] else Concat(f, k - 1) + f(k - 1)
  }

  /** Input a is in the reduced alphabet: no smaller input has its next-state vector. */
  predicate Kept(p: Problem, a: nat)
    requires ValidProblem(p) && a <= p.maxInput
  {
    forall b :: 0 <= b < a ==> Column(p.next, b) != Column(p.next, a)
  }

  /** Lines 194-247: the closure clauses of input a, none when a is not in the reduced alphabet. */
  function KeptClosure(p: Problem, a: nat): seq<Clause> {
    if ValidProblem(p) && a <= p.maxInput && Kept(p, a) then ClosureOfInput(p, a, p.numClasses) else []
  }

  /** Lines 193-248: the closure clauses of the reduced inputs below k. */
  function Closure(p: Problem, k: nat): seq<Clause> {
    Concat((a: nat) => KeptClosure(p, a), k)
  }

  /** The whole formula of buildCNF, in the order its clauses are added. */
  function Formula(p: Problem): seq<Clause>
    requires ValidProblem(p)
  {
    Anchors(p, |p.pis|) + Coverage(p, |p.next|) + Units(p, |p.pis|) + Pairs(p, |p.next|) + Closure(p, p.maxInput + 1)
  }

  // ---------------------------------------------------------------------
  // Semantics: an assignment is the set of its true variables
  // ---------------------------------------------------------------------

  predicate Holds(T: set<Var>, l: Lit) {
    if l.Pos? then l.v in T else l.v !in T
  }

  predicate ClauseHolds(T: set<Var>, c: Clause) {
    exists k :: 0 <= k < |c| && Holds(T, c[k])
  }

  predicate Models(T: set<Var>, f: seq<Clause>) {
    forall c :: c in f ==> ClauseHolds(T, c)
  }

  lemma {:induction false} CanBeInBound(p: Problem, i: nat, t: nat)
    ensures forall x :: 0 <= x < |CanBeIn(p, i, t)| ==> CanBeIn(p, i, t)[x] < t
  {
    if t > 0 {
      CanBeInBound(p, i, t - 1);
    }
  }

  lemma {:induction false} CanBeInMembers(p: Problem, i: nat, t: nat)
    ensures forall s: nat :: s in CanBeIn(p, i, t) <==> s < t && Permitted(p, s, i)
  {
    if t > 0 {
      CanBeInMembers(p, i, t - 1);
    }
  }

  // ---------------------------------------------------------------------
  // Where each clause sits in the formula
  // ---------------------------------------------------------------------

  lemma InLeft(c: Clause, a: seq<Clause>, b: seq<Clause>)
    requires c in a
    ensures c in a + b
  {
  }

  lemma InRight(c: Clause, a: seq<Clause>, b: seq<Clause>)
    requires c in b
    ensures c in a + b
  {
  }

  lemma {:induction false} AnchorIn(p: Problem, i: nat, k: nat)
    requires i < k <= |p.pis|
    ensures [Pos(X(p.pis[i], i))] in Anchors(p, k)
  {
    var last := [[Pos(X(p.pis[k - 1], k - 1))]];
    if i < k - 1 {
      AnchorIn(p, i, k - 1);
      InLeft([Pos(X(p.pis[i], i))], Anchors(p, k - 1), last);
    } else {
      InRight([Pos(X(p.pis[i], i))], Anchors(p, k - 1), last);
    }
  }

  lemma {:induction false} CoverIn(p: Problem, s: nat, t: nat)
    requires s < t
    ensures CoverLits(p, s, p.numClasses) in Coverage(p, t)
  {
    var last := [CoverLits(p, t - 1, p.numClasses)];
    if s < t - 1 {
      CoverIn(p, s, t - 1);
      InLeft(CoverLits(p, s, p.numClasses), Coverage(p, t - 1), last);
    } else {
      InRight(CoverLits(p, s, p.numClasses), Coverage(p, t - 1), last);
    }
  }

  /** Every literal of the coverage clause of s puts s in a class it may lie in. */
  lemma {:induction false} CoverLitMeaning(p: Problem, s: nat, k: nat, x: nat) returns (i: nat)
    requires x < |CoverLits(p, s, k)|
    ensures i < k && Permitted(p, s, i) && CoverLits(p, s, k)[x] == Pos(X(s, i))
  {
    if x < |CoverLits(p, s, k - 1)| {
      i := CoverLitMeaning(p, s, k - 1, x);
    } else {
      i := k - 1;
    }
  }

  lemma {:induction false} UnitIn(p: Problem, i: nat, u: nat, t: nat)
    requires i < |p.pis| && u < t && Mk(p.Ms, |p.next|, p.pis[i], u)
    ensures [Neg(X(u, i))] in UnitsOf(p, i, t)
  {
    var last := if Mk(p.Ms, |p.next|, p.pis[i], t - 1) then [[Neg(X(t - 1, i))]] else [];
    if u < t - 1 {
      UnitIn(p, i, u, t - 1);
      InLeft([Neg(X(u, i))], UnitsOf(p, i, t - 1), last);
    } else {
      InRight([Neg(X(u, i))], UnitsOf(p, i, t - 1), last);
    }
  }

  lemma {:induction false} UnitInUnits(p: Problem, i: nat, u: nat, k: nat)
    requires i < k <= |p.pis| && u < |p.next| && Mk(p.Ms, |p.next|, p.pis[i], u)
    ensures [Neg(X(u, i))] in Units(p, k)
  {
    if i < k - 1 {
      UnitInUnits(p, i, u, k - 1);
      InLeft([Neg(X(u, i))], Units(p, k - 1), UnitsOf(p, k - 1, |p.next|));
    } else {
      UnitIn(p, i, u, |p.next|);
      InRight([Neg(X(u, i))], Units(p, k - 1), UnitsOf(p, k - 1, |p.next|));
    }
  }

  lemma {:induction false} PairIn(p: Problem, s: nat, i: nat, u: nat, t: nat)
    requires s < u < t && Mk(p.Ms, |p.next|, s, u)
    ensures [Neg(X(s, i)), Neg(X(u, i))] in PairsOf(p, s, i, t)
  {
    var last := if Mk(p.Ms, |p.next|, s, t - 1) then [[Neg(X(s, i)), Neg(X(t - 1, i))]] else [];
    if u < t - 1 {
      PairIn(p, s, i, u, t - 1);
      InLeft([Neg(X(s, i)), Neg(X(u, i))], PairsOf(p, s, i, t - 1), last);
    } else {
      InRight([Neg(X(s, i)), Neg(X(u, i))], PairsOf(p, s, i, t - 1), last);
    }
  }

  lemma {:induction false} PairInState(p: Problem, s: nat, i: nat, u: nat, k: nat)
    requires s < u < |p.next| && Mk(p.Ms, |p.next|, s, u) && i < k && Permitted(p, s, i)
    ensures [Neg(X(s, i)), Neg(X(u, i))] in PairsOfState(p, s, k)
  {
    var c := [Neg(X(s, i)), Neg(X(u, i))];
    if i < k - 1 {
      PairInState(p, s, i, u, k - 1);
      InLeft(c, PairsOfState(p, s, k - 1), if Permitted(p, s, k - 1) then PairsOf(p, s, k - 1, |p.next|) else []);
    } else {
      PairIn(p, s, i, u, |p.next|);
      InRight(c, PairsOfState(p, s, k - 1), PairsOf(p, s, i, |p.next|));
    }
  }

  lemma {:induction false} PairInPairs(p: Problem, s: nat, i: nat, u: nat, t: nat)
    requires s < t && s < u < |p.next| && Mk(p.Ms, |p.next|, s, u) && i < p.numClasses && Permitted(p, s, i)
    ensures [Neg(X(s, i)), Neg(X(u, i))] in Pairs(p, t)
  {
    if s < t - 1 {
      PairInPairs(p, s, i, u, t - 1);
      InLeft([Neg(X(s, i)), Neg(X(u, i))], Pairs(p, t - 1), PairsOfState(p, t - 1, p.numClasses));
    } else {
      PairInState(p, s, i, u, p.numClasses);
      InRight([Neg(X(s, i)), Neg(X(u, i))], Pairs(p, t - 1), PairsOfState(p, t - 1, p.numClasses));
    }
  }

  /** A class flagged as possible for one successor stays flagged. */
  lemma {:induction false} PossibleHas(p: Problem, a: nat, L: seq<nat>, m: nat, x: nat, j: nat)
    requires m <= |L| && x < m && Succ(p, L[x], a) >= 0 && j < p.numClasses && Permitted(p, Succ(p, L[x], a), j)
    ensures PossibleAfter(p, a, L, m)[j]
  {
    if x < m - 1 {
      PossibleHas(p, a, L, m - 1, x, j);
    }
  }

  lemma {:induction false} AuxLitIn(a: nat, i: nat, poss: seq<bool>, lo: nat, k: nat, j: nat)
    requires lo <= j < k && j < |poss| && poss[j]
    ensures Pos(Aux(a, i, j)) in AuxLits(a, i, poss, lo, k)
  {
    if j < k - 1 {
      AuxLitIn(a, i, poss, lo, k - 1, j);
    }
  }

  /** Every literal of the auxiliary clause names a flagged class between lo and k. */
  lemma {:induction false} AuxLitMeaning(a: nat, i: nat, poss: seq<bool>, lo: nat, k: nat, x: nat) returns (j: nat)
    requires x < |AuxLits(a, i, poss, lo, k)|
    ensures lo <= j < k && j < |poss| && poss[j] && AuxLits(a, i, poss, lo, k)[x] == Pos(Aux(a, i, j))
  {
    if x < |AuxLits(a, i, poss, lo, k - 1)| {
      j := AuxLitMeaning(a, i, poss, lo, k - 1, x);
    } else {
      j := k - 1;
    }
  }

  lemma {:induction false} ImplIn(a: nat, i: nat, s: nat, succ: nat, poss: seq<bool>, lo: nat, k: nat, j: nat)
    requires lo <= j < k && j < |poss| && poss[j]
    ensures [Neg(Aux(a, i, j)), Neg(X(s, i)), Pos(X(succ, j))] in ImplFor(a, i, s, succ, poss, lo, k)
  {
    var c := [Neg(Aux(a, i, j)), Neg(X(s, i)), Pos(X(succ, j))];
    var last := if k - 1 < |poss| && poss[k - 1] then [[Neg(Aux(a, i, k - 1)), Neg(X(s, i)), Pos(X(succ, k - 1))]] else [];
    if j < k - 1 {
      ImplIn(a, i, s, succ, poss, lo, k - 1, j);
      InLeft(c, ImplFor(a, i, s, succ, poss, lo, k - 1), last);
    } else {
      InRight(c, ImplFor(a, i, s, succ, poss, lo, k - 1), last);
    }
  }

  lemma {:induction false} ImplicationIn(p: Problem, a: nat, i: nat, poss: seq<bool>, lo: nat, hi: nat, L: seq<nat>, m: nat, x: nat, j: nat)
    requires m <= |L| && x < m && Succ(p, L[x], a) >= 0 && lo <= j <= hi && j < |poss| && poss[j]
    ensures [Neg(Aux(a, i, j)), Neg(X(L[x], i)), Pos(X(Succ(p, L[x], a), j))] in Implications(p, a, i, poss, lo, hi, L, m)
  {
    var c := [Neg(Aux(a, i, j)), Neg(X(L[x], i)), Pos(X(Succ(p, L[x], a), j))];
    var succ := Succ(p, L[m - 1], a);
    var last := if succ < 0 then [] else ImplFor(a, i, L[m - 1], succ, poss, lo, hi + 1);
    if x < m - 1 {
      ImplicationIn(p, a, i, poss, lo, hi, L, m - 1, x, j);
      InLeft(c, Implications(p, a, i, poss, lo, hi, L, m - 1), last);
    } else {
      ImplIn(a, i, L[x], Succ(p, L[x], a), poss, lo, hi + 1, j);
      InRight(c, Implications(p, a, i, poss, lo, hi, L, m - 1), last);
    }
  }

  lemma {:induction false} ConcatIn(f: nat -> seq<Clause>, i: nat, k: nat, c: Clause)
    requires i < k && c in f(i)
    ensures c in Concat(f, k)
  {
    if i < k - 1 {
      ConcatIn(f, i, k - 1, c);
      InLeft(c, Concat(f, k - 1), f(k - 1));
    } else {
      InRight(c, Concat(f, k - 1), f(k - 1));
    }
  }

  lemma ClassClosureIn(p: Problem, a: nat, i: nat, c: Clause)
    requires i < p.numClasses && c in ClosureOf(p, a, i)
    ensures c in ClosureOfInput(p, a, p.numClasses)
  {
    ConcatIn((i: nat) => ClosureOf(p, a, i), i, p.numClasses, c);
  }

  lemma InputClosureIn(p: Problem, a: nat, c: Clause)
    requires ValidProblem(p) && a <= p.maxInput && Kept(p, a) && c in ClosureOfInput(p, a, p.numClasses)
    ensures c in Formula(p)
  {
    assert c in KeptClosure(p, a);
    ConcatIn((a: nat) => KeptClosure(p, a), a, p.maxInput + 1, c);
  }

  lemma ClosureIn(p: Problem, a: nat, i: nat, c: Clause)
    requires ValidProblem(p) && a <= p.maxInput && Kept(p, a) && i < p.numClasses && c in ClosureOf(p, a, i)
    ensures c in Formula(p)
  {
    ClassClosureIn(p, a, i, c);
    InputClosureIn(p, a, c);
  }

  // ---------------------------------------------------------------------
  // What a model of the formula describes
  // ---------------------------------------------------------------------

  /** A model puts the anchor of every class i in class i. */
  lemma AnchorsHold(p: Problem, T: set<Var>)
    requires ValidProblem(p) && Models(T, Formula(p))
    ensures forall i :: 0 <= i < |p.pis| ==> X(p.pis[i], i) in T
  {
    forall i | 0 <= i < |p.pis|
      ensures X(p.pis[i], i) in T
    {
      AnchorIn(p, i, |p.pis|);
      var c := [Pos(X(p.pis[i], i))];
      assert c in Formula(p);
      assert ClauseHolds(T, c);
    }
  }

  /** State s lies in some class below numClasses that it may lie in. */
  predicate Covered(p: Problem, T: set<Var>, s: nat) {
    exists i :: 0 <= i < p.numClasses && Permitted(p, s, i) && X(s, i) in T
  }

  /** A model puts every state in a class it may lie in. */
  lemma EveryStateCovered(p: Problem, T: set<Var>)
    requires ValidProblem(p) && Models(T, Formula(p))
    ensures forall s :: 0 <= s < |p.next| ==> Covered(p, T, s)
  {
    forall s | 0 <= s < |p.next|
      ensures Covered(p, T, s)
    {
      CoverIn(p, s, |p.next|);
      var c := CoverLits(p, s, p.numClasses);
      assert c in Formula(p);
      var x :| 0 <= x < |c| && Holds(T, c[x]);
      var i := CoverLitMeaning(p, s, p.numClasses, x);
    }
  }

  /** A state incompatible with the anchor of class i is not in class i. */
  lemma UnitHolds(p: Problem, T: set<Var>, i: nat, s: nat)
    requires ValidProblem(p) && Models(T, Formula(p))
    requires i < |p.pis| && s < |p.next| && Mk(p.Ms, |p.next|, p.pis[i], s)
    ensures X(s, i) !in T
  {
    UnitInUnits(p, i, s, |p.pis|);
    var c := [Neg(X(s, i))];
    assert c in Formula(p);
    assert ClauseHolds(T, c);
  }

  /** With a symmetric matrix, a model puts each state only in classes it may lie in. */
  lemma InClassPermitted(p: Problem, T: set<Var>, s: nat, i: nat)
    requires ValidProblem(p) && Symmetric(p.Ms, |p.next|) && Models(T, Formula(p)) && s < |p.next|
    ensures X(s, i) in T ==> Permitted(p, s, i)
  {
    if i < |p.pis| && Mk(p.Ms, |p.next|, s, p.pis[i]) {
      UnitHolds(p, T, i, s);
    }
  }

  lemma PairHolds(p: Problem, T: set<Var>, s: nat, u: nat, i: nat)
    requires ValidProblem(p) && Models(T, Formula(p))
    requires s < u < |p.next| && Mk(p.Ms, |p.next|, s, u) && i < p.numClasses && Permitted(p, s, i)
    ensures !(X(s, i) in T && X(u, i) in T)
  {
    PairInPairs(p, s, i, u, |p.next|);
    var c := [Neg(X(s, i)), Neg(X(u, i))];
    assert c in Formula(p);
    assert ClauseHolds(T, c);
  }

  /** With a symmetric matrix, a model never puts two incompatible states in one class. */
  lemma NoConflicts(p: Problem, T: set<Var>)
    requires ValidProblem(p) && Symmetric(p.Ms, |p.next|) && Models(T, Formula(p))
    ensures forall s, u, i ::
      (0 <= s < |p.next| && 0 <= u < |p.next| && s != u && 0 <= i < p.numClasses && Mk(p.Ms, |p.next|, s, u)) ==>
      !(X(s, i) in T && X(u, i) in T)
  {
    forall s, u, i | 0 <= s < |p.next| && 0 <= u < |p.next| && s != u && 0 <= i < p.numClasses && Mk(p.Ms, |p.next|, s, u)
      ensures !(X(s, i) in T && X(u, i) in T)
    {
      InClassPermitted(p, T, s, i);
      InClassPermitted(p, T, u, i);
      assert Mk(p.Ms, |p.next|, u, s);
      if Permitted(p, s, i) && Permitted(p, u, i) {
        if s < u {
          PairHolds(p, T, s, u, i);
        } else {
          PairHolds(p, T, u, s, i);
        }
      }
    }
  }

  /** Class j holds the successor on input a of every state in class i. */
  predicate ClosedOn(p: Problem, T: set<Var>, a: nat, i: nat, j: nat) {
    forall s :: 0 <= s < |p.next| && X(s, i) in T && Succ(p, s, a) >= 0 ==> X(Succ(p, s, a), j) in T
  }

  /** Some class below numClasses holds the successors on input a of class i. */
  predicate HasSuccessorClass(p: Problem, T: set<Var>, a: nat, i: nat) {
    exists j :: 0 <= j < p.numClasses && ClosedOn(p, T, a, i, j)
  }

  /** Class j is flagged for class i on input a and lies between the first and last flagged class. */
  predicate Flagged(p: Problem, a: nat, i: nat, j: nat) {
    var L := CanBeIn(p, i, |p.next|);
    var poss := PossibleAfter(p, a, L, |L|);
    j < |poss| && poss[j] && FirstTrue(poss, 0) <= j <= LastTrue(poss, |poss|)
  }

  /** When class i holds a state with a successor on input a, some class is flagged for it. */
  lemma SomeClassFlagged(p: Problem, T: set<Var>, a: nat, i: nat, s0: nat) returns (j0: nat)
    requires ValidProblem(p) && Symmetric(p.Ms, |p.next|) && Models(T, Formula(p))
    requires s0 < |p.next| && X(s0, i) in T && Succ(p, s0, a) >= 0
    ensures Flagged(p, a, i, j0)
  {
    var L := CanBeIn(p, i, |p.next|);
    CanBeInMembers(p, i, |p.next|);
    InClassPermitted(p, T, s0, i);
    var x0 :| 0 <= x0 < |L| && L[x0] == s0;
    var succ0 := Succ(p, s0, a);
    EveryStateCovered(p, T);
    assert Covered(p, T, succ0);
    j0 :| 0 <= j0 < p.numClasses && Permitted(p, succ0, j0) && X(succ0, j0) in T;
    PossibleHas(p, a, L, |L|, x0, j0);
    var poss := PossibleAfter(p, a, L, |L|);
    FirstTrueSpec(poss, 0);
    LastTrueSpec(poss, |poss|);
  }

  /** Once a class is flagged, the auxiliary clause of class i is part of the formula. */
  lemma OrClauseIn(p: Problem, a: nat, i: nat, j0: nat)
    requires ValidProblem(p) && a <= p.maxInput && Kept(p, a) && i < p.numClasses && Flagged(p, a, i, j0)
    ensures OrClause(p, a, i) in Formula(p)
  {
    var L := CanBeIn(p, i, |p.next|);
    var poss := PossibleAfter(p, a, L, |L|);
    AuxLitIn(a, i, poss, FirstTrue(poss, 0), LastTrue(poss, |poss|) + 1, j0);
    assert OrClause(p, a, i) in ClosureOf(p, a, i);
    ClosureIn(p, a, i, OrClause(p, a, i));
  }

  /** Once a class is flagged, the auxiliary clause of class i picks a flagged class. */
  lemma AuxClauseHolds(p: Problem, T: set<Var>, a: nat, i: nat, j0: nat) returns (j: nat)
    requires ValidProblem(p) && Models(T, Formula(p))
    requires a <= p.maxInput && Kept(p, a) && i < p.numClasses && Flagged(p, a, i, j0)
    ensures j < p.numClasses && Flagged(p, a, i, j) && Aux(a, i, j) in T
  {
    OrClauseIn(p, a, i, j0);
    var or := OrClause(p, a, i);
    var x :| 0 <= x < |or| && Holds(T, or[x]);
    var L := CanBeIn(p, i, |p.next|);
    var poss := PossibleAfter(p, a, L, |L|);
    j := AuxLitMeaning(a, i, poss, FirstTrue(poss, 0), LastTrue(poss, |poss|) + 1, x);
  }

  /** The implication clause for state s of class i and flagged class j is part of the formula. */
  lemma ImplicationInFormula(p: Problem, a: nat, i: nat, j: nat, s: nat)
    requires ValidProblem(p) && a <= p.maxInput && Kept(p, a) && i < p.numClasses
    requires Flagged(p, a, i, j) && s < |p.next| && Permitted(p, s, i) && Succ(p, s, a) >= 0
    ensures [Neg(Aux(a, i, j)), Neg(X(s, i)), Pos(X(Succ(p, s, a), j))] in Formula(p)
  {
    var L := CanBeIn(p, i, |p.next|);
    var poss := PossibleAfter(p, a, L, |L|);
    var lo := FirstTrue(poss, 0);
    var hi := LastTrue(poss, |poss|);
    CanBeInMembers(p, i, |p.next|);
    var xs :| 0 <= xs < |L| && L[xs] == s;
    AuxLitIn(a, i, poss, lo, hi + 1, j);
    ImplicationIn(p, a, i, poss, lo, hi, L, |L|, xs, j);
    var c := [Neg(Aux(a, i, j)), Neg(X(s, i)), Pos(X(Succ(p, s, a), j))];
    assert c in ClosureOf(p, a, i);
    ClosureIn(p, a, i, c);
  }

  /** The implication clauses carry every successor of class i into the picked class j. */
  lemma ImplicationHolds(p: Problem, T: set<Var>, a: nat, i: nat, j: nat, s: nat)
    requires ValidProblem(p) && Symmetric(p.Ms, |p.next|) && Models(T, Formula(p))
    requires a <= p.maxInput && Kept(p, a) && i < p.numClasses
    requires Flagged(p, a, i, j) && Aux(a, i, j) in T
    requires s < |p.next| && Succ(p, s, a) >= 0
    ensures X(s, i) in T ==> X(Succ(p, s, a), j) in T
  {
    InClassPermitted(p, T, s, i);
    if X(s, i) in T {
      ImplicationInFormula(p, a, i, j, s);
      var c := [Neg(Aux(a, i, j)), Neg(X(s, i)), Pos(X(Succ(p, s, a), j))];
      assert ClauseHolds(T, c);
    }
  }

  /** For a reduced input a, a model has one class holding every successor of class i. */
  lemma ClosedClassKept(p: Problem, T: set<Var>, a: nat, i: nat)
    requires ValidProblem(p) && Symmetric(p.Ms, |p.next|) && Models(T, Formula(p))
    requires a <= p.maxInput && Kept(p, a) && i < p.numClasses
    ensures HasSuccessorClass(p, T, a, i)
  {
    if s0 :| 0 <= s0 < |p.next| && X(s0, i) in T && Succ(p, s0, a) >= 0 {
      var j0 := SomeClassFlagged(p, T, a, i, s0);
      var j := AuxClauseHolds(p, T, a, i, j0);
      forall s | 0 <= s < |p.next| && Succ(p, s, a) >= 0
        ensures X(s, i) in T ==> X(Succ(p, s, a), j) in T
      {
        ImplicationHolds(p, T, a, i, j, s);
      }
      assert ClosedOn(p, T, a, i, j);
    } else {
      assert ClosedOn(p, T, a, i, 0);
    }
  }

  /**
   * With a symmetric matrix, a model describes a closed cover: for every
   * input a and class i there is one class that holds every successor on a
   * of every state in class i.  Inputs left out of the reduced alphabet are
   * covered by the kept input with the same next-state vector.
   */
  lemma ClosureHolds(p: Problem, T: set<Var>)
    requires ValidProblem(p) && Symmetric(p.Ms, |p.next|) && Models(T, Formula(p))
    ensures forall a, i :: 0 <= a <= p.maxInput && 0 <= i < p.numClasses ==> HasSuccessorClass(p, T, a, i)
  {
    var reduced := set a | 0 <= a <= p.maxInput && Kept(p, a);
    ReducedIsRepresentative(p.maxInput, p.next, reduced);
    forall a, i | 0 <= a <= p.maxInput && 0 <= i < p.numClasses
      ensures HasSuccessorClass(p, T, a, i)
    {
      assert Represented(p.next, reduced, a);
      var b :| b in reduced && b <= a && Column(p.next, b) == Column(p.next, a);
      ClosedClassKept(p, T, b, i);
      SameColumnClosed(p, T, a, b, i);
    }
  }

  /** Two inputs with the same next-state vector have the same successor classes. */
  lemma SameColumnClosed(p: Problem, T: set<Var>, a: nat, b: nat, i: nat)
    requires ValidProblem(p) && a <= p.maxInput && b <= p.maxInput && Column(p.next, b) == Column(p.next, a)
    requires HasSuccessorClass(p, T, b, i)
    ensures HasSuccessorClass(p, T, a, i)
  {
    var j :| 0 <= j < p.numClasses && ClosedOn(p, T, b, i, j);
    forall s | 0 <= s < |p.next|
      ensures Succ(p, s, a) == Succ(p, s, b)
    {
      assert Column(p.next, b)[s] == Column(p.next, a)[s];
    }
    assert ClosedOn(p, T, a, i, j);
  }

  // ---------------------------------------------------------------------
  // Closed covers: what the formula asks for, stated without it
  // ---------------------------------------------------------------------

  /** State s lies in some class below numClasses. */
  ghost predicate Placed(p: Problem, C: set<Var>, s: nat) {
    exists c :: 0 <= c < p.numClasses && X(s, c) in C
  }

  /** No class below numClasses holds two states the matrix marks incompatible, or one marked incompatible with itself. */
  ghost predicate Separated(p: Problem, C: set<Var>) {
    forall s, u, c :: 0 <= s < |p.next| && 0 <= u < |p.next| && 0 <= c < p.numClasses && X(s, c) in C && X(u, c) in C ==>
      !Mk(p.Ms, |p.next|, s, u)
  }

  /**
   * The state variables of C describe numClasses classes of a minimised
   * machine: every state lies in a class, no class holds incompatible
   * states, and on every input each class has one class holding the
   * successors of all its members.  The anchors play no part here.
   */
  ghost predicate ClosedCover(p: Problem, C: set<Var>) {
    && (forall s :: 0 <= s < |p.next| ==> Placed(p, C, s))
    && Separated(p, C)
    && (forall a, i :: 0 <= a <= p.maxInput && 0 <= i < p.numClasses ==> HasSuccessorClass(p, C, a, i))
  }

  /** The anchor of every class i lies in class i. */
  ghost predicate AnchorsPlaced(p: Problem, C: set<Var>) {
    forall i :: 0 <= i < |p.pis| ==> X(p.pis[i], i) in C
  }

  /** No state is marked incompatible with itself. */
  ghost predicate SelfCompatible(Ms: seq<bool>, n: nat) {
    forall s :: 0 <= s < n ==> !Mk(Ms, n, s, s)
  }

  /**
   * A model of the formula describes an anchored closed cover, provided the
   * matrix is symmetric and marks no state incompatible with itself.
   */
  lemma ModelGivesCover(p: Problem, T: set<Var>)
    requires ValidProblem(p) && Symmetric(p.Ms, |p.next|) && SelfCompatible(p.Ms, |p.next|) && Models(T, Formula(p))
    ensures ClosedCover(p, T) && AnchorsPlaced(p, T)
  {
    AnchorsHold(p, T);
    EveryStateCovered(p, T);
    NoConflicts(p, T);
    ClosureHolds(p, T);
    forall s | 0 <= s < |p.next|
      ensures Placed(p, T, s)
    {
      assert Covered(p, T, s);
    }
  }

  /**
   * No clause keeps a state marked incompatible with itself out of a class:
   * one such state and one class give a satisfiable formula whose model is
   * not a closed cover.
   */
  lemma SelfIncompatibleModelled()
    ensures var p := Problem(1, [[]], [true], [], -1);
      && ValidProblem(p) && Symmetric(p.Ms, |p.next|) && !SelfCompatible(p.Ms, |p.next|)
      && Models({X(0, 0)}, Formula(p)) && !ClosedCover(p, {X(0, 0)})
  {
    var p := Problem(1, [[]], [true], [], -1);
    var T := {X(0, 0)};
    assert Mk(p.Ms, 1, 0, 0);
    assert Permitted(p, 0, 0);
    assert CoverLits(p, 0, 0) == [];
    assert CoverLits(p, 0, 1) == [Pos(X(0, 0))];
    assert Coverage(p, 0) == [];
    assert Coverage(p, 1) == Coverage(p, 0) + [CoverLits(p, 0, 1)];
    assert Formula(p) == [[Pos(X(0, 0))]];
    assert Holds(T, [Pos(X(0, 0))][0]);
    assert !Separated(p, T);
  }

  // ---------------------------------------------------------------------
  // The model of an anchored closed cover
  // ---------------------------------------------------------------------

  /**
   * The assignment an anchored closed cover gives: its state variables, and
   * Aux(a, i, j) for every flagged class j that holds the successors on a
   * of the members of class i.
   */
  ghost function ModelOf(p: Problem, C: set<Var>): set<Var> {
    (set v | v in C && v.X?)
    + (set a: nat, i: nat, j: nat | a <= p.maxInput && i < p.numClasses && j < p.numClasses
         && Flagged(p, a, i, j) && ClosedOn(p, C, a, i, j) :: Aux(a, i, j))
  }

  lemma ModelOfX(p: Problem, C: set<Var>, s: nat, c: nat)
    ensures X(s, c) in ModelOf(p, C) <==> X(s, c) in C
  {
  }

  lemma ModelOfAux(p: Problem, C: set<Var>, a: nat, i: nat, j: nat)
    ensures Aux(a, i, j) in ModelOf(p, C) <==>
      a <= p.maxInput && i < p.numClasses && j < p.numClasses && Flagged(p, a, i, j) && ClosedOn(p, C, a, i, j)
  {
    if Aux(a, i, j) in ModelOf(p, C) {
      assert Aux(a, i, j) !in (set v | v in C && v.X?);
    }
  }

  lemma ModelsAppend(T: set<Var>, f: seq<Clause>, g: seq<Clause>)
    requires Models(T, f) && Models(T, g)
    ensures Models(T, f + g)
  {
  }

  /** A clause list made of two lists that hold holds. */
  lemma ModelsJoin(T: set<Var>, whole: seq<Clause>, f: seq<Clause>, g: seq<Clause>)
    requires whole == f + g && Models(T, f) && Models(T, g)
    ensures Models(T, whole)
  {
    ModelsAppend(T, f, g);
  }

  /** A member of a class of an anchored closed cover may lie in it. */
  lemma CoverPermitted(p: Problem, C: set<Var>, s: nat, c: nat)
    requires ValidProblem(p) && ClosedCover(p, C) && AnchorsPlaced(p, C)
    requires s < |p.next| && c < p.numClasses && X(s, c) in C
    ensures Permitted(p, s, c)
  {
    if c < |p.pis| {
      assert X(p.pis[c], c) in C;
    }
  }

  lemma {:induction false} AnchorsModelled(p: Problem, C: set<Var>, k: nat)
    requires ValidProblem(p) && AnchorsPlaced(p, C) && k <= |p.pis|
    ensures Models(ModelOf(p, C), Anchors(p, k))
  {
    if k > 0 {
      AnchorsModelled(p, C, k - 1);
      var cl := [Pos(X(p.pis[k - 1], k - 1))];
      ModelOfX(p, C, p.pis[k - 1], k - 1);
      assert Holds(ModelOf(p, C), cl[0]);
      ModelsAppend(ModelOf(p, C), Anchors(p, k - 1), [cl]);
    }
  }

  lemma {:induction false} CoverLitIn(p: Problem, s: nat, k: nat, c: nat)
    requires c < k && Permitted(p, s, c)
    ensures Pos(X(s, c)) in CoverLits(p, s, k)
  {
    if c < k - 1 {
      CoverLitIn(p, s, k - 1, c);
    }
  }

  lemma {:induction false} CoverageModelled(p: Problem, C: set<Var>, t: nat)
    requires ValidProblem(p) && ClosedCover(p, C) && AnchorsPlaced(p, C) && t <= |p.next|
    ensures Models(ModelOf(p, C), Coverage(p, t))
  {
    if t > 0 {
      CoverageModelled(p, C, t - 1);
      var s := t - 1;
      assert Placed(p, C, s);
      var c :| 0 <= c < p.numClasses && X(s, c) in C;
      CoverPermitted(p, C, s, c);
      CoverLitIn(p, s, p.numClasses, c);
      var cl := CoverLits(p, s, p.numClasses);
      var x :| 0 <= x < |cl| && cl[x] == Pos(X(s, c));
      ModelOfX(p, C, s, c);
      assert Holds(ModelOf(p, C), cl[x]);
      ModelsAppend(ModelOf(p, C), Coverage(p, t - 1), [cl]);
    }
  }

  lemma {:induction false} UnitsOfModelled(p: Problem, C: set<Var>, i: nat, t: nat)
    requires ValidProblem(p) && ClosedCover(p, C) && AnchorsPlaced(p, C) && i < |p.pis| && t <= |p.next|
    ensures Models(ModelOf(p, C), UnitsOf(p, i, t))
  {
    if t > 0 {
      UnitsOfModelled(p, C, i, t - 1);
      var u := t - 1;
      if Mk(p.Ms, |p.next|, p.pis[i], u) {
        assert X(p.pis[i], i) in C;
        assert X(u, i) !in C;
        ModelOfX(p, C, u, i);
        var cl := [Neg(X(u, i))];
        assert Holds(ModelOf(p, C), cl[0]);
        ModelsAppend(ModelOf(p, C), UnitsOf(p, i, t - 1), [cl]);
      } else {
        assert UnitsOf(p, i, t) == UnitsOf(p, i, t - 1) + [];
      }
    }
  }

  lemma {:induction false} UnitsModelled(p: Problem, C: set<Var>, k: nat)
    requires ValidProblem(p) && ClosedCover(p, C) && AnchorsPlaced(p, C) && k <= |p.pis|
    ensures Models(ModelOf(p, C), Units(p, k))
  {
    if k > 0 {
      UnitsModelled(p, C, k - 1);
      UnitsOfModelled(p, C, k - 1, |p.next|);
      ModelsAppend(ModelOf(p, C), Units(p, k - 1), UnitsOf(p, k - 1, |p.next|));
    }
  }

  /** The pair clauses of state s for class i hold in any assignment that separates incompatible states. */
  lemma {:induction false} PairsOfModelled(p: Problem, T: set<Var>, s: nat, i: nat, t: nat)
    requires Separated(p, T) && s < |p.next| && i < p.numClasses && t <= |p.next|
    ensures Models(T, PairsOf(p, s, i, t))
  {
    if t > s + 1 {
      PairsOfModelled(p, T, s, i, t - 1);
      var u := t - 1;
      if Mk(p.Ms, |p.next|, s, u) {
        var cl := [Neg(X(s, i)), Neg(X(u, i))];
        if X(s, i) in T {
          assert X(u, i) !in T;
          assert Holds(T, cl[1]);
        } else {
          assert Holds(T, cl[0]);
        }
        ModelsAppend(T, PairsOf(p, s, i, t - 1), [cl]);
      } else {
        assert PairsOf(p, s, i, t) == PairsOf(p, s, i, t - 1) + [];
      }
    }
  }

  lemma {:induction false} PairsOfStateModelled(p: Problem, T: set<Var>, s: nat, k: nat)
    requires Separated(p, T) && s < |p.next| && k <= p.numClasses
    ensures Models(T, PairsOfState(p, s, k))
  {
    if k > 0 {
      PairsOfStateModelled(p, T, s, k - 1);
      PairsOfModelled(p, T, s, k - 1, |p.next|);
      var last := if Permitted(p, s, k - 1) then PairsOf(p, s, k - 1, |p.next|) else [];
      ModelsJoin(T, PairsOfState(p, s, k), PairsOfState(p, s, k - 1), last);
    }
  }

  lemma {:induction false} PairsModelled(p: Problem, T: set<Var>, t: nat)
    requires Separated(p, T) && t <= |p.next|
    ensures Models(T, Pairs(p, t))
  {
    if t > 0 {
      PairsModelled(p, T, t - 1);
      PairsOfStateModelled(p, T, t - 1, p.numClasses);
      ModelsJoin(T, Pairs(p, t), Pairs(p, t - 1), PairsOfState(p, t - 1, p.numClasses));
    }
  }

  /** The model of a cover keeps its classes apart. */
  lemma SeparatedModel(p: Problem, C: set<Var>)
    requires Separated(p, C)
    ensures Separated(p, ModelOf(p, C))
  {
    forall s, u, c | 0 <= s < |p.next| && 0 <= u < |p.next| && 0 <= c < p.numClasses
      ensures X(s, c) in ModelOf(p, C) && X(u, c) in ModelOf(p, C) ==> !Mk(p.Ms, |p.next|, s, u)
    {
      ModelOfX(p, C, s, c);
      ModelOfX(p, C, u, c);
    }
  }

  /** Every auxiliary variable of class i on input a that T sets names a class holding the successors of class i. */
  ghost predicate AuxClosed(p: Problem, T: set<Var>, a: nat, i: nat) {
    forall j: nat :: Aux(a, i, j) in T ==> ClosedOn(p, T, a, i, j)
  }

  /** The model of an anchored closed cover sets only auxiliary variables naming a class that holds the successors. */
  lemma ModelAuxClosed(p: Problem, C: set<Var>, a: nat, i: nat)
    ensures AuxClosed(p, ModelOf(p, C), a, i)
  {
    var T := ModelOf(p, C);
    forall j: nat | Aux(a, i, j) in T
      ensures ClosedOn(p, T, a, i, j)
    {
      ModelOfAux(p, C, a, i, j);
      forall s | 0 <= s < |p.next| && X(s, i) in T && Succ(p, s, a) >= 0
        ensures X(Succ(p, s, a), j) in T
      {
        ModelOfX(p, C, s, i);
        ModelOfX(p, C, Succ(p, s, a), j);
      }
    }
  }

  /** The implication clause for state s of class i and class j holds. */
  lemma ImplClauseHolds(p: Problem, T: set<Var>, a: nat, i: nat, s: nat, j: nat)
    requires AuxClosed(p, T, a, i) && Succ(p, s, a) >= 0
    ensures ClauseHolds(T, [Neg(Aux(a, i, j)), Neg(X(s, i)), Pos(X(Succ(p, s, a), j))])
  {
    var cl := [Neg(Aux(a, i, j)), Neg(X(s, i)), Pos(X(Succ(p, s, a), j))];
    if Aux(a, i, j) !in T {
      assert Holds(T, cl[0]);
    } else if X(s, i) !in T {
      assert Holds(T, cl[1]);
    } else {
      assert ClosedOn(p, T, a, i, j);
      assert Holds(T, cl[2]);
    }
  }

  lemma {:induction false} ImplForModelled(p: Problem, T: set<Var>, a: nat, i: nat, s: nat, poss: seq<bool>, lo: nat, k: nat)
    requires AuxClosed(p, T, a, i) && Succ(p, s, a) >= 0
    ensures Models(T, ImplFor(a, i, s, Succ(p, s, a), poss, lo, k))
  {
    var succ := Succ(p, s, a);
    if k > lo {
      ImplForModelled(p, T, a, i, s, poss, lo, k - 1);
      var last := if k - 1 < |poss| && poss[k - 1] then [[Neg(Aux(a, i, k - 1)), Neg(X(s, i)), Pos(X(succ, k - 1))]] else [];
      if k - 1 < |poss| && poss[k - 1] {
        ImplClauseHolds(p, T, a, i, s, k - 1);
      }
      ModelsAppend(T, ImplFor(a, i, s, succ, poss, lo, k - 1), last);
    }
  }

  lemma {:induction false} ImplicationsModelled(p: Problem, T: set<Var>, a: nat, i: nat, poss: seq<bool>, lo: nat, hi: nat, L: seq<nat>, m: nat)
    requires AuxClosed(p, T, a, i) && m <= |L|
    ensures Models(T, Implications(p, a, i, poss, lo, hi, L, m))
  {
    if m > 0 {
      ImplicationsModelled(p, T, a, i, poss, lo, hi, L, m - 1);
      var s := L[m - 1];
      var succ := Succ(p, s, a);
      if succ >= 0 {
        ImplForModelled(p, T, a, i, s, poss, lo, hi + 1);
      }
      var last := if succ < 0 then [] else ImplFor(a, i, s, succ, poss, lo, hi + 1);
      ModelsJoin(T, Implications(p, a, i, poss, lo, hi, L, m), Implications(p, a, i, poss, lo, hi, L, m - 1), last);
    }
  }

  /** When class i has a member with a successor on a, the class holding the successors is flagged. */
  lemma HoldingClassFlagged(p: Problem, C: set<Var>, a: nat, i: nat, s0: nat) returns (j: nat)
    requires ValidProblem(p) && ClosedCover(p, C) && AnchorsPlaced(p, C)
    requires a <= p.maxInput && i < p.numClasses && s0 < |p.next| && X(s0, i) in C && Succ(p, s0, a) >= 0
    ensures j < p.numClasses && Flagged(p, a, i, j) && ClosedOn(p, C, a, i, j)
  {
    var L := CanBeIn(p, i, |p.next|);
    var poss := PossibleAfter(p, a, L, |L|);
    assert HasSuccessorClass(p, C, a, i);
    j :| 0 <= j < p.numClasses && ClosedOn(p, C, a, i, j);
    var succ0 := Succ(p, s0, a);
    assert X(succ0, j) in C;
    CoverPermitted(p, C, s0, i);
    CoverPermitted(p, C, succ0, j);
    CanBeInMembers(p, i, |p.next|);
    var x0 :| 0 <= x0 < |L| && L[x0] == s0;
    PossibleHas(p, a, L, |L|, x0, j);
    FirstTrueSpec(poss, 0);
    LastTrueSpec(poss, |poss|);
  }

  /** The auxiliary clause of class i on input a holds: a class holding its successors is flagged. */
  lemma OrModelled(p: Problem, C: set<Var>, a: nat, i: nat)
    requires ValidProblem(p) && ClosedCover(p, C) && AnchorsPlaced(p, C)
    requires a <= p.maxInput && i < p.numClasses && OrClause(p, a, i) != []
    ensures ClauseHolds(ModelOf(p, C), OrClause(p, a, i))
  {
    var L := CanBeIn(p, i, |p.next|);
    var poss := PossibleAfter(p, a, L, |L|);
    var lo := FirstTrue(poss, 0);
    var hi := LastTrue(poss, |poss|);
    var or := OrClause(p, a, i);
    assert or == AuxLits(a, i, poss, lo, hi + 1);
    var j: nat;
    if s0 :| 0 <= s0 < |p.next| && X(s0, i) in C && Succ(p, s0, a) >= 0 {
      j := HoldingClassFlagged(p, C, a, i, s0);
    } else {
      j := AuxLitMeaning(a, i, poss, lo, hi + 1, 0);
      assert ClosedOn(p, C, a, i, j);
    }
    AuxLitIn(a, i, poss, lo, hi + 1, j);
    var x :| 0 <= x < |or| && or[x] == Pos(Aux(a, i, j));
    ModelOfAux(p, C, a, i, j);
    assert Holds(ModelOf(p, C), or[x]);
  }

  lemma ClosureOfModelled(p: Problem, C: set<Var>, a: nat, i: nat)
    requires ValidProblem(p) && ClosedCover(p, C) && AnchorsPlaced(p, C) && a <= p.maxInput && i < p.numClasses
    ensures Models(ModelOf(p, C), ClosureOf(p, a, i))
  {
    var L := CanBeIn(p, i, |p.next|);
    var poss := PossibleAfter(p, a, L, |L|);
    var or := OrClause(p, a, i);
    if or != [] {
      OrModelled(p, C, a, i);
      ModelAuxClosed(p, C, a, i);
      ImplicationsModelled(p, ModelOf(p, C), a, i, poss, FirstTrue(poss, 0), LastTrue(poss, |poss|), L, |L|);
      ModelsAppend(ModelOf(p, C), [or], Implications(p, a, i, poss, FirstTrue(poss, 0), LastTrue(poss, |poss|), L, |L|));
    }
  }

  lemma {:induction false} ConcatModelled(T: set<Var>, f: nat -> seq<Clause>, k: nat)
    requires forall x: nat :: x < k ==> Models(T, f(x))
    ensures Models(T, Concat(f, k))
  {
    if k > 0 {
      ConcatModelled(T, f, k - 1);
      ModelsAppend(T, Concat(f, k - 1), f(k - 1));
    }
  }

  lemma ClosureModelled(p: Problem, C: set<Var>)
    requires ValidProblem(p) && ClosedCover(p, C) && AnchorsPlaced(p, C)
    ensures Models(ModelOf(p, C), Closure(p, p.maxInput + 1))
  {
    var T := ModelOf(p, C);
    forall a: nat | a < p.maxInput + 1
      ensures Models(T, KeptClosure(p, a))
    {
      if Kept(p, a) {
        forall i: nat | i < p.numClasses
          ensures Models(T, ClosureOf(p, a, i))
        {
          ClosureOfModelled(p, C, a, i);
        }
        ConcatModelled(T, (i: nat) => ClosureOf(p, a, i), p.numClasses);
      }
    }
    ConcatModelled(T, (a: nat) => KeptClosure(p, a), p.maxInput + 1);
  }

  /** Every anchored closed cover gives a model of the formula: buildCNF leaves out no cover. */
  lemma CoverGivesModel(p: Problem, C: set<Var>)
    requires ValidProblem(p) && ClosedCover(p, C) && AnchorsPlaced(p, C)
    ensures Models(ModelOf(p, C), Formula(p))
  {
    var T := ModelOf(p, C);
    AnchorsModelled(p, C, |p.pis|);
    CoverageModelled(p, C, |p.next|);
    UnitsModelled(p, C, |p.pis|);
    SeparatedModel(p, C);
    PairsModelled(p, T, |p.next|);
    ClosureModelled(p, C);
    ModelsAppend(T, Anchors(p, |p.pis|), Coverage(p, |p.next|));
    ModelsAppend(T, Anchors(p, |p.pis|) + Coverage(p, |p.next|), Units(p, |p.pis|));
    ModelsAppend(T, Anchors(p, |p.pis|) + Coverage(p, |p.next|) + Units(p, |p.pis|), Pairs(p, |p.next|));
    ModelsAppend(T, Anchors(p, |p.pis|) + Coverage(p, |p.next|) + Units(p, |p.pis|) + Pairs(p, |p.next|), Closure(p, p.maxInput + 1));
  }

  // ---------------------------------------------------------------------
  // Putting the anchors in place, and the cover with a class per state
  // ---------------------------------------------------------------------

  /** Class c after exchanging the names of classes x and y. */
  function Swap(c: nat, x: nat, y: nat): nat {
    if c == x then y else if c == y then x else c
  }

  /** The cover C with classes x and y exchanged. */
  ghost function Swapped(C: set<Var>, x: nat, y: nat): set<Var> {
    set v | v in C && v.X? :: X(v.s, Swap(v.c, x, y))
  }

  lemma SwappedX(C: set<Var>, x: nat, y: nat, s: nat, c: nat)
    ensures X(s, c) in Swapped(C, x, y) <==> X(s, Swap(c, x, y)) in C
  {
    if X(s, c) in Swapped(C, x, y) {
      var v :| v in C && v.X? && X(v.s, Swap(v.c, x, y)) == X(s, c);
      assert Swap(Swap(v.c, x, y), x, y) == v.c;
    } else {
      assert X(s, Swap(Swap(c, x, y), x, y)) == X(s, c);
    }
  }

  /** Exchanging the names of two classes keeps a closed cover closed. */
  lemma SwapKeepsCover(p: Problem, C: set<Var>, x: nat, y: nat)
    requires ClosedCover(p, C) && x < p.numClasses && y < p.numClasses
    requires forall s, a :: 0 <= s < |p.next| && 0 <= a <= p.maxInput ==> Succ(p, s, a) < |p.next|
    ensures ClosedCover(p, Swapped(C, x, y))
  {
    var C' := Swapped(C, x, y);
    forall s | 0 <= s < |p.next|
      ensures Placed(p, C', s)
    {
      assert Placed(p, C, s);
      var c :| 0 <= c < p.numClasses && X(s, c) in C;
      SwappedX(C, x, y, s, Swap(c, x, y));
    }
    forall s, u, c | 0 <= s < |p.next| && 0 <= u < |p.next| && 0 <= c < p.numClasses && X(s, c) in C' && X(u, c) in C'
      ensures !Mk(p.Ms, |p.next|, s, u)
    {
      SwappedX(C, x, y, s, c);
      SwappedX(C, x, y, u, c);
    }
    forall a, i | 0 <= a <= p.maxInput && 0 <= i < p.numClasses
      ensures HasSuccessorClass(p, C', a, i)
    {
      assert HasSuccessorClass(p, C, a, Swap(i, x, y));
      var j :| 0 <= j < p.numClasses && ClosedOn(p, C, a, Swap(i, x, y), j);
      forall s | 0 <= s < |p.next| && X(s, i) in C' && Succ(p, s, a) >= 0
        ensures X(Succ(p, s, a), Swap(j, x, y)) in C'
      {
        SwappedX(C, x, y, s, i);
        SwappedX(C, x, y, Succ(p, s, a), Swap(j, x, y));
      }
      assert ClosedOn(p, C', a, i, Swap(j, x, y));
    }
  }

  /**
   * A closed cover can be renamed so that the first n pairwise incompatible
   * states lie in classes 0, ..., n - 1 in turn; so it has at least n classes.
   */
  lemma {:induction false} AnchorFirst(p: Problem, C: set<Var>, n: nat) returns (C': set<Var>)
    requires ClosedCover(p, C) && n <= |p.pis|
    requires forall s, a :: 0 <= s < |p.next| && 0 <= a <= p.maxInput ==> Succ(p, s, a) < |p.next|
    requires (forall i :: 0 <= i < |p.pis| ==> p.pis[i] < |p.next|) && PairwiseIncompatible(p.Ms, |p.next|, p.pis)
    ensures n <= p.numClasses && ClosedCover(p, C') && forall i :: 0 <= i < n ==> X(p.pis[i], i) in C'
  {
    if n == 0 {
      C' := C;
    } else {
      var C1 := AnchorFirst(p, C, n - 1);
      var t := p.pis[n - 1];
      assert Placed(p, C1, t);
      var c :| 0 <= c < p.numClasses && X(t, c) in C1;
      forall i | 0 <= i < n - 1
        ensures Mk(p.Ms, |p.next|, t, p.pis[i])
      {
      }
      AnchorClassFree(p, C1, n - 1, t, c);
      C' := Swapped(C1, c, n - 1);
      SwapKeepsCover(p, C1, c, n - 1);
      forall i | 0 <= i < n
        ensures X(p.pis[i], i) in C'
      {
        SwappedX(C1, c, n - 1, p.pis[i], i);
      }
    }
  }

  /** A state in class c, incompatible with the anchors of classes 0, ..., m - 1, lies in a later class. */
  lemma {:induction false} AnchorClassFree(p: Problem, C: set<Var>, m: nat, t: nat, c: nat)
    requires Separated(p, C) && m <= |p.pis| && t < |p.next| && c < p.numClasses && X(t, c) in C
    requires forall i :: 0 <= i < |p.pis| ==> p.pis[i] < |p.next|
    requires forall i :: 0 <= i < m ==> X(p.pis[i], i) in C && Mk(p.Ms, |p.next|, t, p.pis[i])
    ensures m <= c
  {
    if m > 0 {
      AnchorClassFree(p, C, m - 1, t, c);
      assert X(p.pis[m - 1], m - 1) in C && Mk(p.Ms, |p.next|, t, p.pis[m - 1]);
    }
  }

  /**
   * The formula is complete: whenever some closed cover with numClasses
   * classes exists, the formula has a model.  The anchors only fix the
   * names of their classes.
   */
  lemma FormulaComplete(p: Problem, C: set<Var>)
    requires ValidProblem(p) && PairwiseIncompatible(p.Ms, |p.next|, p.pis) && ClosedCover(p, C)
    ensures exists T :: Models(T, Formula(p))
  {
    var C' := AnchorFirst(p, C, |p.pis|);
    CoverGivesModel(p, C');
  }

  /** With pairwise incompatible states pis, every closed cover has at least |pis| classes. */
  lemma CoverHasAnchorClasses(p: Problem, C: set<Var>)
    requires forall s, a :: 0 <= s < |p.next| && 0 <= a <= p.maxInput ==> Succ(p, s, a) < |p.next|
    requires (forall i :: 0 <= i < |p.pis| ==> p.pis[i] < |p.next|) && PairwiseIncompatible(p.Ms, |p.next|, p.pis)
    ensures ClosedCover(p, C) ==> |p.pis| <= p.numClasses
  {
    if ClosedCover(p, C) {
      var C' := AnchorFirst(p, C, |p.pis|);
    }
  }

  /** Whether C is a closed cover does not depend on the anchors. */
  lemma CoverIgnoresAnchors(p: Problem, q: Problem, C: set<Var>)
    requires p.numClasses == q.numClasses && p.next == q.next && p.Ms == q.Ms && p.maxInput == q.maxInput
    ensures ClosedCover(p, C) <==> ClosedCover(q, C)
  {
    forall a: nat, i: nat
      ensures HasSuccessorClass(p, C, a, i) <==> HasSuccessorClass(q, C, a, i)
    {
      forall j: nat ensures ClosedOn(p, C, a, i, j) <==> ClosedOn(q, C, a, i, j) {
        assert forall s: nat :: Succ(p, s, a) == Succ(q, s, a);
      }
    }
    assert (forall s: nat :: Placed(p, C, s) <==> Placed(q, C, s));
    assert Separated(p, C) <==> Separated(q, C);
  }

  /** The cover with one class per state. */
  ghost function Singletons(n: nat): set<Var> {
    set s: nat | s < n :: X(s, s)
  }

  /** When no state is incompatible with itself, one class per state is a closed cover. */
  lemma SingletonsCover(p: Problem)
    requires ValidProblem(p) && p.numClasses == |p.next|
    ensures SelfCompatible(p.Ms, |p.next|) ==> ClosedCover(p, Singletons(|p.next|))
  {
    if SelfCompatible(p.Ms, |p.next|) {
      SingletonsClosed(p);
    }
  }

  lemma SingletonsClosed(p: Problem)
    requires ValidProblem(p) && p.numClasses == |p.next| && SelfCompatible(p.Ms, |p.next|)
    ensures ClosedCover(p, Singletons(|p.next|))
  {
    var C := Singletons(|p.next|);
    forall s | 0 <= s < |p.next|
      ensures Placed(p, C, s)
    {
      assert X(s, s) in C;
    }
    forall a, i | 0 <= a <= p.maxInput && 0 <= i < p.numClasses
      ensures HasSuccessorClass(p, C, a, i)
    {
      var j := if Succ(p, i, a) >= 0 then Succ(p, i, a) else 0;
      forall s | 0 <= s < |p.next| && X(s, i) in C && Succ(p, s, a) >= 0
        ensures X(Succ(p, s, a), j) in C
      {
        assert s == i;
      }
      assert ClosedOn(p, C, a, i, j);
    }
  }
}

=== FILE: CompatibleGroups.dfy ===
/**
 * getTransitivelyCompatibleStates (minimizer.cpp): the states are split
 * into classes of transitively compatible states.  Each class is grown by a
 * breadth-first search from its smallest state through the pairs that the
 * incompatibility matrix leaves unmarked.  ret[k][s] is set when state s
 * belongs to class k.
 */
module CompatibleGroups {
  import opened Machines
  import opened TableIndex
  import opened Incompatibility

  /** p is a walk through states whose consecutive pairs are unmarked. */
  ghost predicate CompatChain(Ms: seq<bool>, n: nat, p: seq<nat>) {
    && |p| >= 1
    && (forall i :: 0 <= i < |p| ==> p[i] < n)
    && (forall i :: 0 <= i < |p| - 1 ==> !Mk(Ms, n, p[i], p[i + 1]))
  }

  ghost predicate ChainFromTo(Ms: seq<bool>, n: nat, p: seq<nat>, x: nat, y: nat) {
    CompatChain(Ms, n, p) && p[0] == x && p[|p| - 1] == y
  }

  /** x and y are linked by a chain of compatible states. */
  ghost predicate TransCompatible(Ms: seq<bool>, n: nat, x: nat, y: nat) {
    exists p :: ChainFromTo(Ms, n, p, x, y)
  }

  lemma TransCompatibleRefl(Ms: seq<bool>, n: nat, x: nat)
    requires x < n
    ensures TransCompatible(Ms, n, x, x)
  {
    assert ChainFromTo(Ms, n, [x], x, x);
  }

  lemma TransCompatibleStep(Ms: seq<bool>, n: nat, x: nat, y: nat, z: nat)
    requires TransCompatible(Ms, n, x, y) && z < n && !Mk(Ms, n, y, z)
    ensures TransCompatible(Ms, n, x, z)
  {
    var p :| ChainFromTo(Ms, n, p, x, y);
    assert ChainFromTo(Ms, n, p + [z], x, z);
  }

  lemma TransCompatibleSymmetric(Ms: seq<bool>, n: nat, x: nat, y: nat)
    requires Symmetric(Ms, n) && TransCompatible(Ms, n, x, y)
    ensures TransCompatible(Ms, n, y, x)
  {
    var p :| ChainFromTo(Ms, n, p, x, y);
    var q := seq(|p|, i requires 0 <= i < |p| => p[|p| - 1 - i]);
    forall i | 0 <= i < |q| - 1
      ensures !Mk(Ms, n, q[i], q[i + 1])
    {
      var j := |p| - 2 - i;
      assert q[i] == p[j + 1] && q[i + 1] == p[j];
      assert !Mk(Ms, n, p[j], p[j + 1]);
    }
    assert ChainFromTo(Ms, n, q, y, x);
  }

  lemma TransCompatibleTransitive(Ms: seq<bool>, n: nat, x: nat, y: nat, z: nat)
    requires TransCompatible(Ms, n, x, y) && TransCompatible(Ms, n, y, z)
    ensures TransCompatible(Ms, n, x, z)
  {
    var p :| ChainFromTo(Ms, n, p, x, y);
    var q :| ChainFromTo(Ms, n, q, y, z);
    var r := p + q[1..];
    forall i | 0 <= i < |r| - 1
      ensures !Mk(Ms, n, r[i], r[i + 1])
    {
      if i < |p| - 1 {
      } else {
        assert r[i] == q[i - |p| + 1] && r[i + 1] == q[i - |p| + 2];
      }
    }
    assert ChainFromTo(Ms, n, r, x, z);
  }

  /** State x belongs to some class. */
  predicate InSomeClass(groups: seq<seq<bool>>, x: nat) {
    exists k :: 0 <= k < |groups| && x < |groups[k]| && groups[k][x]
  }

  /** A class (as flags) that holds every state compatible with one of its members. */
  ghost predicate ClosedGroup(Ms: seq<bool>, n: nat, g: seq<bool>) {
    |g| == n && forall x, y :: 0 <= x < n && 0 <= y < n && g[x] && !Mk(Ms, n, x, y) ==> g[y]
  }

  /** A closed class holds everything transitively compatible with its members. */
  lemma {:induction false} ClosedGroupHoldsChain(Ms: seq<bool>, n: nat, g: seq<bool>, x: nat, y: nat)
    requires ClosedGroup(Ms, n, g) && x < n && g[x] && TransCompatible(Ms, n, x, y)
    ensures y < n && g[y]
  {
    var p :| ChainFromTo(Ms, n, p, x, y);
    var i := 0;
    while i < |p| - 1
      invariant 0 <= i < |p| && g[p[i]]
    {
      assert !Mk(Ms, n, p[i], p[i + 1]);
      i := i + 1;
    }
  }

  /**
   * The outer loop before state s: the classes built so far are closed,
   * connected to their seeds and disjoint (owner[i] is the class of state i,
   * -1 when none), and the processed states are exactly their members.
   */
  ghost predicate GroupsInv(Ms: seq<bool>, n: nat, groups: seq<seq<bool>>, processed: seq<bool>,
                            owner: seq<int>, seeds: seq<nat>, s: nat)
  {
    && s <= n && |processed| == |owner| == n && |seeds| == |groups|
    && (forall i :: 0 <= i < n ==> -1 <= owner[i] < |groups| && (processed[i] <==> owner[i] >= 0))
    && (forall i :: 0 <= i < s ==> processed[i])
    && (forall k :: 0 <= k < |groups| ==>
          |groups[k]| == n && seeds[k] < n && groups[k][seeds[k]] && ClosedGroup(Ms, n, groups[k]))
    && (forall k, i :: 0 <= k < |groups| && 0 <= i < n ==> (groups[k][i] <==> owner[i] == k))
    && (forall k, i :: 0 <= k < |groups| && 0 <= i < n && groups[k][i] ==> TransCompatible(Ms, n, seeds[k], i))
  }

  /**
   * The search for the class of s: P0 are the states processed before it,
   * the work list wl holds every member of curSet, the first head entries
   * (and entry head up to state i) have had all their compatible states
   * processed, and every member is linked to s.
   */
  ghost predicate BfsInv(Ms: seq<bool>, n: nat, s: nat, P0: seq<bool>, processed: seq<bool>, curSet: seq<bool>,
                         wl: seq<nat>, head: nat, i: nat)
  {
    && s < n && |P0| == |processed| == |curSet| == n && head <= |wl| && i <= n
    && (forall x :: 0 <= x < s ==> P0[x])
    && (forall x :: 0 <= x < n ==> (processed[x] <==> P0[x] || curSet[x]) && !(P0[x] && curSet[x]))
    && curSet[s]
    && (forall j :: 0 <= j < |wl| ==> wl[j] < n && curSet[wl[j]])
    && (forall x :: 0 <= x < n && curSet[x] ==> x in wl)
    && (forall j, y :: 0 <= j < |wl| && 0 <= y < n && (j < head || (j == head && y < i)) && !Mk(Ms, n, wl[j], y)
          ==> processed[y])
    && (forall x :: 0 <= x < n && curSet[x] ==> TransCompatible(Ms, n, s, x))
  }

  lemma BfsStart(Ms: seq<bool>, n: nat, s: nat, P0: seq<bool>, processed: seq<bool>, curSet: seq<bool>)
    requires s < n && |P0| == n && !P0[s] && (forall x :: 0 <= x < s ==> P0[x])
    requires processed == P0[s := true] && curSet == seq(n, x => x == s)
    ensures BfsInv(Ms, n, s, P0, processed, curSet, [s], 0, s)
  {
    TransCompatibleRefl(Ms, n, s);
  }

  /** Lines 383-384: a processed or incompatible state is skipped. */
  lemma ScanSkip(Ms: seq<bool>, n: nat, s: nat, P0: seq<bool>, processed: seq<bool>, curSet: seq<bool>,
                 wl: seq<nat>, head: nat, i: nat)
    requires BfsInv(Ms, n, s, P0, processed, curSet, wl, head, i) && head < |wl| && i < n
    requires processed[i] || Mk(Ms, n, wl[head], i)
    ensures BfsInv(Ms, n, s, P0, processed, curSet, wl, head, i + 1)
  {
  }

  /** Lines 386-388: a compatible unprocessed state joins the class and the work list. */
  lemma ScanAdd(Ms: seq<bool>, n: nat, s: nat, P0: seq<bool>, processed: seq<bool>, curSet: seq<bool>,
                wl: seq<nat>, head: nat, i: nat, processed': seq<bool>, curSet': seq<bool>, wl': seq<nat>)
    requires BfsInv(Ms, n, s, P0, processed, curSet, wl, head, i) && head < |wl| && i < n
    requires !processed[i] && !Mk(Ms, n, wl[head], i)
    requires processed' == processed[i := true] && curSet' == curSet[i := true] && wl' == wl + [i]
    ensures BfsInv(Ms, n, s, P0, processed', curSet', wl', head, i + 1)
  {
    TransCompatibleStep(Ms, n, s, wl[head], i);
    forall x | 0 <= x < n && curSet'[x] ensures x in wl' {
      if x != i {
        assert x in wl;
      }
    }
  }

  lemma BfsNext(Ms: seq<bool>, n: nat, s: nat, P0: seq<bool>, processed: seq<bool>, curSet: seq<bool>,
                wl: seq<nat>, head: nat)
    requires BfsInv(Ms, n, s, P0, processed, curSet, wl, head, n) && head < |wl|
    ensures BfsInv(Ms, n, s, P0, processed, curSet, wl, head + 1, s)
  {
  }

  /** Lines 382-389: the states compatible with the entry at the head of the work list join the class. */
  method Scan(Ms: seq<bool>, n: nat, s: nat, ghost P0: seq<bool>, processed: seq<bool>, curSet: seq<bool>,
              wl: seq<nat>, head: nat)
    returns (processed': seq<bool>, curSet': seq<bool>, wl': seq<nat>)
    requires |Ms| == Ai(n, 0, n)
    requires BfsInv(Ms, n, s, P0, processed, curSet, wl, head, s) && head < |wl|
    ensures BfsInv(Ms, n, s, P0, processed', curSet', wl', head + 1, s)
    ensures |wl| <= |wl'| && CountFalse(processed') + |wl'| == CountFalse(processed) + |wl|
  {
    var curS := wl[head];
    processed', curSet', wl' := processed, curSet, wl;
    var i := s;
    while i < n
      invariant s <= i && BfsInv(Ms, n, s, P0, processed', curSet', wl', head, i)
      invariant |wl| <= |wl'| && wl'[head] == curS
      invariant CountFalse(processed') + |wl'| == CountFalse(processed) + |wl|
    {
      if processed'[i] {
        ScanSkip(Ms, n, s, P0, processed', curSet', wl', head, i);
      } else {
        MarkInRange(n, curS, i);
        if Ms[Ai(curS, i, n)] {
          ScanSkip(Ms, n, s, P0, processed', curSet', wl', head, i);
        } else {
          ScanAdd(Ms, n, s, P0, processed', curSet', wl', head, i, processed'[i := true], curSet'[i := true], wl' + [i]);
          CountFalseSet(processed', i);
          processed' := processed'[i := true];
          curSet' := curSet'[i := true];
          wl' := wl' + [i];
        }
      }
      i := i + 1;
    }
    BfsNext(Ms, n, s, P0, processed', curSet', wl', head);
  }

  lemma OwnerHolds(Ms: seq<bool>, n: nat, groups: seq<seq<bool>>, processed: seq<bool>, owner: seq<int>,
                   seeds: seq<nat>, s: nat, y: nat)
    requires GroupsInv(Ms, n, groups, processed, owner, seeds, s) && y < n
    ensures processed[y] ==> 0 <= owner[y] < |groups| && groups[owner[y]][y]
  {
  }

  /** The finished search yields a new closed, connected class disjoint from the earlier ones. */
  lemma CloseGroup(Ms: seq<bool>, n: nat, groups: seq<seq<bool>>, P0: seq<bool>, owner: seq<int>, seeds: seq<nat>,
                   s: nat, processed: seq<bool>, curSet: seq<bool>, wl: seq<nat>, owner': seq<int>)
    requires Symmetric(Ms, n) && GroupsInv(Ms, n, groups, P0, owner, seeds, s) && s < n && !P0[s]
    requires BfsInv(Ms, n, s, P0, processed, curSet, wl, |wl|, s)
    requires |owner'| == n && forall i :: 0 <= i < n ==> owner'[i] == if curSet[i] then |groups| else owner[i]
    ensures GroupsInv(Ms, n, groups + [curSet], processed, owner', seeds + [s], s + 1)
  {
    var gs := groups + [curSet];
    forall x, y | 0 <= x < n && 0 <= y < n && curSet[x] && !Mk(Ms, n, x, y)
      ensures curSet[y]
    {
      var j :| 0 <= j < |wl| && wl[j] == x;
      assert processed[y];
      forall k | 0 <= k < |groups| ensures !groups[k][y] {
        assert !groups[k][x];
        assert !Mk(Ms, n, y, x);
      }
      OwnerHolds(Ms, n, groups, P0, owner, seeds, s, y);
    }
    assert ClosedGroup(Ms, n, curSet);
    forall k, i | 0 <= k < |gs| && 0 <= i < n
      ensures gs[k][i] <==> owner'[i] == k
    {
      if k < |groups| {
        assert gs[k] == groups[k];
      }
    }
  }

  /** Lines 374-391: grow the class of the unprocessed state s. */
  method GrowGroup(Ms: seq<bool>, n: nat, s: nat, processed: seq<bool>, ghost groups: seq<seq<bool>>,
                   ghost owner: seq<int>, ghost seeds: seq<nat>)
    returns (processed': seq<bool>, curSet: seq<bool>, ghost owner': seq<int>)
    requires |Ms| == Ai(n, 0, n) && Symmetric(Ms, n)
    requires GroupsInv(Ms, n, groups, processed, owner, seeds, s) && s < n && !processed[s]
    ensures GroupsInv(Ms, n, groups + [curSet], processed', owner', seeds + [s], s + 1)
  {
    processed' := processed[s := true];
    curSet := seq(n, x => x == s);
    var wl := [s];
    var head := 0;
    BfsStart(Ms, n, s, processed, processed', curSet);
    while head < |wl|
      invariant BfsInv(Ms, n, s, processed, processed', curSet, wl, head, s)
      decreases CountFalse(processed'), |wl| - head
    {
      var wl';
      processed', curSet, wl' := Scan(Ms, n, s, processed, processed', curSet, wl, head);
      wl := wl';
      head := head + 1;
    }
    owner' := seq(n, i requires 0 <= i < n => if curSet[i] then |groups| else owner[i]);
    CloseGroup(Ms, n, groups, processed, owner, seeds, s, processed', curSet, wl, owner');
  }

  lemma GroupsFinal(Ms: seq<bool>, n: nat, groups: seq<seq<bool>>, processed: seq<bool>, owner: seq<int>, seeds: seq<nat>)
    requires Symmetric(Ms, n) && GroupsInv(Ms, n, groups, processed, owner, seeds, n)
    ensures forall x :: 0 <= x < n ==> InSomeClass(groups, x)
    ensures forall k, j, x :: 0 <= k < |groups| && 0 <= j < |groups| && 0 <= x < n && groups[k][x] && groups[j][x] ==> k == j
    ensures forall k, x, y :: 0 <= k < |groups| && 0 <= x < n && 0 <= y < n && groups[k][x] ==>
      (groups[k][y] <==> TransCompatible(Ms, n, x, y))
  {
    forall x | 0 <= x < n ensures InSomeClass(groups, x) {
      assert groups[owner[x]][x];
    }
    forall k, j, x | 0 <= k < |groups| && 0 <= j < |groups| && 0 <= x < n && groups[k][x] && groups[j][x]
      ensures k == j
    {
      assert owner[x] == k && owner[x] == j;
    }
    forall k, x, y | 0 <= k < |groups| && 0 <= x < n && 0 <= y < n && groups[k][x]
      ensures groups[k][y] <==> TransCompatible(Ms, n, x, y)
    {
      if groups[k][y] {
        TransCompatibleSymmetric(Ms, n, seeds[k], x);
        TransCompatibleTransitive(Ms, n, x, seeds[k], y);
      }
      if TransCompatible(Ms, n, x, y) {
        ClosedGroupHoldsChain(Ms, n, groups[k], x, y);
      }
    }
  }

  /**
   * getTransitivelyCompatibleStates: the classes partition the states, and
   * two states share a class exactly when a chain of compatible states links
   * them.
   */
  method GetTransitivelyCompatibleStates(Ms: seq<bool>, n: nat) returns (groups: seq<seq<bool>>)
    requires |Ms| == Ai(n, 0, n) && Symmetric(Ms, n)
    ensures forall k :: 0 <= k < |groups| ==> |groups[k]| == n
    ensures forall x :: 0 <= x < n ==> InSomeClass(groups, x)
    ensures forall k, j, x :: 0 <= k < |groups| && 0 <= j < |groups| && 0 <= x < n && groups[k][x] && groups[j][x] ==> k == j
    ensures forall k, x, y :: 0 <= k < |groups| && 0 <= x < n && 0 <= y < n && groups[k][x] ==>
      (groups[k][y] <==> TransCompatible(Ms, n, x, y))
  {
    var processed := seq(n, _ => false);
    groups := [];
    ghost var owner: seq<int> := seq(n, _ => -1);
    ghost var seeds: seq<nat> := [];
    var s := 0;
    while s < n
      invariant GroupsInv(Ms, n, groups, processed, owner, seeds, s)
    {
      if !processed[s] {
        var curSet;
        processed, curSet, owner := GrowGroup(Ms, n, s, processed, groups, owner, seeds);
        groups := groups + [curSet];
        seeds := seeds + [s];
      }
      s := s + 1;
    }
    GroupsFinal(Ms, n, groups, processed, owner, seeds);
  }
}

=== FILE: DimacsWriter.dfy ===
/**
 * The CNF writer of DIMACSWriter.cpp: literals are numbered from 1 in the
 * order they are first asked for, state literals through the flat table
 * `stateClassToLiteral` (indexed by `Ai(state, class, numClasses)`) and
 * auxiliary literals through `auxLiteralsMap`, which is cleared for every
 * (input, class) pair of the closure constraints.  Clauses are collected in
 * `clauses` (the branch of addLitToCurrentClause/addClause taken when no
 * solver is attached).
 *
 * The ghost sequence `vars` records which variable each literal stands
 * for (literal l and -l name `vars[l - 1]`), so that the integer clauses
 * can be read back as the symbolic formula `Cnf.Formula`.
 */
module DimacsWriter {
  import opened TableIndex
  import opened Machines
  import opened Incompatibility
  import opened InputAlphabet
  import opened Cnf

  // ---------------------------------------------------------------------
  // Integer literals and what they name
  // ---------------------------------------------------------------------

  /** l or -l is a literal among the first n. */
  predicate LitOk(l: int, n: nat) {
    (0 < l <= n) || (0 < -l <= n)
  }

  predicate ClauseOk(c: seq<int>, n: nat) {
    forall k :: 0 <= k < |c| ==> LitOk(c[k], n)
  }

  predicate ClausesOk(cs: seq<seq<int>>, n: nat) {
    forall x :: 0 <= x < |cs| ==> ClauseOk(cs[x], n)
  }

  /** The symbolic literal an integer literal stands for. */
  function DecodeLit(l: int, vars: seq<Var>): Lit
    requires LitOk(l, |vars|)
  {
    if l > 0 then Pos(vars[l - 1]) else Neg(vars[-l - 1])
  }

  function DecodeClause(c: seq<int>, vars: seq<Var>): (r: Clause)
    requires ClauseOk(c, |vars|)
    ensures |r| == |c| && forall k :: 0 <= k < |c| ==> r[k] == DecodeLit(c[k], vars)
  {
    seq(|c|, k requires 0 <= k < |c| => DecodeLit(c[k], vars))
  }

  function DecodeAll(cs: seq<seq<int>>, vars: seq<Var>): (r: seq<Clause>)
    requires ClausesOk(cs, |vars|)
    ensures |r| == |cs| && forall x :: 0 <= x < |cs| ==> r[x] == DecodeClause(cs[x], vars)
  {
    seq(|cs|, x requires 0 <= x < |cs| => DecodeClause(cs[x], vars))
  }

  /** Allocating further literals does not change what the earlier ones name. */
  lemma DecodeClauseExtend(c: seq<int>, vars: seq<Var>, more: seq<Var>)
    requires ClauseOk(c, |vars|)
    ensures ClauseOk(c, |vars + more|) && DecodeClause(c, vars + more) == DecodeClause(c, vars)
  {
    assert ClauseOk(c, |vars + more|);
    assert DecodeClause(c, vars + more) == DecodeClause(c, vars);
  }

  lemma DecodeAllExtend(cs: seq<seq<int>>, vars: seq<Var>, more: seq<Var>)
    requires ClausesOk(cs, |vars|)
    ensures ClausesOk(cs, |vars + more|) && DecodeAll(cs, vars + more) == DecodeAll(cs, vars)
  {
    forall x | 0 <= x < |cs|
      ensures ClauseOk(cs[x], |vars + more|) && DecodeClause(cs[x], vars + more) == DecodeClause(cs[x], vars)
    {
      DecodeClauseExtend(cs[x], vars, more);
    }
  }

  /** The clause list after a group's clauses and then more: the more clauses extend that group's part. */
  lemma WrittenThenGroup(written: seq<Clause>, group: seq<Clause>, more: seq<Clause>)
    ensures (written + group) + more == written + (group + more)
  {
  }

  /** The two literals of a pair clause, added one after the other, form that clause. */
  lemma PairClauseLits(x: Lit, y: Lit)
    ensures [x] + [y] == [x, y]
  {
  }

  // ---------------------------------------------------------------------
  // The literal tables
  // ---------------------------------------------------------------------

  /** Table entry t for variable v: -1 while v has no literal, otherwise its literal. */
  predicate Entry(t: int, v: Var, vars: seq<Var>) {
    (t == -1 && v !in vars) || (1 <= t <= |vars| && vars[t - 1] == v)
  }

  ghost predicate StateTableOk(table: seq<int>, nStates: nat, numClasses: nat, vars: seq<Var>) {
    && |table| == Ai(nStates, 0, numClasses)
    && forall s, c :: 0 <= s < nStates && 0 <= c < numClasses ==>
         Ai(s, c, numClasses) < |table| && Entry(table[Ai(s, c, numClasses)], X(s, c), vars)
  }

  ghost predicate AuxTableOk(aux: seq<int>, round: (nat, nat), vars: seq<Var>) {
    forall j :: 0 <= j < |aux| ==> Entry(aux[j], Aux(round.0, round.1, j), vars)
  }

  /** A variable the encoder may have given a literal. */
  predicate VarOk(v: Var, nStates: nat, numClasses: nat, usedRounds: set<(nat, nat)>) {
    match v
    case X(s, c) => s < nStates && c < numClasses
    case Aux(a, i, j) => (a, i) in usedRounds && j < numClasses
  }

  ghost predicate VarsOk(vars: seq<Var>, nStates: nat, numClasses: nat, usedRounds: set<(nat, nat)>) {
    forall l :: 0 <= l < |vars| ==> VarOk(vars[l], nStates, numClasses, usedRounds)
  }

  lemma EntryExtend(t: int, v: Var, vars: seq<Var>, w: Var)
    requires Entry(t, v, vars) && v != w
    ensures Entry(t, v, vars + [w])
  {
  }

  lemma StateTableExtend(table: seq<int>, nStates: nat, numClasses: nat, vars: seq<Var>, w: Var)
    requires StateTableOk(table, nStates, numClasses, vars) && !w.X?
    ensures StateTableOk(table, nStates, numClasses, vars + [w])
  {
    forall s, c | 0 <= s < nStates && 0 <= c < numClasses
      ensures Entry(table[Ai(s, c, numClasses)], X(s, c), vars + [w])
    {
      EntryExtend(table[Ai(s, c, numClasses)], X(s, c), vars, w);
    }
  }

  lemma AuxTableExtend(aux: seq<int>, round: (nat, nat), vars: seq<Var>, w: Var)
    requires AuxTableOk(aux, round, vars) && !w.Aux?
    ensures AuxTableOk(aux, round, vars + [w])
  {
    forall j | 0 <= j < |aux|
      ensures Entry(aux[j], Aux(round.0, round.1, j), vars + [w])
    {
      EntryExtend(aux[j], Aux(round.0, round.1, j), vars, w);
    }
  }

  /** Giving state s in class c the next literal keeps the state table exact. */
  lemma {:induction false} StateTableAlloc(table: seq<int>, nStates: nat, numClasses: nat, vars: seq<Var>, s: nat, c: nat)
    requires StateTableOk(table, nStates, numClasses, vars) && s < nStates && c < numClasses
    requires table[Ai(s, c, numClasses)] == -1
    ensures X(s, c) !in vars
    ensures StateTableOk(table[Ai(s, c, numClasses) := |vars| + 1], nStates, numClasses, vars + [X(s, c)])
  {
    var key := Ai(s, c, numClasses);
    var table' := table[key := |vars| + 1];
    var vars' := vars + [X(s, c)];
    forall s', c' | 0 <= s' < nStates && 0 <= c' < numClasses
      ensures Entry(table'[Ai(s', c', numClasses)], X(s', c'), vars')
    {
      if (s', c') != (s, c) {
        if Ai(s', c', numClasses) == key {
          AiInjective(s', c', s, c, numClasses);
        }
        EntryExtend(table[Ai(s', c', numClasses)], X(s', c'), vars, X(s, c));
      }
    }
  }

  /** Giving Aux(round, j) the next literal keeps the auxiliary table exact. */
  lemma {:induction false} AuxTableAlloc(aux: seq<int>, round: (nat, nat), vars: seq<Var>, j: nat)
    requires AuxTableOk(aux, round, vars) && j < |aux| && aux[j] == -1
    ensures Aux(round.0, round.1, j) !in vars
    ensures AuxTableOk(aux[j := |vars| + 1], round, vars + [Aux(round.0, round.1, j)])
  {
    var vars' := vars + [Aux(round.0, round.1, j)];
    forall j' | 0 <= j' < |aux| && j' != j
      ensures Entry(aux[j'], Aux(round.0, round.1, j'), vars')
    {
      EntryExtend(aux[j'], Aux(round.0, round.1, j'), vars, Aux(round.0, round.1, j));
    }
  }

  /** A fresh round's auxiliary variables have no literal yet, so an all -1 table is exact. */
  lemma FreshRound(aux: seq<int>, round: (nat, nat), vars: seq<Var>, nStates: nat, numClasses: nat, usedRounds: set<(nat, nat)>)
    requires VarsOk(vars, nStates, numClasses, usedRounds) && round !in usedRounds
    requires forall j :: 0 <= j < |aux| ==> aux[j] == -1
    ensures AuxTableOk(aux, round, vars)
  {
    forall j, l | 0 <= j < |aux| && 0 <= l < |vars|
      ensures vars[l] != Aux(round.0, round.1, j)
    {
      assert VarOk(vars[l], nStates, numClasses, usedRounds);
    }
  }

  lemma VarsOkGrow(vars: seq<Var>, nStates: nat, numClasses: nat, usedRounds: set<(nat, nat)>, r: (nat, nat))
    requires VarsOk(vars, nStates, numClasses, usedRounds)
    ensures VarsOk(vars, nStates, numClasses, usedRounds + {r})
  {
    forall l | 0 <= l < |vars|
      ensures VarOk(vars[l], nStates, numClasses, usedRounds + {r})
    {
      assert VarOk(vars[l], nStates, numClasses, usedRounds);
    }
  }

  /**
   * Lines 204-221 of DIMACSWriter.cpp: flag every class the successor on
   * input a of a state of L may lie in, and track the first and last flagged class.
   */
  method FlagSuccessors(p: Problem, a: nat, L: seq<nat>) returns (poss: seq<bool>, smallest: nat, largest: nat)
    requires ValidProblem(p) && a <= p.maxInput
    requires forall x :: 0 <= x < |L| ==> L[x] < |p.next|
    ensures poss == PossibleAfter(p, a, L, |L|)
    ensures smallest == FirstTrue(poss, 0) && largest == LastTrue(poss, |poss|)
  {
    poss := seq(p.numClasses, _ => false);
    smallest := p.numClasses + 1;
    largest := 0;
    FirstTrueSpec(poss, 0);
    LastTrueSpec(poss, |poss|);
    var m := 0;
    while m < |L|
      invariant 0 <= m <= |L|
      invariant poss == PossibleAfter(p, a, L, m)
      invariant smallest == FirstTrue(poss, 0) && largest == LastTrue(poss, |poss|)
    {
      var s := L[m];
      var succS := p.next[s][a];
      assert succS == Cnf.Succ(p, L[m], a);
      if succS != -1 {
        poss, smallest, largest := FlagClassesOf(p, succS, poss, smallest, largest);
        assert poss == PossibleAfter(p, a, L, m + 1);
      }
      m := m + 1;
    }
  }

  /** Lines 212-219: flag every class a state succ may lie in. */
  method FlagClassesOf(p: Problem, succ: nat, poss: seq<bool>, smallest: nat, largest: nat)
    returns (poss': seq<bool>, smallest': nat, largest': nat)
    requires |poss| == p.numClasses && smallest == FirstTrue(poss, 0) && largest == LastTrue(poss, |poss|)
    ensures |poss'| == p.numClasses
    ensures forall x :: 0 <= x < p.numClasses ==> poss'[x] == (poss[x] || Permitted(p, succ, x))
    ensures smallest' == FirstTrue(poss', 0) && largest' == LastTrue(poss', |poss'|)
  {
    poss', smallest', largest' := poss, smallest, largest;
    var j := 0;
    while j < p.numClasses
      invariant 0 <= j <= p.numClasses && |poss'| == p.numClasses
      invariant forall x :: 0 <= x < p.numClasses ==> poss'[x] == (poss[x] || (x < j && Permitted(p, succ, x)))
      invariant smallest' == FirstTrue(poss', 0) && largest' == LastTrue(poss', |poss'|)
    {
      if !(j < |p.pis| && Mk(p.Ms, |p.next|, succ, p.pis[j])) {
        FirstTrueSet(poss', j);
        LastTrueSet(poss', j);
        poss' := poss'[j := true];
        if j < smallest' {
          smallest' := j;
        }
        if j > largest' {
          largest' := j;
        }
      }
      j := j + 1;
    }
  }

  /** Flagging class j moves the first flagged class down to j if it was later. */
  lemma {:induction false} FirstTrueSet(poss: seq<bool>, j: nat)
    requires j < |poss|
    ensures FirstTrue(poss[j := true], 0) == if j < FirstTrue(poss, 0) then j else FirstTrue(poss, 0)
  {
    FirstTrueFrom(poss, j, 0);
  }

  lemma {:induction false} FirstTrueFrom(poss: seq<bool>, j: nat, k: nat)
    requires k <= j < |poss|
    ensures FirstTrue(poss[j := true], k) == if j < FirstTrue(poss, k) then j else FirstTrue(poss, k)
    decreases j - k
  {
    FirstTrueSpec(poss, k);
    if k < j && !poss[k] {
      FirstTrueFrom(poss, j, k + 1);
    }
  }

  /** Flagging class j moves the last flagged class up to j if it was earlier. */
  lemma {:induction false} LastTrueSet(poss: seq<bool>, j: nat)
    requires j < |poss|
    ensures LastTrue(poss[j := true], |poss|) == if j > LastTrue(poss, |poss|) then j else LastTrue(poss, |poss|)
  {
    LastTrueUpTo(poss, j, |poss|);
  }

  lemma {:induction false} LastTrueUpTo(poss: seq<bool>, j: nat, k: nat)
    requires j < |poss| && k <= |poss|
    ensures LastTrue(poss[j := true], k) == if j < k && j > LastTrue(poss, k) then j else LastTrue(poss, k)
  {
    LastTrueSpec(poss, k);
    if k > 0 && k - 1 != j && !poss[k - 1] {
      LastTrueUpTo(poss, j, k - 1);
    }
  }

  /** Lines 143-151: for each class, the states that may lie in it, in increasing order. */
  method StatesThatCanBeInClass(p: Problem) returns (canBeIn: seq<seq<nat>>)
    ensures |canBeIn| == p.numClasses
    ensures forall i :: 0 <= i < p.numClasses ==> canBeIn[i] == CanBeIn(p, i, |p.next|)
  {
    canBeIn := [];
    var i := 0;
    while i < p.numClasses
      invariant 0 <= i <= p.numClasses && |canBeIn| == i
      invariant forall x :: 0 <= x < i ==> canBeIn[x] == CanBeIn(p, x, |p.next|)
    {
      var curVector: seq<nat> := [];
      var s := 0;
      while s < |p.next|
        invariant 0 <= s <= |p.next| && curVector == CanBeIn(p, i, s)
      {
        if !(i < |p.pis| && Mk(p.Ms, |p.next|, s, p.pis[i])) {
          curVector := curVector + [s];
        }
        s := s + 1;
      }
      canBeIn := canBeIn + [curVector];
      i := i + 1;
    }
  }

  // ---------------------------------------------------------------------
  // Reading literals back
  // ---------------------------------------------------------------------

  /** The (state, class) pair literal l stands for, or (-1, -1) for an auxiliary literal or literal 0. */
  function Named(vars: seq<Var>, l: int): (int, int) {
    if 1 <= l <= |vars| && vars[l - 1].X? then (vars[l - 1].s as int, vars[l - 1].c as int) else (-1, -1)
  }

  /** Variable v is a state variable met before (st, j) in row-major order. */
  predicate Filled(v: Var, st: nat, j: nat) {
    v.X? && (v.s < st || (v.s == st && v.c < j))
  }

  /** The entry of literalToStateClass once the pairs before (st, j) are written. */
  function Upto(vars: seq<Var>, l: int, st: nat, j: nat): (int, int) {
    if 1 <= l <= |vars| && Filled(vars[l - 1], st, j) then Named(vars, l) else (-1, -1)
  }

  /** Writing the entry for (st, j) extends the map by that one pair. */
  lemma FillStep(lts: seq<(int, int)>, vars: seq<Var>, st: nat, j: nat, t: int) returns (lts': seq<(int, int)>)
    requires Distinct(vars) && |lts| == |vars| + 1 && Entry(t, X(st, j), vars)
    requires forall l :: 0 <= l < |lts| ==> lts[l] == Upto(vars, l, st, j)
    ensures t > -1 ==> 0 <= t < |lts|
    ensures lts' == if t > -1 then lts[t := (st, j)] else lts
    ensures |lts'| == |lts| && forall l :: 0 <= l < |lts| ==> lts'[l] == Upto(vars, l, st, j + 1)
  {
    lts' := if t > -1 then lts[t := (st, j)] else lts;
    forall l | 0 <= l < |lts|
      ensures lts'[l] == Upto(vars, l, st, j + 1)
    {
      if 1 <= l <= |vars| && vars[l - 1] == X(st, j) {
        assert t == l;
      }
    }
  }

  lemma ClosureOfInputStep(p: Problem, a: nat, i: nat)
    ensures ClosureOfInput(p, a, i + 1) == ClosureOfInput(p, a, i) + ClosureOf(p, a, i)
  {
  }

  lemma ClosureStep(p: Problem, a: nat)
    ensures Closure(p, a + 1) == Closure(p, a) + KeptClosure(p, a)
  {
  }

  // ---------------------------------------------------------------------
  // The writer's state
  // ---------------------------------------------------------------------

  class Encoder {
    const nStates: nat
    const numClasses: nat
    const stateClassToLiteral: array<int>
    const auxLiteralsMap: array<int>
    var curLiteral: int
    var clauses: seq<seq<int>>
    var curClause: seq<int>
    /** The variable of each literal: literal l names vars[l - 1]. */
    ghost var vars: seq<Var>
    /** The (input, class) pair whose auxiliary literals auxLiteralsMap holds, once it is live. */
    ghost var round: (nat, nat)
    ghost var auxLive: bool
    ghost var usedRounds: set<(nat, nat)>
    /** The clauses written so far, read as symbolic clauses. */
    ghost var written: seq<Clause>
    /** The clause under construction, read as a symbolic clause. */
    ghost var pending: Clause

    ghost predicate Valid()
      reads this, stateClassToLiteral, auxLiteralsMap
    {
      && stateClassToLiteral != auxLiteralsMap
      && auxLiteralsMap.Length == numClasses
      && curLiteral == |vars| + 1
      && Distinct(vars)
      && StateTableOk(stateClassToLiteral[..], nStates, numClasses, vars)
      && (auxLive ==> round in usedRounds && AuxTableOk(auxLiteralsMap[..], round, vars))
      && VarsOk(vars, nStates, numClasses, usedRounds)
      && ClausesOk(clauses, |vars|)
      && ClauseOk(curClause, |vars|)
      && written == DecodeAll(clauses, vars)
      && pending == DecodeClause(curClause, vars)
    }

    /** Lines 122-133 of DIMACSWriter.cpp: empty clause list, literals from 1, state table all -1. */
    constructor (nStates: nat, numClasses: nat)
      ensures Valid() && this.nStates == nStates && this.numClasses == numClasses
      ensures vars == [] && clauses == [] && curClause == [] && !auxLive && usedRounds == {}
      ensures written == [] && pending == []
      ensures fresh(stateClassToLiteral) && fresh(auxLiteralsMap)
    {
      TableSize(nStates, numClasses);
      this.nStates := nStates;
      this.numClasses := numClasses;
      var table := new int[nStates * numClasses];
      var k := 0;
      while k < nStates * numClasses
        invariant 0 <= k <= nStates * numClasses
        invariant forall x :: 0 <= x < k ==> table[x] == -1
      {
        table[k] := -1;
        k := k + 1;
      }
      stateClassToLiteral := table;
      auxLiteralsMap := new int[numClasses];
      curLiteral := 1;
      clauses := [];
      curClause := [];
      vars := [];
      round := (0, 0);
      auxLive := false;
      usedRounds := {};
      written := [];
      pending := [];
      new;
      forall s, c | 0 <= s < nStates && 0 <= c < numClasses
        ensures Ai(s, c, numClasses) < stateClassToLiteral.Length
      {
        AiBound(s, c, nStates, numClasses);
      }
    }

    /** Lines 69-81: the literal of "state s is in class c", allocated on first use. */
    method GetStateLiteral(s: nat, c: nat) returns (lit: int)
      requires Valid() && s < nStates && c < numClasses
      modifies this, stateClassToLiteral
      ensures Valid()
      ensures 1 <= lit <= |vars| && vars[lit - 1] == X(s, c)
      ensures X(s, c) in old(vars) ==> vars == old(vars)
      ensures X(s, c) !in old(vars) ==> vars == old(vars) + [X(s, c)] && lit == |vars|
      ensures written == old(written) && pending == old(pending)
      ensures clauses == old(clauses) && curClause == old(curClause)
      ensures auxLive == old(auxLive) && round == old(round) && usedRounds == old(usedRounds)
    {
      AiBound(s, c, nStates, numClasses);
      var key := Ai(s, c, numClasses);
      lit := stateClassToLiteral[key];
      assert Entry(stateClassToLiteral[key], X(s, c), vars);
      if lit == -1 {
        ghost var table := stateClassToLiteral[..];
        ghost var v := X(s, c);
        StateTableAlloc(table, nStates, numClasses, vars, s, c);
        if auxLive {
          AuxTableExtend(auxLiteralsMap[..], round, vars, v);
        }
        DecodeAllExtend(clauses, vars, [v]);
        DecodeClauseExtend(curClause, vars, [v]);
        lit := curLiteral;
        stateClassToLiteral[key] := curLiteral;
        curLiteral := curLiteral + 1;
        vars := vars + [v];
        assert stateClassToLiteral[..] == table[key := |vars|];
      }
    }

    /** Lines 83-94: the literal of auxiliary variable j of the current round, allocated on first use. */
    method GetAuxLiteral(j: nat) returns (lit: int)
      requires Valid() && auxLive && j < numClasses
      modifies this, auxLiteralsMap
      ensures Valid()
      ensures 1 <= lit <= |vars| && vars[lit - 1] == Aux(round.0, round.1, j)
      ensures Aux(round.0, round.1, j) in old(vars) ==> vars == old(vars)
      ensures Aux(round.0, round.1, j) !in old(vars) ==> vars == old(vars) + [Aux(round.0, round.1, j)] && lit == |vars|
      ensures written == old(written) && pending == old(pending)
      ensures clauses == old(clauses) && curClause == old(curClause)
      ensures auxLive == old(auxLive) && round == old(round) && usedRounds == old(usedRounds)
    {
      lit := auxLiteralsMap[j];
      assert Entry(auxLiteralsMap[..][j], Aux(round.0, round.1, j), vars);
      if lit == -1 {
        ghost var aux := auxLiteralsMap[..];
        ghost var v := Aux(round.0, round.1, j);
        AuxTableAlloc(aux, round, vars, j);
        StateTableExtend(stateClassToLiteral[..], nStates, numClasses, vars, v);
        DecodeAllExtend(clauses, vars, [v]);
        DecodeClauseExtend(curClause, vars, [v]);
        lit := curLiteral;
        auxLiteralsMap[j] := curLiteral;
        curLiteral := curLiteral + 1;
        vars := vars + [v];
        assert auxLiteralsMap[..] == aux[j := |vars|];
      }
    }

    /** Lines 96-106 (no solver attached): append a literal to the current clause. */
    method AddLitToCurrentClause(lit: int)
      requires Valid() && LitOk(lit, |vars|)
      modifies this
      ensures Valid()
      ensures clauses == old(clauses) && vars == old(vars)
      ensures curClause == old(curClause) + [lit]
      ensures pending == old(pending) + [DecodeLit(lit, vars)] && written == old(written)
      ensures auxLive == old(auxLive) && round == old(round) && usedRounds == old(usedRounds)
    {
      curClause := curClause + [lit];
      pending := pending + [DecodeLit(lit, vars)];
    }

    /** Lines 108-116 (no solver attached): close the current clause. */
    method AddClause()
      requires Valid()
      modifies this
      ensures Valid()
      ensures clauses == old(clauses) + [old(curClause)] && curClause == []
      ensures written == old(written) + [old(pending)] && pending == []
      ensures vars == old(vars)
      ensures auxLive == old(auxLive) && round == old(round) && usedRounds == old(usedRounds)
    {
      clauses := clauses + [curClause];
      curClause := [];
      written := written + [pending];
      pending := [];
      assert DecodeAll(clauses, vars) == written;
    }
  
    /** The encoder's tables are sized for the problem. */
    ghost predicate Serves(p: Problem) {
      ValidProblem(p) && nStates == |p.next| && numClasses == p.numClasses
    }

    /** The ghost bookkeeping of the auxiliary table. */
    ghost function Rounds(): (bool, (nat, nat), set<(nat, nat)>)
      reads this
    {
      (auxLive, round, usedRounds)
    }

    /** Lines 136-141: a unit clause per anchor state, putting it in its own class. */
    method EmitAnchors(p: Problem)
      requires Valid() && Serves(p) && curClause == [] && pending == []
      modifies this, stateClassToLiteral
      ensures Valid() && curClause == [] && pending == [] && Rounds() == old(Rounds())
      ensures written == old(written) + Anchors(p, |p.pis|)
    {
      var i := 0;
      while i < |p.pis|
        invariant 0 <= i <= |p.pis|
        invariant Valid() && curClause == [] && pending == [] && Rounds() == old(Rounds())
        invariant written == old(written) + Anchors(p, i)
      {
        EmitAnchorClause(p, i);
        WrittenThenGroup(old(written), Anchors(p, i), [[Pos(X(p.pis[i], i))]]);
        i := i + 1;
      }
    }

    /** Lines 138-139: the unit clause putting anchor i in class i. */
    method EmitAnchorClause(p: Problem, i: nat)
      requires Valid() && Serves(p) && i < |p.pis| && curClause == [] && pending == []
      modifies this, stateClassToLiteral
      ensures Valid() && curClause == [] && pending == [] && Rounds() == old(Rounds())
      ensures written == old(written) + [[Pos(X(p.pis[i], i))]]
    {
      var lit := GetStateLiteral(p.pis[i], i);
      AddLitToCurrentClause(lit);
      assert pending == [Pos(X(p.pis[i], i))];
      AddClause();
    }

    /** Lines 154-159: the clause putting state s in one of the classes it may lie in. */
    method EmitCoverClause(p: Problem, s: nat)
      requires Valid() && Serves(p) && s < nStates && curClause == [] && pending == []
      modifies this, stateClassToLiteral
      ensures Valid() && curClause == [] && pending == [] && Rounds() == old(Rounds())
      ensures written == old(written) + [CoverLits(p, s, p.numClasses)]
    {
      var i := 0;
      while i < numClasses
        invariant 0 <= i <= numClasses
        invariant Valid() && Rounds() == old(Rounds())
        invariant written == old(written) && pending == CoverLits(p, s, i)
      {
        if !(i < |p.pis| && Mk(p.Ms, |p.next|, s, p.pis[i])) {
          var lit := GetStateLiteral(s, i);
          AddLitToCurrentClause(lit);
        }
        i := i + 1;
      }
      AddClause();
    }

    /** Lines 153-160: every state lies in some class. */
    method EmitCoverage(p: Problem)
      requires Valid() && Serves(p) && curClause == [] && pending == []
      modifies this, stateClassToLiteral
      ensures Valid() && curClause == [] && pending == [] && Rounds() == old(Rounds())
      ensures written == old(written) + Coverage(p, |p.next|)
    {
      var s := 0;
      while s < nStates
        invariant 0 <= s <= nStates
        invariant Valid() && curClause == [] && pending == [] && Rounds() == old(Rounds())
        invariant written == old(written) + Coverage(p, s)
      {
        EmitCoverClause(p, s);
        s := s + 1;
      }
    }

    /** Lines 166-170: keep the states incompatible with the anchor of class i out of class i. */
    method EmitUnitsOf(p: Problem, i: nat)
      requires Valid() && Serves(p) && i < |p.pis| && curClause == [] && pending == []
      modifies this, stateClassToLiteral
      ensures Valid() && curClause == [] && pending == [] && Rounds() == old(Rounds())
      ensures written == old(written) + UnitsOf(p, i, |p.next|)
    {
      var incompS := 0;
      while incompS < nStates
        invariant 0 <= incompS <= nStates
        invariant Valid() && curClause == [] && pending == [] && Rounds() == old(Rounds())
        invariant written == old(written) + UnitsOf(p, i, incompS)
      {
        if Mk(p.Ms, |p.next|, p.pis[i], incompS) {
          var lit := GetStateLiteral(incompS, i);
          AddLitToCurrentClause(-lit);
          assert pending == [Neg(X(incompS, i))];
          AddClause();
          WrittenThenGroup(old(written), UnitsOf(p, i, incompS), [[Neg(X(incompS, i))]]);
        }
        incompS := incompS + 1;
      }
    }

    /** Lines 162-171. */
    method EmitUnits(p: Problem)
      requires Valid() && Serves(p) && curClause == [] && pending == []
      modifies this, stateClassToLiteral
      ensures Valid() && curClause == [] && pending == [] && Rounds() == old(Rounds())
      ensures written == old(written) + Units(p, |p.pis|)
    {
      var i := 0;
      while i < |p.pis|
        invariant 0 <= i <= |p.pis|
        invariant Valid() && curClause == [] && pending == [] && Rounds() == old(Rounds())
        invariant written == old(written) + Units(p, i)
      {
        EmitUnitsOf(p, i);
        i := i + 1;
      }
    }

    /** Lines 179-181: the clause keeping s and t out of class i together. */
    method EmitPairClause(s: nat, t: nat, i: nat)
      requires Valid() && s < nStates && t < nStates && i < numClasses && curClause == [] && pending == []
      modifies this, stateClassToLiteral
      ensures Valid() && curClause == [] && pending == [] && Rounds() == old(Rounds())
      ensures written == old(written) + [[Neg(X(s, i)), Neg(X(t, i))]]
    {
      var lit := GetStateLiteral(s, i);
      AddLitToCurrentClause(-lit);
      assert pending == [Neg(X(s, i))];
      var lit' := GetStateLiteral(t, i);
      AddLitToCurrentClause(-lit');
      PairClauseLits(Neg(X(s, i)), Neg(X(t, i)));
      AddClause();
    }

    /** Lines 177-182: s and each later state incompatible with it do not share class i. */
    method EmitPairsOf(p: Problem, s: nat, i: nat)
      requires Valid() && Serves(p) && s < nStates && i < numClasses && curClause == [] && pending == []
      modifies this, stateClassToLiteral
      ensures Valid() && curClause == [] && pending == [] && Rounds() == old(Rounds())
      ensures written == old(written) + PairsOf(p, s, i, |p.next|)
    {
      var incompS := s + 1;
      while incompS < nStates
        invariant s + 1 <= incompS <= nStates
        invariant Valid() && curClause == [] && pending == [] && Rounds() == old(Rounds())
        invariant written == old(written) + PairsOf(p, s, i, incompS)
      {
        if Mk(p.Ms, |p.next|, s, incompS) {
          EmitPairClause(s, incompS, i);
          WrittenThenGroup(old(written), PairsOf(p, s, i, incompS), [[Neg(X(s, i)), Neg(X(incompS, i))]]);
        }
        incompS := incompS + 1;
      }
    }

    /** Lines 174-183: the pair clauses of state s. */
    method EmitPairsOfState(p: Problem, s: nat)
      requires Valid() && Serves(p) && s < nStates && curClause == [] && pending == []
      modifies this, stateClassToLiteral
      ensures Valid() && curClause == [] && pending == [] && Rounds() == old(Rounds())
      ensures written == old(written) + PairsOfState(p, s, p.numClasses)
    {
      var i := 0;
      while i < numClasses
        invariant 0 <= i <= numClasses
        invariant Valid() && curClause == [] && pending == [] && Rounds() == old(Rounds())
        invariant written == old(written) + PairsOfState(p, s, i)
      {
        if !(i < |p.pis| && Mk(p.Ms, |p.next|, s, p.pis[i])) {
          EmitPairsOf(p, s, i);
        }
        i := i + 1;
      }
    }

    /** Lines 173-184: incompatible states never share a class. */
    method EmitPairs(p: Problem)
      requires Valid() && Serves(p) && curClause == [] && pending == []
      modifies this, stateClassToLiteral
      ensures Valid() && curClause == [] && pending == [] && Rounds() == old(Rounds())
      ensures written == old(written) + Pairs(p, |p.next|)
    {
      var s := 0;
      while s < nStates
        invariant 0 <= s <= nStates
        invariant Valid() && curClause == [] && pending == [] && Rounds() == old(Rounds())
        invariant written == old(written) + Pairs(p, s)
      {
        EmitPairsOfState(p, s);
        s := s + 1;
      }
    }

    /** Lines 200-202: clear the auxiliary table for the round of class i on input a. */
    method ClearAuxLiterals(ghost a: nat, ghost i: nat)
      requires Valid() && (a, i) !in usedRounds
      modifies this, auxLiteralsMap
      ensures Valid() && auxLive && round == (a, i) && usedRounds == old(usedRounds) + {(a, i)}
      ensures vars == old(vars) && clauses == old(clauses) && curClause == old(curClause)
      ensures written == old(written) && pending == old(pending)
    {
      auxLive := false;
      var j := 0;
      while j < numClasses
        invariant 0 <= j <= numClasses
        invariant Valid() && !auxLive && usedRounds == old(usedRounds)
        invariant vars == old(vars) && clauses == old(clauses) && curClause == old(curClause)
        invariant written == old(written) && pending == old(pending)
        invariant forall x :: 0 <= x < j ==> auxLiteralsMap[x] == -1
      {
        auxLiteralsMap[j] := -1;
        j := j + 1;
      }
      FreshRound(auxLiteralsMap[..], (a, i), vars, nStates, numClasses, usedRounds);
      VarsOkGrow(vars, nStates, numClasses, usedRounds, (a, i));
      round := (a, i);
      usedRounds := usedRounds + {(a, i)};
      auxLive := true;
    }

    /** Lines 223-227: the positive auxiliary literals of the flagged classes from lo to hi. */
    method EmitOr(ghost a: nat, ghost i: nat, poss: seq<bool>, lo: nat, hi: nat)
      requires Valid() && auxLive && round == (a, i) && curClause == [] && pending == []
      requires |poss| == numClasses && (hi < numClasses || hi < lo)
      modifies this, auxLiteralsMap
      ensures Valid() && Rounds() == old(Rounds()) && written == old(written)
      ensures pending == AuxLits(a, i, poss, lo, hi + 1)
      ensures |curClause| == |pending|
    {
      var j := lo;
      while j <= hi
        invariant lo <= j && (j <= hi + 1 || j == lo)
        invariant Valid() && Rounds() == old(Rounds()) && written == old(written)
        invariant pending == AuxLits(a, i, poss, lo, j)
      {
        EmitOrStep(a, i, poss, lo, j);
        j := j + 1;
      }
    }

    /** Line 225 for one class j: its auxiliary literal when it is flagged. */
    method EmitOrStep(ghost a: nat, ghost i: nat, poss: seq<bool>, lo: nat, j: nat)
      requires Valid() && auxLive && round == (a, i) && lo <= j < numClasses == |poss|
      requires pending == AuxLits(a, i, poss, lo, j)
      modifies this, auxLiteralsMap
      ensures Valid() && Rounds() == old(Rounds()) && written == old(written)
      ensures pending == AuxLits(a, i, poss, lo, j + 1)
    {
      if poss[j] {
        var lit := GetAuxLiteral(j);
        AddLitToCurrentClause(lit);
      }
    }

    /** Lines 240-243: aux literal j of the round, s in class i, imply succ in class j. */
    method EmitImplClause(j: nat, s: nat, i: nat, succ: nat)
      requires Valid() && auxLive && j < numClasses && s < nStates && i < numClasses && succ < nStates
      requires curClause == [] && pending == []
      modifies this, stateClassToLiteral, auxLiteralsMap
      ensures Valid() && curClause == [] && pending == [] && Rounds() == old(Rounds())
      ensures written == old(written) + [[Neg(Aux(round.0, round.1, j)), Neg(X(s, i)), Pos(X(succ, j))]]
    {
      var lit := GetAuxLiteral(j);
      AddLitToCurrentClause(-lit);
      assert pending == [Neg(Aux(round.0, round.1, j))];
      var lit' := GetStateLiteral(s, i);
      AddLitToCurrentClause(-lit');
      assert pending == [Neg(Aux(round.0, round.1, j)), Neg(X(s, i))];
      var lit'' := GetStateLiteral(succ, j);
      AddLitToCurrentClause(lit'');
      assert pending == [Neg(Aux(round.0, round.1, j)), Neg(X(s, i)), Pos(X(succ, j))];
      AddClause();
    }

    /** Lines 237-244: the implications of state s, whose successor is succ. */
    method EmitImplFor(ghost a: nat, i: nat, s: nat, succ: nat, poss: seq<bool>, lo: nat, hi: nat)
      requires Valid() && auxLive && round == (a, i) && curClause == [] && pending == []
      requires s < nStates && i < numClasses && succ < nStates
      requires |poss| == numClasses && (hi < numClasses || hi < lo)
      modifies this, stateClassToLiteral, auxLiteralsMap
      ensures Valid() && curClause == [] && pending == [] && Rounds() == old(Rounds())
      ensures written == old(written) + ImplFor(a, i, s, succ, poss, lo, hi + 1)
    {
      var j := lo;
      while j <= hi
        invariant lo <= j && (j <= hi + 1 || j == lo)
        invariant Valid() && curClause == [] && pending == [] && Rounds() == old(Rounds())
        invariant written == old(written) + ImplFor(a, i, s, succ, poss, lo, j)
      {
        if poss[j] {
          EmitImplClause(j, s, i, succ);
          WrittenThenGroup(old(written), ImplFor(a, i, s, succ, poss, lo, j), [[Neg(Aux(a, i, j)), Neg(X(s, i)), Pos(X(succ, j))]]);
        }
        j := j + 1;
      }
    }

    /** Lines 232-245: the implications of every state that may lie in class i. */
    method EmitImplications(p: Problem, a: nat, i: nat, L: seq<nat>, poss: seq<bool>, lo: nat, hi: nat)
      requires Valid() && Serves(p) && a <= p.maxInput && i < numClasses
      requires auxLive && round == (a, i) && curClause == [] && pending == []
      requires forall x :: 0 <= x < |L| ==> L[x] < nStates
      requires |poss| == numClasses && (hi < numClasses || hi < lo)
      modifies this, stateClassToLiteral, auxLiteralsMap
      ensures Valid() && curClause == [] && pending == [] && Rounds() == old(Rounds())
      ensures written == old(written) + Implications(p, a, i, poss, lo, hi, L, |L|)
    {
      var m := 0;
      while m < |L|
        invariant 0 <= m <= |L|
        invariant Valid() && curClause == [] && pending == [] && Rounds() == old(Rounds())
        invariant written == old(written) + Implications(p, a, i, poss, lo, hi, L, m)
      {
        var s := L[m];
        var succS := p.next[s][a];
        assert succS == Cnf.Succ(p, L[m], a);
        if succS != -1 {
          EmitImplFor(a, i, s, succS, poss, lo, hi);
          WrittenThenGroup(old(written), Implications(p, a, i, poss, lo, hi, L, m), ImplFor(a, i, s, succS, poss, lo, hi + 1));
        }
        m := m + 1;
      }
    }

    /** Lines 199-246: the closure clauses of class i on input a. */
    method EmitClosureOf(p: Problem, a: nat, i: nat, L: seq<nat>)
      requires Valid() && Serves(p) && a <= p.maxInput && i < numClasses && curClause == [] && pending == []
      requires (a, i) !in usedRounds && L == CanBeIn(p, i, |p.next|)
      modifies this, stateClassToLiteral, auxLiteralsMap
      ensures Valid() && curClause == [] && pending == [] && usedRounds == old(usedRounds) + {(a, i)}
      ensures written == old(written) + ClosureOf(p, a, i)
    {
      CanBeInBound(p, i, |p.next|);
      ClearAuxLiterals(a, i);
      var poss, smallest, largest := FlagSuccessors(p, a, L);
      FirstTrueSpec(poss, 0);
      LastTrueSpec(poss, |poss|);
      EmitOr(a, i, poss, smallest, largest);
      if curClause == [] {
        return;
      }
      AddClause();
      EmitImplications(p, a, i, L, poss, smallest, largest);
      WrittenThenGroup(old(written), [OrClause(p, a, i)], Implications(p, a, i, poss, smallest, largest, L, |L|));
    }

    /** Lines 199-247: the closure clauses of every class on input a. */
    method EmitClosureOfInput(p: Problem, a: nat, canBeIn: seq<seq<nat>>)
      requires Valid() && Serves(p) && a <= p.maxInput && curClause == [] && pending == []
      requires |canBeIn| == numClasses && forall i :: 0 <= i < numClasses ==> canBeIn[i] == CanBeIn(p, i, |p.next|)
      requires forall r :: r in usedRounds ==> r.0 < a
      modifies this, stateClassToLiteral, auxLiteralsMap
      ensures Valid() && curClause == [] && pending == []
      ensures forall r :: r in usedRounds ==> r.0 <= a
      ensures written == old(written) + ClosureOfInput(p, a, p.numClasses)
    {
      var i := 0;
      while i < numClasses
        invariant 0 <= i <= numClasses
        invariant Valid() && curClause == [] && pending == []
        invariant forall r :: r in usedRounds ==> r.0 < a || (r.0 == a && r.1 < i)
        invariant written == old(written) + ClosureOfInput(p, a, i)
      {
        ClosureOfInputStep(p, a, i);
        EmitClosureOf(p, a, i, canBeIn[i]);
        WrittenThenGroup(old(written), ClosureOfInput(p, a, i), ClosureOf(p, a, i));
        i := i + 1;
      }
    }

    /** Lines 193-248: the closure clauses of every input of the reduced alphabet, in increasing order. */
    method EmitClosure(p: Problem, canBeIn: seq<seq<nat>>, reduced: set<int>)
      requires Valid() && Serves(p) && curClause == [] && pending == [] && usedRounds == {}
      requires |canBeIn| == numClasses && forall i :: 0 <= i < numClasses ==> canBeIn[i] == CanBeIn(p, i, |p.next|)
      requires forall a: nat :: a <= p.maxInput ==> (a in reduced <==> Kept(p, a))
      modifies this, stateClassToLiteral, auxLiteralsMap
      ensures Valid() && curClause == [] && pending == []
      ensures written == old(written) + Closure(p, p.maxInput + 1)
    {
      var a := 0;
      while a <= p.maxInput
        invariant 0 <= a <= p.maxInput + 1
        invariant Valid() && curClause == [] && pending == []
        invariant forall r :: r in usedRounds ==> r.0 < a
        invariant written == old(written) + Closure(p, a)
      {
        EmitKeptClosure(p, a, canBeIn, a in reduced, old(written));
        a := a + 1;
      }
    }

    /** Lines 194-247 for one input a: its closure clauses when it is in the reduced alphabet, nothing otherwise. */
    method EmitKeptClosure(p: Problem, a: nat, canBeIn: seq<seq<nat>>, kept: bool, ghost w0: seq<Clause>)
      requires Valid() && Serves(p) && a <= p.maxInput && curClause == [] && pending == []
      requires |canBeIn| == numClasses && forall i :: 0 <= i < numClasses ==> canBeIn[i] == CanBeIn(p, i, |p.next|)
      requires forall r :: r in usedRounds ==> r.0 < a
      requires kept == Kept(p, a) && written == w0 + Closure(p, a)
      modifies this, stateClassToLiteral, auxLiteralsMap
      ensures Valid() && curClause == [] && pending == []
      ensures forall r :: r in usedRounds ==> r.0 < a + 1
      ensures written == w0 + Closure(p, a + 1)
    {
      ClosureStep(p, a);
      if kept {
        EmitClosureOfInput(p, a, canBeIn);
      } else {
        assert old(written) + [] == old(written);
      }
      WrittenThenGroup(w0, Closure(p, a), KeptClosure(p, a));
    }

    /** Lines 250-263: the state and class of every state literal, (-1, -1) for the others. */
    method LiteralToStateClass() returns (literalToStateClass: seq<(int, int)>)
      requires Valid()
      ensures |literalToStateClass| == |vars| + 1
      ensures forall l :: 0 <= l < |literalToStateClass| ==> literalToStateClass[l] == Named(vars, l)
    {
      literalToStateClass := seq(curLiteral, _ => (-1, -1));
      var st := 0;
      while st < nStates
        invariant 0 <= st <= nStates && |literalToStateClass| == |vars| + 1
        invariant forall l :: 0 <= l < |literalToStateClass| ==> literalToStateClass[l] == Upto(vars, l, st, 0)
      {
        var j := 0;
        while j < numClasses
          invariant 0 <= j <= numClasses && |literalToStateClass| == |vars| + 1
          invariant forall l :: 0 <= l < |literalToStateClass| ==> literalToStateClass[l] == Upto(vars, l, st, j)
        {
          AiBound(st, j, nStates, numClasses);
          var t := stateClassToLiteral[Ai(st, j, numClasses)];
          ghost var next := FillStep(literalToStateClass, vars, st, j, t);
          if t > -1 {
            literalToStateClass := literalToStateClass[t := (st, j)];
          }
          j := j + 1;
        }
        forall k | 0 <= k < |vars|
          ensures Filled(vars[k], st, numClasses) == Filled(vars[k], st + 1, 0)
        {
          assert VarOk(vars[k], nStates, numClasses, usedRounds);
        }
        st := st + 1;
      }
      forall k | 0 <= k < |vars| && vars[k].X?
        ensures Filled(vars[k], nStates, 0)
      {
        assert VarOk(vars[k], nStates, numClasses, usedRounds);
      }
    }
  }

  /**
   * Lines 122-264: the CNF of "the states fit into numClasses classes", as
   * integer clauses, together with the state and class of every literal.
   * Read back through `vars`, the clauses are exactly `Formula(p)`.
   */
  method BuildCnf(p: Problem) returns (clauses: seq<seq<int>>, literalToStateClass: seq<(int, int)>, ghost vars: seq<Var>)
    requires ValidProblem(p)
    ensures Distinct(vars) && ClausesOk(clauses, |vars|)
    ensures DecodeAll(clauses, vars) == Formula(p)
    ensures |literalToStateClass| == |vars| + 1
    ensures forall l :: 0 <= l < |literalToStateClass| ==> literalToStateClass[l] == Named(vars, l)
    ensures forall l :: 0 <= l < |vars| && vars[l].X? ==> vars[l].s < |p.next| && vars[l].c < p.numClasses
    ensures ClausesOk(clauses, |literalToStateClass| - 1)
    ensures forall l :: 0 <= l < |literalToStateClass| ==>
      literalToStateClass[l] == (-1, -1) ||
      (0 <= literalToStateClass[l].0 < |p.next| && 0 <= literalToStateClass[l].1 < p.numClasses)
  {
    var e := new Encoder(|p.next|, p.numClasses);
    e.EmitAnchors(p);
    assert e.written == Anchors(p, |p.pis|);
    var canBeIn := StatesThatCanBeInClass(p);
    e.EmitCoverage(p);
    e.EmitUnits(p);
    e.EmitPairs(p);
    var reduced := ComputeReducedInputAlphabet(p.maxInput, p.next);
    e.EmitClosure(p, canBeIn, reduced);
    literalToStateClass := e.LiteralToStateClass();
    clauses := e.clauses;
    vars := e.vars;
    forall l | 0 <= l < |vars| && vars[l].X? ensures vars[l].s < |p.next| && vars[l].c < p.numClasses {
      assert VarOk(vars[l], e.nStates, e.numClasses, e.usedRounds);
    }
  }
}

=== FILE: DisjointInputs.dfy ===
/**
 * getDisjointInputSet (minimizer.cpp): for one class of compatible states,
 * a set of pairwise disjoint input patterns (the atomic inputs of the
 * class) such that every transition input of a member is exactly the union
 * of the atomic inputs it contains.
 *
 * The working set `disjointInputs` is a sequence of distinct patterns
 * (insertion appends a pattern that is not there yet, erasure drops it);
 * its iteration order is the order of the sequence.  The queue
 * `remainingInputs` is a sequence with a head index.
 */
module DisjointInputs {
  import opened Patterns
  import opened Machines

  // ---------------------------------------------------------------------
  // The working set
  // ---------------------------------------------------------------------

  /** unordered_set::insert: add p unless an equal pattern is already there. */
  function Insert(D: seq<Pattern>, p: Pattern): (r: seq<Pattern>)
    ensures forall q :: q in r <==> q in D || q == p
    ensures |D| <= |r| && r[..|D|] == D
    ensures Distinct(D) ==> Distinct(r)
  {
    if p in D then D else D + [p]
  }

  /** Insert every element of ps, in order. */
  function InsertAll(D: seq<Pattern>, ps: seq<Pattern>): (r: seq<Pattern>)
    ensures forall q :: q in r <==> q in D || q in ps
    ensures |D| <= |r| && r[..|D|] == D
    ensures Distinct(D) ==> Distinct(r)
    decreases |ps|
  {
    if ps == [] then D else InsertAll(Insert(D, ps[0]), ps[1..])
  }

  lemma {:induction false} InsertAllSnoc(D: seq<Pattern>, ps: seq<Pattern>, p: Pattern)
    ensures InsertAll(D, ps + [p]) == Insert(InsertAll(D, ps), p)
    decreases |ps|
  {
    if ps == [] {
      assert InsertAll(Insert(D, p), []) == Insert(D, p);
    } else {
      assert (ps + [p])[1..] == ps[1..] + [p];
      InsertAllSnoc(Insert(D, ps[0]), ps[1..], p);
    }
  }

  lemma {:induction false} InsertAllPresent(D: seq<Pattern>, ps: seq<Pattern>)
    requires forall p :: p in ps ==> p in D
    ensures InsertAll(D, ps) == D
    decreases |ps|
  {
    if ps != [] {
      InsertAllPresent(D, ps[1..]);
    }
  }

  /** unordered_set::erase of the element at position i. */
  function Remove(D: seq<Pattern>, i: nat): (r: seq<Pattern>)
    requires i < |D|
    ensures Distinct(D) ==> Distinct(r) && forall q :: q in r <==> q in D && q != D[i]
  {
    D[..i] + D[i + 1..]
  }

  /** The patterns of ps are pairwise disjoint (compared as contents). */
  predicate PairwiseDisjoint(ps: seq<Pattern>) {
    forall p, q :: p in ps && q in ps && p != q ==> |p| == |q| && Disjoint(p, q)
  }

  // ---------------------------------------------------------------------
  // Termination measure: the number of words the pending patterns match
  // ---------------------------------------------------------------------

  function Pow2(k: nat): (r: nat)
    ensures r >= 1
  {
    if k == 0 then 1 else 2 * Pow2(k - 1)
  }

  /** The sum of 2^FreeCount over ps: the words matched, counted with multiplicity. */
  function Weight(ps: seq<Pattern>): nat {
    if ps == [] then 0 else Pow2(FreeCount(ps[0])) + Weight(ps[1..])
  }

  lemma {:induction false} WeightAppend(a: seq<Pattern>, b: seq<Pattern>)
    ensures Weight(a + b) == Weight(a) + Weight(b)
    decreases |a|
  {
    if a == [] {
      assert a + b == b;
    } else {
      assert (a + b)[0] == a[0] && (a + b)[1..] == a[1..] + b;
      WeightAppend(a[1..], b);
    }
  }

  /** The fragments of diff together weigh less than the pattern they were cut from. */
  lemma {:induction false} DiffWeight(r: seq<Pattern>, f: nat)
    requires |r| <= f && forall k :: 0 <= k < |r| ==> FreeCount(r[k]) + k + 1 == f
    ensures Weight(r) + Pow2(f - |r|) == Pow2(f)
    decreases |r|
  {
    if r != [] {
      var rest := r[1..];
      forall k | 0 <= k < |rest| ensures FreeCount(rest[k]) + k + 1 == f - 1 {
        assert rest[k] == r[k + 1];
      }
      DiffWeight(rest, f - 1);
    }
  }

  lemma {:induction false} PendingWeight(wl: seq<Pattern>, head: nat, r: seq<Pattern>)
    requires head < |wl| && |r| <= FreeCount(wl[head])
    requires forall k :: 0 <= k < |r| ==> FreeCount(r[k]) + k + 1 == FreeCount(wl[head])
    ensures Weight((wl + r)[head + 1..]) < Weight(wl[head..])
  {
    assert (wl + r)[head + 1..] == wl[head + 1..] + r;
    assert wl[head..][1..] == wl[head + 1..];
    WeightAppend(wl[head + 1..], r);
    DiffWeight(r, FreeCount(wl[head]));
  }

  lemma {:induction false} HeadWeight(wl: seq<Pattern>, head: nat)
    requires head < |wl|
    ensures Weight(wl[head + 1..]) < Weight(wl[head..])
  {
    assert wl[head..][1..] == wl[head + 1..];
  }

  // ---------------------------------------------------------------------
  // Coverage
  // ---------------------------------------------------------------------

  /** p lies within one of the original patterns A. */
  ghost predicate Within(p: Pattern, A: seq<Pattern>) {
    exists a :: a in A && |a| == |p| && Subset(p, a)
  }

  /** Word w of a is matched by a member of D that lies within a. */
  ghost predicate Covered(D: seq<Pattern>, a: Pattern, w: Word) {
    exists d :: d in D && |d| == |a| && Subset(d, a) && Matches(d, w)
  }

  /** Word w of a is matched by a queued pattern (from head on) that lies within a. */
  ghost predicate Pending(wl: seq<Pattern>, head: nat, a: Pattern, w: Word) {
    exists j :: head <= j < |wl| && |wl[j]| == |a| && Subset(wl[j], a) && Matches(wl[j], w)
  }

  /** Every word of every member of D is matched by a member of D' within it. */
  ghost predicate Refines(D': seq<Pattern>, D: seq<Pattern>) {
    forall d, w {:trigger Covered(D', d, w)} :: d in D && Matches(d, w) ==> Covered(D', d, w)
  }

  lemma {:induction false} WithinTransitive(p: Pattern, q: Pattern, A: seq<Pattern>)
    requires |p| == |q| && Subset(p, q) && Within(q, A)
    ensures Within(p, A)
  {
    var a :| a in A && |a| == |q| && Subset(q, a);
    SubsetTransitive(p, q, a);
  }

  lemma {:induction false} CoveredTransitive(D: seq<Pattern>, a: Pattern, b: Pattern, w: Word)
    requires |a| == |b| && Subset(a, b) && Covered(D, a, w)
    ensures Covered(D, b, w)
  {
    var d :| d in D && |d| == |a| && Subset(d, a) && Matches(d, w);
    SubsetTransitive(d, a, b);
  }

  lemma {:induction false} CoveredBySelf(D: seq<Pattern>, a: Pattern, w: Word)
    requires a in D && Matches(a, w)
    ensures Covered(D, a, w)
  {
    SubsetReflexive(a);
  }

  lemma {:induction false} RefinesSuperset(D': seq<Pattern>, D: seq<Pattern>)
    requires forall q :: q in D ==> q in D'
    ensures Refines(D', D)
  {
    forall d, w | d in D && Matches(d, w) ensures Covered(D', d, w) {
      CoveredBySelf(D', d, w);
    }
  }

  /**
   * Splitting D[i] into the parts ps of a partition of it, while keeping the
   * other members, refines D and keeps it pairwise disjoint.
   */
  lemma {:induction false} SplitRefines(D: seq<Pattern>, i: nat, ps: seq<Pattern>, D': seq<Pattern>)
    requires Distinct(D) && i < |D| && Partitions(D[i], ps)
    requires forall q :: q in D && q != D[i] ==> q in D'
    requires forall q :: q in ps ==> q in D'
    ensures Refines(D', D)
  {
    forall d, w | d in D && Matches(d, w) ensures Covered(D', d, w) {
      if d == D[i] {
        var k :| 0 <= k < |ps| && Matches(ps[k], w);
        assert ps[k] in D';
      } else {
        CoveredBySelf(D', d, w);
      }
    }
  }

  lemma {:induction false} SplitDisjoint(D: seq<Pattern>, i: nat, ps: seq<Pattern>, D': seq<Pattern>)
    requires i < |D| && PairwiseDisjoint(D) && Partitions(D[i], ps)
    requires forall q :: q in D' ==> (q in D && q != D[i]) || q in ps
    ensures PairwiseDisjoint(D')
  {
    var d := D[i];
    forall p, q | p in D' && q in D' && p != q ensures |p| == |q| && Disjoint(p, q) {
      if p in ps && q in ps {
        var k :| 0 <= k < |ps| && ps[k] == p;
        var l :| 0 <= l < |ps| && ps[l] == q;
        if l < k {
          CompatibleSymmetric(q, p);
        }
      } else if p in ps {
        var k :| 0 <= k < |ps| && ps[k] == p;
        SubsetKeepsDisjoint(p, d, q);
      } else if q in ps {
        var l :| 0 <= l < |ps| && ps[l] == q;
        SubsetKeepsDisjoint(q, d, p);
        CompatibleSymmetric(q, p);
      }
    }
  }

  // ---------------------------------------------------------------------
  // The refinement loop (lines 512-562)
  // ---------------------------------------------------------------------

  /** The queue starts with the originals A and holds patterns of width ni within them. */
  ghost predicate QueueOk(A: seq<Pattern>, ni: nat, wl: seq<Pattern>, head: nat) {
    && |A| <= |wl| && wl[..|A|] == A && head <= |wl|
    && (forall j :: 0 <= j < |wl| ==> |wl[j]| == ni)
    && (forall j {:trigger Within(wl[j], A)} :: 0 <= j < |wl| ==> Within(wl[j], A))
  }

  /** The working set holds distinct patterns of width ni within the originals. */
  ghost predicate SetOk(A: seq<Pattern>, ni: nat, D: seq<Pattern>) {
    Distinct(D) && forall p :: p in D ==> |p| == ni && Within(p, A)
  }

  /** Every word of a processed entry is matched by a member or a pending entry within it. */
  ghost predicate CoverOk(D: seq<Pattern>, wl: seq<Pattern>, head: nat) {
    forall k, w {:trigger Covered(D, wl[k], w)} {:trigger Pending(wl, head, wl[k], w)} ::
      0 <= k < head <= |wl| && Matches(wl[k], w) ==> Covered(D, wl[k], w) || Pending(wl, head, wl[k], w)
  }

  /**
   * The refinement loop before queue entry head.  A are the original
   * patterns (the first |A| queue entries), D0 the initial working set.
   * The working set stays disjoint when it started disjoint, and when every
   * original is already in D0 nothing changes.
   */
  ghost predicate RefineInv(A: seq<Pattern>, ni: nat, D0: seq<Pattern>, D: seq<Pattern>, wl: seq<Pattern>, head: nat)
  {
    && QueueOk(A, ni, wl, head) && SetOk(A, ni, D) && CoverOk(D, wl, head)
    && (PairwiseDisjoint(D0) ==> PairwiseDisjoint(D))
    && ((forall a :: a in A ==> a in D0) ==> D == D0 && wl == A)
  }

  lemma {:induction false} QueueAdvance(A: seq<Pattern>, ni: nat, wl: seq<Pattern>, head: nat, wl': seq<Pattern>)
    requires QueueOk(A, ni, wl, head) && head < |wl|
    requires |wl| <= |wl'| && wl'[..|wl|] == wl
    requires forall j :: |wl| <= j < |wl'| ==> |wl'[j]| == ni && Within(wl'[j], A)
    ensures QueueOk(A, ni, wl', head + 1)
  {
    forall j | 0 <= j < |wl'| ensures |wl'[j]| == ni && Within(wl'[j], A) {
      if j < |wl| {
        assert wl'[j] == wl[j];
      }
    }
    assert wl'[..|A|] == wl'[..|wl|][..|A|];
  }

  /** Coverage of one word of an earlier entry wl[k] survives the iteration. */
  lemma {:induction false} CoverOne(D: seq<Pattern>, wl: seq<Pattern>, head: nat, D': seq<Pattern>, wl': seq<Pattern>, k: nat, w: Word)
    requires CoverOk(D, wl, head) && k < head < |wl| && Matches(wl[k], w)
    requires forall j :: 0 <= j < |wl| ==> |wl[j]| == |wl[k]|
    requires |wl| <= |wl'| && wl'[..|wl|] == wl
    requires Refines(D', D)
    requires forall v :: Matches(wl[head], v) ==> Covered(D', wl[head], v) || Pending(wl', head + 1, wl[head], v)
    ensures Covered(D', wl[k], w) || Pending(wl', head + 1, wl[k], w)
  {
    var x := wl[head];
    if Covered(D, wl[k], w) {
      var d :| d in D && |d| == |wl[k]| && Subset(d, wl[k]) && Matches(d, w);
      CoveredTransitive(D', d, wl[k], w);
    } else {
      var j :| head <= j < |wl| && |wl[j]| == |wl[k]| && Subset(wl[j], wl[k]) && Matches(wl[j], w);
      assert wl'[j] == wl[j];
      if j == head {
        if Covered(D', x, w) {
          CoveredTransitive(D', x, wl[k], w);
        } else {
          var j' :| head + 1 <= j' < |wl'| && |wl'[j']| == |x| && Subset(wl'[j'], x) && Matches(wl'[j'], w);
          SubsetTransitive(wl'[j'], x, wl[k]);
        }
      }
    }
  }

  lemma {:induction false} CoverAdvance(A: seq<Pattern>, ni: nat, D: seq<Pattern>, wl: seq<Pattern>, head: nat, D': seq<Pattern>, wl': seq<Pattern>)
    requires CoverOk(D, wl, head) && QueueOk(A, ni, wl, head) && head < |wl|
    requires |wl| <= |wl'| && wl'[..|wl|] == wl
    requires Refines(D', D)
    requires forall v :: Matches(wl[head], v) ==> Covered(D', wl[head], v) || Pending(wl', head + 1, wl[head], v)
    ensures CoverOk(D', wl', head + 1)
  {
    forall k, w | 0 <= k < head + 1 <= |wl'| && Matches(wl'[k], w)
      ensures Covered(D', wl'[k], w) || Pending(wl', head + 1, wl'[k], w)
    {
      assert wl'[k] == wl[k];
      if k < head {
        CoverOne(D, wl, head, D', wl', k, w);
      }
    }
  }

  /**
   * One iteration in general: the new working set refines the old one, the
   * queue only grows, and the entry just taken is now covered.
   */
  lemma {:induction false} Advance(A: seq<Pattern>, ni: nat, D0: seq<Pattern>, D: seq<Pattern>, wl: seq<Pattern>, head: nat,
                D': seq<Pattern>, wl': seq<Pattern>)
    requires RefineInv(A, ni, D0, D, wl, head) && head < |wl|
    requires |wl| <= |wl'| && wl'[..|wl|] == wl
    requires SetOk(A, ni, D')
    requires forall j :: |wl| <= j < |wl'| ==> |wl'[j]| == ni && Within(wl'[j], A)
    requires Refines(D', D)
    requires forall w :: Matches(wl[head], w) ==> Covered(D', wl[head], w) || Pending(wl', head + 1, wl[head], w)
    requires PairwiseDisjoint(D) ==> PairwiseDisjoint(D')
    requires wl[head] !in D || (D' == D && wl' == wl)
    ensures RefineInv(A, ni, D0, D', wl', head + 1)
  {
    QueueAdvance(A, ni, wl, head, wl');
    CoverAdvance(A, ni, D, wl, head, D', wl');
    if forall a :: a in A ==> a in D0 {
      assert wl[head] == A[head];
    }
  }

  /** Line 516: an entry already in the working set is skipped. */
  lemma {:induction false} SkipCase(A: seq<Pattern>, ni: nat, D0: seq<Pattern>, D: seq<Pattern>, wl: seq<Pattern>, head: nat)
    requires RefineInv(A, ni, D0, D, wl, head) && head < |wl| && wl[head] in D
    ensures RefineInv(A, ni, D0, D, wl, head + 1)
  {
    RefinesSuperset(D, D);
    forall w | Matches(wl[head], w) ensures Covered(D, wl[head], w) {
      CoveredBySelf(D, wl[head], w);
    }
    Advance(A, ni, D0, D, wl, head, D, wl);
  }

  /** Lines 556-558: an entry that overlaps no member is inserted. */
  lemma {:induction false} FreshCase(A: seq<Pattern>, ni: nat, D0: seq<Pattern>, D: seq<Pattern>, wl: seq<Pattern>, head: nat)
    requires RefineInv(A, ni, D0, D, wl, head) && head < |wl| && wl[head] !in D
    requires forall p :: p in D ==> Disjoint(p, wl[head])
    ensures RefineInv(A, ni, D0, Insert(D, wl[head]), wl, head + 1)
  {
    var x := wl[head];
    var D' := Insert(D, x);
    RefinesSuperset(D', D);
    forall w | Matches(x, w) ensures Covered(D', x, w) {
      CoveredBySelf(D', x, w);
    }
    if PairwiseDisjoint(D) {
      forall p, q | p in D' && q in D' && p != q ensures |p| == |q| && Disjoint(p, q) {
        if q == x {
        } else if p == x {
          CompatibleSymmetric(q, p);
        }
      }
    }
    Advance(A, ni, D0, D, wl, head, D', wl);
  }

  /** Moving the last part of a partition to the front keeps it a partition. */
  lemma {:induction false} RotatePartition(a: Pattern, qs: seq<Pattern>, ps: seq<Pattern>)
    requires Partitions(a, qs) && |qs| >= 1
    requires ps == [qs[|qs| - 1]] + qs[..|qs| - 1]
    ensures Partitions(a, ps)
  {
    var n := |qs| - 1;
    assert forall k :: 0 < k < |ps| ==> ps[k] == qs[k - 1];
    assert ps[0] == qs[n];
    forall k, l | 0 <= k < l < |ps| ensures Disjoint(ps[k], ps[l]) {
      if k == 0 {
        CompatibleSymmetric(qs[l - 1], qs[n]);
      }
    }
    forall w | Matches(a, w) ensures exists k :: 0 <= k < |ps| && Matches(ps[k], w) {
      var k :| 0 <= k < |qs| && Matches(qs[k], w);
      if k == n {
        assert Matches(ps[0], w);
      } else {
        assert Matches(ps[k + 1], w);
      }
    }
  }

  /**
   * Splitting d by an overlapping x: the intersection followed by the
   * fragments of diff partitions d, and every part lies within what d lies
   * within.
   */
  lemma {:induction false} SplitParts(A: seq<Pattern>, d: Pattern, x: Pattern, ps: seq<Pattern>)
    requires |d| == |x| && !Disjoint(d, x) && Within(d, A)
    requires ps == [Intersect(d, x)] + DiffFrom(d, x, 0)
    ensures Partitions(d, ps)
    ensures forall q :: q in ps ==> |q| == |d| && Within(q, A)
  {
    var qs := DiffFrom(d, x, 0) + [Intersect(d, x)];
    DisjointIsNotCompatible(d, x);
    DiffPartition(d, x);
    assert qs[..|qs| - 1] == DiffFrom(d, x, 0);
    RotatePartition(d, qs, ps);
    forall q | q in ps ensures |q| == |d| && Within(q, A) {
      var k :| 0 <= k < |ps| && ps[k] == q;
      WithinTransitive(q, d, A);
    }
  }

  /** Splitting x by an overlapping d: every word of x is in x ∩ d or in a fragment of diff(x, d). */
  lemma {:induction false} QueuedParts(A: seq<Pattern>, x: Pattern, d: Pattern, wl: seq<Pattern>, head: nat, diff: seq<Pattern>, ni: nat)
    requires |d| == |x| == ni && !Disjoint(d, x) && Within(x, A) && head < |wl|
    requires diff == DiffFrom(x, d, 0)
    ensures forall j :: |wl| <= j < |wl + diff| ==> |(wl + diff)[j]| == ni && Within((wl + diff)[j], A)
    ensures forall w :: Matches(x, w) ==> Matches(Intersect(x, d), w) || Pending(wl + diff, head + 1, x, w)
  {
    var wl' := wl + diff;
    CompatibleSymmetric(d, x);
    SplitParts(A, x, d, [Intersect(x, d)] + diff);
    forall j | |wl| <= j < |wl'| ensures |wl'[j]| == ni && Within(wl'[j], A) {
      assert wl'[j] == ([Intersect(x, d)] + diff)[j - |wl| + 1];
    }
    forall w | Matches(x, w) ensures Matches(Intersect(x, d), w) || Pending(wl', head + 1, x, w) {
      var ps := [Intersect(x, d)] + diff;
      var k :| 0 <= k < |ps| && Matches(ps[k], w);
      if k > 0 {
        assert wl'[|wl| + k - 1] == diff[k - 1] == ps[k];
      }
    }
  }

  /** Lines 520-527: x lies within the member d = D[i]; d is split into x and the rest of d. */
  lemma {:induction false} InnerCase(A: seq<Pattern>, ni: nat, D0: seq<Pattern>, D: seq<Pattern>, wl: seq<Pattern>, head: nat,
                  i: nat, diff: seq<Pattern>)
    requires RefineInv(A, ni, D0, D, wl, head) && head < |wl| && wl[head] !in D
    requires i < |D| && !Disjoint(D[i], wl[head]) && Subset(wl[head], D[i])
    requires diff == DiffFrom(D[i], wl[head], 0)
    ensures RefineInv(A, ni, D0, InsertAll(Remove(D, i), [Intersect(D[i], wl[head])] + diff), wl, head + 1)
  {
    var x := wl[head];
    var d := D[i];
    var ps := [Intersect(d, x)] + diff;
    var D' := InsertAll(Remove(D, i), ps);
    SplitParts(A, d, x, ps);
    SplitRefines(D, i, ps, D');
    IntersectWithSuperset(x, d);
    assert x in D';
    forall w | Matches(x, w) ensures Covered(D', x, w) {
      CoveredBySelf(D', x, w);
    }
    if PairwiseDisjoint(D) {
      SplitDisjoint(D, i, ps, D');
    }
    Advance(A, ni, D0, D, wl, head, D', wl);
  }

  /** Lines 528-533: the member d = D[i] lies within x; the rest of x is queued. */
  lemma {:induction false} OuterCase(A: seq<Pattern>, ni: nat, D0: seq<Pattern>, D: seq<Pattern>, wl: seq<Pattern>, head: nat,
                  i: nat, diff: seq<Pattern>)
    requires RefineInv(A, ni, D0, D, wl, head) && head < |wl| && wl[head] !in D
    requires i < |D| && !Disjoint(D[i], wl[head]) && Subset(D[i], wl[head])
    requires diff == DiffFrom(wl[head], D[i], 0)
    ensures RefineInv(A, ni, D0, D, wl + diff, head + 1)
  {
    var x := wl[head];
    var d := D[i];
    QueuedParts(A, x, d, wl, head, diff, ni);
    IntersectWithSuperset(d, x);
    RefinesSuperset(D, D);
    forall w | Matches(x, w) ensures Covered(D, x, w) || Pending(wl + diff, head + 1, x, w) {
      if Matches(d, w) {
        assert Covered(D, x, w);
      }
    }
    Advance(A, ni, D0, D, wl, head, D, wl + diff);
  }

  /** In the crossing case no part of d equals d: the intersection lies within x and d does not; the rest avoids x. */
  lemma {:induction false} CrossPartsNew(d: Pattern, x: Pattern, ps: seq<Pattern>)
    requires |d| == |x| && !Disjoint(d, x) && !Subset(d, x)
    requires ps == [Intersect(d, x)] + DiffFrom(d, x, 0)
    ensures d !in ps
  {
    DisjointIsNotCompatible(d, x);
    DiffShape(d, x);
    forall k | 0 <= k < |ps| ensures ps[k] != d {
      if k > 0 {
        assert ps[k] == DiffFrom(d, x, 0)[k - 1];
      }
    }
  }

  /**
   * Lines 534-551: d = D[i] and x overlap without either containing the
   * other; d is replaced by its parts and the rest of x is queued.
   */
  lemma {:induction false} CrossCase(A: seq<Pattern>, ni: nat, D0: seq<Pattern>, D: seq<Pattern>, wl: seq<Pattern>, head: nat,
                  i: nat, diff: seq<Pattern>, diff2: seq<Pattern>)
    requires RefineInv(A, ni, D0, D, wl, head) && head < |wl| && wl[head] !in D
    requires i < |D| && !Disjoint(D[i], wl[head]) && !Subset(wl[head], D[i]) && !Subset(D[i], wl[head])
    requires diff == DiffFrom(D[i], wl[head], 0) && diff2 == DiffFrom(wl[head], D[i], 0)
    ensures RefineInv(A, ni, D0, Remove(InsertAll(D, [Intersect(D[i], wl[head])] + diff), i), wl + diff2, head + 1)
  {
    var x := wl[head];
    var d := D[i];
    var inters := Intersect(d, x);
    var ps := [inters] + diff;
    var D1 := InsertAll(D, ps);
    assert D1[i] == d;
    var D' := Remove(D1, i);
    SplitParts(A, d, x, ps);
    CrossPartsNew(d, x, ps);
    SplitRefines(D, i, ps, D');
    QueuedParts(A, x, d, wl, head, diff2, ni);
    IntersectSymmetric(x, d);
    DisjointIsNotCompatible(d, x);
    assert inters in D' && Subset(inters, x);
    forall w | Matches(x, w) ensures Covered(D', x, w) || Pending(wl + diff2, head + 1, x, w) {
      if Matches(inters, w) {
        assert Covered(D', x, w);
      }
    }
    if PairwiseDisjoint(D) {
      SplitDisjoint(D, i, ps, D');
    }
    Advance(A, ni, D0, D, wl, head, D', wl + diff2);
  }

  /** Lines 519-520: the position of the first member that overlaps x, |D| when none does. */
  method FindOverlap(D: seq<Pattern>, x: Pattern) returns (i: nat)
    requires forall p :: p in D ==> |p| == |x|
    ensures i <= |D| && (i < |D| ==> !Disjoint(D[i], x))
    ensures forall j :: 0 <= j < i ==> Disjoint(D[j], x)
  {
    i := 0;
    while i < |D|
      invariant i <= |D| && forall j :: 0 <= j < i ==> Disjoint(D[j], x)
    {
      if !Disjoint(D[i], x) {
        return;
      }
      i := i + 1;
    }
  }

  /** One iteration of the refinement loop: take the head of the queue and refine the working set by it. */
  method RefineStep(ghost A: seq<Pattern>, ghost ni: nat, ghost D0: seq<Pattern>, D: seq<Pattern>, wl: seq<Pattern>, head: nat)
    returns (D': seq<Pattern>, wl': seq<Pattern>)
    requires RefineInv(A, ni, D0, D, wl, head) && head < |wl|
    ensures RefineInv(A, ni, D0, D', wl', head + 1)
    ensures Weight(wl'[head + 1..]) < Weight(wl[head..])
  {
    var x := wl[head];
    if x in D {
      SkipCase(A, ni, D0, D, wl, head);
      HeadWeight(wl, head);
      return D, wl;
    }
    var i := FindOverlap(D, x);
    if i == |D| {
      FreshCase(A, ni, D0, D, wl, head);
      HeadWeight(wl, head);
      return Insert(D, x), wl;
    }
    var d := D[i];
    if Subset(x, d) {
      var inters := Intersect(d, x);
      var diff := Diff(d, x);
      InnerCase(A, ni, D0, D, wl, head, i, diff);
      HeadWeight(wl, head);
      D' := InsertAll(Remove(D, i), [inters] + diff);
      wl' := wl;
    } else if Subset(d, x) {
      var diff := Diff(x, d);
      OuterCase(A, ni, D0, D, wl, head, i, diff);
      PendingWeight(wl, head, diff);
      D' := D;
      wl' := wl + diff;
    } else {
      var inters := Intersect(d, x);
      var diff := Diff(d, x);
      var diff2 := Diff(x, d);
      CrossCase(A, ni, D0, D, wl, head, i, diff, diff2);
      PendingWeight(wl, head, diff2);
      D' := Remove(InsertAll(D, [inters] + diff), i);
      wl' := wl + diff2;
    }
  }

  /**
   * Lines 512-562: refine the working set D0 by every queued pattern until
   * the queue is empty.  Every word of every original pattern is then
   * matched by a member within it, every member lies within an original,
   * and the result is disjoint when D0 was.
   */
  method Refine(ghost ni: nat, D0: seq<Pattern>, A: seq<Pattern>) returns (D: seq<Pattern>)
    requires Distinct(D0) && (forall p :: p in D0 ==> |p| == ni && Within(p, A))
    requires forall a :: a in A ==> |a| == ni
    ensures Distinct(D) && forall p :: p in D ==> |p| == ni && Within(p, A)
    ensures forall a, w :: a in A && Matches(a, w) ==> Covered(D, a, w)
    ensures PairwiseDisjoint(D0) ==> PairwiseDisjoint(D)
    ensures (forall a :: a in A ==> a in D0) ==> D == D0
  {
    D := D0;
    var wl := A;
    var head := 0;
    forall j | 0 <= j < |wl| ensures Within(wl[j], A) {
      SubsetReflexive(wl[j]);
    }
    while head < |wl|
      invariant RefineInv(A, ni, D0, D, wl, head)
      decreases Weight(wl[head..])
    {
      D, wl := RefineStep(A, ni, D0, D, wl, head);
      head := head + 1;
    }
    RefineDone(A, ni, D0, D, wl);
  }

  lemma {:induction false} RefineDone(A: seq<Pattern>, ni: nat, D0: seq<Pattern>, D: seq<Pattern>, wl: seq<Pattern>)
    requires RefineInv(A, ni, D0, D, wl, |wl|)
    ensures forall a, w :: a in A && Matches(a, w) ==> Covered(D, a, w)
  {
    forall a, w | a in A && Matches(a, w) ensures Covered(D, a, w) {
      var k :| 0 <= k < |A| && A[k] == a;
      assert wl[k] == a;
    }
  }

  // ---------------------------------------------------------------------
  // The class and its inputs (lines 466-510)
  // ---------------------------------------------------------------------

  /** State s is a member of the class g and has a transition k. */
  predicate InClass(m: Machine, g: seq<bool>, s: int, k: int) {
    0 <= s < |m| && s < |g| && g[s] && 0 <= k < |m[s]|
  }

  /** p is the input of some transition of a member. */
  ghost predicate ClassInput(m: Machine, g: seq<bool>, p: Pattern) {
    exists s, k :: InClass(m, g, s, k) && m[s][k].input == p
  }

  /** p lies within the input of some transition of a member. */
  ghost predicate WithinClass(m: Machine, g: seq<bool>, p: Pattern) {
    exists s, k :: InClass(m, g, s, k) && |m[s][k].input| == |p| && Subset(p, m[s][k].input)
  }

  lemma {:induction false} InsertAllAppend(D: seq<Pattern>, xs: seq<Pattern>, ys: seq<Pattern>)
    ensures InsertAll(D, xs + ys) == InsertAll(InsertAll(D, xs), ys)
    decreases |xs|
  {
    if xs == [] {
      assert xs + ys == ys;
    } else {
      assert (xs + ys)[0] == xs[0] && (xs + ys)[1..] == xs[1..] + ys;
      InsertAllAppend(Insert(D, xs[0]), xs[1..], ys);
    }
  }

  /** Insert p at the end of InsertAll(D, ps[..k]). */
  lemma InsertNext(D: seq<Pattern>, ps: seq<Pattern>, k: nat)
    requires k < |ps|
    ensures InsertAll(D, ps[..k + 1]) == Insert(InsertAll(D, ps[..k]), ps[k])
  {
    assert ps[..k + 1] == ps[..k] + [ps[k]];
    InsertAllAppend(D, ps[..k], [ps[k]]);
    assert InsertAll(InsertAll(D, ps[..k]), [ps[k]]) == InsertAll(Insert(InsertAll(D, ps[..k]), ps[k]), []);
  }

  /** The first member of the class at or after i, |g| when there is none. */
  function FirstFrom(g: seq<bool>, i: nat): (r: nat)
    requires i <= |g|
    ensures i <= r <= |g| && (forall j :: i <= j < r ==> !g[j]) && (r < |g| ==> g[r])
    decreases |g| - i
  {
    if i == |g| then |g| else if g[i] then i else FirstFrom(g, i + 1)
  }

  /** Lines 470-473: the loop that finds the first member. */
  method FirstMember(g: seq<bool>) returns (s: nat)
    ensures s == FirstFrom(g, 0)
  {
    s := 0;
    while s < |g|
      invariant s <= |g| && FirstFrom(g, s) == FirstFrom(g, 0)
    {
      if g[s] {
        return;
      }
      s := s + 1;
    }
  }

  /**
   * The queue q after offering it the inputs of the first k transitions of
   * ts, each appended unless an equal pattern is already queued.
   */
  function QueueTrans(q: seq<Pattern>, ts: seq<Transition>, k: nat): seq<Pattern>
    requires k <= |ts|
  {
    if k == 0 then q
    else
      var q' := QueueTrans(q, ts, k - 1);
      if ts[k - 1].input in q' then q' else q' + [ts[k - 1].input]
  }

  /** Some input among the first k transitions of ts has an unspecified bit. */
  function PartialTrans(ts: seq<Transition>, k: nat): bool
    requires k <= |ts|
  {
    k > 0 && (PartialTrans(ts, k - 1) || !FullySpecified(ts[k - 1].input))
  }

  /** The queue after the members below state s. */
  function QueueBelow(m: Machine, g: seq<bool>, s: nat): seq<Pattern>
    requires |g| == |m| && s <= |m|
  {
    if s == 0 then []
    else
      var q := QueueBelow(m, g, s - 1);
      if g[s - 1] then QueueTrans(q, m[s - 1], |m[s - 1]|) else q
  }

  /** Some member below state s has an input with an unspecified bit. */
  function PartialBelow(m: Machine, g: seq<bool>, s: nat): bool
    requires |g| == |m| && s <= |m|
  {
    s > 0 && (PartialBelow(m, g, s - 1) || (g[s - 1] && PartialTrans(m[s - 1], |m[s - 1]|)))
  }

  lemma {:induction false} QueueTransContent(q: seq<Pattern>, ts: seq<Transition>, k: nat)
    requires k <= |ts|
    ensures Distinct(q) ==> Distinct(QueueTrans(q, ts, k))
    ensures forall p :: p in QueueTrans(q, ts, k) <==> p in q || exists j :: 0 <= j < k && ts[j].input == p
  {
    if k > 0 {
      QueueTransContent(q, ts, k - 1);
    }
  }

  lemma {:induction false} PartialTransIff(ts: seq<Transition>, k: nat)
    requires k <= |ts|
    ensures !PartialTrans(ts, k) <==> forall j :: 0 <= j < k ==> FullySpecified(ts[j].input)
  {
    if k > 0 {
      PartialTransIff(ts, k - 1);
    }
  }

  /** The queue after the members below s holds each of their inputs once. */
  lemma {:induction false} QueueBelowContent(m: Machine, g: seq<bool>, s: nat)
    requires |g| == |m| && s <= |m|
    ensures Distinct(QueueBelow(m, g, s))
    ensures forall p :: p in QueueBelow(m, g, s) <==> exists t, k :: t < s && InClass(m, g, t, k) && m[t][k].input == p
  {
    if s > 0 {
      var q := QueueBelow(m, g, s - 1);
      QueueBelowContent(m, g, s - 1);
      if g[s - 1] {
        QueueTransContent(q, m[s - 1], |m[s - 1]|);
      }
      forall p ensures p in QueueBelow(m, g, s) <==> exists t, k :: t < s && InClass(m, g, t, k) && m[t][k].input == p {
        if p in QueueBelow(m, g, s) && p !in q {
          var j :| 0 <= j < |m[s - 1]| && m[s - 1][j].input == p;
          assert InClass(m, g, s - 1, j);
        }
        if exists t, k :: t < s && InClass(m, g, t, k) && m[t][k].input == p {
          var t, k :| t < s && InClass(m, g, t, k) && m[t][k].input == p;
          if t == s - 1 {
            assert m[s - 1][k].input == p;
          } else {
            assert p in q;
          }
        }
      }
    }
  }

  /** The flag is clear exactly when every input of every member below s is fully specified. */
  lemma {:induction false} PartialBelowIff(m: Machine, g: seq<bool>, s: nat)
    requires |g| == |m| && s <= |m|
    ensures !PartialBelow(m, g, s) <==> forall t, k :: t < s && InClass(m, g, t, k) ==> FullySpecified(m[t][k].input)
  {
    if s > 0 {
      PartialBelowIff(m, g, s - 1);
      PartialTransIff(m[s - 1], |m[s - 1]|);
      if forall t, k :: t < s && InClass(m, g, t, k) ==> FullySpecified(m[t][k].input) {
        assert forall t, k :: t < s - 1 && InClass(m, g, t, k) ==> FullySpecified(m[t][k].input);
        if g[s - 1] {
          var ts := m[s - 1];
          forall j | 0 <= j < |ts| ensures FullySpecified(ts[j].input) {
            assert InClass(m, g, s - 1, j);
          }
        }
      }
    }
  }

  lemma {:induction false} QueueBelowNone(m: Machine, g: seq<bool>, s: nat)
    requires |g| == |m| && s <= |m| && forall t :: 0 <= t < s ==> !g[t]
    ensures QueueBelow(m, g, s) == [] && !PartialBelow(m, g, s)
  {
    if s > 0 {
      QueueBelowNone(m, g, s - 1);
    }
  }

  /** Distinct fully specified patterns of one width are disjoint. */
  lemma FullySpecifiedDisjoint(a: Pattern, b: Pattern)
    requires |a| == |b| && FullySpecified(a) && FullySpecified(b) && a != b
    ensures Disjoint(a, b)
  {
    assert !(forall i :: 0 <= i < |a| ==> a[i] == b[i]);
    var i :| 0 <= i < |a| && a[i] != b[i];
  }

  /** Lines 500-510: without unspecified bits the originals are already disjoint and are used as they are. */
  method UnionAll(seed: seq<Pattern>, queue: seq<Pattern>) returns (D: seq<Pattern>)
    ensures D == InsertAll(seed, queue)
  {
    D := seed;
    var head := 0;
    while head < |queue|
      invariant head <= |queue| && D == InsertAll(seed, queue[..head])
    {
      InsertNext(seed, queue, head);
      D := Insert(D, queue[head]);
      head := head + 1;
    }
    assert queue[..|queue|] == queue;
  }

  /**
   * The working set held against the originals A, all of width ni: what
   * the refinement loop delivers, and also what the union of fully specified
   * originals delivers.
   */
  lemma FullySpecifiedUnion(ni: nat, seed: seq<Pattern>, A: seq<Pattern>, D: seq<Pattern>)
    requires forall a :: a in A ==> |a| == ni && FullySpecified(a)
    requires Distinct(seed) && forall p :: p in seed ==> p in A
    requires D == InsertAll(seed, A)
    ensures Distinct(D) && PairwiseDisjoint(D) && (forall p :: p in D <==> p in A)
    ensures forall p :: p in D ==> |p| == ni && Within(p, A)
    ensures forall a, w :: a in A && Matches(a, w) ==> Covered(D, a, w)
    ensures (forall a :: a in A ==> a in seed) ==> D == seed
  {
    if forall a :: a in A ==> a in seed {
      InsertAllPresent(seed, A);
    }
    forall p, q | p in D && q in D && p != q ensures |p| == |q| && Disjoint(p, q) {
      FullySpecifiedDisjoint(p, q);
    }
    forall p | p in D ensures |p| == ni && Within(p, A) {
      SubsetReflexive(p);
    }
    forall a, w | a in A && Matches(a, w) ensures Covered(D, a, w) {
      CoveredBySelf(D, a, w);
    }
  }

  /**
   * Lines 478-483 and 490-496: offer the inputs of one state's transitions
   * to q, each appended unless an equal pattern is already there, and set
   * the flag f when one of them has an unspecified bit.
   */
  method OfferInputs(ts: seq<Transition>, q: seq<Pattern>, f: bool) returns (q': seq<Pattern>, f': bool)
    ensures q' == QueueTrans(q, ts, |ts|) && f' == (f || PartialTrans(ts, |ts|))
  {
    q', f' := q, f;
    var k := 0;
    while k < |ts|
      invariant k <= |ts| && q' == QueueTrans(q, ts, k) && f' == (f || PartialTrans(ts, k))
    {
      var input := ts[k].input;
      if !FullySpecified(input) {
        f' := true;
      }
      if input !in q' {
        q' := q' + [input];
      }
      k := k + 1;
    }
  }

  /**
   * Lines 486-498: queue every distinct input of the members from s0 on, in
   * state and transition order, and set the flag f when one of them has an
   * unspecified bit.
   */
  method CollectInputs(m: Machine, g: seq<bool>, s0: nat, f: bool) returns (queue: seq<Pattern>, f': bool)
    requires |g| == |m| && s0 <= |m| && forall t :: 0 <= t < s0 ==> !g[t]
    ensures queue == QueueBelow(m, g, |m|) && f' == (f || PartialBelow(m, g, |m|))
  {
    queue, f' := [], f;
    QueueBelowNone(m, g, s0);
    var s := s0;
    while s < |m|
      invariant s0 <= s <= |m| && queue == QueueBelow(m, g, s) && f' == (f || PartialBelow(m, g, s))
    {
      if g[s] {
        queue, f' := OfferInputs(m[s], queue, f');
      }
      s := s + 1;
    }
  }

  /** The queue holds exactly the inputs of the class, and the flag says whether one of them has an unspecified bit. */
  lemma {:induction false} QueueIsClassInputs(m: Machine, g: seq<bool>, ni: nat, no: nat)
    requires Widths(m, ni, no) && |g| == |m|
    ensures Distinct(QueueBelow(m, g, |m|))
    ensures forall p :: p in QueueBelow(m, g, |m|) <==> ClassInput(m, g, p)
    ensures forall p :: p in QueueBelow(m, g, |m|) ==> |p| == ni
    ensures !PartialBelow(m, g, |m|) <==> forall s, k :: InClass(m, g, s, k) ==> FullySpecified(m[s][k].input)
    ensures !PartialBelow(m, g, |m|) ==> forall p :: p in QueueBelow(m, g, |m|) ==> FullySpecified(p)
  {
    QueueBelowContent(m, g, |m|);
    PartialBelowIff(m, g, |m|);
    forall p | p in QueueBelow(m, g, |m|) ensures |p| == ni && (!PartialBelow(m, g, |m|) ==> FullySpecified(p)) {
      var s, k :| s < |m| && InClass(m, g, s, k) && m[s][k].input == p;
    }
  }

  /** Facts about the working set relative to the queue, restated for the class. */
  lemma {:induction false} ClassResult(m: Machine, g: seq<bool>, ni: nat, no: nat, A: seq<Pattern>, D: seq<Pattern>)
    requires Widths(m, ni, no) && |g| == |m| && forall p :: p in A <==> ClassInput(m, g, p)
    requires forall p :: p in D ==> |p| == ni && Within(p, A)
    requires forall a, w :: a in A && Matches(a, w) ==> Covered(D, a, w)
    ensures forall p :: p in D ==> |p| == ni && WithinClass(m, g, p)
    ensures forall s, k, w :: InClass(m, g, s, k) && Matches(m[s][k].input, w) ==> Covered(D, m[s][k].input, w)
  {
    forall p | p in D ensures |p| == ni && WithinClass(m, g, p) {
      var a :| a in A && |a| == |p| && Subset(p, a);
      assert ClassInput(m, g, a);
      var s, k :| InClass(m, g, s, k) && m[s][k].input == a;
    }
    forall s, k, w | InClass(m, g, s, k) && Matches(m[s][k].input, w) ensures Covered(D, m[s][k].input, w) {
      assert ClassInput(m, g, m[s][k].input);
    }
  }

  /**
   * Lines 466-571 with the working set started empty: the atomic inputs of
   * the class.  They are distinct and pairwise disjoint, each lies within
   * an input of a member, every word of every member's input is matched by
   * an atomic input lying within it, and when every input is fully
   * specified they are exactly the inputs of the members.
   */
  method GetDisjointInputSet(m: Machine, g: seq<bool>, ghost ni: nat, ghost no: nat) returns (D: seq<Pattern>)
    requires Widths(m, ni, no) && |g| == |m|
    ensures Distinct(D) && PairwiseDisjoint(D)
    ensures forall p :: p in D ==> |p| == ni && WithinClass(m, g, p)
    ensures forall s, k, w :: InClass(m, g, s, k) && Matches(m[s][k].input, w) ==> Covered(D, m[s][k].input, w)
    ensures (forall s, k :: InClass(m, g, s, k) ==> FullySpecified(m[s][k].input)) ==>
              forall p :: p in D <==> ClassInput(m, g, p)
    ensures (forall s :: 0 <= s < |g| ==> !g[s]) ==> D == []
  {
    var s0 := FirstMember(g);
    if s0 >= |m| {
      return [];
    }
    var queue, nonFull := CollectInputs(m, g, s0, false);
    QueueReady(m, g, ni, no, queue, nonFull);
    D := Atomize(ni, [], queue, nonFull);
    UnseededResult(m, g, ni, no, queue, nonFull, D);
  }

  /** What Atomize needs of the queue of lines 466-499 with an empty seed. */
  lemma {:induction false} QueueReady(m: Machine, g: seq<bool>, ni: nat, no: nat, queue: seq<Pattern>, nonFull: bool)
    requires Widths(m, ni, no) && |g| == |m|
    requires queue == QueueBelow(m, g, |m|) && nonFull == PartialBelow(m, g, |m|)
    ensures forall a :: a in queue ==> |a| == ni
    ensures !nonFull ==> forall a :: a in queue ==> FullySpecified(a)
  {
    QueueIsClassInputs(m, g, ni, no);
  }

  /** The postconditions of GetDisjointInputSet from those of Atomize with an empty seed. */
  lemma {:induction false} UnseededResult(m: Machine, g: seq<bool>, ni: nat, no: nat, queue: seq<Pattern>, nonFull: bool, D: seq<Pattern>)
    requires Widths(m, ni, no) && |g| == |m|
    requires queue == QueueBelow(m, g, |m|) && nonFull == PartialBelow(m, g, |m|)
    requires forall p :: p in D ==> |p| == ni && Within(p, queue)
    requires forall a, w :: a in queue && Matches(a, w) ==> Covered(D, a, w)
    requires !nonFull ==> forall p :: p in D <==> p in queue
    ensures forall p :: p in D ==> |p| == ni && WithinClass(m, g, p)
    ensures forall s, k, w :: InClass(m, g, s, k) && Matches(m[s][k].input, w) ==> Covered(D, m[s][k].input, w)
    ensures (forall s, k :: InClass(m, g, s, k) ==> FullySpecified(m[s][k].input)) ==>
              forall p :: p in D <==> ClassInput(m, g, p)
  {
    QueueIsClassInputs(m, g, ni, no);
    ClassResult(m, g, ni, no, queue, D);
  }

  /**
   * Lines 500-571: the union of the originals when none has an unspecified
   * bit, otherwise the refinement of the seed by every original.
   */
  method Atomize(ghost ni: nat, seed: seq<Pattern>, queue: seq<Pattern>, nonFull: bool) returns (D: seq<Pattern>)
    requires Distinct(seed) && forall p :: p in seed ==> p in queue
    requires forall a :: a in queue ==> |a| == ni
    requires !nonFull ==> forall a :: a in queue ==> FullySpecified(a)
    ensures Distinct(D) && forall p :: p in D ==> |p| == ni && Within(p, queue)
    ensures forall a, w :: a in queue && Matches(a, w) ==> Covered(D, a, w)
    ensures PairwiseDisjoint(seed) ==> PairwiseDisjoint(D)
    ensures (forall a :: a in queue ==> a in seed) ==> D == seed
    ensures !nonFull ==> PairwiseDisjoint(D) && forall p :: p in D <==> p in queue
  {
    if !nonFull {
      D := UnionAll(seed, queue);
      FullySpecifiedUnion(ni, seed, queue, D);
    } else {
      forall p | p in seed ensures Within(p, queue) {
        SubsetReflexive(p);
      }
      D := Refine(ni, seed, queue);
    }
  }

  /** The working set as the source seeds it: the inputs of the first member. */
  function SeedOf(m: Machine, g: seq<bool>): seq<Pattern>
    requires |g| == |m|
  {
    var s := FirstFrom(g, 0);
    if s < |m| then QueueTrans([], m[s], |m[s]|) else []
  }

  /**
   * Lines 466-571 as written: the working set starts with the inputs of the
   * first member, which are not checked against each other.  The result is
   * pairwise disjoint only when that seed is, and when the seed already
   * holds every input of the class the seed is returned unchanged.
   */
  method GetDisjointInputSetAsWritten(m: Machine, g: seq<bool>, ghost ni: nat, ghost no: nat) returns (D: seq<Pattern>)
    requires Widths(m, ni, no) && |g| == |m|
    ensures Distinct(D)
    ensures forall p :: p in D ==> |p| == ni && WithinClass(m, g, p)
    ensures forall s, k, w :: InClass(m, g, s, k) && Matches(m[s][k].input, w) ==> Covered(D, m[s][k].input, w)
    ensures PairwiseDisjoint(SeedOf(m, g)) ==> PairwiseDisjoint(D)
    ensures (forall s, k :: InClass(m, g, s, k) ==> m[s][k].input in SeedOf(m, g)) ==> D == SeedOf(m, g)
  {
    var s0 := FirstMember(g);
    if s0 >= |m| {
      return [];
    }
    var seed, nonFull := OfferInputs(m[s0], [], false);
    var queue;
    queue, nonFull := CollectInputs(m, g, s0, nonFull);
    SeedReady(m, g, ni, no, seed, queue, nonFull);
    D := Atomize(ni, seed, queue, nonFull);
    SeededResult(m, g, ni, no, seed, queue, D);
  }

  /** What Atomize needs of the seed and queue of lines 466-499. */
  lemma {:induction false} SeedReady(m: Machine, g: seq<bool>, ni: nat, no: nat, seed: seq<Pattern>, queue: seq<Pattern>, nonFull: bool)
    requires Widths(m, ni, no) && |g| == |m| && FirstFrom(g, 0) < |m|
    requires seed == QueueTrans([], m[FirstFrom(g, 0)], |m[FirstFrom(g, 0)]|)
    requires queue == QueueBelow(m, g, |m|)
    requires nonFull == (PartialTrans(m[FirstFrom(g, 0)], |m[FirstFrom(g, 0)]|) || PartialBelow(m, g, |m|))
    ensures Distinct(seed) && forall p :: p in seed ==> p in queue
    ensures forall a :: a in queue ==> |a| == ni
    ensures !nonFull ==> forall a :: a in queue ==> FullySpecified(a)
  {
    QueueIsClassInputs(m, g, ni, no);
    SeedInQueue(m, g, FirstFrom(g, 0), queue);
  }

  /** The postconditions of GetDisjointInputSetAsWritten from those of Atomize. */
  lemma {:induction false} SeededResult(m: Machine, g: seq<bool>, ni: nat, no: nat, seed: seq<Pattern>, queue: seq<Pattern>, D: seq<Pattern>)
    requires Widths(m, ni, no) && |g| == |m| && FirstFrom(g, 0) < |m|
    requires seed == QueueTrans([], m[FirstFrom(g, 0)], |m[FirstFrom(g, 0)]|)
    requires queue == QueueBelow(m, g, |m|)
    requires forall p :: p in D ==> |p| == ni && Within(p, queue)
    requires forall a, w :: a in queue && Matches(a, w) ==> Covered(D, a, w)
    requires (forall a :: a in queue ==> a in seed) ==> D == seed
    ensures forall p :: p in D ==> |p| == ni && WithinClass(m, g, p)
    ensures forall s, k, w :: InClass(m, g, s, k) && Matches(m[s][k].input, w) ==> Covered(D, m[s][k].input, w)
    ensures (forall s, k :: InClass(m, g, s, k) ==> m[s][k].input in SeedOf(m, g)) ==> D == SeedOf(m, g)
  {
    QueueIsClassInputs(m, g, ni, no);
    SeedInQueue(m, g, FirstFrom(g, 0), queue);
    ClassResult(m, g, ni, no, queue, D);
  }

  /** The seed is made of inputs of the class; when it holds every input of the class it holds the whole queue. */
  lemma {:induction false} SeedInQueue(m: Machine, g: seq<bool>, s0: nat, queue: seq<Pattern>)
    requires |g| == |m| && s0 == FirstFrom(g, 0) < |m| && forall p :: p in queue <==> ClassInput(m, g, p)
    ensures Distinct(SeedOf(m, g)) && forall p :: p in SeedOf(m, g) ==> p in queue
    ensures (forall s, k :: InClass(m, g, s, k) ==> m[s][k].input in SeedOf(m, g)) ==>
              forall a :: a in queue ==> a in SeedOf(m, g)
  {
    QueueTransContent([], m[s0], |m[s0]|);
    forall p | p in SeedOf(m, g) ensures p in queue {
      var k :| 0 <= k < |m[s0]| && m[s0][k].input == p;
      assert InClass(m, g, s0, k);
    }
  }

  /**
   * A single state with transitions on 0- and -0: both inputs are in the
   * seed, so the as-written set is the seed, and the seed is not pairwise
   * disjoint (both match 00).
   */
  lemma SeedOverlapExample()
    ensures var m := [[Transition([Fixed(false), Free], 0, [Fixed(false)]),
                       Transition([Free, Fixed(false)], 0, [Fixed(false)])]];
            Widths(m, 2, 1)
            && (forall s, k :: InClass(m, [true], s, k) ==> m[s][k].input in SeedOf(m, [true]))
            && !PairwiseDisjoint(SeedOf(m, [true]))
  {
    var a: Pattern := [Fixed(false), Free];
    var b: Pattern := [Free, Fixed(false)];
    var m := [[Transition(a, 0, [Fixed(false)]), Transition(b, 0, [Fixed(false)])]];
    assert FirstFrom([true], 0) == 0;
    assert QueueTrans([], m[0], 1) == [a];
    assert a != b by {
      assert a[0] != b[0];
    }
    assert QueueTrans([], m[0], 2) == [a, b];
    CommonWordNotDisjoint(a, b, [false, false]);
  }

  /**
   * Pairwise disjoint patterns covering every word of a each lie within a
   * or are disjoint from it: every atomic input is either wholly an input of
   * a transition or disjoint from it.
   */
  lemma {:induction false} AtomSplitsInput(D: seq<Pattern>, a: Pattern, d: Pattern)
    requires PairwiseDisjoint(D) && d in D && |d| == |a|
    requires forall w :: Matches(a, w) ==> Covered(D, a, w)
    ensures Subset(d, a) || Disjoint(d, a)
  {
    if !Disjoint(d, a) {
      DisjointIsNotCompatible(d, a);
      var w := CommonWord(d, a);
      assert Covered(D, a, w);
      var e :| e in D && |e| == |a| && Subset(e, a) && Matches(e, w);
      CommonWordNotDisjoint(d, e, w);
    }
  }
}

=== FILE: Incompatibility.dfy ===
/**
 * The incompatibility matrix (minimizer.cpp, propagateIncompStates and
 * computeIncompMatrix).  Two states are incompatible when some input
 * sequence that both accept leads them to outputs that contradict each
 * other; the matrix is filled by marking every directly conflicting pair and
 * propagating each mark backwards through the predecessor map.
 *
 * The matrix is the flat array `incompMatrix` of nStates * nStates flags,
 * indexed by `Ai`.  The proofs read it through the snapshot `M[..]`.
 */
module Incompatibility {
  import opened Patterns
  import opened Machines
  import opened Predecessors
  import opened TableIndex

  /** The two input patterns have a word in common (`!isDisjoint`). */
  predicate Overlap(a: Pattern, b: Pattern) {
    |a| == |b| && !Disjoint(a, b)
  }

  /** The two output patterns contradict each other (`!isCompatible`). */
  predicate OutConflict(a: Pattern, b: Pattern) {
    |a| == |b| && !Compatible(a, b)
  }

  /** Transition kx of x and transition ky of y can fire on the same input word. */
  predicate Joint(m: Machine, x: nat, kx: nat, y: nat, ky: nat) {
    x < |m| && y < |m| && kx < |m[x]| && ky < |m[y]| && Overlap(m[x][kx].input, m[y][ky].input)
  }

  /** Some common input word makes x and y emit contradicting outputs. */
  ghost predicate DirectConflict(m: Machine, x: nat, y: nat) {
    exists kx: nat, ky: nat :: Joint(m, x, kx, y, ky) && OutConflict(m[x][kx].output, m[y][ky].output)
  }

  /** x and y are distinguished by an input sequence of length at most d + 1. */
  ghost predicate IncompWithin(m: Machine, x: nat, y: nat, d: nat)
    decreases d
  {
    || DirectConflict(m, x, y)
    || (d > 0 && exists kx: nat, ky: nat ::
          Joint(m, x, kx, y, ky) && IncompWithin(m, m[x][kx].next, m[y][ky].next, d - 1))
  }

  /** x and y are incompatible: no single state can implement both. */
  ghost predicate Incompatible(m: Machine, x: nat, y: nat) {
    exists d :: IncompWithin(m, x, y, d)
  }

  lemma JointSymmetric(m: Machine, x: nat, kx: nat, y: nat, ky: nat)
    requires Joint(m, x, kx, y, ky)
    ensures Joint(m, y, ky, x, kx)
  {
    CompatibleSymmetric(m[x][kx].input, m[y][ky].input);
  }

  lemma {:induction false} IncompWithinSymmetric(m: Machine, x: nat, y: nat, d: nat)
    requires IncompWithin(m, x, y, d)
    ensures IncompWithin(m, y, x, d)
    decreases d
  {
    if DirectConflict(m, x, y) {
      var kx: nat, ky: nat :| Joint(m, x, kx, y, ky) && OutConflict(m[x][kx].output, m[y][ky].output);
      JointSymmetric(m, x, kx, y, ky);
      CompatibleSymmetric(m[x][kx].output, m[y][ky].output);
    } else {
      var kx: nat, ky: nat :| Joint(m, x, kx, y, ky) && IncompWithin(m, m[x][kx].next, m[y][ky].next, d - 1);
      JointSymmetric(m, x, kx, y, ky);
      IncompWithinSymmetric(m, m[x][kx].next, m[y][ky].next, d - 1);
    }
  }

  /** Incompatibility is symmetric. */
  lemma IncompatibleSymmetric(m: Machine, x: nat, y: nat)
    requires Incompatible(m, x, y)
    ensures Incompatible(m, y, x)
  {
    var d :| IncompWithin(m, x, y, d);
    IncompWithinSymmetric(m, x, y, d);
  }

  // ---------------------------------------------------------------------
  // The matrix and the invariants of the propagation
  // ---------------------------------------------------------------------

  /** incompMatrix[ai(x, y, n)] is set. */
  predicate Mk(Ms: seq<bool>, n: nat, x: nat, y: nat) {
    x < n && y < n && Ai(x, y, n) < |Ms| && Ms[Ai(x, y, n)]
  }

  ghost predicate Symmetric(Ms: seq<bool>, n: nat) {
    forall x, y :: Mk(Ms, n, x, y) ==> Mk(Ms, n, y, x)
  }

  /** Only incompatible pairs are marked. */
  ghost predicate Sound(m: Machine, Ms: seq<bool>, n: nat) {
    forall x, y :: Mk(Ms, n, x, y) ==> Incompatible(m, x, y)
  }

  /**
   * The matrix marks every two states that both have a transition in
   * column a of the split tables and whose outputs there contradict.
   */
  ghost predicate ConflictsMarked(next: seq<seq<int>>, out: seq<seq<Pattern>>, Ms: seq<bool>) {
    forall s, t, a ::
      (0 <= s < |next| && 0 <= t < |next| && s < |out| && t < |out| && 0 <= a < |next[s]| && a < |next[t]| && a < |out[s]| && a < |out[t]|
       && next[s][a] != -1 && next[t][a] != -1 && OutConflict(out[s][a], out[t][a])) ==> Mk(Ms, |next|, s, t)
  }

  /** Marks are never removed. */
  predicate Mono(Ms0: seq<bool>, Ms: seq<bool>) {
    |Ms0| == |Ms| && forall i :: 0 <= i < |Ms| && Ms0[i] ==> Ms[i]
  }

  /** Every listed predecessor is a state. */
  predicate PredsBounded(pred: PredMap, n: nat) {
    forall t, i, p :: 0 <= t < |pred| && 0 <= i < |pred[t]| && p in pred[t][i].preds ==> p < n
  }

  /**
   * The predecessor pairs of (a, b) that come through the first i1 entries
   * of pred[a] are marked.
   */
  ghost predicate PairsMarked(pred: PredMap, Ms: seq<bool>, n: nat, a: nat, b: nat, i1: nat) {
    a < |pred| && b < |pred| && i1 <= |pred[a]| &&
    forall j1, i2, p, q ::
      (&& 0 <= j1 < i1 && 0 <= i2 < |pred[b]| && Overlap(pred[a][j1].input, pred[b][i2].input)
       && p in pred[a][j1].preds && q in pred[b][i2].preds)
      ==> Mk(Ms, n, p, q)
  }

  /**
   * The mark on (a, b) has been pushed to the predecessors: every pair of
   * states with transitions into a and b on overlapping inputs is marked.
   */
  ghost predicate ClosedAt(pred: PredMap, Ms: seq<bool>, n: nat, a: nat, b: nat) {
    a < |pred| && PairsMarked(pred, Ms, n, a, b, |pred[a]|)
  }

  /** Every pair marked since Ms0 has been pushed to its predecessors. */
  ghost predicate NewClosed(pred: PredMap, Ms0: seq<bool>, Ms: seq<bool>, n: nat) {
    forall a, b :: Mk(Ms, n, a, b) && !Mk(Ms0, n, a, b) ==> ClosedAt(pred, Ms, n, a, b)
  }

  /** What every step of the propagation keeps. */
  ghost predicate Frame(m: Machine, pred: PredMap, n: nat, Ms: seq<bool>) {
    n == |m| == |pred| && |Ms| == Ai(n, 0, n) && PredsBounded(pred, n) && Symmetric(Ms, n) && Sound(m, Ms, n)
  }

  lemma PredsBoundedOf(m: Machine, pred: PredMap)
    requires IsPredMap(m, pred)
    ensures PredsBounded(pred, |m|)
  {
    forall t, i, p | 0 <= t < |pred| && 0 <= i < |pred[t]| && p in pred[t][i].preds
      ensures p < |m|
    {
      PredEntrySound(m, pred, t, i, p);
    }
  }

  lemma MarkInRange(n: nat, x: nat, y: nat)
    requires x < n && y < n
    ensures Ai(x, y, n) < Ai(n, 0, n)
  {
    AiBound(x, y, n, n);
  }

  lemma {:induction false} CountFalseMono(a: seq<bool>, b: seq<bool>)
    requires Mono(a, b)
    ensures CountFalse(b) <= CountFalse(a)
  {
    if a != [] {
      assert Mono(a[1..], b[1..]) by {
        forall i | 0 <= i < |b| - 1 && a[1..][i] ensures b[1..][i] {
          assert a[i + 1] && b[i + 1];
        }
      }
      CountFalseMono(a[1..], b[1..]);
    }
  }

  lemma MonoTransitive(a: seq<bool>, b: seq<bool>, c: seq<bool>)
    requires Mono(a, b) && Mono(b, c)
    ensures Mono(a, c)
  {
  }

  lemma MkMono(Ms: seq<bool>, Ms': seq<bool>, n: nat, x: nat, y: nat)
    requires Mk(Ms, n, x, y) && Mono(Ms, Ms')
    ensures Mk(Ms', n, x, y)
  {
  }

  lemma PairsMarkedMono(pred: PredMap, Ms: seq<bool>, Ms': seq<bool>, n: nat, a: nat, b: nat, i1: nat)
    requires PairsMarked(pred, Ms, n, a, b, i1) && Mono(Ms, Ms')
    ensures PairsMarked(pred, Ms', n, a, b, i1)
  {
    forall j1, i2, p, q |
      (&& 0 <= j1 < i1 && 0 <= i2 < |pred[b]| && Overlap(pred[a][j1].input, pred[b][i2].input)
       && p in pred[a][j1].preds && q in pred[b][i2].preds)
      ensures Mk(Ms', n, p, q)
    {
      MkMono(Ms, Ms', n, p, q);
    }
  }

  lemma ClosedAtMono(pred: PredMap, Ms: seq<bool>, Ms': seq<bool>, n: nat, a: nat, b: nat)
    requires ClosedAt(pred, Ms, n, a, b) && Mono(Ms, Ms')
    ensures ClosedAt(pred, Ms', n, a, b)
  {
    PairsMarkedMono(pred, Ms, Ms', n, a, b, |pred[a]|);
  }

  lemma ClosedAtSymmetric(pred: PredMap, Ms: seq<bool>, n: nat, a: nat, b: nat)
    requires ClosedAt(pred, Ms, n, a, b) && Symmetric(Ms, n)
    ensures ClosedAt(pred, Ms, n, b, a)
  {
    forall j1, i2, p, q |
      (&& 0 <= j1 < |pred[b]| && 0 <= i2 < |pred[a]| && Overlap(pred[b][j1].input, pred[a][i2].input)
       && p in pred[b][j1].preds && q in pred[a][i2].preds)
      ensures Mk(Ms, n, p, q)
    {
      CompatibleSymmetric(pred[b][j1].input, pred[a][i2].input);
      assert Mk(Ms, n, q, p);
    }
  }

  lemma NewClosedTransitive(pred: PredMap, Ms0: seq<bool>, Ms1: seq<bool>, Ms2: seq<bool>, n: nat)
    requires Mono(Ms0, Ms1) && Mono(Ms1, Ms2)
    requires NewClosed(pred, Ms0, Ms1, n) && NewClosed(pred, Ms1, Ms2, n)
    ensures NewClosed(pred, Ms0, Ms2, n)
  {
    forall a, b | Mk(Ms2, n, a, b) && !Mk(Ms0, n, a, b) ensures ClosedAt(pred, Ms2, n, a, b) {
      if Mk(Ms1, n, a, b) {
        ClosedAtMono(pred, Ms1, Ms2, n, a, b);
      }
    }
  }

  /** The only pairs the two writes of a mark add are (p, q) and (q, p). */
  lemma WrittenPair(Mc: seq<bool>, Mw: seq<bool>, n: nat, p: nat, q: nat, x: nat, y: nat)
    requires p < n && q < n && |Mc| == Ai(n, 0, n)
    requires Ai(p, q, n) < |Mc| && Ai(q, p, n) < |Mc|
    requires Mw == Mc[Ai(p, q, n) := true][Ai(q, p, n) := true]
    requires Mk(Mw, n, x, y) && !Mk(Mc, n, x, y)
    ensures (x == p && y == q) || (x == q && y == p)
  {
    if Ai(x, y, n) == Ai(p, q, n) {
      AiInjective(x, y, p, q, n);
    } else {
      AiInjective(x, y, q, p, n);
    }
  }

  lemma WritesMono(Mc: seq<bool>, Mw: seq<bool>, n: nat, p: nat, q: nat)
    requires p < n && q < n && |Mc| == Ai(n, 0, n)
    requires Ai(p, q, n) < |Mc| && Ai(q, p, n) < |Mc|
    requires Mw == Mc[Ai(p, q, n) := true][Ai(q, p, n) := true]
    ensures Mono(Mc, Mw) && Mk(Mw, n, p, q) && Mk(Mw, n, q, p)
  {
    MarkInRange(n, p, q);
    MarkInRange(n, q, p);
  }

  /**
   * The bookkeeping of one mark in the propagation: Mc is the matrix before
   * the pair (p, q) is marked, Mw after the two writes, Ma after the
   * recursive propagation from (p, q).
   */
  lemma MarkStepClosed(pred: PredMap, n: nat, M0: seq<bool>, Mc: seq<bool>, Mw: seq<bool>, Ma: seq<bool>, p: nat, q: nat)
    requires p < n && q < n && |Mc| == Ai(n, 0, n)
    requires Mono(M0, Mc) && NewClosed(pred, M0, Mc, n)
    requires Ai(p, q, n) < |Mc| && Ai(q, p, n) < |Mc|
    requires Mw == Mc[Ai(p, q, n) := true][Ai(q, p, n) := true]
    requires Mono(Mw, Ma) && NewClosed(pred, Mw, Ma, n) && ClosedAt(pred, Ma, n, p, q) && Symmetric(Ma, n)
    ensures Mono(M0, Ma) && Mono(Mc, Ma) && NewClosed(pred, M0, Ma, n)
  {
    WritesMono(Mc, Mw, n, p, q);
    MonoTransitive(Mc, Mw, Ma);
    MonoTransitive(M0, Mc, Ma);
    ClosedAtSymmetric(pred, Ma, n, p, q);
    forall a, b | Mk(Ma, n, a, b) && !Mk(M0, n, a, b) ensures ClosedAt(pred, Ma, n, a, b) {
      if Mk(Mc, n, a, b) {
        ClosedAtMono(pred, Mc, Ma, n, a, b);
      } else if Mk(Mw, n, a, b) {
        WrittenPair(Mc, Mw, n, p, q, a, b);
      }
    }
  }

  /** Marking the incompatible pair (p, q) in both orientations keeps the matrix sound and symmetric. */
  lemma MarkPairKeeps(m: Machine, n: nat, Mc: seq<bool>, Mw: seq<bool>, p: nat, q: nat)
    requires |Mc| == Ai(n, 0, n) && Symmetric(Mc, n) && Sound(m, Mc, n) && p < n && q < n && Incompatible(m, p, q)
    requires Ai(p, q, n) < |Mc| && Ai(q, p, n) < |Mc|
    requires Mw == Mc[Ai(p, q, n) := true][Ai(q, p, n) := true]
    ensures Symmetric(Mw, n) && Sound(m, Mw, n)
  {
    WritesMono(Mc, Mw, n, p, q);
    IncompatibleSymmetric(m, p, q);
    forall x, y | Mk(Mw, n, x, y) ensures Mk(Mw, n, y, x) && Incompatible(m, x, y) {
      if !Mk(Mc, n, x, y) {
        WrittenPair(Mc, Mw, n, p, q, x, y);
      } else {
        MkMono(Mc, Mw, n, y, x);
      }
    }
  }

  /** A mark on a pair that was unmarked uses up at least one unmarked cell. */
  lemma MarkPairCount(Mc: seq<bool>, Mw: seq<bool>, n: nat, p: nat, q: nat)
    requires |Mc| == Ai(n, 0, n) && p < n && q < n && !Mk(Mc, n, p, q)
    requires Ai(p, q, n) < |Mc| && Ai(q, p, n) < |Mc|
    requires Mw == Mc[Ai(p, q, n) := true][Ai(q, p, n) := true]
    ensures CountFalse(Mw) < CountFalse(Mc)
  {
    MarkInRange(n, p, q);
    MarkInRange(n, q, p);
    var Mp := Mc[Ai(p, q, n) := true];
    CountFalseSet(Mc, Ai(p, q, n));
    assert Mono(Mp, Mw);
    CountFalseMono(Mp, Mw);
  }

  /**
   * A listed predecessor pair of an incompatible pair, on overlapping
   * inputs, is incompatible.
   */
  lemma PredStep(m: Machine, pred: PredMap, s1: nat, s2: nat, i1: nat, i2: nat, p: nat, q: nat)
    requires IsPredMap(m, pred) && s1 < |pred| && s2 < |pred| && i1 < |pred[s1]| && i2 < |pred[s2]|
    requires Overlap(pred[s1][i1].input, pred[s2][i2].input)
    requires p in pred[s1][i1].preds && q in pred[s2][i2].preds
    requires Incompatible(m, s1, s2)
    ensures Incompatible(m, p, q)
  {
    PredEntrySound(m, pred, s1, i1, p);
    PredEntrySound(m, pred, s2, i2, q);
    var kp :| 0 <= kp < |m[p]| && m[p][kp].next == s1 && m[p][kp].input == pred[s1][i1].input;
    var kq :| 0 <= kq < |m[q]| && m[q][kq].next == s2 && m[q][kq].input == pred[s2][i2].input;
    var d: nat :| IncompWithin(m, s1, s2, d);
    assert Joint(m, p, kp, q, kq);
    assert IncompWithin(m, p, q, d + 1);
  }

  /** All predecessor pairs that come through entry i1 of pred[s1] are incompatible. */
  lemma EntryPairsIncompatible(m: Machine, pred: PredMap, n: nat, s1: nat, s2: nat, i1: nat)
    requires IsPredMap(m, pred) && n == |m| && s1 < n && s2 < n && i1 < |pred[s1]|
    requires Incompatible(m, s1, s2)
    ensures forall i2, p, q ::
      (0 <= i2 < |pred[s2]| && Overlap(pred[s1][i1].input, pred[s2][i2].input)
       && p in pred[s1][i1].preds && q in pred[s2][i2].preds)
      ==> p < n && q < n && Incompatible(m, p, q)
  {
    PredsBoundedOf(m, pred);
    forall i2, p, q |
      (0 <= i2 < |pred[s2]| && Overlap(pred[s1][i1].input, pred[s2][i2].input)
       && p in pred[s1][i1].preds && q in pred[s2][i2].preds)
      ensures Incompatible(m, p, q)
    {
      PredStep(m, pred, s1, s2, i1, i2, p, q);
    }
  }

  /** One more entry of pred[s1] done. */
  lemma PairsMarkedStep(pred: PredMap, Mb: seq<bool>, Ma: seq<bool>, n: nat, s1: nat, s2: nat, i1: nat)
    requires PairsMarked(pred, Mb, n, s1, s2, i1) && i1 < |pred[s1]| && Mono(Mb, Ma)
    requires forall i2, p, q ::
      (0 <= i2 < |pred[s2]| && Overlap(pred[s1][i1].input, pred[s2][i2].input)
       && p in pred[s1][i1].preds && q in pred[s2][i2].preds)
      ==> Mk(Ma, n, p, q)
    ensures PairsMarked(pred, Ma, n, s1, s2, i1 + 1)
  {
    PairsMarkedMono(pred, Mb, Ma, n, s1, s2, i1);
  }

  // ---------------------------------------------------------------------
  // propagateIncompStates (minimizer.cpp 288-316), one loop per method
  // ---------------------------------------------------------------------

  /**
   * Marks (s1, s2) as pushed: every pair of predecessors on overlapping
   * inputs ends up marked, and so does everything those marks imply.
   */
  method Propagate(m: Machine, pred: PredMap, n: nat, M: array<bool>, s1: nat, s2: nat)
    requires IsPredMap(m, pred) && Frame(m, pred, n, M[..]) && s1 < n && s2 < n && Mk(M[..], n, s1, s2)
    modifies M
    ensures Frame(m, pred, n, M[..]) && Mono(old(M[..]), M[..]) && NewClosed(pred, old(M[..]), M[..], n)
    ensures ClosedAt(pred, M[..], n, s1, s2)
    decreases CountFalse(M[..]), 4
  {
    ghost var M0 := M[..];
    var i1 := 0;
    while i1 < |pred[s1]|
      invariant i1 <= |pred[s1]| && Frame(m, pred, n, M[..])
      invariant Mono(M0, M[..]) && NewClosed(pred, M0, M[..], n)
      invariant PairsMarked(pred, M[..], n, s1, s2, i1)
    {
      ghost var Mb := M[..];
      EntryPairsIncompatible(m, pred, n, s1, s2, i1);
      CountFalseMono(M0, Mb);
      PropagateEntries(m, pred, n, M, pred[s1][i1], pred[s2]);
      PairsMarkedStep(pred, Mb, M[..], n, s1, s2, i1);
      MonoTransitive(M0, Mb, M[..]);
      NewClosedTransitive(pred, M0, Mb, M[..], n);
      i1 := i1 + 1;
    }
  }

  /** The loop over the entries of pred[s2] for one entry e1 of pred[s1]. */
  method PropagateEntries(m: Machine, pred: PredMap, n: nat, M: array<bool>, e1: PredEntry, es2: seq<PredEntry>)
    requires IsPredMap(m, pred) && Frame(m, pred, n, M[..])
    requires forall i2, p, q ::
      (0 <= i2 < |es2| && Overlap(e1.input, es2[i2].input) && p in e1.preds && q in es2[i2].preds)
      ==> p < n && q < n && Incompatible(m, p, q)
    modifies M
    ensures Frame(m, pred, n, M[..]) && Mono(old(M[..]), M[..]) && NewClosed(pred, old(M[..]), M[..], n)
    ensures forall i2, p, q ::
      (0 <= i2 < |es2| && Overlap(e1.input, es2[i2].input) && p in e1.preds && q in es2[i2].preds)
      ==> Mk(M[..], n, p, q)
    decreases CountFalse(M[..]), 3
  {
    ghost var M0 := M[..];
    var i2 := 0;
    while i2 < |es2|
      invariant i2 <= |es2| && Frame(m, pred, n, M[..])
      invariant Mono(M0, M[..]) && NewClosed(pred, M0, M[..], n)
      invariant forall j2, p, q ::
        (0 <= j2 < i2 && Overlap(e1.input, es2[j2].input) && p in e1.preds && q in es2[j2].preds)
        ==> Mk(M[..], n, p, q)
    {
      if |e1.input| != |es2[i2].input| || Disjoint(e1.input, es2[i2].input) {
        i2 := i2 + 1;
        continue;
      }
      ghost var Mb := M[..];
      CountFalseMono(M0, Mb);
      PropagatePairs(m, pred, n, M, e1.preds, es2[i2].preds);
      forall j2, p, q |
        (0 <= j2 < i2 && Overlap(e1.input, es2[j2].input) && p in e1.preds && q in es2[j2].preds)
        ensures Mk(M[..], n, p, q)
      {
        MkMono(Mb, M[..], n, p, q);
      }
      MonoTransitive(M0, Mb, M[..]);
      NewClosedTransitive(pred, M0, Mb, M[..], n);
      i2 := i2 + 1;
    }
  }

  /** The loop over predStates1 for one pair of overlapping entries. */
  method PropagatePairs(m: Machine, pred: PredMap, n: nat, M: array<bool>, ps1: seq<nat>, ps2: seq<nat>)
    requires IsPredMap(m, pred) && Frame(m, pred, n, M[..])
    requires forall p, q :: p in ps1 && q in ps2 ==> p < n && q < n && Incompatible(m, p, q)
    modifies M
    ensures Frame(m, pred, n, M[..]) && Mono(old(M[..]), M[..]) && NewClosed(pred, old(M[..]), M[..], n)
    ensures forall p, q :: p in ps1 && q in ps2 ==> Mk(M[..], n, p, q)
    decreases CountFalse(M[..]), 2
  {
    ghost var M0 := M[..];
    var i1 := 0;
    while i1 < |ps1|
      invariant i1 <= |ps1| && Frame(m, pred, n, M[..])
      invariant Mono(M0, M[..]) && NewClosed(pred, M0, M[..], n)
      invariant forall p, q :: p in ps1[..i1] && q in ps2 ==> Mk(M[..], n, p, q)
    {
      ghost var Mb := M[..];
      assert ps1[i1] in ps1;
      CountFalseMono(M0, Mb);
      PropagateRow(m, pred, n, M, ps1[i1], ps2);
      forall p, q | p in ps1[..i1] && q in ps2 ensures Mk(M[..], n, p, q) {
        MkMono(Mb, M[..], n, p, q);
      }
      MonoTransitive(M0, Mb, M[..]);
      NewClosedTransitive(pred, M0, Mb, M[..], n);
      assert ps1[..i1 + 1] == ps1[..i1] + [ps1[i1]];
      i1 := i1 + 1;
    }
    assert ps1[..i1] == ps1;
  }

  /** The loop over predStates2 for one predecessor p. */
  method PropagateRow(m: Machine, pred: PredMap, n: nat, M: array<bool>, p: nat, ps2: seq<nat>)
    requires IsPredMap(m, pred) && Frame(m, pred, n, M[..])
    requires forall q :: q in ps2 ==> p < n && q < n && Incompatible(m, p, q)
    modifies M
    ensures Frame(m, pred, n, M[..]) && Mono(old(M[..]), M[..]) && NewClosed(pred, old(M[..]), M[..], n)
    ensures forall q :: q in ps2 ==> Mk(M[..], n, p, q)
    decreases CountFalse(M[..]), 1
  {
    ghost var M0 := M[..];
    var i2 := 0;
    while i2 < |ps2|
      invariant i2 <= |ps2| && Frame(m, pred, n, M[..])
      invariant Mono(M0, M[..]) && NewClosed(pred, M0, M[..], n)
      invariant forall q :: q in ps2[..i2] ==> Mk(M[..], n, p, q)
    {
      var q := ps2[i2];
      assert q in ps2 && ps2[..i2 + 1] == ps2[..i2] + [q];
      ghost var Mb := M[..];
      CountFalseMono(M0, Mb);
      MarkPair(m, pred, n, M, p, q);
      forall q' | q' in ps2[..i2] ensures Mk(M[..], n, p, q') {
        MkMono(Mb, M[..], n, p, q');
      }
      MonoTransitive(M0, Mb, M[..]);
      NewClosedTransitive(pred, M0, Mb, M[..], n);
      i2 := i2 + 1;
    }
    assert ps2[..i2] == ps2;
  }

  /**
   * The innermost step: an unmarked pair is marked in both orientations and
   * the mark is propagated (an already marked pair is skipped).
   */
  method MarkPair(m: Machine, pred: PredMap, n: nat, M: array<bool>, p: nat, q: nat)
    requires IsPredMap(m, pred) && Frame(m, pred, n, M[..]) && p < n && q < n && Incompatible(m, p, q)
    modifies M
    ensures Frame(m, pred, n, M[..]) && Mono(old(M[..]), M[..]) && NewClosed(pred, old(M[..]), M[..], n)
    ensures Mk(M[..], n, p, q)
    decreases CountFalse(M[..]), 0
  {
    MarkInRange(n, p, q);
    MarkInRange(n, q, p);
    if M[Ai(p, q, n)] {
      return;
    }
    ghost var Mc := M[..];
    M[Ai(p, q, n)] := true;
    M[Ai(q, p, n)] := true;
    ghost var Mw := M[..];
    assert Mw == Mc[Ai(p, q, n) := true][Ai(q, p, n) := true];
    MarkPairKeeps(m, n, Mc, Mw, p, q);
    MarkPairCount(Mc, Mw, n, p, q);
    Propagate(m, pred, n, M, p, q);
    MarkStepClosed(pred, n, Mc, Mc, Mw, M[..], p, q);
  }

  // ---------------------------------------------------------------------
  // computeIncompMatrix (minimizer.cpp 318-357)
  // ---------------------------------------------------------------------

  /**
   * The inner two loops of computeIncompMatrix: some transition of s1 and
   * some transition of s2 fire on a common input word with contradicting
   * outputs.
   */
  method FindConflict(m: Machine, s1: nat, s2: nat, ghost ni: nat, ghost no: nat) returns (found: bool)
    requires WellFormed(m, ni, no) && s1 < |m| && s2 < |m|
    ensures found <==> DirectConflict(m, s1, s2)
  {
    found := false;
    var k1 := 0;
    while k1 < |m[s1]|
      invariant k1 <= |m[s1]| && !found
      invariant forall j1: nat, j2: nat :: j1 < k1 && j2 < |m[s2]| ==>
        !(Joint(m, s1, j1, s2, j2) && OutConflict(m[s1][j1].output, m[s2][j2].output))
    {
      var k2 := 0;
      while k2 < |m[s2]|
        invariant k2 <= |m[s2]| && !found
        invariant forall j2: nat :: j2 < k2 ==>
          !(Joint(m, s1, k1, s2, j2) && OutConflict(m[s1][k1].output, m[s2][j2].output))
      {
        if Disjoint(m[s1][k1].input, m[s2][k2].input) {
          k2 := k2 + 1;
          continue;
        }
        if Compatible(m[s1][k1].output, m[s2][k2].output) {
          k2 := k2 + 1;
          continue;
        }
        found := true;
        assert Joint(m, s1, k1, s2, k2) && OutConflict(m[s1][k1].output, m[s2][k2].output);
        break;
      }
      if found {
        break;
      }
      k1 := k1 + 1;
    }
  }

  lemma DirectConflictSymmetric(m: Machine, x: nat, y: nat)
    requires DirectConflict(m, x, y)
    ensures DirectConflict(m, y, x)
  {
    var kx: nat, ky: nat :| Joint(m, x, kx, y, ky) && OutConflict(m[x][kx].output, m[y][ky].output);
    JointSymmetric(m, x, kx, y, ky);
    CompatibleSymmetric(m[x][kx].output, m[y][ky].output);
  }

  /** The pair (x, y), x <= y, comes before (s1, s2) in the scan of computeIncompMatrix. */
  predicate Scanned(x: nat, y: nat, s1: nat, s2: nat) {
    x <= y && (x < s1 || (x == s1 && y < s2))
  }

  /** Every directly conflicting pair scanned so far is marked. */
  ghost predicate DirectDone(m: Machine, Ms: seq<bool>, n: nat, s1: nat, s2: nat) {
    forall x: nat, y: nat :: x < n && y < n && Scanned(x, y, s1, s2) && DirectConflict(m, x, y) ==> Mk(Ms, n, x, y)
  }

  /** Every marked pair has been pushed to its predecessors. */
  ghost predicate AllClosed(pred: PredMap, Ms: seq<bool>, n: nat) {
    forall a, b :: Mk(Ms, n, a, b) ==> ClosedAt(pred, Ms, n, a, b)
  }

  /** One iteration of the s2 loop: check the pair (s1, s2) and mark it on a conflict. */
  method CheckPair(m: Machine, pred: PredMap, n: nat, M: array<bool>, s1: nat, s2: nat, ghost ni: nat, ghost no: nat)
    requires WellFormed(m, ni, no) && IsPredMap(m, pred) && Frame(m, pred, n, M[..]) && s1 < n && s2 < n
    modifies M
    ensures Frame(m, pred, n, M[..]) && Mono(old(M[..]), M[..]) && NewClosed(pred, old(M[..]), M[..], n)
    ensures DirectConflict(m, s1, s2) ==> Mk(M[..], n, s1, s2)
  {
    MarkInRange(n, s1, s2);
    if M[Ai(s1, s2, n)] {
      return;
    }
    var found := FindConflict(m, s1, s2, ni, no);
    if found {
      assert IncompWithin(m, s1, s2, 0);
      MarkPair(m, pred, n, M, s1, s2);
    }
  }

  lemma DirectDoneStep(m: Machine, Mb: seq<bool>, Ma: seq<bool>, n: nat, s1: nat, s2: nat)
    requires DirectDone(m, Mb, n, s1, s2) && Mono(Mb, Ma)
    requires DirectConflict(m, s1, s2) ==> Mk(Ma, n, s1, s2)
    ensures DirectDone(m, Ma, n, s1, s2 + 1)
  {
    forall x: nat, y: nat | x < n && y < n && Scanned(x, y, s1, s2 + 1) && DirectConflict(m, x, y)
      ensures Mk(Ma, n, x, y)
    {
      if Scanned(x, y, s1, s2) {
        MkMono(Mb, Ma, n, x, y);
      }
    }
  }

  /**
   * Completeness of the fixed point: when every directly conflicting pair
   * is marked and every mark has been pushed to the predecessors, every
   * incompatible pair is marked.
   */
  lemma {:induction false} MarksComplete(m: Machine, pred: PredMap, Ms: seq<bool>, n: nat, x: nat, y: nat, d: nat)
    requires IsPredMap(m, pred) && TargetsInRange(m) && n == |m| && x < n && y < n
    requires AllClosed(pred, Ms, n)
    requires forall a: nat, b: nat :: a < n && b < n && DirectConflict(m, a, b) ==> Mk(Ms, n, a, b)
    requires IncompWithin(m, x, y, d)
    ensures Mk(Ms, n, x, y)
    decreases d
  {
    if !DirectConflict(m, x, y) {
      var kx: nat, ky: nat :| Joint(m, x, kx, y, ky) && IncompWithin(m, m[x][kx].next, m[y][ky].next, d - 1);
      var x', y' := m[x][kx].next, m[y][ky].next;
      MarksComplete(m, pred, Ms, n, x', y', d - 1);
      assert ClosedAt(pred, Ms, n, x', y');
      PredEntryComplete(m, pred, x, kx);
      PredEntryComplete(m, pred, y, ky);
      var i1 := IndexOf(pred[x'], m[x][kx].input);
      var i2 := IndexOf(pred[y'], m[y][ky].input);
      assert Overlap(pred[x'][i1].input, pred[y'][i2].input);
    }
  }

  /**
   * computeIncompMatrix: afterwards incompMatrix[ai(x, y)] is set exactly
   * when x and y are incompatible.
   */
  method ComputeIncompMatrix(m: Machine, pred: PredMap, M: array<bool>, ghost ni: nat, ghost no: nat)
    requires WellFormed(m, ni, no) && IsPredMap(m, pred)
    requires M.Length == |m| * |m| && forall i :: 0 <= i < M.Length ==> !M[i]
    modifies M
    ensures forall x: nat, y: nat :: x < |m| && y < |m| ==> (Mk(M[..], |m|, x, y) <==> Incompatible(m, x, y))
  {
    var n := |m|;
    TableSize(n, n);
    ghost var M0 := M[..];
    PredsBoundedOf(m, pred);
    var s1 := 0;
    while s1 < n
      invariant s1 <= n && Frame(m, pred, n, M[..])
      invariant Mono(M0, M[..]) && NewClosed(pred, M0, M[..], n)
      invariant DirectDone(m, M[..], n, s1, s1)
    {
      var s2 := s1;
      while s2 < n
        invariant s1 <= s2 <= n && Frame(m, pred, n, M[..])
        invariant Mono(M0, M[..]) && NewClosed(pred, M0, M[..], n)
        invariant DirectDone(m, M[..], n, s1, s2)
      {
        ghost var Mb := M[..];
        CheckPair(m, pred, n, M, s1, s2, ni, no);
        DirectDoneStep(m, Mb, M[..], n, s1, s2);
        MonoTransitive(M0, Mb, M[..]);
        NewClosedTransitive(pred, M0, Mb, M[..], n);
        s2 := s2 + 1;
      }
      assert DirectDone(m, M[..], n, s1 + 1, s1 + 1) by {
        forall x: nat, y: nat | x < n && y < n && Scanned(x, y, s1 + 1, s1 + 1) && DirectConflict(m, x, y)
          ensures Mk(M[..], n, x, y)
        {
          assert Scanned(x, y, s1, n);
        }
      }
      s1 := s1 + 1;
    }
    IncompMatrixExact(m, pred, M0, M[..], n);
  }

  /** The final argument: soundness from the invariant, completeness from MarksComplete. */
  lemma IncompMatrixExact(m: Machine, pred: PredMap, M0: seq<bool>, Ms: seq<bool>, n: nat)
    requires TargetsInRange(m) && IsPredMap(m, pred) && Frame(m, pred, n, Ms)
    requires |M0| == |Ms| && (forall i :: 0 <= i < |M0| ==> !M0[i]) && NewClosed(pred, M0, Ms, n)
    requires DirectDone(m, Ms, n, n, n)
    ensures forall x: nat, y: nat :: x < n && y < n ==> (Mk(Ms, n, x, y) <==> Incompatible(m, x, y))
  {
    assert AllClosed(pred, Ms, n);
    forall a: nat, b: nat | a < n && b < n && DirectConflict(m, a, b) ensures Mk(Ms, n, a, b) {
      if a <= b {
        assert Scanned(a, b, n, n);
      } else {
        DirectConflictSymmetric(m, a, b);
        assert Scanned(b, a, n, n);
      }
    }
    forall x: nat, y: nat | x < n && y < n && Incompatible(m, x, y) ensures Mk(Ms, n, x, y) {
      var d: nat :| IncompWithin(m, x, y, d);
      MarksComplete(m, pred, Ms, n, x, y, d);
    }
  }
}

=== FILE: InputAlphabet.dfy ===
/**
 * Input alphabets for the CNF encoding (DIMACSWriter.h and
 * DIMACSWriter.cpp): the alphabet of a machine given as one map per state,
 * and the reduction of an alphabet to one input per distinct next-state
 * vector.
 *
 * The source files its vectors in buckets by a running hash and compares
 * vectors exactly within a bucket; which vectors share a bucket never
 * changes the outcome, so the model keeps all vectors in one list.
 */
module InputAlphabet {
  import opened Patterns
  import opened Machines

  // ---------------------------------------------------------------------
  // Next-state vectors
  // ---------------------------------------------------------------------

  /** Every row of the dense next-state table has a column per input. */
  predicate Rows(next: seq<seq<int>>, width: nat) {
    forall s :: 0 <= s < |next| ==> |next[s]| == width
  }

  /** The next state of every state on input a (-1 where it has none). */
  function Column(next: seq<seq<int>>, a: nat): (v: seq<int>)
    requires forall s :: 0 <= s < |next| ==> a < |next[s]|
    ensures |v| == |next| && forall s :: 0 <= s < |next| ==> v[s] == next[s][a]
  {
    seq(|next|, s requires 0 <= s < |next| => next[s][a])
  }

  /** The input at position k of a list of vectors is the first with its vector. */
  predicate FirstOfVector(vs: seq<seq<int>>, k: nat)
    requires k < |vs|
  {
    forall b :: 0 <= b < k ==> vs[b] != vs[k]
  }

  /** Lines 42-57 of DIMACSWriter.cpp (104-121 of DIMACSWriter.h): compare two vectors entry by entry. */
  method SameVector(u: seq<int>, v: seq<int>) returns (equal: bool)
    requires |u| == |v|
    ensures equal <==> u == v
  {
    equal := true;
    var i := 0;
    while i < |u|
      invariant i <= |u| && u[..i] == v[..i]
    {
      if u[i] != v[i] {
        equal := false;
        return;
      }
      assert u[..i + 1] == u[..i] + [u[i]] && v[..i + 1] == v[..i] + [v[i]];
      i := i + 1;
    }
    assert u == u[..i] && v == v[..i];
  }

  /** Lines 32-63 of DIMACSWriter.cpp (95-128 of DIMACSWriter.h): has this vector been seen before? */
  method Contained(seen: seq<seq<int>>, v: seq<int>) returns (contained: bool)
    requires forall k :: 0 <= k < |seen| ==> |seen[k]| == |v|
    ensures contained <==> v in seen
  {
    contained := false;
    var k := 0;
    while k < |seen|
      invariant k <= |seen| && v !in seen[..k]
    {
      var equal := SameVector(v, seen[k]);
      if equal {
        contained := true;
        return;
      }
      assert seen[..k + 1] == seen[..k] + [seen[k]];
      k := k + 1;
    }
    assert seen[..k] == seen;
  }

  /** Lines 19-30 of DIMACSWriter.cpp: the next-state vector of input a. */
  method NextStatesList(next: seq<seq<int>>, a: nat, ghost width: nat) returns (v: seq<int>)
    requires a < width && Rows(next, width)
    ensures v == Column(next, a)
  {
    v := [];
    var i := 0;
    while i < |next|
      invariant i <= |next| && v == Column(next, a)[..i]
    {
      var succ := next[i][a];
      if succ == -1 {
        v := v + [-1];
      } else {
        v := v + [succ];
      }
      i := i + 1;
    }
  }

  /**
   * computeReducedInputAlphabet (DIMACSWriter.cpp:11-65): an input is kept
   * exactly when no smaller input has the same next-state vector.
   */
  method ComputeReducedInputAlphabet(maxInput: int, next: seq<seq<int>>) returns (reduced: set<int>)
    requires maxInput >= -1 && Rows(next, maxInput + 1)
    ensures forall a :: a in reduced <==> 0 <= a <= maxInput && forall b :: 0 <= b < a ==> Column(next, b) != Column(next, a)
  {
    reduced := {};
    ghost var vs: seq<seq<int>> := [];
    var seen: seq<seq<int>> := [];
    var input := 0;
    while input <= maxInput
      invariant 0 <= input <= maxInput + 1 && |vs| == input
      invariant forall b :: 0 <= b < input ==> vs[b] == Column(next, b)
      invariant forall v :: v in seen <==> v in vs
      invariant forall k :: 0 <= k < |seen| ==> |seen[k]| == |next|
      invariant forall a :: a in reduced <==> 0 <= a < input && FirstOfVector(vs, a)
    {
      var v := NextStatesList(next, input, maxInput + 1);
      var contained := Contained(seen, v);
      if !contained {
        seen := seen + [v];
        reduced := reduced + {input};
      }
      assert forall b :: 0 <= b < input ==> (vs + [v])[b] == vs[b];
      vs := vs + [v];
      input := input + 1;
    }
  }

  /** Some kept input no larger than a has the vector of a. */
  predicate Represented(next: seq<seq<int>>, reduced: set<int>, a: nat)
    requires forall s :: 0 <= s < |next| ==> a < |next[s]|
  {
    exists b: nat :: b in reduced && b <= a && Column(next, b) == Column(next, a)
  }

  /**
   * What the reduction keeps: no two kept inputs share a vector, and every
   * input has a kept input, no larger, with the same vector.
   */
  lemma {:induction false} ReducedIsRepresentative(maxInput: int, next: seq<seq<int>>, reduced: set<int>)
    requires maxInput >= -1 && Rows(next, maxInput + 1)
    requires forall a :: a in reduced <==> 0 <= a <= maxInput && forall b :: 0 <= b < a ==> Column(next, b) != Column(next, a)
    ensures forall a, b :: a in reduced && b in reduced && a != b ==> Column(next, a) != Column(next, b)
    ensures forall a :: 0 <= a <= maxInput ==> Represented(next, reduced, a)
  {
    forall a, b | a in reduced && b in reduced && a != b
      ensures Column(next, a) != Column(next, b)
    {
      if a < b {
        assert 0 <= a < b;
      } else {
        assert 0 <= b < a;
      }
    }
    forall a: int | 0 <= a <= maxInput
      ensures Represented(next, reduced, a)
    {
      var r := FirstWithColumn(maxInput, next, reduced, a, a);
      assert r in reduced && r <= a && Column(next, r) == Column(next, a);
    }
  }

  /** The least input up to c with the vector of a is kept. */
  lemma {:induction false} FirstWithColumn(maxInput: int, next: seq<seq<int>>, reduced: set<int>, a: nat, c: nat) returns (r: nat)
    requires maxInput >= -1 && Rows(next, maxInput + 1) && a <= maxInput && c <= a
    requires forall a :: a in reduced <==> 0 <= a <= maxInput && forall b :: 0 <= b < a ==> Column(next, b) != Column(next, a)
    requires Column(next, c) == Column(next, a)
    ensures r in reduced && r <= c && Column(next, r) == Column(next, a)
    decreases c
  {
    if c in reduced {
      r := c;
    } else {
      var b :| 0 <= b < c && Column(next, b) == Column(next, c);
      r := FirstWithColumn(maxInput, next, reduced, a, b);
    }
  }

  // ---------------------------------------------------------------------
  // The templates over machines with one map per state (DIMACSWriter.h)
  // ---------------------------------------------------------------------

  /** A machine given as one map per state from input to (next state, output). */
  type MapMachine<K> = seq<map<K, (int, Pattern)>>

  /** computeInputAlphabet (lines 62-69): the union of the keys of all states. */
  method ComputeInputAlphabet<K>(states: MapMachine<K>) returns (inputAlphabet: set<K>)
    ensures forall x :: x in inputAlphabet <==> exists i :: 0 <= i < |states| && x in states[i]
  {
    inputAlphabet := {};
    var i := 0;
    while i < |states|
      invariant i <= |states|
      invariant forall x :: x in inputAlphabet <==> exists i' :: 0 <= i' < i && x in states[i']
    {
      var rest := states[i].Keys;
      while rest != {}
        invariant rest <= states[i].Keys
        invariant forall x :: x in inputAlphabet <==> (exists i' :: 0 <= i' < i && x in states[i']) || x in states[i].Keys - rest
        decreases rest
      {
        var x :| x in rest;
        inputAlphabet := inputAlphabet + {x};
        rest := rest - {x};
      }
      i := i + 1;
    }
  }

  /** Lines 81-93: the next-state vector of input x, with -1 where a state has no transition on x. */
  function KeyedColumn<K>(states: MapMachine<K>, x: K): (v: seq<int>)
    ensures |v| == |states|
    ensures forall i :: 0 <= i < |states| ==> v[i] == if x in states[i] then states[i][x].0 else -1
  {
    seq(|states|, i requires 0 <= i < |states| => if x in states[i] then states[i][x].0 else -1)
  }

  /** Lines 81-93: build that vector state by state. */
  method KeyedNextStatesList<K>(states: MapMachine<K>, x: K) returns (v: seq<int>)
    ensures v == KeyedColumn(states, x)
  {
    v := [];
    var i := 0;
    while i < |states|
      invariant i <= |states| && v == KeyedColumn(states, x)[..i]
    {
      if x !in states[i] {
        v := v + [-1];
      } else {
        var succState := states[i][x].0;
        v := v + [succState];
      }
      i := i + 1;
    }
  }

  /** The loop of lines 75-129 after the first k inputs; cols holds the vectors of all inputs. */
  ghost predicate KeyedInv<K>(inputAlphabet: seq<K>, cols: seq<seq<int>>, width: nat, k: nat,
                              seen: seq<seq<int>>, reduced: set<K>, reducedMap: map<K, seq<int>>)
  {
    k <= |inputAlphabet| == |cols|
    && (forall u :: u in seen <==> exists b :: 0 <= b < k && cols[b] == u)
    && (forall j :: 0 <= j < |seen| ==> |seen[j]| == width)
    && reducedMap.Keys == reduced
    && (forall j :: 0 <= j < |inputAlphabet| ==> (inputAlphabet[j] in reduced <==> j < k && FirstOfVector(cols, j)))
    && (forall j :: 0 <= j < k && inputAlphabet[j] in reduced ==> reducedMap[inputAlphabet[j]] == cols[j])
    && (forall x :: x in reduced ==> x in inputAlphabet)
  }

  /** Lines 95-128 when the vector was seen before: nothing is kept. */
  lemma KeyedSkip<K>(inputAlphabet: seq<K>, cols: seq<seq<int>>, width: nat, k: nat,
                     seen: seq<seq<int>>, reduced: set<K>, reducedMap: map<K, seq<int>>)
    requires k < |inputAlphabet|
    requires KeyedInv(inputAlphabet, cols, width, k, seen, reduced, reducedMap)
    requires cols[k] in seen
    ensures KeyedInv(inputAlphabet, cols, width, k + 1, seen, reduced, reducedMap)
  {
    var b :| 0 <= b < k && cols[b] == cols[k];
    assert !FirstOfVector(cols, k);
    forall j | 0 <= j < |inputAlphabet|
      ensures inputAlphabet[j] in reduced <==> j < k + 1 && FirstOfVector(cols, j)
    {
      if j == k {
        assert inputAlphabet[k] !in reduced;
      } else {
        assert inputAlphabet[j] in reduced <==> j < k && FirstOfVector(cols, j);
      }
    }
    forall j | 0 <= j < k + 1 && inputAlphabet[j] in reduced
      ensures reducedMap[inputAlphabet[j]] == cols[j]
    {
      assert j < k;
    }
  }

  /** Lines 95-128 when the vector is new: the input is kept with its vector. */
  lemma KeyedKeep<K>(inputAlphabet: seq<K>, cols: seq<seq<int>>, width: nat, k: nat,
                     seen: seq<seq<int>>, reduced: set<K>, reducedMap: map<K, seq<int>>)
    requires Distinct(inputAlphabet) && k < |inputAlphabet|
    requires KeyedInv(inputAlphabet, cols, width, k, seen, reduced, reducedMap) && |cols[k]| == width
    requires cols[k] !in seen
    ensures KeyedInv(inputAlphabet, cols, width, k + 1, seen + [cols[k]], reduced + {inputAlphabet[k]},
                     reducedMap[inputAlphabet[k] := cols[k]])
  {
    assert forall j :: 0 <= j < |inputAlphabet| && j != k ==> inputAlphabet[j] != inputAlphabet[k];
  }

  /**
   * The computeReducedInputAlphabet template (lines 71-130), with the
   * input alphabet given in the order the set enumerates it: an input is
   * kept exactly when no earlier input has the same vector, and the map
   * records the vector of every kept input.
   */
  method ComputeReducedKeyedAlphabet<K>(inputAlphabet: seq<K>, states: MapMachine<K>)
    returns (reducedInputAlphabet: set<K>, reducedInputAlphabetMap: map<K, seq<int>>)
    requires Distinct(inputAlphabet)
    ensures reducedInputAlphabetMap.Keys == reducedInputAlphabet
    ensures forall k :: 0 <= k < |inputAlphabet| ==>
      (inputAlphabet[k] in reducedInputAlphabet <==>
        forall b :: 0 <= b < k ==> KeyedColumn(states, inputAlphabet[b]) != KeyedColumn(states, inputAlphabet[k]))
    ensures forall x :: x in reducedInputAlphabet ==> x in inputAlphabet && reducedInputAlphabetMap[x] == KeyedColumn(states, x)
  {
    ghost var cols := seq(|inputAlphabet|, j requires 0 <= j < |inputAlphabet| => KeyedColumn(states, inputAlphabet[j]));
    reducedInputAlphabet, reducedInputAlphabetMap := {}, map[];
    var seen: seq<seq<int>> := [];
    var k := 0;
    while k < |inputAlphabet|
      invariant KeyedInv(inputAlphabet, cols, |states|, k, seen, reducedInputAlphabet, reducedInputAlphabetMap)
    {
      var input := inputAlphabet[k];
      var v := KeyedNextStatesList(states, input);
      assert v == cols[k];
      var contained := Contained(seen, v);
      if contained {
        KeyedSkip(inputAlphabet, cols, |states|, k, seen, reducedInputAlphabet, reducedInputAlphabetMap);
      } else {
        KeyedKeep(inputAlphabet, cols, |states|, k, seen, reducedInputAlphabet, reducedInputAlphabetMap);
        seen := seen + [v];
        reducedInputAlphabet := reducedInputAlphabet + {input};
        reducedInputAlphabetMap := reducedInputAlphabetMap[input := v];
      }
      k := k + 1;
    }
    KeyedDone(inputAlphabet, states, cols, reducedInputAlphabet, reducedInputAlphabetMap);
  }

  lemma KeyedDone<K>(inputAlphabet: seq<K>, states: MapMachine<K>, cols: seq<seq<int>>, reduced: set<K>, reducedMap: map<K, seq<int>>)
    requires cols == seq(|inputAlphabet|, j requires 0 <= j < |inputAlphabet| => KeyedColumn(states, inputAlphabet[j]))
    requires (forall j :: 0 <= j < |inputAlphabet| ==> (inputAlphabet[j] in reduced <==> FirstOfVector(cols, j)))
    requires reducedMap.Keys == reduced
    requires (forall j :: 0 <= j < |inputAlphabet| && inputAlphabet[j] in reduced ==> reducedMap[inputAlphabet[j]] == cols[j])
    requires forall x :: x in reduced ==> x in inputAlphabet
    ensures forall k :: 0 <= k < |inputAlphabet| ==>
      (inputAlphabet[k] in reduced <==>
        forall b :: 0 <= b < k ==> KeyedColumn(states, inputAlphabet[b]) != KeyedColumn(states, inputAlphabet[k]))
    ensures forall x :: x in reduced ==> reducedMap[x] == KeyedColumn(states, x)
  {
    forall k | 0 <= k < |inputAlphabet|
      ensures FirstOfVector(cols, k) <==> forall b :: 0 <= b < k ==> KeyedColumn(states, inputAlphabet[b]) != KeyedColumn(states, inputAlphabet[k])
    {
    }
    forall x | x in reduced ensures reducedMap[x] == KeyedColumn(states, x) {
      var j :| 0 <= j < |inputAlphabet| && inputAlphabet[j] == x;
    }
  }
}

=== FILE: KissParser.dfy ===
/**
 * parseKISSFile (KISSParser.cpp), over the lines of a KISS2 file: header
 * lines `.i`, `.o` and `.r`, and transition lines `<input> <from> <to>
 * <output>`.  States get dense ids in order of first appearance, equal
 * pattern strings denote one pattern, and transitions from `*` are added to
 * every state once all lines are read.
 *
 * Positions follow std::string: a search that finds nothing returns npos,
 * written -1 here, and taking a substring from npos throws, which ends the
 * program; such a line is `Broken`.
 */
module KissParser {
  import opened Patterns
  import opened Machines

  datatype Option<T> = None | Some(value: T)

  // ---------------------------------------------------------------------
  // Characters and searches
  // ---------------------------------------------------------------------

  /** The separator set " \t\f\v\n\r" of the source. */
  predicate IsSpace(c: char) {
    c == ' ' || c == '\t' || c == 12 as char || c == 11 as char || c == '\n' || c == '\r'
  }

  predicate IsPatternChar(c: char) {
    c == '0' || c == '1' || c == '-'
  }

  predicate IsDigit(c: char) {
    '0' <= c <= '9'
  }

  /** The character sets the parser searches for. */
  datatype CharSet =
    | Blank       // " \t\f\v\n\r"
    | NonBlank    // anything but " \t\f\v\n\r"
    | NonPattern  // anything but "01-"

  predicate In(cs: CharSet, c: char) {
    match cs
    case Blank => IsSpace(c)
    case NonBlank => !IsSpace(c)
    case NonPattern => !IsPatternChar(c)
  }

  /** find_first_of / find_first_not_of from position `from`: the first position from there whose character is in cs, or -1 (npos). */
  function FindFrom(line: string, from: int, cs: CharSet): (r: int)
    decreases |line| - from
    ensures r == -1 || (0 <= from <= r < |line| && In(cs, line[r]))
    ensures forall j :: 0 <= from <= j < |line| && (r == -1 || j < r) ==> !In(cs, line[j])
  {
    if from < 0 || from >= |line| then -1
    else if In(cs, line[from]) then from
    else FindFrom(line, from + 1, cs)
  }

  /** find_last_not_of(" \t\f\v\n\r") below position `upTo`, or -1. */
  function LastNotSpace(line: string, upTo: nat): (r: int)
    requires upTo <= |line|
    ensures -1 <= r < upTo && (r >= 0 ==> !IsSpace(line[r]))
    ensures forall j :: r < j < upTo ==> IsSpace(line[j])
  {
    if upTo == 0 then -1
    else if !IsSpace(line[upTo - 1]) then upTo - 1
    else LastNotSpace(line, upTo - 1)
  }

  /** The end of a field: the separator found, or the end of the line when there is none. */
  function End(line: string, e: int): nat {
    if 0 <= e <= |line| then e else |line|
  }

  // ---------------------------------------------------------------------
  // Numbers: sprintf("%d") and operator>> of std::istringstream
  // ---------------------------------------------------------------------

  function DigitChar(d: nat): char
    requires d < 10
  {
    ('0' as int + d) as char
  }

  /** The decimal digits of n, without leading zeros. */
  function Decimal(n: nat): (s: string)
    ensures |s| >= 1 && forall i :: 0 <= i < |s| ==> IsDigit(s[i])
    ensures s[0] == '0' ==> n == 0
  {
    if n < 10 then [DigitChar(n)] else Decimal(n / 10) + [DigitChar(n % 10)]
  }

  function DigitValue(c: char): (d: nat)
    requires IsDigit(c)
    ensures d < 10
  {
    c as int - '0' as int
  }

  /** The value of a string of digits. */
  function DigitsValue(s: string): nat
    requires forall i :: 0 <= i < |s| ==> IsDigit(s[i])
  {
    if s == [] then 0 else 10 * DigitsValue(s[..|s| - 1]) + DigitValue(s[|s| - 1])
  }

  /** Reading back the decimal digits of n gives n. */
  lemma {:induction false} DecimalRoundTrip(n: nat)
    ensures DigitsValue(Decimal(n)) == n
  {
    if n >= 10 {
      var s := Decimal(n);
      assert s[..|s| - 1] == Decimal(n / 10);
      DecimalRoundTrip(n / 10);
    }
  }

  /** Different numbers have different decimal forms. */
  lemma DecimalInjective(m: nat, n: nat)
    requires Decimal(m) == Decimal(n)
    ensures m == n
  {
    DecimalRoundTrip(m);
    DecimalRoundTrip(n);
  }

  /** operator<< of an int: a minus sign for negative values, then the digits. */
  function IntToString(v: int): (s: string)
    ensures |s| >= 1
  {
    if v < 0 then "-" + Decimal(-v) else Decimal(v)
  }

  const IntMax: int := 0x7fff_ffff
  const IntMin: int := -0x8000_0000

  /** The number of digits at the start of s. */
  function DigitRun(s: string): (n: nat)
    ensures n <= |s| && forall i :: 0 <= i < n ==> IsDigit(s[i])
    ensures n < |s| ==> !IsDigit(s[n])
  {
    if s == [] || !IsDigit(s[0]) then 0 else 1 + DigitRun(s[1..])
  }

  /**
   * operator>> into an int: skip white space, read an optional sign and the
   * longest run of digits; no digits give 0, a value out of range the
   * nearest bound.
   */
  function ReadInt(s: string): int {
    var i := FindFrom(s, 0, NonBlank);
    if i == -1 then 0
    else
      var neg := s[i] == '-';
      var j := if s[i] == '-' || s[i] == '+' then i + 1 else i;
      var t := s[j..];
      var d := DigitRun(t);
      if d == 0 then 0
      else
        var v := DigitsValue(t[..d]);
        var signed: int := if neg then 0 - (v as int) else v as int;
        if signed > IntMax then IntMax else if signed < IntMin then IntMin else signed
  }

  /** What operator<< writes for an int is read back by operator>>. */
  lemma ReadIntRoundTrip(v: int)
    requires IntMin <= v <= IntMax
    ensures ReadInt(IntToString(v)) == v
  {
    var s := IntToString(v);
    var digits := if v < 0 then Decimal(-v) else Decimal(v);
    var j := if v < 0 then 1 else 0;
    assert s[j..] == digits;
    assert !IsSpace(s[0]);
    assert DigitRun(s[j..]) == |digits| by { DigitRunAll(digits); }
    assert s[j..][..|digits|] == digits;
    DecimalRoundTrip(if v < 0 then -v else v);
  }

  lemma {:induction false} DigitRunAll(s: string)
    requires forall i :: 0 <= i < |s| ==> IsDigit(s[i])
    ensures DigitRun(s) == |s|
  {
    if s != [] {
      DigitRunAll(s[1..]);
    }
  }

  // ---------------------------------------------------------------------
  // One line
  // ---------------------------------------------------------------------

  /** The four fields of a transition line. */
  datatype Fields = Fields(input: string, from: string, to: string, output: string)

  predicate NoSpace(s: string) {
    forall i :: 0 <= i < |s| ==> !IsSpace(s[i])
  }

  /** Where a run from position s ends: at the first character in stop, or at the end of the line. */
  function RunEnd(line: string, s: nat, stop: CharSet): (e: nat)
    requires s <= |line|
    ensures s <= e <= |line| && (e < |line| ==> In(stop, line[e]))
    ensures forall j :: s <= j < e ==> !In(stop, line[j])
  {
    End(line, FindFrom(line, s, stop))
  }

  /**
   * Lines 59-74: the input is the leading run of 0, 1 and -; the two state
   * names are the next two runs without white space; the output is the run
   * of 0, 1 and - that starts at the next non-space character.  Each search
   * starts where the previous field ended (npos when that field reached the
   * end of the line); a field whose start is npos makes substr throw: None.
   */
  function FieldsOf(line: string): (r: Option<Fields>)
    ensures r.Some? ==> IsPatternString(r.value.input) && r.value.input <= line
    ensures r.Some? && |r.value.input| < |line| ==> !IsPatternChar(line[|r.value.input|])
    ensures r.Some? ==> r.value.from != [] && NoSpace(r.value.from) && r.value.to != [] && NoSpace(r.value.to)
    ensures r.Some? ==> IsPatternString(r.value.output)
  {
    var e1 := RunEnd(line, 0, NonPattern);
    var s2 := FindFrom(line, e1, NonBlank);
    if s2 == -1 then None
    else
      var e2 := RunEnd(line, s2, Blank);
      var s3 := FindFrom(line, e2, NonBlank);
      if s3 == -1 then None
      else
        var e3 := RunEnd(line, s3, Blank);
        var s4 := FindFrom(line, e3, NonBlank);
        if s4 == -1 then None
        else Some(Fields(line[..e1], line[s2..e2], line[s3..e3], line[s4..RunEnd(line, s4, NonPattern)]))
  }

  /**
   * The argument of a `.r`, `.i` or `.o` line: substr(3, last - 2) where
   * last is the last non-space position.  When the line holds nothing but
   * white space after its second character the count wraps around and the
   * whole rest of the line is taken.
   */
  function Trimmed(line: string): (r: string)
    requires |line| >= 3
    ensures r <= line[3..]
    ensures forall j :: 3 + |r| <= j < |line| ==> IsSpace(line[j])
    ensures (exists j :: 3 <= j < |line| && !IsSpace(line[j])) ==> r != [] && !IsSpace(r[|r| - 1])
  {
    var last := LastNotSpace(line, |line|);
    if last >= 2 then line[3..last + 1] else line[3..]
  }

  /** What the loop body of parseKISSFile makes of one line. */
  datatype LineKind =
    | ResetLine(name: string)
    | InputsLine(bits: int)
    | OutputsLine(bits: int)
    | TransitionLine(fields: Fields)
    | Ignored
    /** A substr from beyond the end of the line: std::out_of_range ends the program. */
    | Broken

  /**
   * Lines 42-58: the first character selects the kind; reading one past the
   * end of a std::string gives the character 0.
   */
  function Classify(line: string): LineKind {
    var c0 := if |line| > 0 then line[0] else 0 as char;
    var c1 := if |line| > 1 then line[1] else 0 as char;
    if c0 == '.' then
      if c1 != 'r' && c1 != 'i' && c1 != 'o' then Ignored
      else if |line| < 3 then Broken
      else if c1 == 'r' then ResetLine(Trimmed(line))
      else if c1 == 'i' then InputsLine(ReadInt(Trimmed(line)))
      else OutputsLine(ReadInt(Trimmed(line)))
    else if IsPatternChar(c0) then
      match FieldsOf(line)
      case Some(f) => TransitionLine(f)
      case None => Broken
    else Ignored
  }

  // ---------------------------------------------------------------------
  // What a file denotes
  // ---------------------------------------------------------------------

  /** The state names a line looks up, in the order it looks them up (lines 46, 87, 93). */
  function Mentions(k: LineKind): seq<string> {
    match k
    case ResetLine(name) => [name]
    case TransitionLine(f) => if f.from == "*" then [f.to] else [f.from, f.to]
    case _ => []
  }

  /** ns followed by those names of ms it does not hold yet, in order. */
  function AddNames(ns: seq<string>, ms: seq<string>): (r: seq<string>)
    decreases |ms|
    ensures |ns| <= |r| && r[..|ns|] == ns
  {
    if ms == [] then ns
    else AddNames(if ms[0] in ns then ns else ns + [ms[0]], ms[1..])
  }

  /** The state names of a file in order of first mention; a state's id is its position here. */
  function Names(ks: seq<LineKind>): seq<string> {
    if ks == [] then [] else AddNames(Names(ks[..|ks| - 1]), Mentions(ks[|ks| - 1]))
  }

  /** The position of x in ns, or |ns| when x is not there. */
  function Position(ns: seq<string>, x: string): (r: nat)
    ensures r <= |ns| && (r == |ns| <==> x !in ns)
    ensures r < |ns| ==> ns[r] == x && x !in ns[..r]
  {
    if ns == [] then 0
    else if ns[0] == x then 0
    else
      assert ns[1..][..Position(ns[1..], x)] == ns[..Position(ns[1..], x) + 1][1..];
      1 + Position(ns[1..], x)
  }

  /** The position of the first name other than "*", or |ns| when there is none. */
  function FirstNamed(ns: seq<string>): (r: nat)
    ensures r <= |ns| && (r < |ns| ==> ns[r] != "*")
    ensures forall i :: 0 <= i < r ==> ns[i] == "*"
  {
    if ns == [] then 0
    else if ns[0] != "*" then 0
    else 1 + FirstNamed(ns[1..])
  }

  /** A transition line as a transition, its target looked up in ns. */
  function TransitionOf(f: Fields, ns: seq<string>): Transition {
    Transition(FromString(f.input), Position(ns, f.to), FromString(f.output))
  }

  /** The transitions of the lines whose source state is written `name`, in file order. */
  function Own(ks: seq<LineKind>, name: string, ns: seq<string>): seq<Transition> {
    if ks == [] then []
    else
      Own(ks[..|ks| - 1], name, ns) +
      match ks[|ks| - 1]
      case TransitionLine(f) => if f.from == name then [TransitionOf(f, ns)] else []
      case _ => []
  }

  /**
   * The transitions of state s in the parsed machine: those of its own lines
   * followed by those of the `*` lines.  A state named `*` can only be
   * entered; `*` lines belong to every state.
   */
  function StateTransitions(ks: seq<LineKind>, s: nat): seq<Transition>
    requires s < |Names(ks)|
  {
    OwnOf(ks, s) + Own(ks, "*", Names(ks))
  }

  /** The transitions of the lines that start in state s itself. */
  function OwnOf(ks: seq<LineKind>, s: nat): seq<Transition>
    requires s < |Names(ks)|
  {
    var ns := Names(ks);
    if ns[s] == "*" then [] else Own(ks, ns[s], ns)
  }

  /** The kind of every line of a file. */
  function Kinds(lines: seq<string>): (ks: seq<LineKind>)
    ensures |ks| == |lines| && forall k :: 0 <= k < |lines| ==> ks[k] == Classify(lines[k])
  {
    seq(|lines|, k requires 0 <= k < |lines| => Classify(lines[k]))
  }

  /** The argument of the last `.r` line. */
  function LastReset(ks: seq<LineKind>): Option<string> {
    if ks == [] then None
    else match ks[|ks| - 1]
      case ResetLine(name) => Some(name)
      case _ => LastReset(ks[..|ks| - 1])
  }

  /**
   * The reset state: the one the last `.r` line names; without `.r` lines
   * and with firstStateReset, the first state other than `*`; otherwise -1.
   */
  function Reset(ks: seq<LineKind>, firstStateReset: bool): int {
    var ns := Names(ks);
    match LastReset(ks)
    case Some(name) => Position(ns, name)
    case None => if firstStateReset && FirstNamed(ns) < |ns| then FirstNamed(ns) else -1
  }

  /** The value of the last `.i` line, or the value held before the file was read. */
  function InputBits(ks: seq<LineKind>, before: int): int {
    if ks == [] then before
    else match ks[|ks| - 1]
      case InputsLine(b) => b
      case _ => InputBits(ks[..|ks| - 1], before)
  }

  /** The value of the last `.o` line, or the value held before the file was read. */
  function OutputBits(ks: seq<LineKind>, before: int): int {
    if ks == [] then before
    else match ks[|ks| - 1]
      case OutputsLine(b) => b
      case _ => OutputBits(ks[..|ks| - 1], before)
  }

  // ---------------------------------------------------------------------
  // Properties of the ids
  // ---------------------------------------------------------------------

  lemma {:induction false} AddNamesMember(ns: seq<string>, ms: seq<string>, x: string)
    decreases |ms|
    ensures x in AddNames(ns, ms) <==> x in ns || x in ms
  {
    if ms != [] {
      var ns' := if ms[0] in ns then ns else ns + [ms[0]];
      AddNamesMember(ns', ms[1..], x);
      assert ms == [ms[0]] + ms[1..];
    }
  }

  lemma {:induction false} AddNamesDistinct(ns: seq<string>, ms: seq<string>)
    decreases |ms|
    requires Distinct(ns)
    ensures Distinct(AddNames(ns, ms))
  {
    if ms != [] {
      var ns' := if ms[0] in ns then ns else ns + [ms[0]];
      AddNamesDistinct(ns', ms[1..]);
    }
  }

  /** Different states get different ids: no name is listed twice. */
  lemma {:induction false} NamesDistinct(ks: seq<LineKind>)
    ensures Distinct(Names(ks))
  {
    if ks != [] {
      NamesDistinct(ks[..|ks| - 1]);
      AddNamesDistinct(Names(ks[..|ks| - 1]), Mentions(ks[|ks| - 1]));
    }
  }

  /** Some line of ks looks x up. */
  predicate Mentioned(ks: seq<LineKind>, x: string) {
    exists k :: 0 <= k < |ks| && x in Mentions(ks[k])
  }

  lemma MentionedSnoc(ks: seq<LineKind>, x: string)
    requires ks != []
    ensures Mentioned(ks, x) <==> Mentioned(ks[..|ks| - 1], x) || x in Mentions(ks[|ks| - 1])
  {
    var p := ks[..|ks| - 1];
    if Mentioned(p, x) {
      var k :| 0 <= k < |p| && x in Mentions(p[k]);
      assert ks[k] == p[k];
    }
    if Mentioned(ks, x) && x !in Mentions(ks[|ks| - 1]) {
      var k :| 0 <= k < |ks| && x in Mentions(ks[k]);
      assert k < |p| && p[k] == ks[k];
    }
  }

  /** A name gets a state exactly when some line mentions it. */
  lemma {:induction false} NamesMember(ks: seq<LineKind>, x: string)
    ensures x in Names(ks) <==> Mentioned(ks, x)
  {
    if ks != [] {
      var p := ks[..|ks| - 1];
      NamesMember(p, x);
      AddNamesMember(Names(p), Mentions(ks[|ks| - 1]), x);
      MentionedSnoc(ks, x);
    }
  }

  /** Reading more lines never changes the id of a state already named: ids are handed out in order of first mention. */
  lemma {:induction false} NamesPrefix(ks: seq<LineKind>, j: nat)
    requires j <= |ks|
    ensures Names(ks[..j]) <= Names(ks)
  {
    if j < |ks| {
      var p := ks[..|ks| - 1];
      assert ks[..j] == p[..j];
      NamesPrefix(p, j);
    } else {
      assert ks[..j] == ks;
    }
  }

  lemma PositionExtend(ns: seq<string>, more: seq<string>, x: string)
    requires x in ns
    ensures Position(ns + more, x) == Position(ns, x)
  {
    var q := Position(ns, x);
    assert (ns + more)[q] == x;
  }

  /** In a list without repetitions every element is found at its own position. */
  lemma PositionDistinct(ns: seq<string>, i: nat)
    requires Distinct(ns) && i < |ns|
    ensures Position(ns, ns[i]) == i
  {
  }

  /** Looking the targets up in a longer list of names changes nothing. */
  lemma {:induction false} OwnStable(ks: seq<LineKind>, name: string, ns: seq<string>, more: seq<string>)
    requires Names(ks) <= ns
    ensures Own(ks, name, ns + more) == Own(ks, name, ns)
  {
    if ks != [] {
      var p := ks[..|ks| - 1];
      NamesPrefix(ks, |ks| - 1);
      OwnStable(p, name, ns, more);
      var k := ks[|ks| - 1];
      if k.TransitionLine? {
        AddNamesMember(Names(p), Mentions(k), k.fields.to);
      }
      LastStable(k, name, ns, more);
    }
  }

  /** The transition a last line adds is the same in a longer list of names. */
  lemma LastStable(k: LineKind, name: string, ns: seq<string>, more: seq<string>)
    requires k.TransitionLine? ==> k.fields.to in ns
    ensures (if k.TransitionLine? && k.fields.from == name then [TransitionOf(k.fields, ns + more)] else []) ==
            (if k.TransitionLine? && k.fields.from == name then [TransitionOf(k.fields, ns)] else [])
  {
    if k.TransitionLine? {
      PositionExtend(ns, more, k.fields.to);
    }
  }

  /** A state that no line names has no transitions of its own. */
  lemma {:induction false} OwnUnmentioned(ks: seq<LineKind>, x: string, ns: seq<string>)
    requires x != "*" && x !in Names(ks)
    ensures Own(ks, x, ns) == []
  {
    if ks != [] {
      var p := ks[..|ks| - 1];
      AddNamesMember(Names(p), Mentions(ks[|ks| - 1]), x);
      OwnUnmentioned(p, x, ns);
    }
  }

  /** Every target is the id of a state. */
  lemma {:induction false} OwnTargets(ks: seq<LineKind>, x: string)
    ensures forall t :: 0 <= t < |Own(ks, x, Names(ks))| ==> Own(ks, x, Names(ks))[t].next < |Names(ks)|
  {
    if ks != [] {
      var p := ks[..|ks| - 1];
      var ns := Names(ks);
      NamesPrefix(ks, |ks| - 1);
      var extra := ns[|Names(p)|..];
      assert ns == Names(p) + extra;
      OwnTargets(p, x);
      OwnStable(p, x, Names(p), extra);
      match ks[|ks| - 1]
      case TransitionLine(f) =>
        AddNamesMember(Names(p), Mentions(ks[|ks| - 1]), f.to);
      case _ =>
    }
  }

  /** The reset is -1 or the id of a state. */
  lemma {:induction false} ResetInRange(ks: seq<LineKind>, firstStateReset: bool)
    ensures -1 <= Reset(ks, firstStateReset) < |Names(ks)|
  {
    match LastReset(ks)
    case Some(name) =>
      var k := LastResetLine(ks);
      assert name in Mentions(ks[k]);
      NamesMember(ks, name);
    case None =>
  }

  /** The line the last `.r` comes from. */
  lemma {:induction false} LastResetLine(ks: seq<LineKind>) returns (k: nat)
    requires LastReset(ks).Some?
    ensures k < |ks| && ks[k] == ResetLine(LastReset(ks).value)
  {
    var p := ks[..|ks| - 1];
    if ks[|ks| - 1].ResetLine? {
      k := |ks| - 1;
    } else {
      k := LastResetLine(p);
      assert ks[k] == p[k];
    }
  }

  lemma NamesSnoc(ks: seq<LineKind>, k: LineKind)
    ensures Names(ks + [k]) == AddNames(Names(ks), Mentions(k))
  {
    assert (ks + [k])[..|ks|] == ks;
  }

  lemma AddOne(ns: seq<string>, a: string)
    ensures AddNames(ns, [a]) == if a in ns then ns else ns + [a]
  {
    assert [a][1..] == [];
  }

  lemma AddTwo(ns: seq<string>, a: string, b: string)
    ensures AddNames(ns, [a, b]) == AddNames(AddNames(ns, [a]), [b])
  {
    assert [a, b][1..] == [b];
  }

  /** One more line adds at most one transition, to the state it starts in. */
  lemma OwnSnoc(ks: seq<LineKind>, k: LineKind, x: string)
    ensures Own(ks + [k], x, Names(ks + [k])) ==
      Own(ks, x, Names(ks)) + if k.TransitionLine? && k.fields.from == x then [TransitionOf(k.fields, Names(ks + [k]))] else []
  {
    var ks' := ks + [k];
    assert ks'[..|ks|] == ks;
    NamesPrefix(ks', |ks|);
    OwnStable(ks, x, Names(ks), Names(ks')[|Names(ks)|..]);
    assert Names(ks) + Names(ks')[|Names(ks)|..] == Names(ks');
  }

  lemma FirstNamedAppend(ns: seq<string>, e: seq<string>)
    ensures FirstNamed(ns + e) == if FirstNamed(ns) < |ns| then FirstNamed(ns) else |ns| + FirstNamed(e)
  {
    var r := FirstNamed(ns + e);
    var r' := if FirstNamed(ns) < |ns| then FirstNamed(ns) else |ns| + FirstNamed(e);
    assert r' <= |ns + e| && (r' < |ns + e| ==> (ns + e)[r'] != "*");
    assert forall i :: 0 <= i < r' ==> (ns + e)[i] == "*";
  }

  // ---------------------------------------------------------------------
  // parseKISSFile
  // ---------------------------------------------------------------------

  /** The locals of parseKISSFile between two lines. */
  datatype Reader = Reader(
    /** The transitions read so far, without those from `*`. */
    states: Machine,
    /** stateToInt */
    ids: map<string, nat>,
    /** stringToIncSpecSeq */
    interned: map<string, Pattern>,
    /** undefinedFromStates */
    deferred: seq<Transition>,
    reset: int,
    inputBits: int,
    outputBits: int)

  /** stateToInt maps exactly the names of ns, each to its position. */
  ghost predicate IdsOk(ids: map<string, nat>, ns: seq<string>) {
    (forall x :: x in ids ==> ids[x] < |ns| && ns[ids[x]] == x) &&
    (forall i :: 0 <= i < |ns| ==> ns[i] in ids && ids[ns[i]] == i)
  }

  /** Every pattern string is interned as the pattern it spells. */
  predicate InternedOk(interned: map<string, Pattern>) {
    forall x :: x in interned ==> interned[x] == FromString(x)
  }

  /** states holds the transitions of every state but those from `*`. */
  ghost predicate StatesRead(states: Machine, ks: seq<LineKind>) {
    |states| == |Names(ks)| && forall s :: 0 <= s < |states| ==> states[s] == OwnOf(ks, s)
  }

  /** The reader holds what the lines of kinds ks denote. */
  ghost predicate ReadAll(r: Reader, ks: seq<LineKind>, firstStateReset: bool, inputBits: int, outputBits: int) {
    var ns := Names(ks);
    IdsOk(r.ids, ns) && InternedOk(r.interned) && StatesRead(r.states, ks) &&
    r.deferred == Own(ks, "*", ns) && r.reset == Reset(ks, firstStateReset) &&
    r.inputBits == InputBits(ks, inputBits) && r.outputBits == OutputBits(ks, outputBits)
  }

  /** Lines 46-49 and 87-97: give `name` the next id unless it has one. */
  method AddState(ids: map<string, nat>, states: Machine, name: string, ghost ns: seq<string>)
    returns (ids': map<string, nat>, states': Machine, isNew: bool, id: nat)
    requires IdsOk(ids, ns) && |states| == |ns|
    ensures isNew <==> name !in ns
    ensures ids' == if isNew then ids[name := |states|] else ids
    ensures states' == states + if isNew then [[]] else []
    ensures IdsOk(ids', ns + if isNew then [name] else [])
    ensures id == ids'[name]
  {
    isNew := name !in ids;
    if name in ns {
      assert ns[Position(ns, name)] == name;
    }
    if isNew {
      ids' := ids[name := |states|];
      states' := states + [[]];
    } else {
      ids', states' := ids, states;
    }
    id := ids'[name];
  }

  /** The id stateToInt holds for a name is its position among the names. */
  lemma IdIsPosition(ids: map<string, nat>, ns: seq<string>, x: string)
    requires IdsOk(ids, ns) && x in ids
    ensures ids[x] == Position(ns, x) && ids[x] < |ns|
  {
    assert ns[Position(ns, x)] == x;
  }

  /** Lines 76-85: the pattern of a string, made once per distinct string. */
  method Intern(interned: map<string, Pattern>, str: string) returns (interned': map<string, Pattern>, p: Pattern)
    requires InternedOk(interned)
    ensures InternedOk(interned') && interned.Keys <= interned'.Keys && str in interned'
    ensures p == FromString(str)
  {
    interned' := interned;
    if str !in interned' {
      interned' := interned'[str := FromString(str)];
    }
    p := interned'[str];
  }

  /** The states of a line's predecessor keep their transitions; the line adds at most one, to the state it starts in. */
  lemma StateStep(ks: seq<LineKind>, k: LineKind, s: nat)
    requires s < |Names(ks + [k])|
    ensures s < |Names(ks)| ==> Names(ks + [k])[s] == Names(ks)[s]
    ensures s >= |Names(ks)| ==> Names(ks + [k])[s] !in Names(ks)
    ensures OwnOf(ks + [k], s) ==
      (if s < |Names(ks)| then OwnOf(ks, s) else []) +
      if k.TransitionLine? && k.fields.from == Names(ks + [k])[s] && k.fields.from != "*"
      then [TransitionOf(k.fields, Names(ks + [k]))] else []
  {
    var ns, ns' := Names(ks), Names(ks + [k]);
    NamesPrefix(ks + [k], |ks|);
    assert (ks + [k])[..|ks|] == ks;
    NamesDistinct(ks + [k]);
    OwnSnoc(ks, k, ns'[s]);
    if s >= |ns| && ns'[s] != "*" {
      OwnUnmentioned(ks, ns'[s], ns);
    }
  }

  /** Lines 43-50: a `.r` line names the reset state, creating it if need be. */
  method ReadReset(r: Reader, ghost ks: seq<LineKind>, name: string, firstStateReset: bool, ghost inputBits: int, ghost outputBits: int)
    returns (r': Reader)
    requires ReadAll(r, ks, firstStateReset, inputBits, outputBits)
    ensures ReadAll(r', ks + [ResetLine(name)], firstStateReset, inputBits, outputBits)
  {
    var ids, states, isNew, id := AddState(r.ids, r.states, name, Names(ks));
    r' := Reader(states, ids, r.interned, r.deferred, id, r.inputBits, r.outputBits);
    ghost var k := ResetLine(name);
    NamesSnoc(ks, k);
    AddOne(Names(ks), name);
    OnlyNewStates(ks, k, r.states, states);
    OwnSnoc(ks, k, "*");
    HeaderStep(ks, k, firstStateReset, inputBits, outputBits);
    BitsStep(ks, k, inputBits, outputBits);
  }

  /** What a line that is no transition does to the reset and the bit counts. */
  lemma HeaderStep(ks: seq<LineKind>, k: LineKind, firstStateReset: bool, inputBits: int, outputBits: int)
    requires !k.TransitionLine?
    ensures k.ResetLine? ==> Reset(ks + [k], firstStateReset) == Position(Names(ks + [k]), k.name)
    ensures !k.ResetLine? ==> Names(ks + [k]) == Names(ks) && Reset(ks + [k], firstStateReset) == Reset(ks, firstStateReset)
  {
    assert (ks + [k])[..|ks|] == ks;
  }

  /** Only `.i` and `.o` lines change the bit counts. */
  lemma BitsStep(ks: seq<LineKind>, k: LineKind, inputBits: int, outputBits: int)
    ensures InputBits(ks + [k], inputBits) == if k.InputsLine? then k.bits else InputBits(ks, inputBits)
    ensures OutputBits(ks + [k], outputBits) == if k.OutputsLine? then k.bits else OutputBits(ks, outputBits)
  {
    assert (ks + [k])[..|ks|] == ks;
  }

  /** After a line that is not a transition, the states already there keep their transitions and new ones have none. */
  lemma OnlyNewStates(ks: seq<LineKind>, k: LineKind, states: Machine, states': Machine)
    requires !k.TransitionLine? && StatesRead(states, ks)
    requires states' == states + [] || states' == states + [[]]
    requires |states'| == |Names(ks + [k])|
    ensures StatesRead(states', ks + [k])
  {
    forall s | 0 <= s < |states'|
      ensures states'[s] == OwnOf(ks + [k], s)
    {
      StateStep(ks, k, s);
    }
  }

  /** After a transition line: new states start empty, and the line's transition is appended to the state it starts in. */
  lemma TransitionStates(ks: seq<LineKind>, f: Fields, states0: Machine, e1: Machine, e2: Machine, states1: Machine, i: nat, states': Machine)
    requires StatesRead(states0, ks)
    requires |e1| <= 1 && |e2| <= 1 && (e1 != [] ==> e1[0] == []) && (e2 != [] ==> e2[0] == [])
    requires states1 == states0 + e1 + e2 && |states1| == |Names(ks + [TransitionLine(f)])|
    requires f.from == "*" ==> states' == states1
    requires f.from != "*" ==> i == Position(Names(ks + [TransitionLine(f)]), f.from) && i < |states1|
    requires f.from != "*" ==> states' == states1[i := states1[i] + [TransitionOf(f, Names(ks + [TransitionLine(f)]))]]
    ensures StatesRead(states', ks + [TransitionLine(f)])
  {
    forall s | 0 <= s < |states'|
      ensures states'[s] == OwnOf(ks + [TransitionLine(f)], s)
    {
      AppendEmpty(states0, e1, e2, s);
      TransitionState(ks, f, states1, i, states', s);
    }
  }

  /** One state of TransitionStates, given what it held before the line. */
  lemma TransitionState(ks: seq<LineKind>, f: Fields, states1: Machine, i: nat, states': Machine, s: nat)
    requires s < |states1| == |Names(ks + [TransitionLine(f)])|
    requires states1[s] == if s < |Names(ks)| then OwnOf(ks, s) else []
    requires f.from == "*" ==> states' == states1
    requires f.from != "*" ==> i == Position(Names(ks + [TransitionLine(f)]), f.from) && i < |states1|
    requires f.from != "*" ==> states' == states1[i := states1[i] + [TransitionOf(f, Names(ks + [TransitionLine(f)]))]]
    ensures states'[s] == OwnOf(ks + [TransitionLine(f)], s)
  {
    var ns' := Names(ks + [TransitionLine(f)]);
    StateStep(ks, TransitionLine(f), s);
    if f.from != "*" && ns'[s] == f.from {
      NamesDistinct(ks + [TransitionLine(f)]);
      PositionDistinct(ns', s);
    }
  }

  /** Appending at most two empty states leaves the old ones in place. */
  lemma AppendEmpty(states0: Machine, e1: Machine, e2: Machine, s: nat)
    requires |e1| <= 1 && |e2| <= 1 && (e1 != [] ==> e1[0] == []) && (e2 != [] ==> e2[0] == [])
    requires s < |states0 + e1 + e2|
    ensures (states0 + e1 + e2)[s] == if s < |states0| then states0[s] else []
  {
  }

  /** The names a transition line adds: its source unless it is `*` or known, then its target unless known. */
  lemma TransitionNames(ks: seq<LineKind>, f: Fields, fromNew: bool, toNew: bool)
    requires fromNew <==> f.from != "*" && f.from !in Names(ks)
    requires toNew <==> f.to !in Names(ks) + (if fromNew then [f.from] else [])
    ensures Names(ks + [TransitionLine(f)]) == Names(ks) + (if fromNew then [f.from] else []) + (if toNew then [f.to] else [])
  {
    var ns := Names(ks);
    NamesSnoc(ks, TransitionLine(f));
    if f.from == "*" {
      AddOne(ns, f.to);
    } else {
      AddTwo(ns, f.from, f.to);
      AddOne(ns, f.from);
      AddOne(AddNames(ns, [f.from]), f.to);
    }
  }

  /** The reset after a transition line, as lines 87-97 update it. */
  lemma TransitionReset(ks: seq<LineKind>, f: Fields, firstStateReset: bool, fromNew: bool, toNew: bool)
    requires fromNew <==> f.from != "*" && f.from !in Names(ks)
    requires toNew <==> f.to !in Names(ks) + (if fromNew then [f.from] else [])
    ensures Reset(ks + [TransitionLine(f)], firstStateReset) ==
      var r0 := Reset(ks, firstStateReset);
      var r1 := if fromNew && r0 == -1 && firstStateReset then |Names(ks)| else r0;
      if toNew && r1 == -1 && firstStateReset && f.to != "*" then |Names(ks) + (if fromNew then [f.from] else [])| else r1
  {
    var k := TransitionLine(f);
    var ns := Names(ks);
    var extra := (if fromNew then [f.from] else []) + (if toNew then [f.to] else []);
    TransitionNames(ks, f, fromNew, toNew);
    assert Names(ks + [k]) == ns + extra;
    ResetExtend(ks, k, extra, firstStateReset);
    if LastReset(ks).None? && firstStateReset {
      FirstNamedAppend(ns, extra);
      if FirstNamed(ns) == |ns| {
        if f.from in ns {
          assert ns[Position(ns, f.from)] == f.from;
        }
        FirstNamedNew(ns, f, fromNew, toNew);
      }
    }
  }

  /** While every name is `*`, the first new name other than `*` is the first named state. */
  lemma FirstNamedNew(ns: seq<string>, f: Fields, fromNew: bool, toNew: bool)
    requires FirstNamed(ns) == |ns| && (fromNew ==> f.from != "*")
    ensures var extra := (if fromNew then [f.from] else []) + (if toNew then [f.to] else []);
      FirstNamed(extra) == if fromNew || (toNew && f.to != "*") then 0 else |extra|
  {
  }

  /** A line that is no `.r` line and adds the names `extra` moves the reset only through firstStateReset. */
  lemma ResetExtend(ks: seq<LineKind>, k: LineKind, extra: seq<string>, firstStateReset: bool)
    requires !k.ResetLine? && Names(ks + [k]) == Names(ks) + extra
    ensures LastReset(ks + [k]) == LastReset(ks)
    ensures LastReset(ks).Some? ==> Reset(ks + [k], firstStateReset) == Reset(ks, firstStateReset)
  {
    assert (ks + [k])[..|ks|] == ks;
    if LastReset(ks).Some? {
      ResetInRange(ks, firstStateReset);
      PositionExtend(Names(ks), extra, LastReset(ks).value);
    }
  }

  /**
   * Lines 87-97: give the source (unless it is `*`) and then the target of a
   * transition line their ids; with firstStateReset the first new state
   * other than `*` becomes the reset state.
   */
  method NameStates(ids: map<string, nat>, states: Machine, reset: int, f: Fields, firstStateReset: bool, ghost ks: seq<LineKind>)
    returns (ids': map<string, nat>, states': Machine, reset': int, fromId: nat, toId: nat, ghost e1: Machine, ghost e2: Machine)
    requires IdsOk(ids, Names(ks)) && |states| == |Names(ks)| && reset == Reset(ks, firstStateReset)
    ensures IdsOk(ids', Names(ks + [TransitionLine(f)])) && |states'| == |Names(ks + [TransitionLine(f)])|
    ensures |e1| <= 1 && |e2| <= 1 && (e1 != [] ==> e1[0] == []) && (e2 != [] ==> e2[0] == []) && states' == states + e1 + e2
    ensures toId == Position(Names(ks + [TransitionLine(f)]), f.to) && toId < |states'|
    ensures f.from != "*" ==> fromId == Position(Names(ks + [TransitionLine(f)]), f.from) && fromId < |states'|
    ensures reset' == Reset(ks + [TransitionLine(f)], firstStateReset)
  {
    var fromNew, toNew;
    ids', states', reset', fromNew, fromId := NameSource(ids, states, reset, f.from, firstStateReset, Names(ks));
    e1 := if fromNew then [[]] else [];
    ghost var ns1 := Names(ks) + if fromNew then [f.from] else [];
    ids', states', reset', toNew, toId := NameTarget(ids', states', reset', f.to, firstStateReset, ns1);
    e2 := if toNew then [[]] else [];
    NamedAfter(ks, f, firstStateReset, fromNew, toNew, reset, ids', reset', fromId, toId);
  }

  /** What NameStates establishes, from what its two steps do. */
  lemma NamedAfter(ks: seq<LineKind>, f: Fields, firstStateReset: bool, fromNew: bool, toNew: bool,
                   reset: int, ids': map<string, nat>, reset': int, fromId: nat, toId: nat)
    requires reset == Reset(ks, firstStateReset)
    requires fromNew <==> f.from != "*" && f.from !in Names(ks)
    requires toNew <==> f.to !in Names(ks) + (if fromNew then [f.from] else [])
    requires IdsOk(ids', Names(ks) + (if fromNew then [f.from] else []) + (if toNew then [f.to] else []))
    requires f.to in ids' && toId == ids'[f.to] && (f.from != "*" ==> f.from in ids' && fromId == ids'[f.from])
    requires reset' ==
      var r1 := if fromNew && reset == -1 && firstStateReset then |Names(ks)| else reset;
      if toNew && r1 == -1 && firstStateReset && f.to != "*" then |Names(ks) + (if fromNew then [f.from] else [])| else r1
    ensures IdsOk(ids', Names(ks + [TransitionLine(f)]))
    ensures |Names(ks + [TransitionLine(f)])| == |Names(ks)| + |if fromNew then [f.from] else []| + |if toNew then [f.to] else []|
    ensures toId == Position(Names(ks + [TransitionLine(f)]), f.to) && toId < |Names(ks + [TransitionLine(f)])|
    ensures f.from != "*" ==> fromId == Position(Names(ks + [TransitionLine(f)]), f.from) && fromId < |Names(ks + [TransitionLine(f)])|
    ensures reset' == Reset(ks + [TransitionLine(f)], firstStateReset)
  {
    TransitionNames(ks, f, fromNew, toNew);
    TransitionReset(ks, f, firstStateReset, fromNew, toNew);
    var ns' := Names(ks + [TransitionLine(f)]);
    IdIsPosition(ids', ns', f.to);
    if f.from != "*" {
      IdIsPosition(ids', ns', f.from);
    }
  }

  /** Lines 87-91: the source state, unless it is `*`. */
  method NameSource(ids: map<string, nat>, states: Machine, reset: int, from: string, firstStateReset: bool, ghost ns: seq<string>)
    returns (ids': map<string, nat>, states': Machine, reset': int, isNew: bool, id: nat)
    requires IdsOk(ids, ns) && |states| == |ns|
    ensures isNew <==> from != "*" && from !in ns
    ensures IdsOk(ids', ns + if isNew then [from] else []) && states' == states + if isNew then [[]] else []
    ensures from != "*" ==> from in ids' && id == ids'[from]
    ensures reset' == if isNew && reset == -1 && firstStateReset then |ns| else reset
  {
    ids', states', reset', isNew, id := ids, states, reset, false, 0;
    if from != "*" {
      ids', states', isNew, id := AddState(ids, states, from, ns);
      if isNew && reset == -1 && firstStateReset {
        reset' := id;
      }
    }
  }

  /** Lines 93-97: the target state. */
  method NameTarget(ids: map<string, nat>, states: Machine, reset: int, to: string, firstStateReset: bool, ghost ns: seq<string>)
    returns (ids': map<string, nat>, states': Machine, reset': int, isNew: bool, id: nat)
    requires IdsOk(ids, ns) && |states| == |ns|
    ensures isNew <==> to !in ns
    ensures ids' == if isNew then ids[to := |states|] else ids
    ensures IdsOk(ids', ns + if isNew then [to] else []) && states' == states + if isNew then [[]] else []
    ensures to in ids' && id == ids'[to]
    ensures reset' == if isNew && reset == -1 && firstStateReset && to != "*" then |ns| else reset
  {
    reset' := reset;
    ids', states', isNew, id := AddState(ids, states, to, ns);
    if isNew && reset == -1 && firstStateReset && to != "*" {
      reset' := id;
    }
  }

  /** Lines 59-109: a transition line; one from `*` is kept aside until all lines are read. */
  method ReadTransition(r: Reader, ghost ks: seq<LineKind>, f: Fields, firstStateReset: bool, ghost inputBits: int, ghost outputBits: int)
    returns (r': Reader)
    requires ReadAll(r, ks, firstStateReset, inputBits, outputBits)
    ensures ReadAll(r', ks + [TransitionLine(f)], firstStateReset, inputBits, outputBits)
  {
    var interned, input := Intern(r.interned, f.input);
    var output;
    interned, output := Intern(interned, f.output);
    var ids, states, reset, fromId, toId, e1, e2 := NameStates(r.ids, r.states, r.reset, f, firstStateReset, ks);
    var t := Transition(input, toId, output);
    var deferred := r.deferred;
    var states' := states;
    if f.from == "*" {
      deferred := deferred + [t];
    } else {
      states' := states[fromId := states[fromId] + [t]];
    }
    r' := Reader(states', ids, interned, deferred, reset, r.inputBits, r.outputBits);
    ghost var k := TransitionLine(f);
    TransitionStates(ks, f, r.states, e1, e2, states, fromId, states');
    OwnSnoc(ks, k, "*");
    BitsStep(ks, k, inputBits, outputBits);
  }

  // ---------------------------------------------------------------------
  // The whole file
  // ---------------------------------------------------------------------

  /** What reading a file gives: the states, reset and bit counts, or the failure that ends the program. */
  datatype ParseResult =
    | Parsed(machine: Machine, reset: int, inputBits: int, outputBits: int)
    | CannotOpen
    | OutOfRange(line: nat)

  /** The index of the first line the parser cannot cut, or |ks| if there is none. */
  function FirstBroken(ks: seq<LineKind>): (r: nat)
    ensures r <= |ks| && (r < |ks| ==> ks[r].Broken?)
    ensures forall j :: 0 <= j < r ==> !ks[j].Broken?
  {
    if ks == [] then 0
    else if ks[0].Broken? then 0
    else 1 + FirstBroken(ks[1..])
  }

  /** The states the lines of kinds ks describe, every `*` transition appended to each of them. */
  function MachineOf(ks: seq<LineKind>): (m: Machine)
    ensures |m| == |Names(ks)|
  {
    seq(|Names(ks)|, s requires 0 <= s < |Names(ks)| => StateTransitions(ks, s))
  }

  /**
   * The meaning of parseKISSFile: file is None when it cannot be opened;
   * inputBits and outputBits are the values the counts hold before the call.
   */
  function Parse(file: Option<seq<string>>, firstStateReset: bool, inputBits: int, outputBits: int): ParseResult {
    match file
    case None => CannotOpen
    case Some(lines) => ParseKinds(Kinds(lines), firstStateReset, inputBits, outputBits)
  }

  /** What lines of kinds ks give: the first line that cannot be cut, or the states, reset and bit counts. */
  function ParseKinds(ks: seq<LineKind>, firstStateReset: bool, inputBits: int, outputBits: int): ParseResult {
    if FirstBroken(ks) < |ks| then OutOfRange(FirstBroken(ks))
    else Parsed(MachineOf(ks), Reset(ks, firstStateReset), InputBits(ks, inputBits), OutputBits(ks, outputBits))
  }

  /** Lines 52-57 and the lines no branch takes: a `.i`, `.o` or ignored line changes at most a bit count. */
  lemma HeaderLine(r: Reader, ks: seq<LineKind>, k: LineKind, firstStateReset: bool, inputBits: int, outputBits: int)
    requires ReadAll(r, ks, firstStateReset, inputBits, outputBits)
    requires k.InputsLine? || k.OutputsLine? || k.Ignored?
    ensures ReadAll(r.(inputBits := if k.InputsLine? then k.bits else r.inputBits,
                       outputBits := if k.OutputsLine? then k.bits else r.outputBits),
                    ks + [k], firstStateReset, inputBits, outputBits)
  {
    HeaderStep(ks, k, firstStateReset, inputBits, outputBits);
    BitsStep(ks, k, inputBits, outputBits);
    OnlyNewStates(ks, k, r.states, r.states + []);
    OwnSnoc(ks, k, "*");
  }

  /** Lines 29-126: parseKISSFile, reading the lines of a file in order. */
  method ParseKiss(file: Option<seq<string>>, firstStateReset: bool, inputBits: int, outputBits: int) returns (r: ParseResult)
    ensures r == Parse(file, firstStateReset, inputBits, outputBits)
  {
    if file.None? {
      return CannotOpen;
    }
    var ks := Kinds(file.value);
    r := ReadKinds(ks, firstStateReset, inputBits, outputBits);
  }

  /** Lines 40-121: the lines, once each is classified, read in order. */
  method ReadKinds(ks: seq<LineKind>, firstStateReset: bool, inputBits: int, outputBits: int) returns (r: ParseResult)
    ensures r == ParseKinds(ks, firstStateReset, inputBits, outputBits)
  {
    ghost var done: seq<LineKind> := [];
    var rd := Reader([], map[], map[], [], -1, inputBits, outputBits);
    Started(firstStateReset, inputBits, outputBits);
    var k := 0;
    while k < |ks|
      invariant 0 <= k <= |ks| && |done| == k
      invariant forall j :: 0 <= j < k ==> done[j] == ks[j]
      invariant ReadAll(rd, done, firstStateReset, inputBits, outputBits)
      invariant k <= FirstBroken(ks)
    {
      var kind := ks[k];
      if kind.Broken? {
        BrokenAt(ks, k, firstStateReset, inputBits, outputBits);
        return OutOfRange(k);
      }
      rd := ReadLine(rd, done, kind, firstStateReset, inputBits, outputBits);
      done := done + [kind];
      k := k + 1;
    }
    var states := AppendDeferred(rd.states, rd.deferred);
    r := Parsed(states, rd.reset, rd.inputBits, rd.outputBits);
    Completed(rd, ks, done, firstStateReset, inputBits, outputBits, states);
  }

  /** Lines 42-110: one line of the file, which the parser can cut. */
  method ReadLine(rd: Reader, ghost ks: seq<LineKind>, kind: LineKind, firstStateReset: bool, ghost inputBits: int, ghost outputBits: int)
    returns (rd': Reader)
    requires ReadAll(rd, ks, firstStateReset, inputBits, outputBits) && !kind.Broken?
    ensures ReadAll(rd', ks + [kind], firstStateReset, inputBits, outputBits)
  {
    match kind
    case ResetLine(name) =>
      rd' := ReadReset(rd, ks, name, firstStateReset, inputBits, outputBits);
    case TransitionLine(f) =>
      rd' := ReadTransition(rd, ks, f, firstStateReset, inputBits, outputBits);
    case InputsLine(b) =>
      HeaderLine(rd, ks, kind, firstStateReset, inputBits, outputBits);
      rd' := rd.(inputBits := b);
    case OutputsLine(b) =>
      HeaderLine(rd, ks, kind, firstStateReset, inputBits, outputBits);
      rd' := rd.(outputBits := b);
    case Ignored =>
      HeaderLine(rd, ks, kind, firstStateReset, inputBits, outputBits);
      rd' := rd;
  }

  /** Before the first line: no states, no reset, the bit counts as they were. */
  lemma Started(firstStateReset: bool, inputBits: int, outputBits: int)
    ensures ReadAll(Reader([], map[], map[], [], -1, inputBits, outputBits), [], firstStateReset, inputBits, outputBits)
  {
  }

  /** Once every line is read and the `*` transitions are appended, the states are those the file describes. */
  lemma Completed(rd: Reader, ks: seq<LineKind>, done: seq<LineKind>, firstStateReset: bool, inputBits: int, outputBits: int, states: Machine)
    requires |done| == |ks| && forall j :: 0 <= j < |ks| ==> done[j] == ks[j]
    requires ReadAll(rd, done, firstStateReset, inputBits, outputBits)
    requires FirstBroken(ks) == |ks|
    requires |states| == |rd.states| && forall s :: 0 <= s < |rd.states| ==> states[s] == rd.states[s] + rd.deferred
    ensures ParseKinds(ks, firstStateReset, inputBits, outputBits) == Parsed(states, rd.reset, rd.inputBits, rd.outputBits)
  {
    assert done == ks;
    assert states == MachineOf(ks);
  }

  /** The first line that cannot be cut ends the parse. */
  lemma BrokenAt(ks: seq<LineKind>, k: nat, firstStateReset: bool, inputBits: int, outputBits: int)
    requires k < |ks| && ks[k].Broken? && k <= FirstBroken(ks)
    ensures ParseKinds(ks, firstStateReset, inputBits, outputBits) == OutOfRange(k)
  {
  }

  /** Lines 113-119: every transition from `*` is appended, in file order, to every state. */
  method AppendDeferred(states: Machine, deferred: seq<Transition>) returns (states': Machine)
    ensures |states'| == |states|
    ensures forall s :: 0 <= s < |states| ==> states'[s] == states[s] + deferred
  {
    states' := states;
    var d := 0;
    while d < |deferred|
      invariant 0 <= d <= |deferred| && |states'| == |states|
      invariant forall s :: 0 <= s < |states| ==> states'[s] == states[s] + deferred[..d]
    {
      var s := 0;
      while s < |states'|
        invariant 0 <= s <= |states'| && |states'| == |states|
        invariant forall q :: 0 <= q < s ==> states'[q] == states[q] + deferred[..d + 1]
        invariant forall q :: s <= q < |states| ==> states'[q] == states[q] + deferred[..d]
      {
        assert deferred[..d + 1] == deferred[..d] + [deferred[d]];
        states' := states'[s := states'[s] + [deferred[d]]];
        s := s + 1;
      }
      d := d + 1;
    }
    assert deferred[..d] == deferred;
  }

  // ---------------------------------------------------------------------
  // Properties of a parsed file
  // ---------------------------------------------------------------------

  /** Every target of a parsed machine is a state, and the reset is -1 or a state. */
  lemma ParsedWellFormed(file: Option<seq<string>>, firstStateReset: bool, inputBits: int, outputBits: int)
    requires Parse(file, firstStateReset, inputBits, outputBits).Parsed?
    ensures TargetsInRange(Parse(file, firstStateReset, inputBits, outputBits).machine)
    ensures -1 <= Parse(file, firstStateReset, inputBits, outputBits).reset < |Parse(file, firstStateReset, inputBits, outputBits).machine|
  {
    var ks := Kinds(file.value);
    var m: Machine := MachineOf(ks);
    ResetInRange(ks, firstStateReset);
    OwnTargets(ks, "*");
    forall s | 0 <= s < |m|
      ensures forall t :: 0 <= t < |m[s]| ==> m[s][t].next < |m|
    {
      if Names(ks)[s] != "*" {
        OwnTargets(ks, Names(ks)[s]);
      }
    }
  }

  /**
   * Lines 87-97 with firstStateReset and no `.r` line: the reset is the first
   * state other than `*` that a transition line names; without
   * firstStateReset and `.r` lines there is none.
   */
  lemma FirstStateIsReset(ks: seq<LineKind>, k: nat, x: string)
    requires LastReset(ks).None? && k < |ks| && x in Mentions(ks[k]) && x != "*"
    ensures 0 <= Reset(ks, true) < |Names(ks)| && Names(ks)[Reset(ks, true)] != "*"
    ensures forall i :: 0 <= i < Reset(ks, true) ==> Names(ks)[i] == "*"
    ensures Reset(ks, false) == -1
  {
    NamesMember(ks, x);
    var ns := Names(ks);
    var i :| 0 <= i < |ns| && ns[i] == x;
    assert FirstNamed(ns) <= i;
  }

  /** A line that is neither a directive the parser knows nor a transition changes nothing. */
  lemma IgnoredLine(lines: seq<string>, l: string, firstStateReset: bool, inputBits: int, outputBits: int)
    requires Classify(l).Ignored?
    ensures Parse(Some(lines + [l]), firstStateReset, inputBits, outputBits) == Parse(Some(lines), firstStateReset, inputBits, outputBits)
  {
    assert Kinds(lines + [l]) == Kinds(lines) + [Classify(l)];
    IgnoredKind(Kinds(lines), Classify(l), firstStateReset, inputBits, outputBits);
  }

  lemma IgnoredKind(ks: seq<LineKind>, k: LineKind, firstStateReset: bool, inputBits: int, outputBits: int)
    requires k.Ignored?
    ensures ParseKinds(ks + [k], firstStateReset, inputBits, outputBits) == ParseKinds(ks, firstStateReset, inputBits, outputBits)
  {
    HeaderStep(ks, k, firstStateReset, inputBits, outputBits);
    BitsStep(ks, k, inputBits, outputBits);
    IgnoredMachine(ks, k);
  }

  lemma IgnoredMachine(ks: seq<LineKind>, k: LineKind)
    requires k.Ignored?
    ensures MachineOf(ks + [k]) == MachineOf(ks)
  {
    HeaderStep(ks, k, false, 0, 0);
    OwnSnoc(ks, k, "*");
    assert Own(ks + [k], "*", Names(ks + [k])) == Own(ks, "*", Names(ks));
    var m, m' := MachineOf(ks), MachineOf(ks + [k]);
    assert |m'| == |m|;
    forall s | 0 <= s < |m|
      ensures m'[s] == m[s]
    {
      StateStep(ks, k, s);
      assert OwnOf(ks + [k], s) == OwnOf(ks, s);
    }
  }

  /** The last `.i` line sets the input bit count. */
  lemma {:induction false} InputBitsAt(ks: seq<LineKind>, j: nat, before: int)
    requires j < |ks| && ks[j].InputsLine? && forall k :: j < k < |ks| ==> !ks[k].InputsLine?
    ensures InputBits(ks, before) == ks[j].bits
  {
    if j < |ks| - 1 {
      InputBitsAt(ks[..|ks| - 1], j, before);
    }
  }

  /** The last `.o` line sets the output bit count. */
  lemma {:induction false} OutputBitsAt(ks: seq<LineKind>, j: nat, before: int)
    requires j < |ks| && ks[j].OutputsLine? && forall k :: j < k < |ks| ==> !ks[k].OutputsLine?
    ensures OutputBits(ks, before) == ks[j].bits
  {
    if j < |ks| - 1 {
      OutputBitsAt(ks[..|ks| - 1], j, before);
    }
  }

  /** The last `.r` line names the reset state. */
  lemma {:induction false} LastResetAt(ks: seq<LineKind>, j: nat)
    requires j < |ks| && ks[j].ResetLine? && forall k :: j < k < |ks| ==> !ks[k].ResetLine?
    ensures LastReset(ks) == Some(ks[j].name)
  {
    if j < |ks| - 1 {
      LastResetAt(ks[..|ks| - 1], j);
    }
  }

  /** Without `.r` lines there is no named reset. */
  lemma {:induction false} NoReset(ks: seq<LineKind>)
    requires forall k :: 0 <= k < |ks| ==> !ks[k].ResetLine?
    ensures LastReset(ks) == None
  {
    if ks != [] {
      NoReset(ks[..|ks| - 1]);
    }
  }

  /** Lines that look no name up give no states. */
  lemma {:induction false} NamesNone(ks: seq<LineKind>)
    requires forall k :: 0 <= k < |ks| ==> Mentions(ks[k]) == []
    ensures Names(ks) == []
  {
    if ks != [] {
      NamesNone(ks[..|ks| - 1]);
    }
  }

  /** The first name the line at j looks up gets id 0 when no earlier line looks a name up. */
  lemma FirstMention(ks: seq<LineKind>, j: nat)
    requires j < |ks| && Mentions(ks[j]) != [] && forall k :: 0 <= k < j ==> Mentions(ks[k]) == []
    ensures Names(ks) != [] && Names(ks)[0] == Mentions(ks[j])[0]
  {
    NamesNone(ks[..j]);
    NamesUpTo(ks, j);
    AddNamesFirst(Mentions(ks[j]));
    NamesPrefix(ks, j + 1);
  }

  lemma NamesUpTo(ks: seq<LineKind>, j: nat)
    requires j < |ks|
    ensures Names(ks[..j + 1]) == AddNames(Names(ks[..j]), Mentions(ks[j]))
  {
    assert ks[..j + 1][..j] == ks[..j];
  }

  lemma AddNamesFirst(ms: seq<string>)
    requires ms != []
    ensures AddNames([], ms) != [] && AddNames([], ms)[0] == ms[0]
  {
    assert AddNames([], ms) == AddNames([] + [ms[0]], ms[1..]);
  }
}

=== FILE: KissWriter.dfy ===
/**
 * writeKISSFile (MachineBuilder.cpp, lines 99-176): the minimised machine as
 * a KISS2 file.  One line `<input> S<from> S<to> <output>` per defined entry
 * of the tables, state by state and input by input, after a header giving
 * the bit counts, the number of transition lines and of states, and the
 * reset state when there is one.
 *
 * The file is the sequence of its lines; opening and writing it is left to
 * the caller.  What the parser of this project reads back from such a file
 * is proved at the end.
 */
module KissWriter {
  import opened Patterns
  import opened KissParser
  import opened MachineBuilder

  /** Line 104: the name a state gets in the file. */
  function StateName(s: nat): (r: string)
    ensures |r| >= 2 && r[0] == 'S' && NoSpace(r)
  {
    "S" + Decimal(s)
  }

  /** Different states get different names. */
  lemma StateNameInjective(m: nat, n: nat)
    requires StateName(m) == StateName(n)
    ensures m == n
  {
    assert Decimal(m) == StateName(m)[1..] == StateName(n)[1..] == Decimal(n);
    DecimalInjective(m, n);
  }

  /** One defined entry of the tables: from state `from` on `input` to `to`, answering `output`. */
  datatype Entry = Entry(input: Pattern, from: nat, to: nat, output: Pattern)

  /** Lines 118-155: the text of one transition line. */
  function LineOf(e: Entry): string {
    ToString(e.input) + " " + StateName(e.from) + " " + StateName(e.to) + " " + ToString(e.output)
  }

  /** The lines of a sequence of entries. */
  function Lines(es: seq<Entry>): (ls: seq<string>)
    ensures |ls| == |es| && forall k :: 0 <= k < |es| ==> ls[k] == LineOf(es[k])
  {
    seq(|es|, k requires 0 <= k < |es| => LineOf(es[k]))
  }

  /**
   * What writeKISSFile expects of the tables: one row per state in both
   * tables, a column for every input, and a defined entry names a state
   * and has an output.
   */
  predicate TablesOk(next: seq<seq<int>>, output: seq<seq<Output>>, inputs: seq<Pattern>) {
    |output| == |next| &&
    (forall s :: 0 <= s < |next| ==> |next[s]| >= |inputs| && |output[s]| >= |inputs|) &&
    (forall s, a :: 0 <= s < |next| && 0 <= a < |inputs| && next[s][a] != -1 ==>
       0 <= next[s][a] < |next| && output[s][a].Out?)
  }

  /** The entry of state s on input a. */
  function EntryAt(next: seq<seq<int>>, output: seq<seq<Output>>, inputs: seq<Pattern>, s: nat, a: nat): Entry
    requires TablesOk(next, output, inputs) && s < |next| && a < |inputs| && next[s][a] != -1
  {
    Entry(inputs[a], s, next[s][a], output[s][a].pattern)
  }

  /** The defined entries of state s on the first m inputs, in input order. */
  function RowEntries(next: seq<seq<int>>, output: seq<seq<Output>>, inputs: seq<Pattern>, s: nat, m: nat): (es: seq<Entry>)
    requires TablesOk(next, output, inputs) && s < |next| && m <= |inputs|
    ensures forall k :: 0 <= k < |es| ==> es[k].from == s
  {
    if m == 0 then []
    else
      RowEntries(next, output, inputs, s, m - 1) +
      if next[s][m - 1] == -1 then [] else [EntryAt(next, output, inputs, s, m - 1)]
  }

  /** The defined entries of the first n states, state by state. */
  function Entries(next: seq<seq<int>>, output: seq<seq<Output>>, inputs: seq<Pattern>, n: nat): (es: seq<Entry>)
    requires TablesOk(next, output, inputs) && n <= |next|
    ensures forall k :: 0 <= k < |es| ==> es[k].from < n
    ensures forall i, j :: 0 <= i < j < |es| ==> es[i].from <= es[j].from
  {
    if n == 0 then []
    else Entries(next, output, inputs, n - 1) + RowEntries(next, output, inputs, n - 1, |inputs|)
  }

  /** An entry of row s is written exactly when it is defined. */
  lemma {:induction false} RowEntriesMember(next: seq<seq<int>>, output: seq<seq<Output>>, inputs: seq<Pattern>, s: nat, m: nat, e: Entry)
    requires TablesOk(next, output, inputs) && s < |next| && m <= |inputs|
    ensures e in RowEntries(next, output, inputs, s, m) <==>
      exists a :: 0 <= a < m && next[s][a] != -1 && e == EntryAt(next, output, inputs, s, a)
  {
    if m > 0 {
      RowEntriesMember(next, output, inputs, s, m - 1, e);
    }
  }

  /** Exactly the defined entries of the tables are written. */
  lemma EntriesMember(next: seq<seq<int>>, output: seq<seq<Output>>, inputs: seq<Pattern>, n: nat, e: Entry)
    requires TablesOk(next, output, inputs) && n <= |next|
    ensures e in Entries(next, output, inputs, n) <==>
      exists s, a :: 0 <= s < n && 0 <= a < |inputs| && next[s][a] != -1 && e == EntryAt(next, output, inputs, s, a)
  {
    if e in Entries(next, output, inputs, n) {
      EntryDefined(next, output, inputs, n, e);
    }
    if exists s, a :: 0 <= s < n && 0 <= a < |inputs| && next[s][a] != -1 && e == EntryAt(next, output, inputs, s, a) {
      var s, a :| 0 <= s < n && 0 <= a < |inputs| && next[s][a] != -1 && e == EntryAt(next, output, inputs, s, a);
      EntryWritten(next, output, inputs, n, s, a);
    }
  }

  /** Every written entry is a defined entry of the tables. */
  lemma {:induction false} EntryDefined(next: seq<seq<int>>, output: seq<seq<Output>>, inputs: seq<Pattern>, n: nat, e: Entry)
    requires TablesOk(next, output, inputs) && n <= |next|
    requires e in Entries(next, output, inputs, n)
    ensures exists s, a :: 0 <= s < n && 0 <= a < |inputs| && next[s][a] != -1 && e == EntryAt(next, output, inputs, s, a)
  {
    var es, rs := Entries(next, output, inputs, n - 1), RowEntries(next, output, inputs, n - 1, |inputs|);
    assert Entries(next, output, inputs, n) == es + rs;
    if e in es {
      EntryDefined(next, output, inputs, n - 1, e);
    } else {
      RowEntriesMember(next, output, inputs, n - 1, |inputs|, e);
      var a :| 0 <= a < |inputs| && next[n - 1][a] != -1 && e == EntryAt(next, output, inputs, n - 1, a);
      assert 0 <= n - 1 < n;
    }
  }

  /** Every defined entry of the first n rows is written. */
  lemma {:induction false} EntryWritten(next: seq<seq<int>>, output: seq<seq<Output>>, inputs: seq<Pattern>, n: nat, s: nat, a: nat)
    requires TablesOk(next, output, inputs) && n <= |next|
    requires s < n && a < |inputs| && next[s][a] != -1
    ensures EntryAt(next, output, inputs, s, a) in Entries(next, output, inputs, n)
  {
    var es, rs := Entries(next, output, inputs, n - 1), RowEntries(next, output, inputs, n - 1, |inputs|);
    assert Entries(next, output, inputs, n) == es + rs;
    if s < n - 1 {
      EntryWritten(next, output, inputs, n - 1, s, a);
    } else {
      RowEntriesMember(next, output, inputs, n - 1, |inputs|, EntryAt(next, output, inputs, s, a));
    }
  }

  /** Lines 165-169: the header. */
  function Header(inputLength: int, outputLength: int, lineCount: nat, stateCount: nat, reset: int): seq<string> {
    [".i " + IntToString(inputLength), ".o " + IntToString(outputLength),
     ".p " + Decimal(lineCount), ".s " + Decimal(stateCount)] +
    if reset > -1 then [".r " + StateName(reset)] else []
  }

  /**
   * Lines 99-176: the lines of the file written for the tables next and
   * output over the inputs of the disjoint input set.
   */
  method WriteKiss(next: seq<seq<int>>, output: seq<seq<Output>>, reset: int, inputLength: int, outputLength: int, inputs: seq<Pattern>)
    returns (file: seq<string>)
    requires TablesOk(next, output, inputs)
    ensures var es := Entries(next, output, inputs, |next|);
      file == Header(inputLength, outputLength, |es|, |next|, reset) + Lines(es)
  {
    var lines: seq<string> := [];
    var state := 0;
    while state < |next|
      invariant state <= |next|
      invariant lines == Lines(Entries(next, output, inputs, state))
    {
      var a := 0;
      while a < |inputs|
        invariant a <= |inputs|
        invariant lines == Lines(Entries(next, output, inputs, state) + RowEntries(next, output, inputs, state, a))
      {
        ghost var es := Entries(next, output, inputs, state) + RowEntries(next, output, inputs, state, a);
        if next[state][a] != -1 {
          var e := Entry(inputs[a], state, next[state][a], output[state][a].pattern);
          assert es + [e] == Entries(next, output, inputs, state) + RowEntries(next, output, inputs, state, a + 1);
          lines := lines + [LineOf(e)];
          assert lines == Lines(es + [e]);
        } else {
          assert es == Entries(next, output, inputs, state) + RowEntries(next, output, inputs, state, a + 1);
        }
        a := a + 1;
      }
      state := state + 1;
    }
    file := Header(inputLength, outputLength, |lines|, |next|, reset) + lines;
  }

  // ---------------------------------------------------------------------
  // Reading a written file back
  // ---------------------------------------------------------------------

  /** find_first_of and its kin stop at the first position that satisfies the predicate. */
  lemma FindIs(line: string, from: nat, cs: CharSet, r: nat)
    requires from <= r < |line| && In(cs, line[r])
    requires forall j :: from <= j < r ==> !In(cs, line[j])
    ensures FindFrom(line, from, cs) == r
  {
  }

  /**
   * A line made of a run of pattern characters, two runs without white
   * space and a last run of pattern characters, separated by single
   * blanks, is cut at those blanks.
   */
  lemma FieldsOfCut(line: string, p1: nat, p2: nat, p3: nat)
    requires p1 < p2 - 1 && p2 < p3 - 1 && p3 < |line| - 1
    requires forall j :: 0 <= j < p1 ==> IsPatternChar(line[j])
    requires line[p1] == ' ' && line[p2] == ' ' && line[p3] == ' '
    requires forall j :: p1 < j < p2 ==> !IsSpace(line[j])
    requires forall j :: p2 < j < p3 ==> !IsSpace(line[j])
    requires forall j :: p3 < j < |line| ==> IsPatternChar(line[j])
    ensures FieldsOf(line) == Some(Fields(line[..p1], line[p1 + 1..p2], line[p2 + 1..p3], line[p3 + 1..]))
  {
    FindIs(line, 0, NonPattern, p1);
    FindIs(line, p1, NonBlank, p1 + 1);
    FindIs(line, p1 + 1, Blank, p2);
    FindIs(line, p2, NonBlank, p2 + 1);
    FindIs(line, p2 + 1, Blank, p3);
    FindIs(line, p3, NonBlank, p3 + 1);
    assert FindFrom(line, p3 + 1, NonPattern) == -1;
    assert RunEnd(line, 0, NonPattern) == p1;
    assert RunEnd(line, p1 + 1, Blank) == p2;
    assert RunEnd(line, p2 + 1, Blank) == p3;
    assert RunEnd(line, p3 + 1, NonPattern) == |line|;
    assert line[p3 + 1..|line|] == line[p3 + 1..];
  }

  /** The fields of a written transition line. */
  function FieldsOfEntry(e: Entry): Fields {
    Fields(ToString(e.input), StateName(e.from), StateName(e.to), ToString(e.output))
  }

  /**
   * The parser cuts a written transition line back into the fields it was
   * made of, as long as both patterns have at least one bit.
   */
  lemma LineRoundTrip(e: Entry)
    requires |e.input| > 0 && |e.output| > 0
    ensures Classify(LineOf(e)) == TransitionLine(FieldsOfEntry(e))
  {
    var line := LineOf(e);
    var I, F, T, O := ToString(e.input), StateName(e.from), StateName(e.to), ToString(e.output);
    PatternRoundTrip(e.input);
    PatternRoundTrip(e.output);
    var p1 := |I|;
    var p2 := p1 + 1 + |F|;
    var p3 := p2 + 1 + |T|;
    Cut(I, F, T, O);
    FieldsOfCut(line, p1, p2, p3);
  }

  /** Where the four fields of a line built by LineOf lie. */
  lemma Cut(I: string, F: string, T: string, O: string)
    requires IsPatternString(I) && IsPatternString(O) && NoSpace(F) && NoSpace(T)
    requires |I| > 0 && |F| > 0 && |T| > 0 && |O| > 0
    ensures var line := I + " " + F + " " + T + " " + O;
      var p1 := |I|;
      var p2 := p1 + 1 + |F|;
      var p3 := p2 + 1 + |T|;
      && |line| == p3 + 1 + |O|
      && (forall j :: 0 <= j < p1 ==> IsPatternChar(line[j]))
      && line[p1] == ' ' && line[p2] == ' ' && line[p3] == ' '
      && (forall j :: p1 < j < p2 ==> !IsSpace(line[j]))
      && (forall j :: p2 < j < p3 ==> !IsSpace(line[j]))
      && (forall j :: p3 < j < |line| ==> IsPatternChar(line[j]))
      && line[..p1] == I && line[p1 + 1..p2] == F && line[p2 + 1..p3] == T && line[p3 + 1..] == O
  {
    var line := I + " " + F + " " + T + " " + O;
    var p1 := |I|;
    var p2 := p1 + 1 + |F|;
    var p3 := p2 + 1 + |T|;
    assert forall j :: 0 <= j < p1 ==> line[j] == I[j];
    assert forall j :: p1 < j < p2 ==> line[j] == F[j - p1 - 1];
    assert forall j :: p2 < j < p3 ==> line[j] == T[j - p2 - 1];
    assert forall j :: p3 < j < |line| ==> line[j] == O[j - p3 - 1];
  }

  /** A header line `.x <arg>` whose argument is not empty and has no white space gives back that argument. */
  lemma TrimmedHeader(c: char, arg: string)
    requires arg != [] && NoSpace(arg)
    ensures Trimmed(['.', c, ' '] + arg) == arg
  {
    var line := ['.', c, ' '] + arg;
    assert !IsSpace(line[|line| - 1]);
    assert line[3..] == arg;
  }

  /** The digits of a number hold no white space. */
  lemma IntToStringNoSpace(v: int)
    ensures NoSpace(IntToString(v))
  {
  }

  /** Lines 165-166: the bit counts are read back. */
  lemma BitsHeader(c: char, v: int)
    requires c == 'i' || c == 'o'
    requires IntMin <= v <= IntMax
    ensures Classify(['.', c, ' '] + IntToString(v)) == if c == 'i' then InputsLine(v) else OutputsLine(v)
  {
    IntToStringNoSpace(v);
    TrimmedHeader(c, IntToString(v));
    ReadIntRoundTrip(v);
  }

  /** Line 169: the reset line names the reset state. */
  lemma ResetHeader(reset: nat)
    ensures Classify(".r " + StateName(reset)) == ResetLine(StateName(reset))
  {
    TrimmedHeader('r', StateName(reset));
  }

  /** Lines 167-168: the `.p` and `.s` lines mean nothing to the parser. */
  lemma CountHeader(c: char, n: nat)
    requires c == 'p' || c == 's'
    ensures Classify(['.', c, ' '] + Decimal(n)) == Ignored
  {
  }

  /** The kinds of the transition lines written for es. */
  function EntryKinds(es: seq<Entry>): (ks: seq<LineKind>)
    ensures |ks| == |es| && forall k :: 0 <= k < |es| ==> ks[k] == TransitionLine(FieldsOfEntry(es[k]))
  {
    seq(|es|, k requires 0 <= k < |es| => TransitionLine(FieldsOfEntry(es[k])))
  }

  /** The kind the parser gives each line of a written file. */
  function WrittenKinds(inputLength: int, outputLength: int, reset: int, es: seq<Entry>): seq<LineKind> {
    [InputsLine(inputLength), OutputsLine(outputLength), Ignored, Ignored] +
    (if reset > -1 then [ResetLine(StateName(reset))] else []) +
    EntryKinds(es)
  }

  /** Kinds works line by line. */
  lemma KindsAppend(a: seq<string>, b: seq<string>)
    ensures Kinds(a + b) == Kinds(a) + Kinds(b)
  {
    assert forall k :: 0 <= k < |a| ==> (a + b)[k] == a[k];
    assert forall k :: |a| <= k < |a| + |b| ==> (a + b)[k] == b[k - |a|];
  }

  /** The header is read as the bit counts, two ignored lines and the reset. */
  lemma HeaderKinds(inputLength: int, outputLength: int, lineCount: nat, stateCount: nat, reset: int)
    requires IntMin <= inputLength <= IntMax && IntMin <= outputLength <= IntMax
    ensures Kinds(Header(inputLength, outputLength, lineCount, stateCount, reset)) ==
      [InputsLine(inputLength), OutputsLine(outputLength), Ignored, Ignored] +
      (if reset > -1 then [ResetLine(StateName(reset))] else [])
  {
    var h := Header(inputLength, outputLength, lineCount, stateCount, reset);
    forall j | 0 <= j < |h|
      ensures Classify(h[j]) == HeaderKind(inputLength, outputLength, reset, j)
    {
      HeaderLineKind(inputLength, outputLength, lineCount, stateCount, reset, j);
    }
  }

  /** The kind of header line j. */
  function HeaderKind(inputLength: int, outputLength: int, reset: int, j: nat): LineKind {
    if j == 0 then InputsLine(inputLength)
    else if j == 1 then OutputsLine(outputLength)
    else if j < 4 || reset < 0 then Ignored
    else ResetLine(StateName(reset))
  }

  lemma HeaderLineKind(inputLength: int, outputLength: int, lineCount: nat, stateCount: nat, reset: int, j: nat)
    requires IntMin <= inputLength <= IntMax && IntMin <= outputLength <= IntMax
    requires j < |Header(inputLength, outputLength, lineCount, stateCount, reset)|
    ensures Classify(Header(inputLength, outputLength, lineCount, stateCount, reset)[j]) == HeaderKind(inputLength, outputLength, reset, j)
  {
    if j == 0 {
      BitsHeader('i', inputLength);
    } else if j == 1 {
      BitsHeader('o', outputLength);
    } else if j == 2 {
      CountHeader('p', lineCount);
    } else if j == 3 {
      CountHeader('s', stateCount);
    } else {
      ResetHeader(reset);
    }
  }

  /** Each written transition line is read as the transition it was written for. */
  lemma LinesKinds(es: seq<Entry>)
    requires forall k :: 0 <= k < |es| ==> |es[k].input| > 0 && |es[k].output| > 0
    ensures Kinds(Lines(es)) == EntryKinds(es)
  {
    forall k | 0 <= k < |es|
      ensures Classify(Lines(es)[k]) == TransitionLine(FieldsOfEntry(es[k]))
    {
      LineRoundTrip(es[k]);
    }
  }

  /**
   * The parser reads a written file as the bit counts, two ignored lines,
   * the reset state when there is one, and one transition per entry, as
   * long as the bit counts fit an int and no pattern is empty.
   */
  lemma WrittenFileKinds(inputLength: int, outputLength: int, lineCount: nat, stateCount: nat, reset: int, es: seq<Entry>)
    requires IntMin <= inputLength <= IntMax && IntMin <= outputLength <= IntMax
    requires forall k :: 0 <= k < |es| ==> |es[k].input| > 0 && |es[k].output| > 0
    ensures Kinds(Header(inputLength, outputLength, lineCount, stateCount, reset) + Lines(es)) ==
      WrittenKinds(inputLength, outputLength, reset, es)
  {
    KindsAppend(Header(inputLength, outputLength, lineCount, stateCount, reset), Lines(es));
    HeaderKinds(inputLength, outputLength, lineCount, stateCount, reset);
    LinesKinds(es);
  }

  /** Where each kind of line lies in a written file. */
  lemma WrittenKindsShape(inputLength: int, outputLength: int, reset: int, es: seq<Entry>)
    ensures var ks := WrittenKinds(inputLength, outputLength, reset, es);
      var h := if reset > -1 then 5 else 4;
      && |ks| == h + |es|
      && ks[0] == InputsLine(inputLength) && ks[1] == OutputsLine(outputLength)
      && (forall k :: 0 <= k < 4 ==> Mentions(ks[k]) == [])
      && (forall k :: 0 <= k < |ks| ==> !ks[k].Broken?)
      && (forall k :: 1 <= k < |ks| ==> !ks[k].InputsLine?)
      && (forall k :: 2 <= k < |ks| ==> !ks[k].OutputsLine?)
      && (forall k :: h <= k < |ks| ==> ks[k] == TransitionLine(FieldsOfEntry(es[k - h])))
      && (reset > -1 ==> ks[4] == ResetLine(StateName(reset)))
  {
  }

  /**
   * Reading a written file back: it parses, the bit counts are those
   * written, and the reset state is the first state the parser meets, id 0;
   * without a `.r` line there is a reset only with firstStateReset and a
   * transition line, and it is again id 0.
   */
  lemma ReadBack(inputLength: int, outputLength: int, lineCount: nat, stateCount: nat, reset: int, es: seq<Entry>,
                 firstStateReset: bool, inputBits: int, outputBits: int)
    requires IntMin <= inputLength <= IntMax && IntMin <= outputLength <= IntMax
    requires forall k :: 0 <= k < |es| ==> |es[k].input| > 0 && |es[k].output| > 0
    ensures var r := Parse(Some(Header(inputLength, outputLength, lineCount, stateCount, reset) + Lines(es)), firstStateReset, inputBits, outputBits);
      && r.Parsed? && r.inputBits == inputLength && r.outputBits == outputLength
      && r.reset == (if reset > -1 || (firstStateReset && es != []) then 0 else -1)
  {
    WrittenFileKinds(inputLength, outputLength, lineCount, stateCount, reset, es);
    var ks := WrittenKinds(inputLength, outputLength, reset, es);
    WrittenKindsShape(inputLength, outputLength, reset, es);
    InputBitsAt(ks, 0, inputBits);
    OutputBitsAt(ks, 1, outputBits);
    ReadBackReset(inputLength, outputLength, reset, es, firstStateReset);
  }

  lemma ReadBackReset(inputLength: int, outputLength: int, reset: int, es: seq<Entry>, firstStateReset: bool)
    ensures Reset(WrittenKinds(inputLength, outputLength, reset, es), firstStateReset) ==
      if reset > -1 || (firstStateReset && es != []) then 0 else -1
  {
    var ks := WrittenKinds(inputLength, outputLength, reset, es);
    WrittenKindsShape(inputLength, outputLength, reset, es);
    if reset > -1 {
      LastResetAt(ks, 4);
      FirstMention(ks, 4);
      assert Position(Names(ks), StateName(reset)) == 0;
    } else {
      NoReset(ks);
      if es != [] {
        FirstMention(ks, 4);
        assert Names(ks)[0] == StateName(es[0].from);
      } else {
        NamesNone(ks);
      }
    }
  }
}

=== FILE: LowerBound.dfy ===
/**
 * findPairwiseIncStates and its comparator incStateComp (minimizer.cpp):
 * a greedy set of pairwise incompatible states, taken in the order of
 * descending number of incompatible partners.  No two of these states can
 * share a class, so their number is where the search for the number of
 * classes starts.
 */
module LowerBound {
  import opened Machines
  import opened TableIndex
  import opened Incompatibility

  // ---------------------------------------------------------------------
  // incStateComp (lines 573-591)
  // ---------------------------------------------------------------------

  /** Number of j < k with incompMatrix[ai(i, j, n)] set. */
  function DegreeBelow(Ms: seq<bool>, n: nat, i: nat, k: nat): nat {
    if k == 0 then 0 else DegreeBelow(Ms, n, i, k - 1) + (if Mk(Ms, n, i, k - 1) then 1 else 0)
  }

  /** Number of states incompatible with i. */
  function Degree(Ms: seq<bool>, n: nat, i: nat): nat {
    DegreeBelow(Ms, n, i, n)
  }

  /** The degree counts exactly the marked partners. */
  lemma {:induction false} DegreeIsCount(Ms: seq<bool>, n: nat, i: nat, k: nat)
    ensures DegreeBelow(Ms, n, i, k) == |set j | 0 <= j < k && Mk(Ms, n, i, j)|
  {
    if k > 0 {
      DegreeIsCount(Ms, n, i, k - 1);
      var below := set j | 0 <= j < k - 1 && Mk(Ms, n, i, j);
      if Mk(Ms, n, i, k - 1) {
        assert (set j | 0 <= j < k && Mk(Ms, n, i, j)) == below + {k - 1};
      } else {
        assert (set j | 0 <= j < k && Mk(Ms, n, i, j)) == below;
      }
    }
  }

  /** Lines 576-585: the constructor of incStateComp fills nIncomp with the degree of every state. */
  method IncStateComp(Ms: seq<bool>, n: nat) returns (nIncomp: seq<nat>)
    requires |Ms| == Ai(n, 0, n)
    ensures |nIncomp| == n && forall i :: 0 <= i < n ==> nIncomp[i] == Degree(Ms, n, i)
  {
    nIncomp := [];
    var i := 0;
    while i < n
      invariant i <= n && |nIncomp| == i
      invariant forall i' :: 0 <= i' < i ==> nIncomp[i'] == Degree(Ms, n, i')
    {
      var c := 0;
      var j := 0;
      while j < n
        invariant j <= n && c == DegreeBelow(Ms, n, i, j)
      {
        AiBound(i, j, n, n);
        if Ms[Ai(i, j, n)] {
          c := c + 1;
        }
        j := j + 1;
      }
      nIncomp := nIncomp + [c];
      i := i + 1;
    }
  }

  /** Lines 588-590: operator() puts i before j when i has more incompatible partners. */
  predicate Before(nIncomp: seq<nat>, i: nat, j: nat)
    requires i < |nIncomp| && j < |nIncomp|
  {
    nIncomp[i] > nIncomp[j]
  }

  // ---------------------------------------------------------------------
  // The sort (line 601)
  // ---------------------------------------------------------------------

  predicate InRange(nIncomp: seq<nat>, s: seq<nat>) {
    forall a :: 0 <= a < |s| ==> s[a] < |nIncomp|
  }

  /** No element is put before an earlier one by the comparator. */
  predicate SortedBy(nIncomp: seq<nat>, s: seq<nat>)
    requires InRange(nIncomp, s)
  {
    forall a, b :: 0 <= a < b < |s| ==> !Before(nIncomp, s[b], s[a])
  }

  /** Insert x into a sorted sequence before the first element it comes before. */
  function InsertSorted(nIncomp: seq<nat>, x: nat, s: seq<nat>): (r: seq<nat>)
    requires x < |nIncomp| && InRange(nIncomp, s)
    ensures InRange(nIncomp, r)
  {
    if s == [] then [x]
    else if Before(nIncomp, x, s[0]) then [x] + s
    else [s[0]] + InsertSorted(nIncomp, x, s[1..])
  }

  /** An element that nothing of s and not x comes before is not come before by anything of the result. */
  lemma {:induction false} InsertSortedBound(nIncomp: seq<nat>, x: nat, s: seq<nat>, v: nat)
    requires x < |nIncomp| && v < |nIncomp| && InRange(nIncomp, s)
    requires !Before(nIncomp, x, v) && forall a :: 0 <= a < |s| ==> !Before(nIncomp, s[a], v)
    ensures forall a :: 0 <= a < |InsertSorted(nIncomp, x, s)| ==> !Before(nIncomp, InsertSorted(nIncomp, x, s)[a], v)
  {
    if s != [] && !Before(nIncomp, x, s[0]) {
      var rest := InsertSorted(nIncomp, x, s[1..]);
      InsertSortedBound(nIncomp, x, s[1..], v);
      forall a | 0 < a <= |rest| ensures !Before(nIncomp, ([s[0]] + rest)[a], v) {
        assert ([s[0]] + rest)[a] == rest[a - 1];
      }
    }
  }

  /** Inserting keeps the order. */
  lemma {:induction false} InsertSortedSorted(nIncomp: seq<nat>, x: nat, s: seq<nat>)
    requires x < |nIncomp| && InRange(nIncomp, s) && SortedBy(nIncomp, s)
    ensures SortedBy(nIncomp, InsertSorted(nIncomp, x, s))
  {
    if s != [] && !Before(nIncomp, x, s[0]) {
      var rest := InsertSorted(nIncomp, x, s[1..]);
      InsertSortedSorted(nIncomp, x, s[1..]);
      InsertSortedBound(nIncomp, x, s[1..], s[0]);
      var r := [s[0]] + rest;
      forall a, b | 0 <= a < b < |r| ensures !Before(nIncomp, r[b], r[a]) {
        assert r[b] == rest[b - 1];
        if a > 0 {
          assert r[a] == rest[a - 1];
        }
      }
    }
  }

  /** Inserting adds x to the elements. */
  lemma {:induction false} InsertSortedElements(nIncomp: seq<nat>, x: nat, s: seq<nat>)
    requires x < |nIncomp| && InRange(nIncomp, s)
    ensures multiset(InsertSorted(nIncomp, x, s)) == multiset(s) + multiset{x}
  {
    if s != [] {
      assert s == [s[0]] + s[1..];
      if !Before(nIncomp, x, s[0]) {
        InsertSortedElements(nIncomp, x, s[1..]);
      }
    }
  }

  /**
   * std::sort with incStateComp: the model takes one sort by descending
   * degree, an insertion sort; std::sort is not stable, so the source may
   * order states of equal degree differently.
   */
  function SortByDegree(nIncomp: seq<nat>, s: seq<nat>): (r: seq<nat>)
    requires InRange(nIncomp, s)
    ensures InRange(nIncomp, r) && SortedBy(nIncomp, r)
    ensures multiset(r) == multiset(s)
  {
    if s == [] then []
    else
      var sorted := SortByDegree(nIncomp, s[..|s| - 1]);
      InsertSortedSorted(nIncomp, s[|s| - 1], sorted);
      InsertSortedElements(nIncomp, s[|s| - 1], sorted);
      assert s == s[..|s| - 1] + [s[|s| - 1]];
      InsertSorted(nIncomp, s[|s| - 1], sorted)
  }

  // ---------------------------------------------------------------------
  // findPairwiseIncStates (lines 593-615)
  // ---------------------------------------------------------------------

  /** Every later member is marked incompatible with every earlier one. */
  predicate PairwiseIncompatible(Ms: seq<bool>, n: nat, pis: seq<nat>) {
    forall a, b :: 0 <= a < b < |pis| ==> Mk(Ms, n, pis[b], pis[a])
  }

  /** Lines 605-611: is some member of pis not marked incompatible with s1? */
  method CompatibleMember(Ms: seq<bool>, n: nat, pis: seq<nat>, s1: nat) returns (found: bool)
    requires |Ms| == Ai(n, 0, n) && s1 < n && forall a :: 0 <= a < |pis| ==> pis[a] < n
    ensures found <==> exists a :: 0 <= a < |pis| && !Mk(Ms, n, s1, pis[a])
  {
    found := false;
    var j := 0;
    while j < |pis|
      invariant j <= |pis| && forall a :: 0 <= a < j ==> Mk(Ms, n, s1, pis[a])
    {
      var s2 := pis[j];
      AiBound(s1, s2, n, n);
      if !Ms[Ai(s1, s2, n)] {
        found := true;
        return;
      }
      j := j + 1;
    }
  }

  /** The loop of lines 603-614 after the first i sorted states. */
  ghost predicate GreedyInv(Ms: seq<bool>, n: nat, states: seq<nat>, i: nat, pis: seq<nat>)
    requires i <= |states|
  {
    (forall a :: 0 <= a < |pis| ==> pis[a] < n)
    && PairwiseIncompatible(Ms, n, pis)
    && multiset(pis) <= multiset(states[..i])
    && forall s :: s in states[..i] && s !in pis ==> exists a :: 0 <= a < |pis| && !Mk(Ms, n, s, pis[a])
  }

  lemma GreedyStep(Ms: seq<bool>, n: nat, states: seq<nat>, i: nat, pis: seq<nat>, found: bool, pis': seq<nat>)
    requires i < |states| && states[i] < n && GreedyInv(Ms, n, states, i, pis)
    requires found <==> exists a :: 0 <= a < |pis| && !Mk(Ms, n, states[i], pis[a])
    requires pis' == if found then pis else pis + [states[i]]
    ensures GreedyInv(Ms, n, states, i + 1, pis')
  {
    assert states[..i + 1] == states[..i] + [states[i]];
    if !found {
      forall s | s in states[..i + 1] && s !in pis' ensures exists a :: 0 <= a < |pis'| && !Mk(Ms, n, s, pis'[a]) {
        var a :| 0 <= a < |pis| && !Mk(Ms, n, s, pis[a]);
        assert pis'[a] == pis[a];
      }
    }
  }

  lemma InRangeSeq(n: nat, s: nat)
    requires s < n
    ensures s in seq(n, j => j)
  {
    assert seq(n, j => j)[s] == s;
  }

  lemma GreedyDone(Ms: seq<bool>, n: nat, states: seq<nat>, pis: seq<nat>)
    requires |states| == n && multiset(states) == multiset(seq(n, j => j)) && GreedyInv(Ms, n, states, n, pis)
    ensures Distinct(pis)
    ensures forall s :: 0 <= s < n && s !in pis ==> exists a :: 0 <= a < |pis| && !Mk(Ms, n, s, pis[a])
  {
    assert states[..n] == states;
    DistinctOfSubMultiset(pis, states);
    forall s | 0 <= s < n
      ensures s in states
    {
      InRangeSeq(n, s);
      assert s in multiset(seq(n, j => j));
    }
  }

  /**
   * Lines 593-615: the states are visited in order of descending degree,
   * and a state joins the result when it is marked incompatible with every
   * state already in it.  The result is pairwise incompatible, holds no
   * state twice, and no other state could join it.
   */
  method FindPairwiseIncStates(Ms: seq<bool>, n: nat) returns (pis: seq<nat>)
    requires |Ms| == Ai(n, 0, n)
    ensures forall a :: 0 <= a < |pis| ==> pis[a] < n
    ensures Distinct(pis) && PairwiseIncompatible(Ms, n, pis)
    ensures forall s :: 0 <= s < n && s !in pis ==> exists a :: 0 <= a < |pis| && !Mk(Ms, n, s, pis[a])
  {
    var nIncomp := IncStateComp(Ms, n);
    var states: seq<nat> := [];
    var i := 0;
    while i < n
      invariant i <= n && states == seq(i, j => j)
    {
      states := states + [i];
      i := i + 1;
    }
    ghost var range := states;
    states := SortByDegree(nIncomp, states);
    pis := [];
    i := 0;
    while i < n
      invariant i <= n && GreedyInv(Ms, n, states, i, pis)
    {
      var s1 := states[i];
      var compStateFound := CompatibleMember(Ms, n, pis, s1);
      ghost var pis0 := pis;
      if !compStateFound {
        pis := pis + [s1];
      }
      GreedyStep(Ms, n, states, i, pis0, compStateFound, pis);
      i := i + 1;
    }
    GreedyDone(Ms, n, states, pis);
  }

  /** The states 0..n-1 each once: a sub-multiset of them holds no state twice. */
  lemma DistinctOfSubMultiset(pis: seq<nat>, states: seq<nat>)
    requires multiset(pis) <= multiset(states) && multiset(states) == multiset(seq(|states|, j => j))
    ensures Distinct(pis)
  {
    forall a, b | 0 <= a < b < |pis| ensures pis[a] != pis[b] {
      if pis[a] == pis[b] {
        var x := pis[a];
        assert multiset(pis[..b]) + multiset{x} <= multiset(pis) by {
          assert pis[..b + 1] == pis[..b] + [x];
          assert pis == pis[..b + 1] + pis[b + 1..];
        }
        assert x in pis[..b];
        assert multiset(pis)[x] >= 2;
        RangeMultiplicity(|states|, x);
      }
    }
  }

  /** Every value occurs at most once in 0..k-1. */
  lemma {:induction false} RangeMultiplicity(k: nat, x: nat)
    ensures multiset(seq(k, j => j))[x] <= 1
  {
    if k > 0 {
      assert seq(k, j => j) == seq(k - 1, j => j) + [k - 1];
      RangeMultiplicity(k - 1, x);
      if x == k - 1 {
        assert x !in seq(k - 1, j => j);
      }
    }
  }

  // ---------------------------------------------------------------------
  // Why it is a lower bound
  // ---------------------------------------------------------------------

  /** A map of the states to classes 0..k-1 that puts no two marked states together. */
  predicate ValidClassMap(Ms: seq<bool>, n: nat, cls: seq<nat>, k: nat) {
    |cls| == n && (forall x :: 0 <= x < n ==> cls[x] < k)
    && forall x, y :: 0 <= x < n && 0 <= y < n && Mk(Ms, n, x, y) ==> cls[x] != cls[y]
  }

  /** k values below b that are pairwise different: there are at most b of them. */
  lemma {:induction false} DistinctBelow(cs: seq<nat>, b: nat)
    requires Distinct(cs) && forall a :: 0 <= a < |cs| ==> cs[a] < b
    ensures |cs| <= b
    decreases |cs|
  {
    if cs != [] {
      var last := cs[|cs| - 1];
      var rest := seq(|cs| - 1, a requires 0 <= a < |cs| - 1 => if cs[a] == b - 1 then last else cs[a]);
      assert forall a :: 0 <= a < |cs| - 1 ==> cs[a] != last;
      DistinctBelow(rest, b - 1);
    }
  }

  /**
   * The states found cannot share a class: every class map that separates
   * incompatible states needs at least |pis| classes.
   */
  lemma PairwiseIncompatibleIsLowerBound(Ms: seq<bool>, n: nat, pis: seq<nat>, cls: seq<nat>, k: nat)
    requires (forall a :: 0 <= a < |pis| ==> pis[a] < n) && PairwiseIncompatible(Ms, n, pis)
    requires ValidClassMap(Ms, n, cls, k)
    ensures |pis| <= k
  {
    var cs := seq(|pis|, a requires 0 <= a < |pis| => cls[pis[a]]);
    assert Distinct(cs) by {
      forall a, b | 0 <= a < b < |pis| ensures cs[a] != cs[b] {
        assert Mk(Ms, n, pis[b], pis[a]);
      }
    }
    DistinctBelow(cs, k);
  }
}

=== FILE: MachineBuilder.dfy ===
/**
 * buildMachine (MachineBuilder.cpp): read the classes of the minimised
 * machine off a satisfying assignment and build its transition and output
 * tables.  State s lies in class c when the assignment sets the literal
 * naming (s, c); the successor of class i on input a is the first class
 * holding the successors of all members of class i, and its output is the
 * intersection of their outputs.
 */
module MachineBuilder {
  import opened Patterns
  import opened Machines
  import opened InputAlphabet
  import opened Incompatibility
  import opened Cnf
  import opened DimacsWriter

  /** An output cell of the built machine: the null pointer or a pattern. */
  datatype Output = NoOutput | Out(pattern: Pattern)

  // ---------------------------------------------------------------------
  // Lines 19-33: the classes of every state, read off the assignment
  // ---------------------------------------------------------------------

  /** What buildMachine expects of literalToStateClass: no state, or a state and a class in range. */
  predicate TableOk(lts: seq<(int, int)>, nStates: nat, nClasses: nat) {
    forall l :: 0 <= l < |lts| ==> lts[l].0 == -1 || (0 <= lts[l].0 < nStates && 0 <= lts[l].1 < nClasses)
  }

  /** Every true literal of the assignment has an entry in literalToStateClass. */
  predicate LitsOk(dout: seq<int>, lts: seq<(int, int)>) {
    forall k :: 0 <= k < |dout| && dout[k] > 0 ==> dout[k] < |lts|
  }

  /** The state and class that literal k of the assignment names when it is true; (-1, -1) when it is false. */
  function NamedBy(dout: seq<int>, lts: seq<(int, int)>, k: nat): (int, int)
    requires LitsOk(dout, lts) && k < |dout|
  {
    if dout[k] > 0 then lts[dout[k]] else (-1, -1)
  }

  /** Literal k of the assignment puts state s into class c. */
  predicate Places(dout: seq<int>, lts: seq<(int, int)>, k: nat, s: int, c: int)
    requires LitsOk(dout, lts) && k < |dout|
  {
    s != -1 && NamedBy(dout, lts, k) == (s, c)
  }

  /** One of the first n literals puts state s into class c. */
  predicate InClassAfter(dout: seq<int>, lts: seq<(int, int)>, n: nat, s: int, c: int)
    requires LitsOk(dout, lts) && n <= |dout|
  {
    exists k :: 0 <= k < n && Places(dout, lts, k, s, c)
  }

  /** `classesForOrigState` after the first n literals. */
  function ClassTable(dout: seq<int>, lts: seq<(int, int)>, n: nat, nStates: nat, nClasses: nat): (t: seq<seq<bool>>)
    requires LitsOk(dout, lts) && n <= |dout|
    ensures |t| == nStates && forall s :: 0 <= s < nStates ==> |t[s]| == nClasses
  {
    seq(nStates, s => seq(nClasses, c => InClassAfter(dout, lts, n, s, c)))
  }

  /** `newStates[c]` after the first n literals: the states put into class c, in literal order. */
  function ClassMembers(dout: seq<int>, lts: seq<(int, int)>, nStates: nat, nClasses: nat, c: int, n: nat): (ms: seq<int>)
    requires TableOk(lts, nStates, nClasses) && LitsOk(dout, lts) && n <= |dout|
    ensures forall j :: 0 <= j < |ms| ==> 0 <= ms[j] < nStates
  {
    if n == 0 then []
    else
      var sc := NamedBy(dout, lts, n - 1);
      ClassMembers(dout, lts, nStates, nClasses, c, n - 1) + (if sc.0 != -1 && sc.1 == c then [sc.0] else [])
  }

  /** `newResetState` after the first n literals: the class of the last literal that names the reset state r. */
  function ResetAfter(dout: seq<int>, lts: seq<(int, int)>, r: int, init: int, n: nat): int
    requires LitsOk(dout, lts) && n <= |dout|
  {
    if n == 0 then init
    else
      var sc := NamedBy(dout, lts, n - 1);
      if sc.0 != -1 && sc.0 == r then sc.1 else ResetAfter(dout, lts, r, init, n - 1)
  }

  /** A state is a member of class c exactly when some true literal puts it there. */
  lemma {:induction false} MembersMeaning(dout: seq<int>, lts: seq<(int, int)>, nStates: nat, nClasses: nat, c: int, n: nat, s: int)
    requires TableOk(lts, nStates, nClasses) && LitsOk(dout, lts) && n <= |dout|
    ensures s in ClassMembers(dout, lts, nStates, nClasses, c, n) <==> InClassAfter(dout, lts, n, s, c)
  {
    if n > 0 {
      MembersMeaning(dout, lts, nStates, nClasses, c, n - 1, s);
      InClassStep(dout, lts, n - 1, s, c);
    }
  }

  lemma InClassStep(dout: seq<int>, lts: seq<(int, int)>, n: nat, s: int, c: int)
    requires LitsOk(dout, lts) && n < |dout|
    ensures InClassAfter(dout, lts, n + 1, s, c) <==> InClassAfter(dout, lts, n, s, c) || Places(dout, lts, n, s, c)
  {
    if InClassAfter(dout, lts, n + 1, s, c) && !Places(dout, lts, n, s, c) {
      var k :| 0 <= k < n + 1 && Places(dout, lts, k, s, c);
      assert k < n;
    }
  }

  /** Some true literal among the first n names state r. */
  predicate NamesState(dout: seq<int>, lts: seq<(int, int)>, n: nat, r: int)
    requires LitsOk(dout, lts) && n <= |dout|
  {
    exists k :: 0 <= k < n && r != -1 && NamedBy(dout, lts, k).0 == r
  }

  /**
   * The new reset state is a class holding the original reset state when a
   * true literal names it, and keeps its initial value otherwise.
   */
  lemma {:induction false} ResetMeaning(dout: seq<int>, lts: seq<(int, int)>, r: int, init: int, n: nat)
    requires LitsOk(dout, lts) && n <= |dout|
    ensures NamesState(dout, lts, n, r) ==> InClassAfter(dout, lts, n, r, ResetAfter(dout, lts, r, init, n))
    ensures !NamesState(dout, lts, n, r) ==> ResetAfter(dout, lts, r, init, n) == init
  {
    if n > 0 {
      ResetMeaning(dout, lts, r, init, n - 1);
      var sc := NamedBy(dout, lts, n - 1);
      if sc.0 != -1 && sc.0 == r {
        assert Places(dout, lts, n - 1, r, sc.1);
        assert NamesState(dout, lts, n, r);
      } else {
        if NamesState(dout, lts, n, r) {
          var k :| 0 <= k < n && r != -1 && NamedBy(dout, lts, k).0 == r;
          assert k < n - 1;
          assert NamesState(dout, lts, n - 1, r);
          var c := ResetAfter(dout, lts, r, init, n - 1);
          var k' :| 0 <= k' < n - 1 && Places(dout, lts, k', r, c);
          assert Places(dout, lts, k', r, c);
        } else {
          assert !NamesState(dout, lts, n - 1, r);
        }
      }
    }
  }

  /** The pointwise part of the loop invariant of lines 19-33. */
  ghost predicate ReadInv(dout: seq<int>, lts: seq<(int, int)>, nStates: nat, nClasses: nat, k: nat,
                          members: seq<seq<int>>, inClass: seq<seq<bool>>)
    requires TableOk(lts, nStates, nClasses) && LitsOk(dout, lts) && k <= |dout|
  {
    && |members| == nClasses
    && (forall c :: 0 <= c < nClasses ==> members[c] == ClassMembers(dout, lts, nStates, nClasses, c, k))
    && |inClass| == nStates
    && (forall s :: 0 <= s < nStates ==> |inClass[s]| == nClasses)
    && (forall s, c :: 0 <= s < nStates && 0 <= c < nClasses ==> (inClass[s][c] <==> InClassAfter(dout, lts, k, s, c)))
  }

  /** One round of the loop of lines 19-33. */
  method ReadLiteral(dout: seq<int>, lts: seq<(int, int)>, nStates: nat, nClasses: nat, k: nat,
                     members: seq<seq<int>>, inClass: seq<seq<bool>>, origReset: int, reset: int)
    returns (members': seq<seq<int>>, inClass': seq<seq<bool>>, reset': int)
    requires TableOk(lts, nStates, nClasses) && LitsOk(dout, lts) && k < |dout|
    requires ReadInv(dout, lts, nStates, nClasses, k, members, inClass)
    ensures ReadInv(dout, lts, nStates, nClasses, k + 1, members', inClass')
    ensures reset' == (if NamedBy(dout, lts, k).0 != -1 && NamedBy(dout, lts, k).0 == origReset then NamedBy(dout, lts, k).1 else reset)
  {
    members', inClass', reset' := members, inClass, reset;
    var lit := dout[k];
    if lit > 0 {
      var sc := lts[lit];
      if sc.0 != -1 {
        members' := members[sc.1 := members[sc.1] + [sc.0]];
        inClass' := inClass[sc.0 := inClass[sc.0][sc.1 := true]];
        if sc.0 == origReset {
          reset' := sc.1;
        }
      }
    }
    forall s, c | 0 <= s < nStates && 0 <= c < nClasses
      ensures inClass'[s][c] <==> InClassAfter(dout, lts, k + 1, s, c)
    {
      InClassStep(dout, lts, k, s, c);
    }
  }

  /**
   * Lines 12-33: the members of every class, the classes of every state and
   * the new reset state, read off the true literals of the assignment.
   */
  method ReadAssignment(dout: seq<int>, lts: seq<(int, int)>, nStates: nat, nClasses: nat, origReset: int, reset0: int)
    returns (members: seq<seq<int>>, inClass: seq<seq<bool>>, newReset: int)
    requires TableOk(lts, nStates, nClasses) && LitsOk(dout, lts)
    ensures |members| == nClasses
    ensures forall c :: 0 <= c < nClasses ==> members[c] == ClassMembers(dout, lts, nStates, nClasses, c, |dout|)
    ensures inClass == ClassTable(dout, lts, |dout|, nStates, nClasses)
    ensures newReset == ResetAfter(dout, lts, origReset, reset0, |dout|)
  {
    members := seq(nClasses, _ => []);
    inClass := seq(nStates, _ => seq(nClasses, _ => false));
    newReset := reset0;
    var k := 0;
    while k < |dout|
      invariant k <= |dout|
      invariant ReadInv(dout, lts, nStates, nClasses, k, members, inClass)
      invariant newReset == ResetAfter(dout, lts, origReset, reset0, k)
    {
      members, inClass, newReset := ReadLiteral(dout, lts, nStates, nClasses, k, members, inClass, origReset, newReset);
      k := k + 1;
    }
    var t := ClassTable(dout, lts, |dout|, nStates, nClasses);
    forall s | 0 <= s < nStates ensures inClass[s] == t[s] {
      assert forall c :: 0 <= c < nClasses ==> inClass[s][c] == t[s][c];
    }
  }

  // ---------------------------------------------------------------------
  // Lines 41-63: the successors and the merged output of one class on one input
  // ---------------------------------------------------------------------

  /** Every member is a state of next with a column a. */
  predicate ColumnOk(ms: seq<int>, next: seq<seq<int>>, a: nat) {
    forall j :: 0 <= j < |ms| ==> 0 <= ms[j] < |next| && a < |next[ms[j]]|
  }

  /** What buildMachine expects of the output table: one cell per transition, every defined output of width no. */
  predicate OutputsOk(next: seq<seq<int>>, out: seq<seq<Pattern>>, no: nat) {
    |out| == |next|
    && (forall s :: 0 <= s < |next| ==> |out[s]| == |next[s]|)
    && (forall s, a :: 0 <= s < |next| && 0 <= a < |next[s]| && next[s][a] != -1 ==> |out[s][a]| == no)
  }

  /** `succ` after the first n members: their successors on a, skipping the missing ones. */
  function Succs(ms: seq<int>, next: seq<seq<int>>, a: nat, n: nat): seq<int>
    requires ColumnOk(ms, next, a) && n <= |ms|
  {
    if n == 0 then []
    else
      var t := next[ms[n - 1]][a];
      Succs(ms, next, a, n - 1) + (if t == -1 then [] else [t])
  }

  /** The outputs of the same transitions, in the same order. */
  function Outs(ms: seq<int>, next: seq<seq<int>>, out: seq<seq<Pattern>>, a: nat, n: nat, no: nat): (os: seq<Pattern>)
    requires ColumnOk(ms, next, a) && OutputsOk(next, out, no) && n <= |ms|
    ensures |os| == |Succs(ms, next, a, n)| && forall k :: 0 <= k < |os| ==> |os[k]| == no
  {
    if n == 0 then []
    else
      var s := ms[n - 1];
      Outs(ms, next, out, a, n - 1, no) + (if next[s][a] == -1 then [] else [out[s][a]])
  }

  /** Lines 51-57: the first output, then the intersection with each later one that differs from it. */
  function MergeOutputs(outs: seq<Pattern>, w: nat): (r: Output)
    requires forall k :: 0 <= k < |outs| ==> |outs[k]| == w
    ensures r.NoOutput? <==> outs == []
    ensures r.Out? ==> |r.pattern| == w
  {
    if outs == [] then NoOutput
    else
      var o := MergeOutputs(outs[..|outs| - 1], w);
      var x := outs[|outs| - 1];
      if o.NoOutput? then Out(x) else if Equals(o.pattern, x) then o else Out(Intersect(o.pattern, x))
  }

  /** Merging one more output. */
  lemma MergeSnoc(outs: seq<Pattern>, o: Pattern, w: nat)
    requires forall k :: 0 <= k < |outs| ==> |outs[k]| == w
    requires |o| == w
    ensures var r := MergeOutputs(outs, w);
      MergeOutputs(outs + [o], w) == if r.NoOutput? then Out(o) else if Equals(r.pattern, o) then r else Out(Intersect(r.pattern, o))
  {
    assert (outs + [o])[..|outs|] == outs;
  }

  /** The successors are exactly the next states of the members that have one. */
  lemma {:induction false} SuccsMeaning(ms: seq<int>, next: seq<seq<int>>, a: nat, n: nat, x: int)
    requires ColumnOk(ms, next, a) && n <= |ms|
    ensures x in Succs(ms, next, a, n) <==> x != -1 && exists j :: 0 <= j < n && next[ms[j]][a] == x
  {
    if n > 0 {
      SuccsMeaning(ms, next, a, n - 1, x);
      if x != -1 && (exists j :: 0 <= j < n && next[ms[j]][a] == x) && next[ms[n - 1]][a] != x {
        var j :| 0 <= j < n && next[ms[j]][a] == x;
        assert j < n - 1;
      }
    }
  }

  /** There are no successors exactly when no member has a transition on a. */
  lemma {:induction false} SuccsEmpty(ms: seq<int>, next: seq<seq<int>>, a: nat, n: nat)
    requires ColumnOk(ms, next, a) && n <= |ms|
    ensures Succs(ms, next, a, n) == [] <==> forall j :: 0 <= j < n ==> next[ms[j]][a] == -1
  {
    if n > 0 {
      SuccsEmpty(ms, next, a, n - 1);
    }
  }

  /** One of the first n members has a transition on a with output o. */
  predicate Contributes(ms: seq<int>, next: seq<seq<int>>, out: seq<seq<Pattern>>, a: nat, n: nat, no: nat, o: Pattern)
    requires ColumnOk(ms, next, a) && OutputsOk(next, out, no) && n <= |ms|
  {
    exists j :: 0 <= j < n && next[ms[j]][a] != -1 && out[ms[j]][a] == o
  }

  /** The outputs merged are exactly the outputs of the members' transitions on a. */
  lemma {:induction false} OutsMeaning(ms: seq<int>, next: seq<seq<int>>, out: seq<seq<Pattern>>, a: nat, n: nat, no: nat, o: Pattern)
    requires ColumnOk(ms, next, a) && OutputsOk(next, out, no) && n <= |ms|
    ensures o in Outs(ms, next, out, a, n, no) <==> Contributes(ms, next, out, a, n, no, o)
  {
    if n > 0 {
      OutsMeaning(ms, next, out, a, n - 1, no, o);
      var s := ms[n - 1];
      var last := next[s][a] != -1 && out[s][a] == o;
      assert o in Outs(ms, next, out, a, n, no) <==> o in Outs(ms, next, out, a, n - 1, no) || last;
      if Contributes(ms, next, out, a, n, no, o) && !last {
        var j :| 0 <= j < n && next[ms[j]][a] != -1 && out[ms[j]][a] == o;
        assert j < n - 1;
      }
      if Contributes(ms, next, out, a, n - 1, no, o) {
        var j :| 0 <= j < n - 1 && next[ms[j]][a] != -1 && out[ms[j]][a] == o;
        assert Contributes(ms, next, out, a, n, no, o);
      }
    }
  }

  /** Bit i is specified in one of the outputs. */
  predicate FixedIn(outs: seq<Pattern>, i: nat) {
    exists k :: 0 <= k < |outs| && i < |outs[k]| && outs[k][i].Fixed?
  }

  /** Bit i of one of the outputs is b. */
  predicate ValueIn(outs: seq<Pattern>, i: nat, b: Bit) {
    exists k :: 0 <= k < |outs| && i < |outs[k]| && outs[k][i] == b
  }

  /** Every specified bit of the merged output is specified, with that value, in one of the outputs. */
  ghost predicate BitsFrom(r: Pattern, outs: seq<Pattern>) {
    forall i :: 0 <= i < |r| ==> (r[i].Fixed? <==> FixedIn(outs, i)) && (r[i].Fixed? ==> ValueIn(outs, i, r[i]))
  }

  ghost predicate PairwiseCompatible(outs: seq<Pattern>) {
    forall k, l :: 0 <= k < |outs| && 0 <= l < |outs| && |outs[k]| == |outs[l]| ==> Compatible(outs[k], outs[l])
  }

  lemma InLast(front: seq<Pattern>, x: Pattern, i: nat, b: Bit)
    ensures FixedIn(front + [x], i) <==> FixedIn(front, i) || (i < |x| && x[i].Fixed?)
    ensures ValueIn(front + [x], i, b) <==> ValueIn(front, i, b) || (i < |x| && x[i] == b)
  {
    var outs := front + [x];
    if FixedIn(outs, i) {
      var k :| 0 <= k < |outs| && i < |outs[k]| && outs[k][i].Fixed?;
      if k < |front| { assert front[k] == outs[k]; }
    }
    if FixedIn(front, i) {
      var k :| 0 <= k < |front| && i < |front[k]| && front[k][i].Fixed?;
      assert outs[k] == front[k];
    }
    if ValueIn(outs, i, b) {
      var k :| 0 <= k < |outs| && i < |outs[k]| && outs[k][i] == b;
      if k < |front| { assert front[k] == outs[k]; }
    }
    if ValueIn(front, i, b) {
      var k :| 0 <= k < |front| && i < |front[k]| && front[k][i] == b;
      assert outs[k] == front[k];
    }
    if i < |x| {
      assert outs[|front|] == x;
    }
  }

  /** One bit of the merged output after one more output x. */
  lemma BitStep(front: seq<Pattern>, x: Pattern, ob: Bit, rb: Bit, i: nat)
    requires i < |x| && (ob.Fixed? <==> FixedIn(front, i)) && (ob.Fixed? ==> ValueIn(front, i, ob))
    requires ob.Fixed? && x[i].Fixed? ==> ob.value == x[i].value
    requires rb == IntersectBit(ob, x[i])
    ensures (rb.Fixed? <==> FixedIn(front + [x], i)) && (rb.Fixed? ==> ValueIn(front + [x], i, rb))
  {
    InLast(front, x, i, rb);
  }

  /** The merged output takes each specified bit from the outputs it merges. */
  lemma {:induction false} MergeBitsFrom(outs: seq<Pattern>, w: nat)
    requires forall k :: 0 <= k < |outs| ==> |outs[k]| == w
    requires PairwiseCompatible(outs) && outs != []
    ensures BitsFrom(MergeOutputs(outs, w).pattern, outs)
  {
    var n := |outs|;
    var front, x := outs[..n - 1], outs[n - 1];
    assert outs == front + [x];
    var r := MergeOutputs(outs, w).pattern;
    if n == 1 {
      forall i | 0 <= i < |r| ensures (r[i].Fixed? <==> FixedIn(outs, i)) && (r[i].Fixed? ==> ValueIn(outs, i, r[i])) {
        BitStep(front, x, Free, r[i], i);
      }
    } else {
      MergeBitsFrom(front, w);
      var o := MergeOutputs(front, w).pattern;
      if Equals(o, x) {
        EqualsIsIdentity(o, x);
      } else {
        MergeCompatible(front, w, o, x);
      }
      forall i | 0 <= i < |r| ensures (r[i].Fixed? <==> FixedIn(outs, i)) && (r[i].Fixed? ==> ValueIn(outs, i, r[i])) {
        BitStep(front, x, o[i], r[i], i);
      }
    }
  }

  /** The outputs merged so far are compatible with every further output of a pairwise compatible list. */
  lemma MergeCompatible(front: seq<Pattern>, w: nat, o: Pattern, x: Pattern)
    requires forall k :: 0 <= k < |front| ==> |front[k]| == w
    requires |x| == w && |o| == w && BitsFrom(o, front)
    requires forall k :: 0 <= k < |front| ==> Compatible(front[k], x)
    ensures Compatible(o, x)
  {
    forall i | 0 <= i < |o| && o[i].Fixed? && x[i].Fixed? ensures o[i].value == x[i].value {
      var k :| 0 <= k < |front| && i < |front[k]| && front[k][i] == o[i];
      assert Compatible(front[k], x);
    }
  }

  /**
   * For pairwise compatible outputs the merged output refines every one of
   * them and matches exactly the words they all match.
   */
  lemma MergeIsIntersection(outs: seq<Pattern>, w: nat, word: Word)
    requires forall k :: 0 <= k < |outs| ==> |outs[k]| == w
    requires PairwiseCompatible(outs) && outs != []
    ensures forall k :: 0 <= k < |outs| ==> Subset(MergeOutputs(outs, w).pattern, outs[k])
    ensures Matches(MergeOutputs(outs, w).pattern, word) <==> forall k :: 0 <= k < |outs| ==> Matches(outs[k], word)
  {
    var r := MergeOutputs(outs, w).pattern;
    MergeBitsFrom(outs, w);
    forall k | 0 <= k < |outs| ensures Subset(r, outs[k]) {
      forall i | 0 <= i < w && outs[k][i].Fixed? ensures r[i] == outs[k][i] {
        assert FixedIn(outs, i);
        var l :| 0 <= l < |outs| && i < |outs[l]| && outs[l][i] == r[i];
        assert Compatible(outs[l], outs[k]);
      }
    }
    if forall k :: 0 <= k < |outs| ==> Matches(outs[k], word) {
      forall i | 0 <= i < |r| && r[i].Fixed? ensures word[i] == r[i].value {
        var l :| 0 <= l < |outs| && i < |outs[l]| && outs[l][i] == r[i];
        assert Matches(outs[l], word);
      }
      assert Matches(outs[0], word);
    }
  }

  /** When all outputs are equal the merged output is that output. */
  lemma {:induction false} MergeOfEqual(outs: seq<Pattern>, w: nat)
    requires forall k :: 0 <= k < |outs| ==> |outs[k]| == w
    requires outs != [] && forall k :: 0 <= k < |outs| ==> outs[k] == outs[0]
    ensures MergeOutputs(outs, w) == Out(outs[0])
  {
    var n := |outs|;
    if n > 1 {
      var front := outs[..n - 1];
      MergeOfEqual(front, w);
      EqualsIsIdentity(outs[0], outs[n - 1]);
    }
  }

  // ---------------------------------------------------------------------
  // Lines 65-94: the class that holds every successor
  // ---------------------------------------------------------------------

  /** Class c holds every state of succ. */
  predicate HoldsAll(inClass: seq<seq<bool>>, succ: seq<int>, c: nat) {
    forall k :: 0 <= k < |succ| ==> 0 <= succ[k] < |inClass| && c < |inClass[succ[k]]| && inClass[succ[k]][c]
  }

  /** The first class from c on that holds every state of succ, or -1. */
  function FirstHolding(inClass: seq<seq<bool>>, succ: seq<int>, nClasses: nat, c: nat): (r: int)
    decreases nClasses - c
    ensures r == -1 || (c <= r < nClasses && HoldsAll(inClass, succ, r))
  {
    if c >= nClasses then -1 else if HoldsAll(inClass, succ, c) then c else FirstHolding(inClass, succ, nClasses, c + 1)
  }

  /** FirstHolding finds the smallest class holding every successor, and says -1 only when there is none. */
  lemma {:induction false} FirstHoldingSpec(inClass: seq<seq<bool>>, succ: seq<int>, nClasses: nat, c: nat)
    decreases nClasses - c
    ensures var r := FirstHolding(inClass, succ, nClasses, c);
      && (r == -1 <==> forall d :: c <= d < nClasses ==> !HoldsAll(inClass, succ, d))
      && (r != -1 ==> c <= r < nClasses && HoldsAll(inClass, succ, r))
      && (forall d :: c <= d < nClasses && (r == -1 || d < r) ==> !HoldsAll(inClass, succ, d))
  {
    if c < nClasses && !HoldsAll(inClass, succ, c) {
      FirstHoldingSpec(inClass, succ, nClasses, c + 1);
    }
  }

  /** What the search of lines 67-94 ends in: a class, a silent miss, or the abort of line 91. */
  datatype SuccSearch = Found(c: nat) | Missing | Aborted

  /**
   * The search as written: it checks for the abort only in rounds whose class
   * holds the first successor, so it aborts only when the last class holds it.
   */
  function SearchAsWritten(inClass: seq<seq<bool>>, succ: seq<int>, nClasses: nat): SuccSearch
    requires |succ| > 0 && 0 <= succ[0] < |inClass| && |inClass[succ[0]]| == nClasses
  {
    var c := FirstHolding(inClass, succ, nClasses, 0);
    if c != -1 then Found(c)
    else if nClasses > 0 && inClass[succ[0]][nClasses - 1] then Aborted
    else Missing
  }

  /** Every state of succ has a row of nClasses flags. */
  predicate SuccsShaped(inClass: seq<seq<bool>>, succ: seq<int>, nClasses: nat) {
    forall k :: 0 <= k < |succ| ==> 0 <= succ[k] < |inClass| && |inClass[succ[k]]| == nClasses
  }

  /** Lines 72-80: every successor after the first lies in class c. */
  method OthersInClass(inClass: seq<seq<bool>>, succ: seq<int>, nClasses: nat, c: nat) returns (all: bool)
    requires SuccsShaped(inClass, succ, nClasses) && c < nClasses && |succ| > 0
    ensures all <==> forall k :: 1 <= k < |succ| ==> inClass[succ[k]][c]
  {
    all := true;
    var k := 1;
    while k < |succ|
      invariant 1 <= k <= |succ|
      invariant forall k' :: 1 <= k' < k ==> inClass[succ[k']][c]
    {
      if !inClass[succ[k]][c] {
        return false;
      }
      k := k + 1;
    }
  }

  /** Lines 67-94 as written. */
  method FindSuccClassAsWritten(inClass: seq<seq<bool>>, succ: seq<int>, nClasses: nat) returns (r: SuccSearch)
    requires SuccsShaped(inClass, succ, nClasses) && |succ| > 0
    ensures r == SearchAsWritten(inClass, succ, nClasses)
  {
    FirstHoldingSpec(inClass, succ, nClasses, 0);
    var first := succ[0];
    var c := 0;
    while c < nClasses
      invariant c <= nClasses
      invariant forall d :: 0 <= d < c ==> !HoldsAll(inClass, succ, d)
      invariant forall d :: 0 <= d < c ==> !(d == nClasses - 1 && inClass[first][d])
    {
      if inClass[first][c] {
        var all := OthersInClass(inClass, succ, nClasses, c);
        if all {
          assert HoldsAll(inClass, succ, c);
          return Found(c);
        }
        if c == nClasses - 1 {
          return Aborted;
        }
      }
      c := c + 1;
    }
    return Missing;
  }

  /**
   * The as-written search can miss a class without aborting: class 0 holds
   * states 0 and 1, class 1 holds state 2, and the successors 1 and 2 share
   * no class, yet the last class does not hold the first successor.
   */
  lemma SearchAsWrittenMisses()
    ensures var inClass := [[true, false], [true, false], [false, true]];
      && FirstHolding(inClass, [1, 2], 2, 0) == -1
      && SearchAsWritten(inClass, [1, 2], 2) == Missing
  {
    var inClass := [[true, false], [true, false], [false, true]];
    var succ := [1, 2];
    assert !inClass[succ[1]][0];
    assert !inClass[succ[0]][1];
  }

  /** Lines 67-94 corrected: the first class holding every successor, or -1 for the abort. */
  method FindSuccClass(inClass: seq<seq<bool>>, succ: seq<int>, nClasses: nat) returns (c: int)
    requires SuccsShaped(inClass, succ, nClasses) && |succ| > 0
    ensures c == FirstHolding(inClass, succ, nClasses, 0)
  {
    FirstHoldingSpec(inClass, succ, nClasses, 0);
    var first := succ[0];
    c := 0;
    while c < nClasses
      invariant c <= nClasses
      invariant forall d :: 0 <= d < c ==> !HoldsAll(inClass, succ, d)
    {
      if inClass[first][c] {
        var all := OthersInClass(inClass, succ, nClasses, c);
        if all {
          assert HoldsAll(inClass, succ, c);
          return;
        }
      }
      c := c + 1;
    }
    c := -1;
  }

  // ---------------------------------------------------------------------
  // Lines 35-97: the tables of the built machine
  // ---------------------------------------------------------------------

  /** The original next-state table has maxInput + 1 columns and names only its own states. */
  predicate Shape(next: seq<seq<int>>, maxInput: int) {
    && maxInput >= -1
    && Rows(next, maxInput + 1)
    && (forall s, a :: 0 <= s < |next| && 0 <= a <= maxInput ==> -1 <= next[s][a] < |next|)
  }

  /** One round of the loop of lines 46-61: member j joins the successors and the merged output. */
  method MergeMember(ms: seq<int>, next: seq<seq<int>>, out: seq<seq<Pattern>>, a: nat, ghost no: nat, j: nat,
                     succ: seq<int>, output: Output)
    returns (succ': seq<int>, output': Output)
    requires ColumnOk(ms, next, a) && OutputsOk(next, out, no) && j < |ms|
    requires succ == Succs(ms, next, a, j) && output == MergeOutputs(Outs(ms, next, out, a, j, no), no)
    ensures succ' == Succs(ms, next, a, j + 1) && output' == MergeOutputs(Outs(ms, next, out, a, j + 1, no), no)
  {
    succ', output' := succ, output;
    var s := ms[j];
    var t := next[s][a];
    MergeStep(ms, next, out, a, no, j);
    if t != -1 {
      var o := out[s][a];
      if succ == [] {
        output' := Out(o);
      } else if !Equals(output.pattern, o) {
        output' := Out(Intersect(output.pattern, o));
      }
      succ' := succ + [t];
    }
  }

  /** What one more member does to the merged output. */
  lemma MergeStep(ms: seq<int>, next: seq<seq<int>>, out: seq<seq<Pattern>>, a: nat, no: nat, j: nat)
    requires ColumnOk(ms, next, a) && OutputsOk(next, out, no) && j < |ms|
    ensures var s := ms[j];
      var r := MergeOutputs(Outs(ms, next, out, a, j, no), no);
      && (Succs(ms, next, a, j) == [] <==> r.NoOutput?)
      && MergeOutputs(Outs(ms, next, out, a, j + 1, no), no) ==
         if next[s][a] == -1 then r
         else if r.NoOutput? then Out(out[s][a])
         else if Equals(r.pattern, out[s][a]) then r
         else Out(Intersect(r.pattern, out[s][a]))
  {
    var prev := Outs(ms, next, out, a, j, no);
    var s := ms[j];
    if next[s][a] != -1 {
      MergeSnoc(prev, out[s][a], no);
      assert Outs(ms, next, out, a, j + 1, no) == prev + [out[s][a]];
    } else {
      assert Outs(ms, next, out, a, j + 1, no) == prev;
    }
  }

  /** Lines 46-63 for the members ms of one class and the input a. */
  method MergeColumn(ms: seq<int>, next: seq<seq<int>>, out: seq<seq<Pattern>>, a: nat, ghost no: nat)
    returns (succ: seq<int>, output: Output)
    requires ColumnOk(ms, next, a) && OutputsOk(next, out, no)
    ensures succ == Succs(ms, next, a, |ms|)
    ensures output == MergeOutputs(Outs(ms, next, out, a, |ms|, no), no)
  {
    succ, output := [], NoOutput;
    var j := 0;
    while j < |ms|
      invariant j <= |ms|
      invariant succ == Succs(ms, next, a, j)
      invariant output == MergeOutputs(Outs(ms, next, out, a, j, no), no)
    {
      succ, output := MergeMember(ms, next, out, a, no, j, succ, output);
      j := j + 1;
    }
  }

  /** The successor class of the members ms on input a: -1 when none of them has a transition. */
  function NextOf(ms: seq<int>, inClass: seq<seq<bool>>, next: seq<seq<int>>, nClasses: nat, a: nat): int
    requires ColumnOk(ms, next, a)
  {
    var succ := Succs(ms, next, a, |ms|);
    if succ == [] then -1 else FirstHolding(inClass, succ, nClasses, 0)
  }

  /** Some member has a transition on a, but no class holds all the successors: the abort of line 91. */
  predicate StuckOn(ms: seq<int>, inClass: seq<seq<bool>>, next: seq<seq<int>>, nClasses: nat, a: nat)
    requires ColumnOk(ms, next, a)
  {
    var succ := Succs(ms, next, a, |ms|);
    succ != [] && FirstHolding(inClass, succ, nClasses, 0) == -1
  }

  /** Lines 41-94 for the members ms of one class and the input a. */
  method BuildCell(ms: seq<int>, inClass: seq<seq<bool>>, next: seq<seq<int>>, out: seq<seq<Pattern>>,
                   nClasses: nat, a: nat, ghost no: nat)
    returns (cell: int, output: Output, stuck: bool)
    requires ColumnOk(ms, next, a) && OutputsOk(next, out, no)
    requires forall j :: 0 <= j < |ms| ==> -1 <= next[ms[j]][a] < |next|
    requires |inClass| == |next| && forall s :: 0 <= s < |next| ==> |inClass[s]| == nClasses
    ensures stuck == StuckOn(ms, inClass, next, nClasses, a)
    ensures !stuck ==> cell == NextOf(ms, inClass, next, nClasses, a) && output == MergeOutputs(Outs(ms, next, out, a, |ms|, no), no)
  {
    var succ;
    succ, output := MergeColumn(ms, next, out, a, no);
    stuck := false;
    if succ == [] {
      cell := -1;
    } else {
      forall k | 0 <= k < |succ| ensures 0 <= succ[k] < |inClass| && |inClass[succ[k]]| == nClasses {
        SuccsMeaning(ms, next, a, |ms|, succ[k]);
      }
      cell := FindSuccClass(inClass, succ, nClasses);
      stuck := cell == -1;
    }
  }

  /** Lines 37-95 for one class with members ms: its row of successor classes and outputs. */
  method BuildRow(ms: seq<int>, inClass: seq<seq<bool>>, next: seq<seq<int>>, out: seq<seq<Pattern>>,
                  nClasses: nat, maxInput: int, ghost no: nat)
    returns (row: seq<int>, outRow: seq<Output>, stuck: bool)
    requires Shape(next, maxInput) && OutputsOk(next, out, no)
    requires forall j :: 0 <= j < |ms| ==> 0 <= ms[j] < |next|
    requires |inClass| == |next| && forall s :: 0 <= s < |next| ==> |inClass[s]| == nClasses
    ensures stuck <==> exists a :: 0 <= a <= maxInput && StuckOn(ms, inClass, next, nClasses, a)
    ensures !stuck ==> |row| == maxInput + 1 && |outRow| == maxInput + 1
    ensures !stuck ==> forall a :: 0 <= a <= maxInput ==>
      row[a] == NextOf(ms, inClass, next, nClasses, a) && outRow[a] == MergeOutputs(Outs(ms, next, out, a, |ms|, no), no)
  {
    row, outRow, stuck := [], [], false;
    var a := 0;
    while a <= maxInput
      invariant 0 <= a <= maxInput + 1
      invariant |row| == a && |outRow| == a
      invariant forall b :: 0 <= b < a ==> CellBuilt(ms, inClass, next, out, nClasses, b, no, row[b], outRow[b])
    {
      var cell, output;
      cell, output, stuck := BuildCell(ms, inClass, next, out, nClasses, a, no);
      if stuck {
        return;
      }
      assert CellBuilt(ms, inClass, next, out, nClasses, a, no, cell, output);
      row, outRow := row + [cell], outRow + [output];
      a := a + 1;
    }
    forall b | 0 <= b <= maxInput
      ensures !StuckOn(ms, inClass, next, nClasses, b)
      ensures row[b] == NextOf(ms, inClass, next, nClasses, b) && outRow[b] == MergeOutputs(Outs(ms, next, out, b, |ms|, no), no)
    {
      assert CellBuilt(ms, inClass, next, out, nClasses, b, no, row[b], outRow[b]);
    }
  }

  /** Cell b of a row: the column is in range, nothing is stuck on b, and the cell and output are the merged ones. */
  ghost predicate CellBuilt(ms: seq<int>, inClass: seq<seq<bool>>, next: seq<seq<int>>, out: seq<seq<Pattern>>,
                            nClasses: nat, b: nat, no: nat, cell: int, output: Output)
  {
    && ColumnOk(ms, next, b) && OutputsOk(next, out, no)
    && !StuckOn(ms, inClass, next, nClasses, b)
    && cell == NextOf(ms, inClass, next, nClasses, b)
    && output == MergeOutputs(Outs(ms, next, out, b, |ms|, no), no)
  }

  /** The result of buildMachine: the tables and reset class, or the abort of line 91. */
  datatype Built = Built(next: seq<seq<int>>, output: seq<seq<Output>>, reset: int) | NoSuccessorClass

  /** What buildMachine expects of its arguments. */
  predicate BuildOk(nClasses: nat, dout: seq<int>, lts: seq<(int, int)>, next: seq<seq<int>>, out: seq<seq<Pattern>>, maxInput: int, no: nat) {
    TableOk(lts, |next|, nClasses) && LitsOk(dout, lts) && Shape(next, maxInput) && OutputsOk(next, out, no)
  }

  /** The members of class i once every literal is read. */
  function Members(nClasses: nat, dout: seq<int>, lts: seq<(int, int)>, next: seq<seq<int>>, i: int): seq<int>
    requires TableOk(lts, |next|, nClasses) && LitsOk(dout, lts)
    ensures forall j :: 0 <= j < |Members(nClasses, dout, lts, next, i)| ==> 0 <= Members(nClasses, dout, lts, next, i)[j] < |next|
  {
    ClassMembers(dout, lts, |next|, nClasses, i, |dout|)
  }

  /** The classes of every state once every literal is read. */
  function Classes(nClasses: nat, dout: seq<int>, lts: seq<(int, int)>, next: seq<seq<int>>): seq<seq<bool>>
    requires LitsOk(dout, lts)
  {
    ClassTable(dout, lts, |dout|, |next|, nClasses)
  }

  /** The successor class of class i on input a in the built machine. */
  function QuotientNext(nClasses: nat, dout: seq<int>, lts: seq<(int, int)>, next: seq<seq<int>>, maxInput: int, i: int, a: nat): int
    requires TableOk(lts, |next|, nClasses) && LitsOk(dout, lts) && Shape(next, maxInput) && a <= maxInput
  {
    NextOf(Members(nClasses, dout, lts, next, i), Classes(nClasses, dout, lts, next), next, nClasses, a)
  }

  /** The output of class i on input a in the built machine. */
  function QuotientOutput(nClasses: nat, dout: seq<int>, lts: seq<(int, int)>, next: seq<seq<int>>, out: seq<seq<Pattern>>,
                          maxInput: int, no: nat, i: int, a: nat): Output
    requires BuildOk(nClasses, dout, lts, next, out, maxInput, no) && a <= maxInput
  {
    var ms := Members(nClasses, dout, lts, next, i);
    MergeOutputs(Outs(ms, next, out, a, |ms|, no), no)
  }

  /** Class i has members with a transition on a whose successors share no class. */
  predicate Stuck(nClasses: nat, dout: seq<int>, lts: seq<(int, int)>, next: seq<seq<int>>, maxInput: int, i: int, a: nat)
    requires TableOk(lts, |next|, nClasses) && LitsOk(dout, lts) && Shape(next, maxInput) && a <= maxInput
  {
    StuckOn(Members(nClasses, dout, lts, next, i), Classes(nClasses, dout, lts, next), next, nClasses, a)
  }

  /** Row i of the built tables. */
  ghost predicate RowBuilt(nClasses: nat, dout: seq<int>, lts: seq<(int, int)>, next: seq<seq<int>>, out: seq<seq<Pattern>>,
                           maxInput: int, no: nat, i: int, row: seq<int>, outRow: seq<Output>)
    requires BuildOk(nClasses, dout, lts, next, out, maxInput, no)
  {
    && |row| == maxInput + 1 && |outRow| == maxInput + 1
    && (forall a :: 0 <= a <= maxInput ==> !Stuck(nClasses, dout, lts, next, maxInput, i, a))
    && (forall a :: 0 <= a <= maxInput ==>
          row[a] == QuotientNext(nClasses, dout, lts, next, maxInput, i, a)
          && outRow[a] == QuotientOutput(nClasses, dout, lts, next, out, maxInput, no, i, a))
  }

  /** Lines 35-96 for class i. */
  method BuildClass(nClasses: nat, dout: seq<int>, lts: seq<(int, int)>, next: seq<seq<int>>, out: seq<seq<Pattern>>,
                    maxInput: int, ghost no: nat, i: int, ms: seq<int>, inClass: seq<seq<bool>>)
    returns (row: seq<int>, outRow: seq<Output>, stuck: bool)
    requires BuildOk(nClasses, dout, lts, next, out, maxInput, no)
    requires ms == Members(nClasses, dout, lts, next, i) && inClass == Classes(nClasses, dout, lts, next)
    ensures stuck <==> exists a :: 0 <= a <= maxInput && Stuck(nClasses, dout, lts, next, maxInput, i, a)
    ensures !stuck ==> RowBuilt(nClasses, dout, lts, next, out, maxInput, no, i, row, outRow)
  {
    row, outRow, stuck := BuildRow(ms, inClass, next, out, nClasses, maxInput, no);
    if stuck {
      var a :| 0 <= a <= maxInput && StuckOn(ms, inClass, next, nClasses, a);
      assert Stuck(nClasses, dout, lts, next, maxInput, i, a);
    }
  }

  /**
   * buildMachine, lines 9-97, with the corrected search for the successor
   * class: it aborts exactly when some class has successors that share no
   * class, and otherwise builds the quotient tables and the reset class.
   */
  method BuildMachine(nClasses: nat, dout: seq<int>, lts: seq<(int, int)>, origNext: seq<seq<int>>,
                      origOut: seq<seq<Pattern>>, origReset: int, reset0: int, maxInput: int, ghost no: nat)
    returns (result: Built)
    requires BuildOk(nClasses, dout, lts, origNext, origOut, maxInput, no)
    ensures result.NoSuccessorClass? <==>
      exists i, a :: 0 <= i < nClasses && 0 <= a <= maxInput && Stuck(nClasses, dout, lts, origNext, maxInput, i, a)
    ensures result.Built? ==> result.reset == ResetAfter(dout, lts, origReset, reset0, |dout|)
    ensures result.Built? ==> |result.next| == nClasses && |result.output| == nClasses
    ensures result.Built? ==> forall i :: 0 <= i < nClasses ==> |result.next[i]| == maxInput + 1 && |result.output[i]| == maxInput + 1
    ensures result.Built? ==> forall i, a :: 0 <= i < nClasses && 0 <= a <= maxInput ==>
      && result.next[i][a] == QuotientNext(nClasses, dout, lts, origNext, maxInput, i, a)
      && result.output[i][a] == QuotientOutput(nClasses, dout, lts, origNext, origOut, maxInput, no, i, a)
  {
    var members, inClass, newReset := ReadAssignment(dout, lts, |origNext|, nClasses, origReset, reset0);
    var newNext: seq<seq<int>> := [];
    var newOut: seq<seq<Output>> := [];
    var i := 0;
    while i < nClasses
      invariant i <= nClasses && |newNext| == i && |newOut| == i
      invariant forall i' :: 0 <= i' < i ==> RowBuilt(nClasses, dout, lts, origNext, origOut, maxInput, no, i', newNext[i'], newOut[i'])
    {
      var row, outRow, stuck := BuildClass(nClasses, dout, lts, origNext, origOut, maxInput, no, i, members[i], inClass);
      if stuck {
        return NoSuccessorClass;
      }
      newNext, newOut := newNext + [row], newOut + [outRow];
      i := i + 1;
    }
    TablesBuilt(nClasses, dout, lts, origNext, origOut, maxInput, no, newNext, newOut);
    result := Built(newNext, newOut, newReset);
  }

  /** Rows built for every class make up the tables of the quotient. */
  lemma TablesBuilt(nClasses: nat, dout: seq<int>, lts: seq<(int, int)>, next: seq<seq<int>>, out: seq<seq<Pattern>>,
                    maxInput: int, no: nat, newNext: seq<seq<int>>, newOut: seq<seq<Output>>)
    requires BuildOk(nClasses, dout, lts, next, out, maxInput, no)
    requires |newNext| == nClasses && |newOut| == nClasses
    requires forall i :: 0 <= i < nClasses ==> RowBuilt(nClasses, dout, lts, next, out, maxInput, no, i, newNext[i], newOut[i])
    ensures forall i, a :: 0 <= i < nClasses && 0 <= a <= maxInput ==> !Stuck(nClasses, dout, lts, next, maxInput, i, a)
    ensures forall i :: 0 <= i < nClasses ==> |newNext[i]| == maxInput + 1 && |newOut[i]| == maxInput + 1
    ensures forall i, a :: 0 <= i < nClasses && 0 <= a <= maxInput ==>
      && newNext[i][a] == QuotientNext(nClasses, dout, lts, next, maxInput, i, a)
      && newOut[i][a] == QuotientOutput(nClasses, dout, lts, next, out, maxInput, no, i, a)
  {
    forall i, a | 0 <= i < nClasses && 0 <= a <= maxInput
      ensures !Stuck(nClasses, dout, lts, next, maxInput, i, a)
      ensures newNext[i][a] == QuotientNext(nClasses, dout, lts, next, maxInput, i, a)
      ensures newOut[i][a] == QuotientOutput(nClasses, dout, lts, next, out, maxInput, no, i, a)
    {
      assert RowBuilt(nClasses, dout, lts, next, out, maxInput, no, i, newNext[i], newOut[i]);
    }
  }

  // ---------------------------------------------------------------------
  // What the built tables mean, stated on the classes of the assignment
  // ---------------------------------------------------------------------

  /** State s is a member of class i once every literal is read. */
  predicate Member(dout: seq<int>, lts: seq<(int, int)>, s: int, i: int)
    requires LitsOk(dout, lts)
  {
    InClassAfter(dout, lts, |dout|, s, i)
  }

  /** Some member of class i has a transition on a. */
  predicate HasTransition(dout: seq<int>, lts: seq<(int, int)>, next: seq<seq<int>>, maxInput: int, i: int, a: nat)
    requires LitsOk(dout, lts) && Shape(next, maxInput) && a <= maxInput
  {
    exists s :: 0 <= s < |next| && Member(dout, lts, s, i) && next[s][a] != -1
  }

  /** Class d holds the successor on a of every member of class i. */
  predicate HoldsSuccessors(dout: seq<int>, lts: seq<(int, int)>, next: seq<seq<int>>, maxInput: int, i: int, a: nat, d: int)
    requires LitsOk(dout, lts) && Shape(next, maxInput) && a <= maxInput
  {
    forall s :: 0 <= s < |next| && Member(dout, lts, s, i) && next[s][a] != -1 ==> Member(dout, lts, next[s][a], d)
  }

  /** The members of class i are the states the assignment puts into it. */
  lemma MembersAre(nClasses: nat, dout: seq<int>, lts: seq<(int, int)>, next: seq<seq<int>>, i: int)
    requires TableOk(lts, |next|, nClasses) && LitsOk(dout, lts)
    ensures forall s :: s in Members(nClasses, dout, lts, next, i) <==> Member(dout, lts, s, i)
  {
    forall s ensures s in Members(nClasses, dout, lts, next, i) <==> Member(dout, lts, s, i) {
      MembersMeaning(dout, lts, |next|, nClasses, i, |dout|, s);
    }
  }

  /** The class table checks exactly the membership of every successor. */
  lemma HoldsAllMeaning(nClasses: nat, dout: seq<int>, lts: seq<(int, int)>, next: seq<seq<int>>, maxInput: int, i: int, a: nat, d: nat)
    requires TableOk(lts, |next|, nClasses) && LitsOk(dout, lts) && Shape(next, maxInput) && a <= maxInput && d < nClasses
    ensures var ms := Members(nClasses, dout, lts, next, i);
      HoldsAll(Classes(nClasses, dout, lts, next), Succs(ms, next, a, |ms|), d) <==> HoldsSuccessors(dout, lts, next, maxInput, i, a, d)
  {
    var ms := Members(nClasses, dout, lts, next, i);
    var succ := Succs(ms, next, a, |ms|);
    var inClass := Classes(nClasses, dout, lts, next);
    MembersAre(nClasses, dout, lts, next, i);
    if HoldsAll(inClass, succ, d) {
      forall s | 0 <= s < |next| && Member(dout, lts, s, i) && next[s][a] != -1 ensures Member(dout, lts, next[s][a], d) {
        var j :| 0 <= j < |ms| && ms[j] == s;
        SuccsMeaning(ms, next, a, |ms|, next[s][a]);
        var k :| 0 <= k < |succ| && succ[k] == next[s][a];
        assert inClass[succ[k]][d];
      }
    }
    if HoldsSuccessors(dout, lts, next, maxInput, i, a, d) {
      forall k | 0 <= k < |succ| ensures 0 <= succ[k] < |inClass| && d < |inClass[succ[k]]| && inClass[succ[k]][d] {
        SuccsMeaning(ms, next, a, |ms|, succ[k]);
        var j :| 0 <= j < |ms| && next[ms[j]][a] == succ[k];
        assert Member(dout, lts, ms[j], i);
      }
    }
  }

  /** There are successors exactly when some member has a transition. */
  lemma SuccsPresent(nClasses: nat, dout: seq<int>, lts: seq<(int, int)>, next: seq<seq<int>>, maxInput: int, i: int, a: nat)
    requires TableOk(lts, |next|, nClasses) && LitsOk(dout, lts) && Shape(next, maxInput) && a <= maxInput
    ensures var ms := Members(nClasses, dout, lts, next, i);
      Succs(ms, next, a, |ms|) != [] <==> HasTransition(dout, lts, next, maxInput, i, a)
  {
    var ms := Members(nClasses, dout, lts, next, i);
    MembersAre(nClasses, dout, lts, next, i);
    SuccsEmpty(ms, next, a, |ms|);
    if HasTransition(dout, lts, next, maxInput, i, a) {
      var s :| 0 <= s < |next| && Member(dout, lts, s, i) && next[s][a] != -1;
      var j :| 0 <= j < |ms| && ms[j] == s;
    }
  }

  /**
   * The built machine goes from class i on input a to the smallest class
   * holding the successor of every member, and has no transition when no
   * member has one; it aborts exactly when members have successors that no
   * single class holds.
   */
  lemma QuotientNextMeaning(nClasses: nat, dout: seq<int>, lts: seq<(int, int)>, next: seq<seq<int>>, maxInput: int, i: int, a: nat)
    requires TableOk(lts, |next|, nClasses) && LitsOk(dout, lts) && Shape(next, maxInput) && a <= maxInput
    ensures Stuck(nClasses, dout, lts, next, maxInput, i, a) <==>
      HasTransition(dout, lts, next, maxInput, i, a) && forall d :: 0 <= d < nClasses ==> !HoldsSuccessors(dout, lts, next, maxInput, i, a, d)
    ensures !Stuck(nClasses, dout, lts, next, maxInput, i, a) ==>
      var c := QuotientNext(nClasses, dout, lts, next, maxInput, i, a);
      && (c == -1 <==> !HasTransition(dout, lts, next, maxInput, i, a))
      && (c != -1 ==> 0 <= c < nClasses && HoldsSuccessors(dout, lts, next, maxInput, i, a, c))
      && (forall d :: 0 <= d < nClasses && d < c ==> !HoldsSuccessors(dout, lts, next, maxInput, i, a, d))
  {
    var ms := Members(nClasses, dout, lts, next, i);
    var succ := Succs(ms, next, a, |ms|);
    var inClass := Classes(nClasses, dout, lts, next);
    SuccsPresent(nClasses, dout, lts, next, maxInput, i, a);
    FirstHoldingSpec(inClass, succ, nClasses, 0);
    forall d | 0 <= d < nClasses
      ensures HoldsAll(inClass, succ, d) <==> HoldsSuccessors(dout, lts, next, maxInput, i, a, d)
    {
      HoldsAllMeaning(nClasses, dout, lts, next, maxInput, i, a, d);
    }
  }

  /** The outputs on a of the members of class i that have a transition agree wherever both are specified. */
  ghost predicate OutputsAgree(dout: seq<int>, lts: seq<(int, int)>, next: seq<seq<int>>, out: seq<seq<Pattern>>, maxInput: int, no: nat, i: int, a: nat)
    requires LitsOk(dout, lts) && Shape(next, maxInput) && OutputsOk(next, out, no) && a <= maxInput
  {
    forall s, t ::
      (0 <= s < |next| && 0 <= t < |next| && Member(dout, lts, s, i) && Member(dout, lts, t, i)
       && next[s][a] != -1 && next[t][a] != -1) ==> Compatible(out[s][a], out[t][a])
  }

  /**
   * The output of class i on input a is null when no member has a
   * transition; otherwise, when the members' outputs agree, it refines each
   * of them and matches exactly the words all of them match.
   */
  lemma QuotientOutputMeaning(nClasses: nat, dout: seq<int>, lts: seq<(int, int)>, next: seq<seq<int>>, out: seq<seq<Pattern>>,
                              maxInput: int, no: nat, i: int, a: nat, word: Word)
    requires BuildOk(nClasses, dout, lts, next, out, maxInput, no) && a <= maxInput
    ensures var o := QuotientOutput(nClasses, dout, lts, next, out, maxInput, no, i, a);
      o.NoOutput? <==> !HasTransition(dout, lts, next, maxInput, i, a)
    ensures var o := QuotientOutput(nClasses, dout, lts, next, out, maxInput, no, i, a);
      o.Out? && OutputsAgree(dout, lts, next, out, maxInput, no, i, a) ==>
      && (forall s :: 0 <= s < |next| && Member(dout, lts, s, i) && next[s][a] != -1 ==> Subset(o.pattern, out[s][a]))
      && (Matches(o.pattern, word) <==>
          forall s :: 0 <= s < |next| && Member(dout, lts, s, i) && next[s][a] != -1 ==> Matches(out[s][a], word))
  {
    var ms := Members(nClasses, dout, lts, next, i);
    var outs := Outs(ms, next, out, a, |ms|, no);
    var o := QuotientOutput(nClasses, dout, lts, next, out, maxInput, no, i, a);
    SuccsPresent(nClasses, dout, lts, next, maxInput, i, a);
    MembersAre(nClasses, dout, lts, next, i);
    if o.Out? && OutputsAgree(dout, lts, next, out, maxInput, no, i, a) {
      forall k | 0 <= k < |outs| ensures exists s :: 0 <= s < |next| && Member(dout, lts, s, i) && next[s][a] != -1 && out[s][a] == outs[k] {
        OutsMeaning(ms, next, out, a, |ms|, no, outs[k]);
        var j :| 0 <= j < |ms| && next[ms[j]][a] != -1 && out[ms[j]][a] == outs[k];
        assert Member(dout, lts, ms[j], i);
      }
      assert PairwiseCompatible(outs);
      MergeIsIntersection(outs, no, word);
      forall s | 0 <= s < |next| && Member(dout, lts, s, i) && next[s][a] != -1 ensures out[s][a] in outs {
        var j :| 0 <= j < |ms| && ms[j] == s;
        OutsMeaning(ms, next, out, a, |ms|, no, out[s][a]);
      }
    }
  }

  // ---------------------------------------------------------------------
  // Classes read off a model of the CNF
  // ---------------------------------------------------------------------

  /** The variables the true literals of the assignment name. */
  function TrueVars(dout: seq<int>, vars: seq<Var>): (T: set<Var>)
    ensures forall v :: v in T <==> exists l :: l in dout && 0 < l <= |vars| && vars[l - 1] == v
  {
    set l | l in dout && 0 < l <= |vars| :: vars[l - 1]
  }

  /** literalToStateClass as the encoder hands it over: entry l names variable l. */
  predicate NamesVars(lts: seq<(int, int)>, vars: seq<Var>) {
    |lts| == |vars| + 1 && forall l :: 0 <= l < |lts| ==> lts[l] == Named(vars, l)
  }

  /** A state is a member of a class exactly when the assignment sets its state variable. */
  lemma MemberIsTrueVar(dout: seq<int>, lts: seq<(int, int)>, vars: seq<Var>, s: nat, c: nat)
    requires LitsOk(dout, lts) && NamesVars(lts, vars)
    ensures Member(dout, lts, s, c) <==> X(s, c) in TrueVars(dout, vars)
  {
    if Member(dout, lts, s, c) {
      var k :| 0 <= k < |dout| && Places(dout, lts, k, s, c);
      var l := dout[k];
      assert l in dout && 0 < l <= |vars| && vars[l - 1] == X(s, c);
    }
    if X(s, c) in TrueVars(dout, vars) {
      var l :| l in dout && 0 < l <= |vars| && vars[l - 1] == X(s, c);
      var k :| 0 <= k < |dout| && dout[k] == l;
      assert Places(dout, lts, k, s, c);
      assert InClassAfter(dout, lts, |dout|, s, c);
    }
  }

  /**
   * When the true variables model the CNF of the problem, the classes the
   * assignment describes are closed under every input: the corrected build
   * never aborts.
   */
  lemma ModelNeverStuck(p: Problem, dout: seq<int>, lts: seq<(int, int)>, vars: seq<Var>, i: nat, a: nat)
    requires ValidProblem(p) && Symmetric(p.Ms, |p.next|) && Models(TrueVars(dout, vars), Formula(p))
    requires LitsOk(dout, lts) && NamesVars(lts, vars) && TableOk(lts, |p.next|, p.numClasses)
    requires i < p.numClasses && a <= p.maxInput
    ensures !Stuck(p.numClasses, dout, lts, p.next, p.maxInput, i, a)
  {
    var T := TrueVars(dout, vars);
    ClosureHolds(p, T);
    assert HasSuccessorClass(p, T, a, i);
    var j :| 0 <= j < p.numClasses && ClosedOn(p, T, a, i, j);
    forall s | 0 <= s < |p.next| && Member(dout, lts, s, i) && p.next[s][a] != -1
      ensures Member(dout, lts, p.next[s][a], j)
    {
      MemberIsTrueVar(dout, lts, vars, s, i);
      assert Cnf.Succ(p, s, a) == p.next[s][a];
      MemberIsTrueVar(dout, lts, vars, p.next[s][a], j);
    }
    assert HoldsSuccessors(dout, lts, p.next, p.maxInput, i, a, j);
    QuotientNextMeaning(p.numClasses, dout, lts, p.next, p.maxInput, i, a);
  }

  /** A literal table that names the encoder's variables is one buildMachine accepts. */
  lemma NamesVarsTableOk(lts: seq<(int, int)>, vars: seq<Var>, nStates: nat, nClasses: nat)
    requires NamesVars(lts, vars)
    requires forall l :: 0 <= l < |vars| && vars[l].X? ==> vars[l].s < nStates && vars[l].c < nClasses
    ensures TableOk(lts, nStates, nClasses)
  {
    forall l | 0 <= l < |lts| ensures lts[l].0 == -1 || (0 <= lts[l].0 < nStates && 0 <= lts[l].1 < nClasses) {
      if 1 <= l <= |vars| && vars[l - 1].X? {
        assert lts[l] == (vars[l - 1].s as int, vars[l - 1].c as int);
      }
    }
  }
}

=== FILE: Machines.dfy ===
/**
 * The machine representation shared by the parser, the minimiser and the
 * cover checker: for every state (a dense id), the list of its transitions
 * (input pattern, next state, output pattern) in file order.
 */
module Machines {
  import opened Patterns

  datatype Transition = Transition(input: Pattern, next: nat, output: Pattern)

  type Machine = seq<seq<Transition>>

  /** Every transition target names a state of the machine. */
  predicate TargetsInRange(m: Machine) {
    forall s, k :: 0 <= s < |m| && 0 <= k < |m[s]| ==> m[s][k].next < |m|
  }

  /** All inputs have ni bits and all outputs no bits. */
  predicate Widths(m: Machine, ni: nat, no: nat) {
    forall s, k :: 0 <= s < |m| && 0 <= k < |m[s]| ==> |m[s][k].input| == ni && |m[s][k].output| == no
  }

  predicate WellFormed(m: Machine, ni: nat, no: nat) {
    TargetsInRange(m) && Widths(m, ni, no)
  }

  /** Some transition of s leads to t. */
  predicate Succ(m: Machine, s: nat, t: nat)
    requires s < |m|
  {
    exists k :: 0 <= k < |m[s]| && m[s][k].next == t
  }

  /** Number of false entries of a flag vector (a measure for worklist algorithms). */
  function CountFalse(flags: seq<bool>): (c: nat)
    ensures c <= |flags|
  {
    if flags == [] then 0 else (if flags[0] then 0 else 1) + CountFalse(flags[1..])
  }

  lemma {:induction false} CountFalseSet(flags: seq<bool>, i: nat)
    requires i < |flags| && !flags[i]
    ensures CountFalse(flags[i := true]) + 1 == CountFalse(flags)
  {
    if i > 0 {
      assert flags[i := true][1..] == flags[1..][i - 1 := true];
      CountFalseSet(flags[1..], i - 1);
    }
  }

  /** The elements of q are pairwise different. */
  predicate Distinct<T(==)>(q: seq<T>) {
    forall i, j :: 0 <= i < j < |q| ==> q[i] != q[j]
  }
}

=== FILE: MealyCover.dfy ===
/**
 * The cover check of MealyCover.cpp: does machine m1 cover machine m2?
 * findDistinguishingInput runs a breadth-first search over pairs of states,
 * one of m1 and one of m2, and refines every input pattern of the m2 state
 * against the input patterns of the m1 state (with `diff`).  It returns an
 * input sequence on which the two machines part ways, or the empty sequence
 * when the search runs out of pairs.
 *
 * Covering is stated here on concrete words: a set P of state pairs is a
 * simulation when, for every pair (s1, s2) in P, every word an input of s2
 * accepts is accepted by some transition of s1, and the first such
 * transition writes an output that refines that of s2 and leads to a pair
 * again in P.  The search answers the empty sequence exactly when a
 * simulation holds the starting pair.
 */
module MealyCover {
  import opened Patterns
  import opened Machines

  /** A pair of states: one of m1, one of m2. */
  type Pair = (nat, nat)

  /** Both machines read ni-bit inputs and write no-bit outputs, and every target is a state. */
  predicate Shaped(m1: Machine, m2: Machine, ni: nat, no: nat) {
    WellFormed(m1, ni, no) && WellFormed(m2, ni, no)
  }

  predicate InRange(m1: Machine, m2: Machine, q: Pair) {
    q.0 < |m1| && q.1 < |m2|
  }

  // ---------------------------------------------------------------------
  // Steps, paths and counterexamples
  // ---------------------------------------------------------------------

  /** w is accepted by transition k of ts and by none before it. */
  ghost predicate FirstMatch(ts: seq<Transition>, w: Word, k: nat) {
    k < |ts| && Matches(ts[k].input, w) && forall j :: 0 <= j < k ==> !Matches(ts[j].input, w)
  }

  /** Pattern x lies in input k of state q.0 and input t of state q.1, and in no earlier input of q.0. */
  ghost predicate Via(m1: Machine, m2: Machine, ni: nat, no: nat, q: Pair, x: Pattern, k: nat, t: nat)
    requires Shaped(m1, m2, ni, no) && InRange(m1, m2, q)
  {
    && k < |m1[q.0]| && t < |m2[q.1]| && |x| == ni
    && Subset(x, m1[q.0][k].input) && Subset(x, m2[q.1][t].input)
    && forall j :: 0 <= j < k ==> Disjoint(x, m1[q.0][j].input)
  }

  /** On the inputs of x the pair q moves to the pair q'. */
  ghost predicate Step(m1: Machine, m2: Machine, ni: nat, no: nat, q: Pair, x: Pattern, q': Pair)
    requires Shaped(m1, m2, ni, no) && InRange(m1, m2, q)
  {
    exists k: nat, t: nat :: Via(m1, m2, ni, no, q, x, k, t) && q' == (m1[q.0][k].next, m2[q.1][t].next)
  }

  /** The pattern sequence path leads from the pair start to the pair q. */
  ghost predicate Leads(m1: Machine, m2: Machine, ni: nat, no: nat, start: Pair, path: seq<Pattern>, q: Pair)
    requires Shaped(m1, m2, ni, no)
    decreases |path|
  {
    if path == [] then q == start
    else exists q' :: (InRange(m1, m2, q') && Leads(m1, m2, ni, no, start, path[..|path| - 1], q') &&
      Step(m1, m2, ni, no, q', path[|path| - 1], q))
  }

  /** Line 76: on the inputs of x both machines move, and the output of m1 does not refine that of m2. */
  ghost predicate Mismatch(m1: Machine, m2: Machine, ni: nat, no: nat, q: Pair, x: Pattern)
    requires Shaped(m1, m2, ni, no) && InRange(m1, m2, q)
  {
    exists k: nat, t: nat :: Via(m1, m2, ni, no, q, x, k, t) && !Subset(m1[q.0][k].output, m2[q.1][t].output)
  }

  /** Line 104: x lies in an input of state q.1 and in no input of state q.0. */
  ghost predicate Uncovered(m1: Machine, m2: Machine, ni: nat, no: nat, q: Pair, x: Pattern)
    requires Shaped(m1, m2, ni, no) && InRange(m1, m2, q)
  {
    exists t: nat :: t < |m2[q.1]| && |x| == ni && Subset(x, m2[q.1][t].input) &&
      forall j :: 0 <= j < |m1[q.0]| ==> Disjoint(x, m1[q.0][j].input)
  }

  /** r leads from start to a pair that its last pattern tells apart. */
  ghost predicate Counterexample(m1: Machine, m2: Machine, ni: nat, no: nat, start: Pair, r: seq<Pattern>)
    requires Shaped(m1, m2, ni, no)
  {
    r != [] &&
    exists q :: InRange(m1, m2, q) && Leads(m1, m2, ni, no, start, r[..|r| - 1], q) &&
      (Mismatch(m1, m2, ni, no, q, r[|r| - 1]) || Uncovered(m1, m2, ni, no, q, r[|r| - 1]))
  }

  // ---------------------------------------------------------------------
  // Covering on words
  // ---------------------------------------------------------------------

  /** Transition k of q.0 answers transition t of q.1: its output refines, and the successor pair is in P. */
  ghost predicate Answers(m1: Machine, m2: Machine, ni: nat, no: nat, P: set<Pair>, q: Pair, k: nat, t: nat)
    requires Shaped(m1, m2, ni, no) && InRange(m1, m2, q) && k < |m1[q.0]| && t < |m2[q.1]|
  {
    Subset(m1[q.0][k].output, m2[q.1][t].output) && (m1[q.0][k].next, m2[q.1][t].next) in P
  }

  /** Word w (of input t of q.1) is first accepted by a transition of q.0 below k that answers t. */
  ghost predicate Handled(m1: Machine, m2: Machine, ni: nat, no: nat, P: set<Pair>, q: Pair, t: nat, w: Word, k: nat)
    requires Shaped(m1, m2, ni, no) && InRange(m1, m2, q) && t < |m2[q.1]| && k <= |m1[q.0]|
  {
    exists j: nat :: j < k && FirstMatch(m1[q.0], w, j) && Answers(m1, m2, ni, no, P, q, j, t)
  }

  /** Every word of input t of q.1 is handled by state q.0. */
  ghost predicate TransitionCovered(m1: Machine, m2: Machine, ni: nat, no: nat, P: set<Pair>, q: Pair, t: nat)
    requires Shaped(m1, m2, ni, no) && InRange(m1, m2, q) && t < |m2[q.1]|
  {
    forall w :: Matches(m2[q.1][t].input, w) ==> Handled(m1, m2, ni, no, P, q, t, w, |m1[q.0]|)
  }

  /** The first n transitions of q.1 are covered. */
  ghost predicate CoveredUpTo(m1: Machine, m2: Machine, ni: nat, no: nat, P: set<Pair>, q: Pair, n: nat)
    requires Shaped(m1, m2, ni, no) && InRange(m1, m2, q) && n <= |m2[q.1]|
  {
    forall t :: 0 <= t < n ==> TransitionCovered(m1, m2, ni, no, P, q, t)
  }

  ghost predicate PairCovered(m1: Machine, m2: Machine, ni: nat, no: nat, P: set<Pair>, q: Pair)
    requires Shaped(m1, m2, ni, no) && InRange(m1, m2, q)
  {
    CoveredUpTo(m1, m2, ni, no, P, q, |m2[q.1]|)
  }

  /** P is a simulation of m2 by m1. */
  ghost predicate Simulation(m1: Machine, m2: Machine, ni: nat, no: nat, P: set<Pair>)
    requires Shaped(m1, m2, ni, no)
  {
    forall q :: q in P ==> InRange(m1, m2, q) && PairCovered(m1, m2, ni, no, P, q)
  }

  /** m1 from state start.0 covers m2 from state start.1. */
  ghost predicate CoveredFrom(m1: Machine, m2: Machine, ni: nat, no: nat, start: Pair)
    requires Shaped(m1, m2, ni, no)
  {
    exists P :: start in P && Simulation(m1, m2, ni, no, P)
  }

  /** A word first accepted by transition k is answered by k when the pair is covered. */
  lemma HandledBy(m1: Machine, m2: Machine, ni: nat, no: nat, P: set<Pair>, q: Pair, t: nat, w: Word, k: nat)
    requires Shaped(m1, m2, ni, no) && InRange(m1, m2, q) && t < |m2[q.1]|
    requires Handled(m1, m2, ni, no, P, q, t, w, |m1[q.0]|) && FirstMatch(m1[q.0], w, k)
    ensures Answers(m1, m2, ni, no, P, q, k, t)
  {
    var j: nat :| j < |m1[q.0]| && FirstMatch(m1[q.0], w, j) && Answers(m1, m2, ni, no, P, q, j, t);
    assert !(j < k) && !(k < j);
  }

  /** Following a step out of a covered pair stays in P. */
  lemma StepInside(m1: Machine, m2: Machine, ni: nat, no: nat, P: set<Pair>, q: Pair, x: Pattern, q': Pair)
    requires Shaped(m1, m2, ni, no) && InRange(m1, m2, q) && Simulation(m1, m2, ni, no, P) && q in P
    requires Step(m1, m2, ni, no, q, x, q')
    ensures q' in P
  {
    var k: nat, t: nat :| Via(m1, m2, ni, no, q, x, k, t) && q' == (m1[q.0][k].next, m2[q.1][t].next);
    var w := SomeWord(x);
    SubsetMatches(x, m2[q.1][t].input, w);
    SubsetMatches(x, m1[q.0][k].input, w);
    forall j | 0 <= j < k ensures !Matches(m1[q.0][j].input, w) {
      DisjointNoCommonWord(x, m1[q.0][j].input, w);
    }
    assert TransitionCovered(m1, m2, ni, no, P, q, t);
    HandledBy(m1, m2, ni, no, P, q, t, w, k);
  }

  /** Every pair a path reaches from a pair of a simulation lies in the simulation. */
  lemma {:induction false} PathInside(m1: Machine, m2: Machine, ni: nat, no: nat, P: set<Pair>, start: Pair, path: seq<Pattern>, q: Pair)
    requires Shaped(m1, m2, ni, no) && Simulation(m1, m2, ni, no, P) && start in P
    requires Leads(m1, m2, ni, no, start, path, q)
    ensures q in P
    decreases |path|
  {
    if path != [] {
      var q' :| InRange(m1, m2, q') && Leads(m1, m2, ni, no, start, path[..|path| - 1], q') &&
        Step(m1, m2, ni, no, q', path[|path| - 1], q);
      PathInside(m1, m2, ni, no, P, start, path[..|path| - 1], q');
      StepInside(m1, m2, ni, no, P, q', path[|path| - 1], q);
    }
  }

  /** At a covered pair no pattern is a mismatch or uncovered. */
  lemma CoveredAnswers(m1: Machine, m2: Machine, ni: nat, no: nat, P: set<Pair>, q: Pair, x: Pattern)
    requires Shaped(m1, m2, ni, no) && InRange(m1, m2, q) && Simulation(m1, m2, ni, no, P) && q in P
    ensures !Mismatch(m1, m2, ni, no, q, x) && !Uncovered(m1, m2, ni, no, q, x)
  {
    forall k: nat, t: nat | Via(m1, m2, ni, no, q, x, k, t)
      ensures Subset(m1[q.0][k].output, m2[q.1][t].output)
    {
      var w := SomeWord(x);
      SubsetMatches(x, m2[q.1][t].input, w);
      SubsetMatches(x, m1[q.0][k].input, w);
      forall j | 0 <= j < k ensures !Matches(m1[q.0][j].input, w) {
        DisjointNoCommonWord(x, m1[q.0][j].input, w);
      }
      assert TransitionCovered(m1, m2, ni, no, P, q, t);
      HandledBy(m1, m2, ni, no, P, q, t, w, k);
    }
    forall t: nat | t < |m2[q.1]| && |x| == ni && Subset(x, m2[q.1][t].input)
      ensures exists j :: 0 <= j < |m1[q.0]| && !Disjoint(x, m1[q.0][j].input)
    {
      var w := SomeWord(x);
      SubsetMatches(x, m2[q.1][t].input, w);
      assert TransitionCovered(m1, m2, ni, no, P, q, t);
      var j: nat :| j < |m1[q.0]| && FirstMatch(m1[q.0], w, j) && Answers(m1, m2, ni, no, P, q, j, t);
      CommonWordNotDisjoint(x, m1[q.0][j].input, w);
    }
  }

  /** No counterexample starts at a pair of a simulation. */
  lemma SimulationRefutes(m1: Machine, m2: Machine, ni: nat, no: nat, P: set<Pair>, start: Pair, r: seq<Pattern>)
    requires Shaped(m1, m2, ni, no)
    ensures start in P && Simulation(m1, m2, ni, no, P) ==> !Counterexample(m1, m2, ni, no, start, r)
  {
    if start in P && Simulation(m1, m2, ni, no, P) && r != [] {
      forall q | InRange(m1, m2, q) && Leads(m1, m2, ni, no, start, r[..|r| - 1], q)
        ensures !Mismatch(m1, m2, ni, no, q, r[|r| - 1]) && !Uncovered(m1, m2, ni, no, q, r[|r| - 1])
      {
        PathInside(m1, m2, ni, no, P, start, r[..|r| - 1], q);
        CoveredAnswers(m1, m2, ni, no, P, q, r[|r| - 1]);
      }
    }
  }

  /** A counterexample rules covering out. */
  lemma CounterexampleRefutes(m1: Machine, m2: Machine, ni: nat, no: nat, start: Pair, r: seq<Pattern>)
    requires Shaped(m1, m2, ni, no) && Counterexample(m1, m2, ni, no, start, r)
    ensures !CoveredFrom(m1, m2, ni, no, start)
  {
    forall P ensures !(start in P && Simulation(m1, m2, ni, no, P)) {
      SimulationRefutes(m1, m2, ni, no, P, start, r);
    }
  }

  // ---------------------------------------------------------------------
  // Growing P and k
  // ---------------------------------------------------------------------

  lemma HandledLater(m1: Machine, m2: Machine, ni: nat, no: nat, P: set<Pair>, P': set<Pair>, q: Pair, t: nat, w: Word, k: nat, k': nat)
    requires Shaped(m1, m2, ni, no) && InRange(m1, m2, q) && t < |m2[q.1]| && k <= k' <= |m1[q.0]| && P <= P'
    requires Handled(m1, m2, ni, no, P, q, t, w, k)
    ensures Handled(m1, m2, ni, no, P', q, t, w, k')
  {
    var j: nat :| j < k && FirstMatch(m1[q.0], w, j) && Answers(m1, m2, ni, no, P, q, j, t);
    assert Answers(m1, m2, ni, no, P', q, j, t);
  }

  lemma CoveredUpToGrows(m1: Machine, m2: Machine, ni: nat, no: nat, P: set<Pair>, P': set<Pair>, q: Pair, n: nat)
    requires Shaped(m1, m2, ni, no) && InRange(m1, m2, q) && n <= |m2[q.1]| && P <= P'
    requires CoveredUpTo(m1, m2, ni, no, P, q, n)
    ensures CoveredUpTo(m1, m2, ni, no, P', q, n)
  {
    forall t, w | 0 <= t < n && Matches(m2[q.1][t].input, w)
      ensures Handled(m1, m2, ni, no, P', q, t, w, |m1[q.0]|)
    {
      assert TransitionCovered(m1, m2, ni, no, P, q, t);
      HandledLater(m1, m2, ni, no, P, P', q, t, w, |m1[q.0]|, |m1[q.0]|);
    }
  }

  // ---------------------------------------------------------------------
  // The fragment list of one input of q.1 (input2L in the source)
  // ---------------------------------------------------------------------

  /** w is accepted by some pattern of the list. */
  ghost predicate InList(list: seq<Pattern>, w: Word) {
    exists i :: 0 <= i < |list| && Matches(list[i], w)
  }

  /** e is a part of input t of q.1 that no input of q.0 below k accepts. */
  ghost predicate Fragment(m1: Machine, m2: Machine, ni: nat, no: nat, q: Pair, t: nat, k: nat, e: Pattern)
    requires Shaped(m1, m2, ni, no) && InRange(m1, m2, q) && t < |m2[q.1]| && k <= |m1[q.0]|
  {
    |e| == ni && Subset(e, m2[q.1][t].input) && forall j :: 0 <= j < k ==> Disjoint(e, m1[q.0][j].input)
  }

  ghost predicate Fragments(m1: Machine, m2: Machine, ni: nat, no: nat, q: Pair, t: nat, k: nat, list: seq<Pattern>)
    requires Shaped(m1, m2, ni, no) && InRange(m1, m2, q) && t < |m2[q.1]| && k <= |m1[q.0]|
  {
    forall i :: 0 <= i < |list| ==> Fragment(m1, m2, ni, no, q, t, k, list[i])
  }

  /** Every word of input t of q.1 is still in the list, or handled below k. */
  ghost predicate ListCovers(m1: Machine, m2: Machine, ni: nat, no: nat, P: set<Pair>, q: Pair, t: nat, k: nat, list: seq<Pattern>)
    requires Shaped(m1, m2, ni, no) && InRange(m1, m2, q) && t < |m2[q.1]| && k <= |m1[q.0]|
  {
    forall w :: Matches(m2[q.1][t].input, w) ==> InList(list, w) || Handled(m1, m2, ni, no, P, q, t, w, k)
  }

  /** The first n patterns of the list are disjoint from x. */
  ghost predicate DisjointBelow(list: seq<Pattern>, n: nat, x: Pattern) {
    forall i :: 0 <= i < n && i < |list| ==> |list[i]| == |x| && Disjoint(list[i], x)
  }

  /** What diff leaves of e once x is taken out: parts of e outside x, and together all of e outside x. */
  ghost predicate Remainder(e: Pattern, x: Pattern, rest: seq<Pattern>) {
    && (forall i :: 0 <= i < |rest| ==> |rest[i]| == |e| == |x| && Subset(rest[i], e) && Disjoint(rest[i], x))
    && (forall w :: Matches(e, w) && !Matches(x, w) ==> InList(rest, w))
  }

  /** Number of patterns of s that overlap x: the measure of the list loop. */
  function Overlapping(s: seq<Pattern>, x: Pattern): nat {
    if s == [] then 0
    else (if |s[0]| == |x| && !Disjoint(s[0], x) then 1 else 0) + Overlapping(s[1..], x)
  }

  lemma {:induction false} OverlappingNone(b: seq<Pattern>, x: Pattern)
    requires forall i :: 0 <= i < |b| ==> |b[i]| == |x| && Disjoint(b[i], x)
    ensures Overlapping(b, x) == 0
  {
    if b != [] {
      OverlappingNone(b[1..], x);
    }
  }

  lemma {:induction false} OverlappingAppend(a: seq<Pattern>, b: seq<Pattern>, x: Pattern)
    requires forall i :: 0 <= i < |b| ==> |b[i]| == |x| && Disjoint(b[i], x)
    ensures Overlapping(a + b, x) == Overlapping(a, x)
  {
    if a == [] {
      assert a + b == b;
      OverlappingNone(b, x);
    } else {
      assert (a + b)[1..] == a[1..] + b;
      OverlappingAppend(a[1..], b, x);
    }
  }

  /** Kept composes. */
  lemma KeptChain(m1: Machine, m2: Machine, ni: nat, no: nat, start: Pair, s: Search, s0: Search, s': Search,
                  enq: seq<Pair>, enq0: seq<Pair>, enq': seq<Pair>, head: nat)
    requires Shaped(m1, m2, ni, no)
    requires Kept(m1, m2, ni, no, start, s, s0, enq, enq0, head) && Kept(m1, m2, ni, no, start, s0, s', enq0, enq', head)
    ensures Kept(m1, m2, ni, no, start, s, s', enq, enq', head)
  {
    assert enq' [..|enq|] == enq0[..|enq|] == enq;
  }

  lemma FragmentsStart(m1: Machine, m2: Machine, ni: nat, no: nat, P: set<Pair>, q: Pair, t: nat)
    requires Shaped(m1, m2, ni, no) && InRange(m1, m2, q) && t < |m2[q.1]|
    ensures Fragments(m1, m2, ni, no, q, t, 0, [m2[q.1][t].input])
    ensures ListCovers(m1, m2, ni, no, P, q, t, 0, [m2[q.1][t].input])
  {
    SubsetReflexive(m2[q.1][t].input);
    forall w | Matches(m2[q.1][t].input, w) ensures InList([m2[q.1][t].input], w) {
      assert [m2[q.1][t].input][0] == m2[q.1][t].input;
    }
  }

  lemma CoversLater(m1: Machine, m2: Machine, ni: nat, no: nat, P: set<Pair>, q: Pair, t: nat, k: nat, list: seq<Pattern>)
    requires Shaped(m1, m2, ni, no) && InRange(m1, m2, q) && t < |m2[q.1]| && k < |m1[q.0]|
    requires ListCovers(m1, m2, ni, no, P, q, t, k, list)
    ensures ListCovers(m1, m2, ni, no, P, q, t, k + 1, list)
  {
    forall w | Matches(m2[q.1][t].input, w) && !InList(list, w)
      ensures Handled(m1, m2, ni, no, P, q, t, w, k + 1)
    {
      HandledLater(m1, m2, ni, no, P, P, q, t, w, k, k + 1);
    }
  }

  lemma CoversGrows(m1: Machine, m2: Machine, ni: nat, no: nat, P: set<Pair>, P': set<Pair>, q: Pair, t: nat, k: nat, list: seq<Pattern>)
    requires Shaped(m1, m2, ni, no) && InRange(m1, m2, q) && t < |m2[q.1]| && k <= |m1[q.0]| && P <= P'
    requires ListCovers(m1, m2, ni, no, P, q, t, k, list)
    ensures ListCovers(m1, m2, ni, no, P', q, t, k, list)
  {
    forall w | Matches(m2[q.1][t].input, w) && !InList(list, w)
      ensures Handled(m1, m2, ni, no, P', q, t, w, k)
    {
      HandledLater(m1, m2, ni, no, P, P', q, t, w, k, k);
    }
  }

  /** Once every fragment misses input k, the fragments are fragments past k. */
  lemma FragmentsPast(m1: Machine, m2: Machine, ni: nat, no: nat, q: Pair, t: nat, k: nat, list: seq<Pattern>)
    requires Shaped(m1, m2, ni, no) && InRange(m1, m2, q) && t < |m2[q.1]| && k < |m1[q.0]|
    requires Fragments(m1, m2, ni, no, q, t, k, list) && DisjointBelow(list, |list|, m1[q.0][k].input)
    ensures Fragments(m1, m2, ni, no, q, t, k + 1, list)
  {
    forall i | 0 <= i < |list| ensures Fragment(m1, m2, ni, no, q, t, k + 1, list[i]) {
      assert Fragment(m1, m2, ni, no, q, t, k, list[i]);
    }
  }

  /** The part of a fragment that input k accepts is a step pattern through k and t. */
  lemma Narrowed(m1: Machine, m2: Machine, ni: nat, no: nat, q: Pair, t: nat, k: nat, e: Pattern)
    requires Shaped(m1, m2, ni, no) && InRange(m1, m2, q) && t < |m2[q.1]| && k < |m1[q.0]|
    requires Fragment(m1, m2, ni, no, q, t, k, e) && !Disjoint(e, m1[q.0][k].input)
    ensures Via(m1, m2, ni, no, q, Intersect(m1[q.0][k].input, e), k, t)
  {
    var in1 := m1[q.0][k].input;
    var x := Intersect(in1, e);
    DisjointIsNotCompatible(e, in1);
    CompatibleSymmetric(e, in1);
    SubsetTransitive(x, e, m2[q.1][t].input);
    forall j | 0 <= j < k ensures Disjoint(x, m1[q.0][j].input) {
      SubsetKeepsDisjoint(x, e, m1[q.0][j].input);
    }
  }

  /** diff of e by x meets Remainder (with nothing left when e lies inside x). */
  lemma DiffRemainder(e: Pattern, x: Pattern, rest: seq<Pattern>)
    requires |e| == |x| && !Disjoint(e, x)
    requires Subset(e, x) ==> rest == []
    requires !Subset(e, x) ==>
      (forall i :: 0 <= i < |rest| ==> |rest[i]| == |e| && Subset(rest[i], e) && Disjoint(rest[i], x)) &&
      (Compatible(e, x) ==> Partitions(e, rest + [Intersect(e, x)]))
    ensures Remainder(e, x, rest)
  {
    forall w | Matches(e, w) && !Matches(x, w) ensures InList(rest, w) {
      if Subset(e, x) {
        SubsetMatches(e, x, w);
      } else {
        DisjointIsNotCompatible(e, x);
        IntersectMatches(e, x, w);
        var ps := rest + [Intersect(e, x)];
        var i :| 0 <= i < |ps| && Matches(ps[i], w);
        assert i < |rest| && Matches(rest[i], w);
      }
    }
  }

  /**
   * Erasing a fragment e that input k accepts in part, and appending what
   * is left of it, keeps the list a list of fragments and keeps every word
   * covered, when transition k answers t in P'.
   */
  lemma Refined(m1: Machine, m2: Machine, ni: nat, no: nat, P: set<Pair>, P': set<Pair>, q: Pair, t: nat, k: nat,
                list: seq<Pattern>, jj: nat, rest: seq<Pattern>)
    requires Shaped(m1, m2, ni, no) && InRange(m1, m2, q) && t < |m2[q.1]| && k < |m1[q.0]| && P <= P'
    requires jj < |list| && Fragments(m1, m2, ni, no, q, t, k, list)
    requires DisjointBelow(list, jj, m1[q.0][k].input)
    requires ListCovers(m1, m2, ni, no, P, q, t, k + 1, list)
    requires Remainder(list[jj], m1[q.0][k].input, rest)
    requires Answers(m1, m2, ni, no, P', q, k, t)
    ensures Fragments(m1, m2, ni, no, q, t, k, list[..jj] + list[jj + 1..] + rest)
    ensures DisjointBelow(list[..jj] + list[jj + 1..] + rest, jj, m1[q.0][k].input)
    ensures ListCovers(m1, m2, ni, no, P', q, t, k + 1, list[..jj] + list[jj + 1..] + rest)
  {
    var in1 := m1[q.0][k].input;
    var e := list[jj];
    var list' := list[..jj] + list[jj + 1..] + rest;
    assert Fragment(m1, m2, ni, no, q, t, k, e);
    forall i | 0 <= i < |list'| ensures Fragment(m1, m2, ni, no, q, t, k, list'[i]) {
      if i < jj {
        assert list'[i] == list[i];
      } else if i < |list| - 1 {
        assert list'[i] == list[i + 1];
      } else {
        var d := rest[i - (|list| - 1)];
        assert d == list'[i];
        SubsetTransitive(d, e, m2[q.1][t].input);
        forall j | 0 <= j < k ensures Disjoint(d, m1[q.0][j].input) {
          SubsetKeepsDisjoint(d, e, m1[q.0][j].input);
        }
      }
    }
    forall w | Matches(m2[q.1][t].input, w)
      ensures InList(list', w) || Handled(m1, m2, ni, no, P', q, t, w, k + 1)
    {
      if InList(list, w) {
        var i :| 0 <= i < |list| && Matches(list[i], w);
        if i < jj {
          assert list'[i] == list[i];
        } else if i > jj {
          assert list'[i - 1] == list[i];
        } else if Matches(in1, w) {
          forall j | 0 <= j < k ensures !Matches(m1[q.0][j].input, w) {
            DisjointNoCommonWord(e, m1[q.0][j].input, w);
          }
          assert FirstMatch(m1[q.0], w, k);
        } else {
          var l :| 0 <= l < |rest| && Matches(rest[l], w);
          assert list'[|list| - 1 + l] == rest[l];
        }
      } else {
        HandledLater(m1, m2, ni, no, P, P', q, t, w, k + 1, k + 1);
      }
    }
  }

  // ---------------------------------------------------------------------
  // The search state
  // ---------------------------------------------------------------------

  /**
   * The map from state pairs to the input sequence that reached them, the
   * set of pairs ever queued, and the queue.
   */
  datatype Search = Search(paths: map<Pair, seq<Pattern>>, processed: set<Pair>, worklist: seq<Pair>)

  /** The recorded input sequence of q; the empty sequence when none is recorded (the start pair). */
  function PathOf(paths: map<Pair, seq<Pattern>>, q: Pair): seq<Pattern> {
    if q in paths then paths[q] else []
  }

  /** enq lists every pair ever queued, once each; the queue is its part from head on. */
  ghost predicate QueueOk(s: Search, enq: seq<Pair>, head: nat) {
    head <= |enq| && s.worklist == enq[head..] && Distinct(enq) && forall p :: p in s.processed <==> p in enq
  }

  /** Every queued pair is a pair of states, reached from start by its recorded sequence. */
  ghost predicate PathsOk(m1: Machine, m2: Machine, ni: nat, no: nat, start: Pair, s: Search)
    requires Shaped(m1, m2, ni, no)
  {
    start in s.processed &&
    forall q :: q in s.processed ==> InRange(m1, m2, q) && Leads(m1, m2, ni, no, start, PathOf(s.paths, q), q)
  }

  /** The pairs taken off the queue are covered. */
  ghost predicate DoneOk(m1: Machine, m2: Machine, ni: nat, no: nat, s: Search, enq: seq<Pair>, head: nat)
    requires Shaped(m1, m2, ni, no)
  {
    forall i :: 0 <= i < head && i < |enq| ==> InRange(m1, m2, enq[i]) && PairCovered(m1, m2, ni, no, s.processed, enq[i])
  }

  /** Pairs are only added, and the queue changes only when a pair is added. */
  ghost predicate Grows(s: Search, s': Search) {
    s.processed <= s'.processed && (s'.processed == s.processed ==> s'.worklist == s.worklist)
  }

  /** The search state after all the source's bookkeeping holds again. */
  ghost predicate Kept(m1: Machine, m2: Machine, ni: nat, no: nat, start: Pair, s: Search, s': Search,
                       enq: seq<Pair>, enq': seq<Pair>, head: nat)
    requires Shaped(m1, m2, ni, no)
  {
    QueueOk(s', enq', head) && PathsOk(m1, m2, ni, no, start, s') && Grows(s, s') && enq <= enq'
  }

  function AllPairs(m1: Machine, m2: Machine): set<Pair> {
    set a: nat, b: nat | a < |m1| && b < |m2| :: (a, b)
  }

  /** A path extended by one step leads to the step's target. */
  lemma LeadsStep(m1: Machine, m2: Machine, ni: nat, no: nat, start: Pair, path: seq<Pattern>, q: Pair, x: Pattern, q': Pair)
    requires Shaped(m1, m2, ni, no) && InRange(m1, m2, q) && Leads(m1, m2, ni, no, start, path, q)
    requires Step(m1, m2, ni, no, q, x, q')
    ensures Leads(m1, m2, ni, no, start, path + [x], q')
  {
    assert (path + [x])[..|path|] == path;
  }

  /** Recording the successor pair np on the sequence path + [x] (lines 84-90). */
  lemma Recorded(m1: Machine, m2: Machine, ni: nat, no: nat, start: Pair, s: Search, enq: seq<Pair>, head: nat,
                 q: Pair, path: seq<Pattern>, x: Pattern, k: nat, t: nat)
    requires Shaped(m1, m2, ni, no) && InRange(m1, m2, q) && Leads(m1, m2, ni, no, start, path, q)
    requires QueueOk(s, enq, head) && PathsOk(m1, m2, ni, no, start, s)
    requires Via(m1, m2, ni, no, q, x, k, t)
    requires (m1[q.0][k].next, m2[q.1][t].next) !in s.processed
    ensures var np := (m1[q.0][k].next, m2[q.1][t].next);
      Kept(m1, m2, ni, no, start, s, Search(s.paths[np := path + [x]], s.processed + {np}, s.worklist + [np]), enq, enq + [np], head)
  {
    var np := (m1[q.0][k].next, m2[q.1][t].next);
    assert Step(m1, m2, ni, no, q, x, np);
    LeadsStep(m1, m2, ni, no, start, path, q, x, np);
    Enqueued(s, enq, head, np, path + [x]);
    PathsRecorded(m1, m2, ni, no, start, s, np, path + [x]);
  }

  lemma Enqueued(s: Search, enq: seq<Pair>, head: nat, np: Pair, path: seq<Pattern>)
    requires QueueOk(s, enq, head) && np !in s.processed
    ensures QueueOk(Search(s.paths[np := path], s.processed + {np}, s.worklist + [np]), enq + [np], head)
  {
    assert (enq + [np])[head..] == enq[head..] + [np];
  }

  lemma PathsRecorded(m1: Machine, m2: Machine, ni: nat, no: nat, start: Pair, s: Search, np: Pair, path: seq<Pattern>)
    requires Shaped(m1, m2, ni, no) && PathsOk(m1, m2, ni, no, start, s) && np !in s.processed
    requires InRange(m1, m2, np) && Leads(m1, m2, ni, no, start, path, np)
    ensures PathsOk(m1, m2, ni, no, start, Search(s.paths[np := path], s.processed + {np}, s.worklist + [np]))
  {
    var s' := Search(s.paths[np := path], s.processed + {np}, s.worklist + [np]);
    forall p | p in s'.processed ensures InRange(m1, m2, p) && Leads(m1, m2, ni, no, start, PathOf(s'.paths, p), p) {
      if p != np {
        assert PathOf(s'.paths, p) == PathOf(s.paths, p);
      }
    }
  }

  /** Erasing an overlapping fragment and appending parts disjoint from x lowers the measure. */
  lemma ErasedMeasure(list: seq<Pattern>, jj: nat, rest: seq<Pattern>, x: Pattern)
    requires jj < |list| && |list[jj]| == |x| && !Disjoint(list[jj], x)
    requires forall i :: 0 <= i < |rest| ==> |rest[i]| == |x| && Disjoint(rest[i], x)
    ensures var list' := list[..jj] + list[jj + 1..] + rest;
      jj <= |list'| && Overlapping(list'[jj..], x) < Overlapping(list[jj..], x)
  {
    OverlappingAppend(list[jj + 1..], rest, x);
    assert list[jj..] == [list[jj]] + list[jj + 1..];
    assert (list[..jj] + list[jj + 1..] + rest)[jj..] == list[jj + 1..] + rest;
  }

  // ---------------------------------------------------------------------
  // The search
  // ---------------------------------------------------------------------

  /**
   * Lines 63-101: matches every fragment of input t of q.1 against input k
   * of q.0.  A fragment that input k misses is kept; the others go to Refine.
   */
  method MatchInput(m1: Machine, m2: Machine, ghost ni: nat, ghost no: nat, ghost start: Pair, q: Pair, path: seq<Pattern>,
                    t: nat, k: nat, list: seq<Pattern>, s: Search, ghost enq: seq<Pair>, ghost head: nat)
    returns (r: seq<Pattern>, list': seq<Pattern>, s': Search, ghost enq': seq<Pair>)
    requires Shaped(m1, m2, ni, no) && InRange(m1, m2, q) && t < |m2[q.1]| && k < |m1[q.0]|
    requires Leads(m1, m2, ni, no, start, path, q) && QueueOk(s, enq, head) && PathsOk(m1, m2, ni, no, start, s)
    requires Fragments(m1, m2, ni, no, q, t, k, list) && ListCovers(m1, m2, ni, no, s.processed, q, t, k, list)
    ensures Kept(m1, m2, ni, no, start, s, s', enq, enq', head)
    ensures r == [] ==> Fragments(m1, m2, ni, no, q, t, k + 1, list') &&
                        ListCovers(m1, m2, ni, no, s'.processed, q, t, k + 1, list')
    ensures r != [] ==> Counterexample(m1, m2, ni, no, start, r)
  {
    var in1 := m1[q.0][k].input;
    r, list', s', enq' := [], list, s, enq;
    CoversLater(m1, m2, ni, no, s.processed, q, t, k, list);
    var jj := 0;
    while jj < |list'|
      invariant r == [] && jj <= |list'| && Fragments(m1, m2, ni, no, q, t, k, list') && DisjointBelow(list', jj, in1)
      invariant ListCovers(m1, m2, ni, no, s'.processed, q, t, k + 1, list')
      invariant Kept(m1, m2, ni, no, start, s, s', enq, enq', head)
      decreases Overlapping(list'[jj..], in1), |list'| - jj
    {
      assert Fragment(m1, m2, ni, no, q, t, k, list'[jj]);
      if Disjoint(list'[jj], in1) {
        assert list'[jj..] == [list'[jj]] + list'[jj + 1..];
        jj := jj + 1;
      } else {
        ghost var s0, enq0 := s', enq';
        r, list', s', enq' := Refine(m1, m2, ni, no, start, q, path, t, k, list', jj, s', enq', head);
        KeptChain(m1, m2, ni, no, start, s, s0, s', enq, enq0, enq', head);
        if r != [] {
          return;
        }
      }
    }
    FragmentsPast(m1, m2, ni, no, q, t, k, list');
  }

  /**
   * Lines 67-100, for a fragment e = list[jj] that input k of q.0 accepts in
   * part: a mismatch when the outputs disagree; otherwise the successor pair
   * is queued (once) and e is replaced by what input k leaves of it.
   */
  method Refine(m1: Machine, m2: Machine, ghost ni: nat, ghost no: nat, ghost start: Pair, q: Pair, path: seq<Pattern>,
                t: nat, k: nat, list: seq<Pattern>, jj: nat, s: Search, ghost enq: seq<Pair>, ghost head: nat)
    returns (r: seq<Pattern>, list': seq<Pattern>, s': Search, ghost enq': seq<Pair>)
    requires Shaped(m1, m2, ni, no) && InRange(m1, m2, q) && t < |m2[q.1]| && k < |m1[q.0]|
    requires Leads(m1, m2, ni, no, start, path, q) && QueueOk(s, enq, head) && PathsOk(m1, m2, ni, no, start, s)
    requires jj < |list| && Fragments(m1, m2, ni, no, q, t, k, list) && DisjointBelow(list, jj, m1[q.0][k].input)
    requires ListCovers(m1, m2, ni, no, s.processed, q, t, k + 1, list)
    requires !Disjoint(list[jj], m1[q.0][k].input)
    ensures Kept(m1, m2, ni, no, start, s, s', enq, enq', head)
    ensures r == [] ==> && Fragments(m1, m2, ni, no, q, t, k, list') && DisjointBelow(list', jj, m1[q.0][k].input)
                        && ListCovers(m1, m2, ni, no, s'.processed, q, t, k + 1, list')
                        && jj <= |list'| && Overlapping(list'[jj..], m1[q.0][k].input) < Overlapping(list[jj..], m1[q.0][k].input)
    ensures r != [] ==> Counterexample(m1, m2, ni, no, start, r)
  {
    var in1, e := m1[q.0][k].input, list[jj];
    assert Fragment(m1, m2, ni, no, q, t, k, e);
    var x := Intersect(in1, e);
    Narrowed(m1, m2, ni, no, q, t, k, e);
    if !Subset(m1[q.0][k].output, m2[q.1][t].output) {
      r, list', s', enq' := path + [x], list, s, enq;
      assert r[..|r| - 1] == path;
      assert Mismatch(m1, m2, ni, no, q, x);
      return;
    }
    r, s', enq' := [], s, enq;
    var np := (m1[q.0][k].next, m2[q.1][t].next);
    if np !in s.processed {
      Recorded(m1, m2, ni, no, start, s, enq, head, q, path, x, k, t);
      s' := Search(s.paths[np := path + [x]], s.processed + {np}, s.worklist + [np]);
      enq' := enq + [np];
    }
    var rest := [];
    if !Subset(e, in1) {
      rest := Diff(e, in1);
    }
    DiffRemainder(e, in1, rest);
    Refined(m1, m2, ni, no, s.processed, s'.processed, q, t, k, list, jj, rest);
    ErasedMeasure(list, jj, rest, in1);
    list' := list[..jj] + list[jj + 1..] + rest;
  }

  /**
   * Lines 57-109: refines input t of q.1 against every input of q.0 in
   * order; a fragment left over at the end is accepted by no input of q.0.
   */
  method CheckTransition(m1: Machine, m2: Machine, ghost ni: nat, ghost no: nat, ghost start: Pair, q: Pair, path: seq<Pattern>,
                         t: nat, s: Search, ghost enq: seq<Pair>, ghost head: nat)
    returns (r: seq<Pattern>, s': Search, ghost enq': seq<Pair>)
    requires Shaped(m1, m2, ni, no) && InRange(m1, m2, q) && t < |m2[q.1]|
    requires Leads(m1, m2, ni, no, start, path, q) && QueueOk(s, enq, head) && PathsOk(m1, m2, ni, no, start, s)
    ensures Kept(m1, m2, ni, no, start, s, s', enq, enq', head)
    ensures r == [] ==> TransitionCovered(m1, m2, ni, no, s'.processed, q, t)
    ensures r != [] ==> Counterexample(m1, m2, ni, no, start, r)
  {
    var list := [m2[q.1][t].input];
    FragmentsStart(m1, m2, ni, no, s.processed, q, t);
    r, s', enq' := [], s, enq;
    var k := 0;
    while k < |m1[q.0]|
      invariant r == [] && k <= |m1[q.0]| && Fragments(m1, m2, ni, no, q, t, k, list)
      invariant ListCovers(m1, m2, ni, no, s'.processed, q, t, k, list)
      invariant Kept(m1, m2, ni, no, start, s, s', enq, enq', head)
    {
      ghost var s0, enq0 := s', enq';
      r, list, s', enq' := MatchInput(m1, m2, ni, no, start, q, path, t, k, list, s', enq', head);
      KeptChain(m1, m2, ni, no, start, s, s0, s', enq, enq0, enq', head);
      if r != [] {
        return;
      }
      k := k + 1;
    }
    if list != [] {
      r := path + [list[0]];
      assert r[..|r| - 1] == path;
      assert Fragment(m1, m2, ni, no, q, t, k, list[0]);
      assert Uncovered(m1, m2, ni, no, q, list[0]);
      return;
    }
  }

  /** Lines 56-111: every input of q.1 in turn. */
  method CheckPair(m1: Machine, m2: Machine, ghost ni: nat, ghost no: nat, ghost start: Pair, q: Pair, path: seq<Pattern>,
                   s: Search, ghost enq: seq<Pair>, ghost head: nat)
    returns (r: seq<Pattern>, s': Search, ghost enq': seq<Pair>)
    requires Shaped(m1, m2, ni, no) && InRange(m1, m2, q)
    requires Leads(m1, m2, ni, no, start, path, q) && QueueOk(s, enq, head) && PathsOk(m1, m2, ni, no, start, s)
    ensures Kept(m1, m2, ni, no, start, s, s', enq, enq', head)
    ensures r == [] ==> PairCovered(m1, m2, ni, no, s'.processed, q)
    ensures r != [] ==> Counterexample(m1, m2, ni, no, start, r)
  {
    r, s', enq' := [], s, enq;
    var t := 0;
    while t < |m2[q.1]|
      invariant r == [] && t <= |m2[q.1]| && CoveredUpTo(m1, m2, ni, no, s'.processed, q, t)
      invariant Kept(m1, m2, ni, no, start, s, s', enq, enq', head)
    {
      ghost var s0, enq0 := s', enq';
      r, s', enq' := CheckTransition(m1, m2, ni, no, start, q, path, t, s', enq', head);
      KeptChain(m1, m2, ni, no, start, s, s0, s', enq, enq0, enq', head);
      ghost var P := s0.processed;
      if r != [] {
        return;
      }
      CoveredUpToGrows(m1, m2, ni, no, P, s'.processed, q, t);
      t := t + 1;
    }
  }

  lemma InAllPairs(m1: Machine, m2: Machine, p: Pair)
    requires InRange(m1, m2, p)
    ensures p in AllPairs(m1, m2)
  {
    var a: nat, b: nat := p.0, p.1;
    assert p == (a, b);
  }

  /** Adding pairs of states shrinks the set of pairs not yet seen. */
  lemma UnseenShrinks(m1: Machine, m2: Machine, P: set<Pair>, P': set<Pair>)
    requires P <= P' && P != P' && forall p :: p in P' ==> InRange(m1, m2, p)
    ensures |AllPairs(m1, m2) - P'| < |AllPairs(m1, m2) - P|
  {
    var p :| p in P' && p !in P;
    InAllPairs(m1, m2, p);
    var A := AllPairs(m1, m2);
    var B, C := A - P', A - P;
    assert C == B + (C - B) && B * (C - B) == {};
    assert p in C - B;
  }

  /** The pair just taken off the queue joins the covered ones. */
  lemma DoneGrows(m1: Machine, m2: Machine, ni: nat, no: nat, s: Search, s': Search, enq: seq<Pair>, enq': seq<Pair>, head: nat)
    requires Shaped(m1, m2, ni, no) && 0 < head <= |enq| && enq <= enq' && s.processed <= s'.processed
    requires DoneOk(m1, m2, ni, no, s, enq, head - 1)
    requires InRange(m1, m2, enq[head - 1]) && PairCovered(m1, m2, ni, no, s'.processed, enq[head - 1])
    ensures DoneOk(m1, m2, ni, no, s', enq', head)
  {
    forall i | 0 <= i < head && i < |enq'| ensures InRange(m1, m2, enq'[i]) && PairCovered(m1, m2, ni, no, s'.processed, enq'[i]) {
      assert enq'[i] == enq[i];
      if i < head - 1 {
        CoveredUpToGrows(m1, m2, ni, no, s.processed, s'.processed, enq[i], |m2[enq[i].1]|);
      }
    }
  }

  /** With the queue empty, the queued pairs form a simulation. */
  lemma Exhausted(m1: Machine, m2: Machine, ni: nat, no: nat, s: Search, enq: seq<Pair>, head: nat)
    requires Shaped(m1, m2, ni, no) && QueueOk(s, enq, head) && s.worklist == [] && DoneOk(m1, m2, ni, no, s, enq, head)
    ensures Simulation(m1, m2, ni, no, s.processed)
  {
    assert head == |enq|;
    forall p | p in s.processed ensures InRange(m1, m2, p) && PairCovered(m1, m2, ni, no, s.processed, p) {
      var i :| 0 <= i < |enq| && enq[i] == p;
    }
  }

  /**
   * findDistinguishingInput (lines 38-114): the empty sequence exactly when
   * m1 from r1 covers m2 from r2, and otherwise an input sequence that
   * leads to a pair it tells apart.
   */
  method Find(m1: Machine, m2: Machine, r1: nat, r2: nat, ghost ni: nat, ghost no: nat) returns (r: seq<Pattern>)
    requires Shaped(m1, m2, ni, no) && r1 < |m1| && r2 < |m2|
    ensures r == [] <==> CoveredFrom(m1, m2, ni, no, (r1, r2))
    ensures r != [] ==> Counterexample(m1, m2, ni, no, (r1, r2), r)
  {
    var start := (r1, r2);
    var s := Search(map[], {start}, [start]);
    ghost var enq, head := [start], 0;
    assert PathOf(s.paths, start) == [];
    while s.worklist != []
      invariant QueueOk(s, enq, head) && PathsOk(m1, m2, ni, no, start, s) && DoneOk(m1, m2, ni, no, s, enq, head)
      decreases |AllPairs(m1, m2) - s.processed|, |s.worklist|
    {
      var q := s.worklist[0];
      var path := PathOf(s.paths, q);
      s := s.(worklist := s.worklist[1..]);
      head := head + 1;
      ghost var s0, enq0 := s, enq;
      r, s, enq := CheckPair(m1, m2, ni, no, start, q, path, s, enq, head);
      if r != [] {
        CounterexampleRefutes(m1, m2, ni, no, start, r);
        return;
      }
      DoneGrows(m1, m2, ni, no, s0, s, enq0, enq, head);
      if s.processed != s0.processed {
        UnseenShrinks(m1, m2, s0.processed, s.processed);
      }
    }
    r := [];
    Exhausted(m1, m2, ni, no, s, enq, head);
  }

  // ---------------------------------------------------------------------
  // The decision of main (lines 153-188)
  // ---------------------------------------------------------------------

  datatype Verdict =
    | InvalidFile
    | ResetInOneMachine
    | Covered
    | Distinguished(counterexample: seq<Pattern>)
    | NoMatchingReset(state: nat)

  /** Some state of m1 covers m2 from state s2. */
  ghost predicate Matched(m1: Machine, m2: Machine, ni: nat, no: nat, s2: nat)
    requires Shaped(m1, m2, ni, no)
  {
    exists s1: nat :: s1 < |m1| && CoveredFrom(m1, m2, ni, no, (s1, s2))
  }

  /** Lines 173-181: tries every state of m1 as the partner of state s2 of m2. */
  method MatchingState(m1: Machine, m2: Machine, s2: nat, ghost ni: nat, ghost no: nat) returns (found: bool)
    requires Shaped(m1, m2, ni, no) && s2 < |m2|
    ensures found <==> Matched(m1, m2, ni, no, s2)
  {
    var s1 := 0;
    found := false;
    while s1 < |m1| && !found
      invariant s1 <= |m1|
      invariant found ==> Matched(m1, m2, ni, no, s2)
      invariant !found ==> NoneBelow(m1, m2, ni, no, s1, s2)
      decreases |m1| - s1, !found
    {
      var counterexample := Find(m1, m2, s1, s2, ni, no);
      if counterexample == [] {
        found := true;
      } else {
        NoneBelowNext(m1, m2, ni, no, s1, s2);
        s1 := s1 + 1;
      }
    }
    if !found {
      NoneMatched(m1, m2, ni, no, s2);
    }
  }

  /** No state of m1 below s1 covers m2 from s2. */
  ghost predicate NoneBelow(m1: Machine, m2: Machine, ni: nat, no: nat, s1: nat, s2: nat)
    requires Shaped(m1, m2, ni, no)
  {
    forall a: nat :: a < s1 ==> !CoveredFrom(m1, m2, ni, no, (a, s2))
  }

  lemma NoneBelowNext(m1: Machine, m2: Machine, ni: nat, no: nat, s1: nat, s2: nat)
    requires Shaped(m1, m2, ni, no) && NoneBelow(m1, m2, ni, no, s1, s2) && !CoveredFrom(m1, m2, ni, no, (s1, s2))
    ensures NoneBelow(m1, m2, ni, no, s1 + 1, s2)
  {
  }

  lemma NoneMatched(m1: Machine, m2: Machine, ni: nat, no: nat, s2: nat)
    requires Shaped(m1, m2, ni, no) && NoneBelow(m1, m2, ni, no, |m1|, s2)
    ensures !Matched(m1, m2, ni, no, s2)
  {
  }

  /**
   * The verdict of main for two parsed machines and their reset states
   * (-1 when the file names none): an empty machine is an invalid file, a
   * reset in only one machine is refused, with two resets m1 must cover m2
   * from them, and with none every state of m2 needs a state of m1 that
   * covers it.
   */
  method Decide(m1: Machine, r1: int, m2: Machine, r2: int, ghost ni: nat, ghost no: nat) returns (v: Verdict)
    requires Shaped(m1, m2, ni, no) && -1 <= r1 < |m1| && -1 <= r2 < |m2|
    ensures v == InvalidFile <==> m1 == [] || m2 == []
    ensures v == ResetInOneMachine <==> m1 != [] && m2 != [] && (r1 == -1) != (r2 == -1)
    ensures m1 != [] && m2 != [] && r1 >= 0 && r2 >= 0 ==>
      && (v == Covered <==> CoveredFrom(m1, m2, ni, no, (r1, r2)))
      && (v != Covered ==> v.Distinguished? && Counterexample(m1, m2, ni, no, (r1, r2), v.counterexample))
    ensures m1 != [] && m2 != [] && r1 == -1 && r2 == -1 ==>
      && (v == Covered <==> forall s2: nat :: s2 < |m2| ==> Matched(m1, m2, ni, no, s2))
      && (v != Covered ==> v.NoMatchingReset? && v.state < |m2| && !Matched(m1, m2, ni, no, v.state) &&
                           forall s2: nat :: s2 < v.state ==> Matched(m1, m2, ni, no, s2))
  {
    if |m1| == 0 || |m2| == 0 {
      return InvalidFile;
    }
    if (r1 == -1 || r2 == -1) && r1 != r2 {
      return ResetInOneMachine;
    }
    if r1 > -1 {
      var counterexample := Find(m1, m2, r1, r2, ni, no);
      if counterexample == [] {
        return Covered;
      }
      return Distinguished(counterexample);
    }
    var s2 := 0;
    while s2 < |m2|
      invariant s2 <= |m2| && forall b: nat :: b < s2 ==> Matched(m1, m2, ni, no, b)
    {
      var found := MatchingState(m1, m2, s2, ni, no);
      if !found {
        return NoMatchingReset(s2);
      }
      s2 := s2 + 1;
    }
    return Covered;
  }
}

=== FILE: Patterns.dfy ===
/**
 * Partially specified bit patterns (the IncSpecSeq class of IncSpecSeq.h).
 *
 * A pattern is a fixed-length sequence of bits, each either fixed to a value
 * or left unspecified ("don't care", written '-').  The source packs the
 * value bits and the "specified" mask into 32-bit words; here every bit is a
 * `Bit`, so the invariant "a value bit is set only where the mask bit is set"
 * holds by construction.  A pattern denotes the set of concrete words it
 * matches, which is how cover and disjointness are stated below.
 */
module Patterns {

  datatype Bit = Fixed(value: bool) | Free

  type Pattern = seq<Bit>

  /** A concrete input or output word. */
  type Word = seq<bool>

  /** w is one of the concrete words the pattern stands for. */
  predicate Matches(p: Pattern, w: Word) {
    |w| == |p| && forall i :: 0 <= i < |p| && p[i].Fixed? ==> w[i] == p[i].value
  }

  /** Some concrete word matched by p (every pattern matches at least one). */
  function SomeWord(p: Pattern): (w: Word)
    ensures Matches(p, w)
  {
    seq(|p|, i requires 0 <= i < |p| => p[i].Fixed? && p[i].value)
  }

  // ---------------------------------------------------------------------
  // Text form: the string constructor and toString
  // ---------------------------------------------------------------------

  function CharToBit(c: char): Bit {
    if c == '0' then Fixed(false) else if c == '1' then Fixed(true) else Free
  }

  function BitToChar(b: Bit): char {
    match b
    case Free => '-'
    case Fixed(v) => if v then '1' else '0'
  }

  /** The string constructor: '0' and '1' fix a bit, every other character leaves it unspecified. */
  function FromString(s: string): (p: Pattern)
    ensures |p| == |s|
  {
    seq(|s|, i requires 0 <= i < |s| => CharToBit(s[i]))
  }

  /** toString: '-' for an unspecified bit, '0' or '1' otherwise. */
  function ToString(p: Pattern): (s: string)
    ensures |s| == |p|
  {
    seq(|p|, i requires 0 <= i < |p| => BitToChar(p[i]))
  }

  predicate IsPatternString(s: string) {
    forall i :: 0 <= i < |s| ==> s[i] == '0' || s[i] == '1' || s[i] == '-'
  }

  /** The constructor's fullySpecified flag: false exactly when some character is not '0' or '1'. */
  predicate FullySpecifiedString(s: string) {
    forall i :: 0 <= i < |s| ==> s[i] == '0' || s[i] == '1'
  }

  predicate FullySpecified(p: Pattern) {
    forall i :: 0 <= i < |p| ==> p[i].Fixed?
  }

  lemma StringRoundTrip(s: string)
    requires IsPatternString(s)
    ensures ToString(FromString(s)) == s
  {
    var t := ToString(FromString(s));
    forall i | 0 <= i < |s| ensures t[i] == s[i] {
      assert s[i] == '0' || s[i] == '1' || s[i] == '-';
    }
  }

  lemma PatternRoundTrip(p: Pattern)
    ensures FromString(ToString(p)) == p
    ensures IsPatternString(ToString(p))
  {
    var q := FromString(ToString(p));
    forall i | 0 <= i < |p| ensures q[i] == p[i] {
      match p[i]
      case Free =>
      case Fixed(v) => assert v || !v;
    }
  }

  lemma FullySpecifiedFlag(s: string)
    ensures FullySpecifiedString(s) <==> FullySpecified(FromString(s))
  {
    var p := FromString(s);
    if FullySpecified(p) {
      forall i | 0 <= i < |s| ensures s[i] == '0' || s[i] == '1' {
        assert p[i].Fixed?;
      }
    }
  }

  // ---------------------------------------------------------------------
  // Comparisons: isCompatible, isDisjoint, isSubset
  // ---------------------------------------------------------------------

  /** isCompatible: the bits specified in both patterns agree. */
  predicate Compatible(a: Pattern, b: Pattern)
    requires |a| == |b|
  {
    forall i :: 0 <= i < |a| && a[i].Fixed? && b[i].Fixed? ==> a[i].value == b[i].value
  }

  /** isDisjoint: some bit specified in both patterns differs. */
  predicate Disjoint(a: Pattern, b: Pattern)
    requires |a| == |b|
  {
    exists i :: 0 <= i < |a| && a[i].Fixed? && b[i].Fixed? && a[i].value != b[i].value
  }

  /** isSubset: every bit specified in b is specified in a, and they agree there. */
  predicate Subset(a: Pattern, b: Pattern)
    requires |a| == |b|
  {
    (forall i :: 0 <= i < |b| && b[i].Fixed? ==> a[i].Fixed?) && Compatible(a, b)
  }

  lemma CompatibleSymmetric(a: Pattern, b: Pattern)
    requires |a| == |b|
    ensures Compatible(a, b) <==> Compatible(b, a)
    ensures Disjoint(a, b) <==> Disjoint(b, a)
  {
  }

  lemma DisjointIsNotCompatible(a: Pattern, b: Pattern)
    requires |a| == |b|
    ensures Disjoint(a, b) <==> !Compatible(a, b)
  {
  }

  /** The word chosen to witness that two compatible patterns share a word. */
  function CommonWord(a: Pattern, b: Pattern): (w: Word)
    requires |a| == |b| && Compatible(a, b)
    ensures Matches(a, w) && Matches(b, w)
  {
    seq(|a|, i requires 0 <= i < |a| =>
      if a[i].Fixed? then a[i].value else b[i].Fixed? && b[i].value)
  }

  /** Compatibility is exactly "some concrete word is matched by both". */
  lemma CompatibleIffCommonWord(a: Pattern, b: Pattern)
    requires |a| == |b|
    ensures Compatible(a, b) <==> exists w :: Matches(a, w) && Matches(b, w)
  {
    if Compatible(a, b) {
      var w := CommonWord(a, b);
      assert Matches(a, w) && Matches(b, w);
    } else {
      var i :| 0 <= i < |a| && a[i].Fixed? && b[i].Fixed? && a[i].value != b[i].value;
      forall w | Matches(a, w) ensures !Matches(b, w) {
        assert w[i] == a[i].value;
      }
    }
  }

  lemma DisjointNoCommonWord(a: Pattern, b: Pattern, w: Word)
    requires |a| == |b| && Disjoint(a, b) && Matches(a, w)
    ensures !Matches(b, w)
  {
    var i :| 0 <= i < |a| && a[i].Fixed? && b[i].Fixed? && a[i].value != b[i].value;
  }

  lemma CommonWordNotDisjoint(a: Pattern, b: Pattern, w: Word)
    requires |a| == |b| && Matches(a, w) && Matches(b, w)
    ensures !Disjoint(a, b)
  {
    if Disjoint(a, b) {
      DisjointNoCommonWord(a, b, w);
    }
  }

  /** A word matched by a but not by b, when a leaves free a bit that b fixes. */
  function FlipWord(a: Pattern, b: Pattern, k: nat): (w: Word)
    requires |a| == |b| && k < |a| && a[k].Free? && b[k].Fixed?
    ensures Matches(a, w) && !Matches(b, w)
  {
    var base := SomeWord(a);
    base[k := !b[k].value]
  }

  /** isSubset means inclusion of the matched word sets. */
  lemma SubsetIffWordInclusion(a: Pattern, b: Pattern)
    requires |a| == |b|
    ensures Subset(a, b) <==> forall w :: Matches(a, w) ==> Matches(b, w)
  {
    if !Subset(a, b) {
      if k :| 0 <= k < |b| && b[k].Fixed? && !a[k].Fixed? {
        var w := FlipWord(a, b, k);
        assert Matches(a, w) && !Matches(b, w);
      } else {
        var k :| 0 <= k < |a| && a[k].Fixed? && b[k].Fixed? && a[k].value != b[k].value;
        var w := SomeWord(a);
        assert w[k] != b[k].value;
        assert Matches(a, w) && !Matches(b, w);
      }
    }
  }

  lemma SubsetMatches(a: Pattern, b: Pattern, w: Word)
    requires |a| == |b| && Subset(a, b) && Matches(a, w)
    ensures Matches(b, w)
  {
  }

  lemma SubsetReflexive(a: Pattern)
    ensures Subset(a, a)
  {
  }

  lemma SubsetTransitive(a: Pattern, b: Pattern, c: Pattern)
    requires |a| == |b| == |c| && Subset(a, b) && Subset(b, c)
    ensures Subset(a, c)
  {
  }

  lemma SubsetAntisymmetric(a: Pattern, b: Pattern)
    requires |a| == |b| && Subset(a, b) && Subset(b, a)
    ensures a == b
  {
    forall i | 0 <= i < |a| ensures a[i] == b[i] {
      if a[i].Fixed? {
        assert b[i].Fixed?;
      }
    }
  }

  lemma SubsetIsCompatible(a: Pattern, b: Pattern)
    requires |a| == |b| && Subset(a, b)
    ensures Compatible(a, b) && Compatible(b, a)
  {
  }

  /** A subset of a pattern inherits its disjointness from a third one. */
  lemma SubsetKeepsDisjoint(a: Pattern, b: Pattern, c: Pattern)
    requires |a| == |b| == |c| && Subset(a, b) && Disjoint(b, c)
    ensures Disjoint(a, c)
  {
    var i :| 0 <= i < |b| && b[i].Fixed? && c[i].Fixed? && b[i].value != c[i].value;
    assert a[i].Fixed? && a[i].value == b[i].value;
  }

  // ---------------------------------------------------------------------
  // intersect
  // ---------------------------------------------------------------------

  function IntersectBit(x: Bit, y: Bit): Bit {
    if x.Fixed? && y.Fixed? then Fixed(x.value || y.value)
    else if x.Fixed? then x
    else y
  }

  /**
   * intersect: specified on the union of the two masks; the value bits are the
   * OR of both operands' specified value bits (which, for compatible operands,
   * is the common value).
   */
  function Intersect(a: Pattern, b: Pattern): (r: Pattern)
    requires |a| == |b|
    ensures |r| == |a|
    ensures forall i :: 0 <= i < |r| ==> (r[i].Fixed? <==> a[i].Fixed? || b[i].Fixed?)
    ensures Compatible(a, b) ==> Subset(r, a) && Subset(r, b)
  {
    seq(|a|, i requires 0 <= i < |a| => IntersectBit(a[i], b[i]))
  }

  /** For compatible operands, intersect matches exactly the common words. */
  lemma IntersectMatches(a: Pattern, b: Pattern, w: Word)
    requires |a| == |b| && Compatible(a, b)
    ensures Matches(Intersect(a, b), w) <==> Matches(a, w) && Matches(b, w)
  {
    var r := Intersect(a, b);
    if Matches(a, w) && Matches(b, w) {
      forall i | 0 <= i < |r| && r[i].Fixed? ensures w[i] == r[i].value {
        assert a[i].Fixed? || b[i].Fixed?;
      }
    }
  }

  lemma IntersectSymmetric(a: Pattern, b: Pattern)
    requires |a| == |b|
    ensures Intersect(a, b) == Intersect(b, a)
  {
    var r, q := Intersect(a, b), Intersect(b, a);
    forall i | 0 <= i < |a| ensures r[i] == q[i] {
      assert a[i].Fixed? && b[i].Fixed? ==> (a[i].value || b[i].value) == (b[i].value || a[i].value);
    }
  }

  /** Intersecting with a pattern it already refines gives the pattern back. */
  lemma IntersectWithSuperset(a: Pattern, b: Pattern)
    requires |a| == |b| && Subset(a, b)
    ensures Intersect(b, a) == a && Intersect(a, b) == a
  {
    var r, q := Intersect(b, a), Intersect(a, b);
    forall i | 0 <= i < |a| ensures r[i] == a[i] && q[i] == a[i] {
      if b[i].Fixed? {
        assert a[i].Fixed? && a[i].value == b[i].value;
      }
    }
  }

  lemma IntersectIdempotent(a: Pattern)
    ensures Intersect(a, a) == a
  {
    IntersectWithSuperset(a, a);
  }

  /**
   * The source's fullySpecified flag of an intersection is a.fullySpecified ||
   * b.fullySpecified; the hint is sound: the result is then really fully specified.
   */
  lemma IntersectFullySpecifiedHint(a: Pattern, b: Pattern)
    requires |a| == |b| && (FullySpecified(a) || FullySpecified(b))
    ensures FullySpecified(Intersect(a, b))
  {
  }

  // ---------------------------------------------------------------------
  // diff
  // ---------------------------------------------------------------------

  /** Number of unspecified bits; 2^FreeCount(p) words match p. */
  function FreeCount(p: Pattern): nat
  {
    if p == [] then 0 else (if p[0].Free? then 1 else 0) + FreeCount(p[1..])
  }

  lemma {:induction false} FreeCountFix(p: Pattern, i: nat, v: bool)
    requires i < |p| && p[i].Free?
    ensures FreeCount(p[i := Fixed(v)]) + 1 == FreeCount(p)
  {
    if i > 0 {
      assert p[i := Fixed(v)][1..] == p[1..][i - 1 := Fixed(v)];
      FreeCountFix(p[1..], i - 1, v);
    }
  }

  /** The bit positions diff splits on from position i: unspecified in x, specified in b. */
  function SplitCount(x: Pattern, b: Pattern, i: nat): nat
    requires |x| == |b| && i <= |b|
    decreases |b| - i
  {
    if i == |b| then 0
    else (if x[i].Free? && b[i].Fixed? then 1 else 0) + SplitCount(x, b, i + 1)
  }

  /**
   * The fragments diff emits from bit i on, where x is the running `last`
   * pattern: at every bit unspecified in x and specified in b, one fragment
   * fixes that bit to the complement of b's value, and the running pattern
   * fixes it to b's value for the bits that follow.
   */
  function DiffFrom(x: Pattern, b: Pattern, i: nat): (r: seq<Pattern>)
    requires |x| == |b| && i <= |b|
    ensures forall k :: 0 <= k < |r| ==> |r[k]| == |x|
    decreases |b| - i
  {
    if i == |b| then []
    else if x[i].Free? && b[i].Fixed? then
      [x[i := Fixed(!b[i].value)]] + DiffFrom(x[i := b[i]], b, i + 1)
    else DiffFrom(x, b, i + 1)
  }

  lemma {:induction false} DiffFromLength(x: Pattern, b: Pattern, i: nat)
    requires |x| == |b| && i <= |b|
    ensures |DiffFrom(x, b, i)| == SplitCount(x, b, i)
    decreases |b| - i
  {
    if i < |b| {
      if x[i].Free? && b[i].Fixed? {
        var y := x[i := b[i]];
        DiffFromLength(y, b, i + 1);
        SplitCountUnchanged(x, y, b, i + 1);
      } else {
        DiffFromLength(x, b, i + 1);
      }
    }
  }

  lemma {:induction false} SplitCountUnchanged(x: Pattern, y: Pattern, b: Pattern, i: nat)
    requires |x| == |y| == |b| && i <= |b|
    requires forall j :: i <= j < |b| ==> x[j] == y[j]
    ensures SplitCount(x, b, i) == SplitCount(y, b, i)
    decreases |b| - i
  {
    if i < |b| {
      SplitCountUnchanged(x, y, b, i + 1);
    }
  }

  lemma {:induction false} SplitCountBound(x: Pattern, b: Pattern, i: nat)
    requires |x| == |b| && i <= |b|
    ensures SplitCount(x, b, i) <= |b| - i
    decreases |b| - i
  {
    if i < |b| {
      SplitCountBound(x, b, i + 1);
    }
  }

  /**
   * Each fragment has x's length, agrees with x below bit i, refines x, is
   * disjoint from b, and has exactly k + 1 fewer free bits than x.
   */
  lemma {:induction false} DiffFromFragments(x: Pattern, b: Pattern, i: nat)
    requires |x| == |b| && i <= |b|
    ensures forall k :: 0 <= k < |DiffFrom(x, b, i)| ==>
      && (forall j :: 0 <= j < i ==> DiffFrom(x, b, i)[k][j] == x[j])
      && Subset(DiffFrom(x, b, i)[k], x)
      && Disjoint(DiffFrom(x, b, i)[k], b)
      && FreeCount(DiffFrom(x, b, i)[k]) + k + 1 == FreeCount(x)
    decreases |b| - i
  {
    if i < |b| {
      var r := DiffFrom(x, b, i);
      if x[i].Free? && b[i].Fixed? {
        var y := x[i := b[i]];
        DiffFromFragments(y, b, i + 1);
        FreeCountFix(x, i, !b[i].value);
        FreeCountFix(x, i, b[i].value);
        assert b[i] == Fixed(b[i].value);
        forall k | 0 <= k < |r|
          ensures && (forall j :: 0 <= j < i ==> r[k][j] == x[j])
            && Subset(r[k], x) && Disjoint(r[k], b) && FreeCount(r[k]) + k + 1 == FreeCount(x)
        {
          if k == 0 {
            assert r[0] == x[i := Fixed(!b[i].value)];
          } else {
            var f := r[k];
            assert f == DiffFrom(y, b, i + 1)[k - 1];
            assert Subset(f, y);
            assert Subset(y, x);
            SubsetTransitive(f, y, x);
          }
        }
      } else {
        DiffFromFragments(x, b, i + 1);
      }
    }
  }

  /** Later fragments keep the running pattern's value on the bits already passed. */
  lemma {:induction false} DiffFromPairwiseDisjoint(x: Pattern, b: Pattern, i: nat)
    requires |x| == |b| && i <= |b|
    ensures forall k, l :: 0 <= k < l < |DiffFrom(x, b, i)| ==>
      Disjoint(DiffFrom(x, b, i)[k], DiffFrom(x, b, i)[l])
    decreases |b| - i
  {
    if i < |b| {
      var r := DiffFrom(x, b, i);
      if x[i].Free? && b[i].Fixed? {
        var y := x[i := b[i]];
        var rest := DiffFrom(y, b, i + 1);
        DiffFromPairwiseDisjoint(y, b, i + 1);
        DiffFromFragments(y, b, i + 1);
        forall k, l | 0 <= k < l < |r| ensures Disjoint(r[k], r[l]) {
          if k == 0 {
            assert r[l] == rest[l - 1];
            assert r[l][i] == y[i];
            assert r[0][i] == Fixed(!b[i].value);
          } else {
            assert r[k] == rest[k - 1] && r[l] == rest[l - 1];
          }
        }
      } else {
        DiffFromPairwiseDisjoint(x, b, i + 1);
      }
    }
  }

  /**
   * Cover: a word matched by x but not by b, agreeing with b on the bits before
   * i, is matched by one of the fragments.
   */
  lemma {:induction false} DiffFromCovers(x: Pattern, b: Pattern, i: nat, w: Word)
    requires |x| == |b| && i <= |b| && Compatible(x, b)
    requires Matches(x, w) && !Matches(b, w)
    requires forall j :: 0 <= j < i && b[j].Fixed? ==> w[j] == b[j].value
    ensures exists k :: 0 <= k < |DiffFrom(x, b, i)| && Matches(DiffFrom(x, b, i)[k], w)
    decreases |b| - i
  {
    var r := DiffFrom(x, b, i);
    if i == |b| {
      assert false;
    } else if x[i].Free? && b[i].Fixed? {
      var y := x[i := b[i]];
      if w[i] != b[i].value {
        assert Matches(r[0], w);
      } else {
        assert Matches(y, w);
        DiffFromCovers(y, b, i + 1, w);
        var k :| 0 <= k < |DiffFrom(y, b, i + 1)| && Matches(DiffFrom(y, b, i + 1)[k], w);
        assert r[k + 1] == DiffFrom(y, b, i + 1)[k];
      }
    } else {
      if b[i].Fixed? {
        assert x[i].Fixed? && w[i] == x[i].value;
      }
      DiffFromCovers(x, b, i + 1, w);
    }
  }

  /** Every word matched by a is matched by exactly one of the patterns in ps. */
  ghost predicate Partitions(a: Pattern, ps: seq<Pattern>)
  {
    && (forall k :: 0 <= k < |ps| ==> |ps[k]| == |a| && Subset(ps[k], a))
    && (forall k, l :: 0 <= k < l < |ps| ==> Disjoint(ps[k], ps[l]))
    && (forall w :: Matches(a, w) ==> exists k :: 0 <= k < |ps| && Matches(ps[k], w))
  }

  /** In a partition, a matching element is the only one that matches. */
  lemma PartitionUnique(a: Pattern, ps: seq<Pattern>, w: Word, k: nat, l: nat)
    requires Partitions(a, ps) && k < |ps| && l < |ps|
    requires Matches(ps[k], w) && Matches(ps[l], w)
    ensures k == l
  {
    if k < l {
      DisjointNoCommonWord(ps[k], ps[l], w);
    } else if l < k {
      DisjointNoCommonWord(ps[l], ps[k], w);
    }
  }

  /** The fragments of diff(a, b) refine a, avoid b, avoid one another, and shrink one free bit at a time. */
  lemma DiffShape(a: Pattern, b: Pattern)
    requires |a| == |b|
    ensures var r := DiffFrom(a, b, 0);
      && |r| == SplitCount(a, b, 0) <= FreeCount(a)
      && (forall k :: 0 <= k < |r| ==>
            Subset(r[k], a) && Disjoint(r[k], b) && FreeCount(r[k]) + k + 1 == FreeCount(a))
      && (forall k, l :: 0 <= k < l < |r| ==> Disjoint(r[k], r[l]))
  {
    var r := DiffFrom(a, b, 0);
    DiffFromLength(a, b, 0);
    DiffFromFragments(a, b, 0);
    DiffFromPairwiseDisjoint(a, b, 0);
    if |r| > 0 {
      var k := |r| - 1;
      assert FreeCount(r[k]) + k + 1 == FreeCount(a);
    }
  }

  /**
   * When a and b overlap, the fragments of diff(a, b) together with
   * intersect(a, b) partition the words of a.
   */
  lemma DiffPartition(a: Pattern, b: Pattern)
    requires |a| == |b| && Compatible(a, b)
    ensures Partitions(a, DiffFrom(a, b, 0) + [Intersect(a, b)])
  {
    var r := DiffFrom(a, b, 0);
    DiffShape(a, b);
    var ps := r + [Intersect(a, b)];
    forall w | Matches(a, w) ensures exists k :: 0 <= k < |ps| && Matches(ps[k], w) {
      IntersectMatches(a, b, w);
      if !Matches(b, w) {
        DiffFromCovers(a, b, 0, w);
        var k :| 0 <= k < |r| && Matches(r[k], w);
        assert ps[k] == r[k];
      } else {
        assert Matches(ps[|r|], w);
      }
    }
    forall k, l | 0 <= k < l < |ps| ensures Disjoint(ps[k], ps[l]) {
      if l == |r| {
        assert ps[k] == r[k];
        SubsetKeepsDisjoint(Intersect(a, b), b, r[k]);
        CompatibleSymmetric(r[k], Intersect(a, b));
      }
    }
  }

  /**
   * diff(a, b): the loop threads the running pattern `last`, appending one
   * fragment per bit that is unspecified in a and specified in b.
   */
  method Diff(a: Pattern, b: Pattern) returns (r: seq<Pattern>)
    requires |a| == |b|
    ensures r == DiffFrom(a, b, 0)
    ensures |r| == SplitCount(a, b, 0) <= FreeCount(a)
    ensures forall k :: 0 <= k < |r| ==>
      |r[k]| == |a| && Subset(r[k], a) && Disjoint(r[k], b) && FreeCount(r[k]) + k + 1 == FreeCount(a)
    ensures forall k, l :: 0 <= k < l < |r| ==> Disjoint(r[k], r[l])
    ensures Compatible(a, b) ==> Partitions(a, r + [Intersect(a, b)])
  {
    r := [];
    var last := a;
    var i := 0;
    while i < |a|
      invariant 0 <= i <= |a| && |last| == |a|
      invariant forall j :: i <= j < |a| ==> last[j] == a[j]
      invariant r + DiffFrom(last, b, i) == DiffFrom(a, b, 0)
    {
      if a[i].Free? && b[i].Fixed? {
        var newSeq := last[i := Fixed(!b[i].value)];
        last := last[i := b[i]];
        r := r + [newSeq];
      }
      i := i + 1;
    }
    DiffProperties(a, b, r);
  }

  /** What the fragments of diff are: their number, their shape, and the partition they form with a & b. */
  lemma DiffProperties(a: Pattern, b: Pattern, r: seq<Pattern>)
    requires |a| == |b| && r == DiffFrom(a, b, 0)
    ensures |r| == SplitCount(a, b, 0) <= FreeCount(a)
    ensures forall k :: 0 <= k < |r| ==>
      |r[k]| == |a| && Subset(r[k], a) && Disjoint(r[k], b) && FreeCount(r[k]) + k + 1 == FreeCount(a)
    ensures forall k, l :: 0 <= k < l < |r| ==> Disjoint(r[k], r[l])
    ensures Compatible(a, b) ==> Partitions(a, r + [Intersect(a, b)])
  {
    DiffShape(a, b);
    if Compatible(a, b) {
      DiffPartition(a, b);
    }
  }

  // ---------------------------------------------------------------------
  // equals, operator==, operator<, hash
  // ---------------------------------------------------------------------

  /** The value word of the source (bit set iff specified and 1). */
  function Values(p: Pattern): (v: seq<bool>)
    ensures |v| == |p|
  {
    seq(|p|, i requires 0 <= i < |p| => p[i] == Fixed(true))
  }

  /** The specifiedBits word of the source. */
  function Mask(p: Pattern): (m: seq<bool>)
    ensures |m| == |p|
  {
    seq(|p|, i requires 0 <= i < |p| => p[i].Fixed?)
  }

  /** equals / operator==: compare the value words and the masks, nothing else. */
  predicate Equals(a: Pattern, b: Pattern) {
    Values(a) == Values(b) && Mask(a) == Mask(b)
  }

  lemma EqualsIsIdentity(a: Pattern, b: Pattern)
    ensures Equals(a, b) <==> a == b
  {
    if Equals(a, b) {
      assert |a| == |b|;
      forall i | 0 <= i < |a| ensures a[i] == b[i] {
        assert Mask(a)[i] == Mask(b)[i];
        assert Values(a)[i] == Values(b)[i];
      }
    }
  }

  /** std::vector's lexicographic order on bool words (false < true). */
  predicate LexLess(x: seq<bool>, y: seq<bool>)
  {
    if |x| == 0 then |y| > 0
    else if |y| == 0 then false
    else (!x[0] && y[0]) || (x[0] == y[0] && LexLess(x[1..], y[1..]))
  }

  /** operator<: the value words first, then the masks. */
  predicate Less(a: Pattern, b: Pattern) {
    LexLess(Values(a), Values(b)) || (Values(a) == Values(b) && LexLess(Mask(a), Mask(b)))
  }

  lemma {:induction false} LexLessIrreflexive(x: seq<bool>)
    ensures !LexLess(x, x)
  {
    if |x| > 0 { LexLessIrreflexive(x[1..]); }
  }

  lemma {:induction false} LexLessTransitive(x: seq<bool>, y: seq<bool>, z: seq<bool>)
    requires LexLess(x, y) && LexLess(y, z)
    ensures LexLess(x, z)
  {
    if |x| > 0 && |y| > 0 && |z| > 0 && x[0] == y[0] == z[0] {
      LexLessTransitive(x[1..], y[1..], z[1..]);
    }
  }

  lemma {:induction false} LexLessTotal(x: seq<bool>, y: seq<bool>)
    requires x != y
    ensures LexLess(x, y) || LexLess(y, x)
  {
    if |x| > 0 && |y| > 0 && x[0] == y[0] {
      assert x == [x[0]] + x[1..] && y == [y[0]] + y[1..];
      LexLessTotal(x[1..], y[1..]);
    }
  }

  /** operator< is a strict total order on patterns (so ordered containers are well defined). */
  lemma LessStrictTotalOrder(a: Pattern, b: Pattern, c: Pattern)
    ensures !Less(a, a)
    ensures Less(a, b) && Less(b, c) ==> Less(a, c)
    ensures a != b ==> Less(a, b) || Less(b, a)
  {
    LexLessIrreflexive(Values(a));
    LexLessIrreflexive(Mask(a));
    if Less(a, b) && Less(b, c) {
      if LexLess(Values(a), Values(b)) && LexLess(Values(b), Values(c)) {
        LexLessTransitive(Values(a), Values(b), Values(c));
      } else if Values(a) == Values(b) && Values(b) == Values(c) {
        LexLessTransitive(Mask(a), Mask(b), Mask(c));
      }
    }
    if a != b {
      EqualsIsIdentity(a, b);
      if Values(a) != Values(b) {
        LexLessTotal(Values(a), Values(b));
      } else {
        LexLessTotal(Mask(a), Mask(b));
      }
    }
  }

  /** The std::hash specialisation reads only the value words. */
  function HashKey(p: Pattern): seq<bool> {
    Values(p)
  }

  /** Equal patterns hash equally, but patterns that differ only in their mask collide too. */
  lemma HashRespectsEquals(a: Pattern, b: Pattern)
    ensures Equals(a, b) ==> HashKey(a) == HashKey(b)
    ensures HashKey([Fixed(false)]) == HashKey([Free]) && !Equals([Fixed(false)], [Free])
  {
    assert Mask([Fixed(false)])[0] != Mask([Free])[0];
  }
}

=== FILE: Predecessors.dfy ===
/**
 * computePredecessorMap (minimizer.cpp): for every state t and every input
 * pattern of a transition into t, the list of source states, one entry per
 * such transition.  Input patterns are interned by the parser, so the
 * pointer-keyed hash map of the source is a map keyed by pattern content;
 * it is modelled as an association list in insertion order, which is one of
 * the orders the hash map may iterate in.
 */
module Predecessors {
  import opened Patterns
  import opened Machines

  datatype PredEntry = PredEntry(input: Pattern, preds: seq<nat>)

  type PredMap = seq<seq<PredEntry>>

  /** The source state s, once per transition of trans into t on input `inp`. */
  function Hits(trans: seq<Transition>, s: nat, t: nat, inp: Pattern): seq<nat>
  {
    if trans == [] then []
    else
      var k := |trans| - 1;
      Hits(trans[..k], s, t, inp) + (if trans[k].next == t && trans[k].input == inp then [s] else [])
  }

  /** The sources of transitions into t on input `inp` leaving states below n, in state order. */
  function PredsOf(m: Machine, t: nat, inp: Pattern, n: nat): seq<nat>
    requires n <= |m|
  {
    if n == 0 then [] else PredsOf(m, t, inp, n - 1) + Hits(m[n - 1], n - 1, t, inp)
  }

  /** The position of the entry for `inp`, or -1 (the hash map lookup). */
  function IndexOf(es: seq<PredEntry>, inp: Pattern): (r: int)
    ensures -1 <= r < |es|
    ensures r >= 0 ==> es[r].input == inp
    ensures r < 0 ==> forall i :: 0 <= i < |es| ==> es[i].input != inp
  {
    if es == [] then -1
    else if es[|es| - 1].input == inp then |es| - 1
    else IndexOf(es[..|es| - 1], inp)
  }

  predicate DistinctKeys(es: seq<PredEntry>) {
    forall i, j :: 0 <= i < j < |es| ==> es[i].input != es[j].input
  }

  predicate KeysDistinct(pred: PredMap) {
    forall t :: 0 <= t < |pred| ==> DistinctKeys(pred[t])
  }

  /** The sources of the transitions into t on `inp` that precede transition k of state s. */
  ghost function Scanned(m: Machine, t: nat, inp: Pattern, s: nat, k: nat): seq<nat>
    requires s <= |m| && (s < |m| ==> k <= |m[s]|)
  {
    PredsOf(m, t, inp, s) + (if s < |m| then Hits(m[s][..k], s, t, inp) else [])
  }

  /** Every entry lists exactly the scanned sources for its input. */
  ghost predicate ListsUpTo(m: Machine, pred: PredMap, s: nat, k: nat)
    requires s <= |m| && (s < |m| ==> k <= |m[s]|)
  {
    forall t, i :: 0 <= t < |pred| && 0 <= i < |pred[t]| ==>
      pred[t][i].preds != [] && pred[t][i].preds == Scanned(m, t, pred[t][i].input, s, k)
  }

  /** Every scanned transition has an entry for its input in its target's table. */
  ghost predicate LookupUpTo(m: Machine, pred: PredMap, s: nat, k: nat)
    requires s <= |m| && (s < |m| ==> k <= |m[s]|)
  {
    && (forall x, j :: 0 <= x < s && 0 <= j < |m[x]| && m[x][j].next < |pred| ==>
          IndexOf(pred[m[x][j].next], m[x][j].input) >= 0)
    && (s < |m| ==> forall j :: 0 <= j < k && m[s][j].next < |pred| ==>
          IndexOf(pred[m[s][j].next], m[s][j].input) >= 0)
  }

  /** pred is the predecessor map of m, as computed from the transitions before (s, k). */
  ghost predicate PredInv(m: Machine, pred: PredMap, s: nat, k: nat)
  {
    && |pred| == |m| && s <= |m| && (s < |m| ==> k <= |m[s]|)
    && KeysDistinct(pred) && ListsUpTo(m, pred, s, k) && LookupUpTo(m, pred, s, k)
  }

  /**
   * The finished predecessor map: one entry per distinct input into t, whose
   * list holds exactly the sources of the transitions into t on that input.
   */
  ghost predicate IsPredMap(m: Machine, pred: PredMap) {
    && |pred| == |m|
    && (forall t :: 0 <= t < |pred| ==> DistinctKeys(pred[t]))
    && (forall t, i :: 0 <= t < |pred| && 0 <= i < |pred[t]| ==>
          pred[t][i].preds != [] && pred[t][i].preds == PredsOf(m, t, pred[t][i].input, |m|))
    && (forall x, j :: 0 <= x < |m| && 0 <= j < |m[x]| && m[x][j].next < |pred| ==>
          IndexOf(pred[m[x][j].next], m[x][j].input) >= 0)
  }

  lemma {:induction false} HitsMembership(trans: seq<Transition>, s: nat, t: nat, inp: Pattern, p: nat)
    ensures p in Hits(trans, s, t, inp) <==>
      p == s && exists k :: 0 <= k < |trans| && trans[k].next == t && trans[k].input == inp
  {
    if trans != [] {
      var k := |trans| - 1;
      HitsMembership(trans[..k], s, t, inp, p);
      if p == s && (exists j :: 0 <= j < |trans| && trans[j].next == t && trans[j].input == inp) {
        var j :| 0 <= j < |trans| && trans[j].next == t && trans[j].input == inp;
        if j < k {
          assert trans[..k][j] == trans[j];
        }
      }
      if p in Hits(trans[..k], s, t, inp) {
        var j :| 0 <= j < k && trans[..k][j].next == t && trans[..k][j].input == inp;
        assert trans[j] == trans[..k][j];
      }
    }
  }

  /** s is listed for (t, inp) exactly when some transition of s goes to t on `inp`. */
  lemma {:induction false} PredsOfMembership(m: Machine, t: nat, inp: Pattern, n: nat, p: nat)
    requires n <= |m|
    ensures p in PredsOf(m, t, inp, n) <==>
      p < n && exists k :: 0 <= k < |m[p]| && m[p][k].next == t && m[p][k].input == inp
  {
    if n > 0 {
      PredsOfMembership(m, t, inp, n - 1, p);
      HitsMembership(m[n - 1], n - 1, t, inp, p);
    }
  }

  lemma PredInvStart(m: Machine)
    ensures PredInv(m, seq(|m|, _ => []), 0, 0)
  {
  }

  /** The scanned sources after the last transition of s are those before the first of s + 1. */
  lemma ScannedNextState(m: Machine, t: nat, inp: Pattern, s: nat)
    requires s < |m|
    ensures Scanned(m, t, inp, s + 1, 0) == Scanned(m, t, inp, s, |m[s]|)
  {
    assert m[s][..|m[s]|] == m[s];
    if s + 1 < |m| {
      assert m[s + 1][..0] == [];
    }
  }

  /** Moving from (s, |m[s]|) to the next state does not change the map's meaning. */
  lemma PredInvNextState(m: Machine, pred: PredMap, s: nat)
    requires s < |m| && PredInv(m, pred, s, |m[s]|)
    ensures PredInv(m, pred, s + 1, 0)
  {
    ListsNextState(m, pred, s);
    LookupNextState(m, pred, s);
  }

  lemma ListsNextState(m: Machine, pred: PredMap, s: nat)
    requires s < |m| && ListsUpTo(m, pred, s, |m[s]|)
    ensures ListsUpTo(m, pred, s + 1, 0)
  {
    forall t, i | 0 <= t < |pred| && 0 <= i < |pred[t]|
      ensures pred[t][i].preds != [] && pred[t][i].preds == Scanned(m, t, pred[t][i].input, s + 1, 0)
    {
      ScannedNextState(m, t, pred[t][i].input, s);
    }
  }

  lemma LookupNextState(m: Machine, pred: PredMap, s: nat)
    requires s < |m| && LookupUpTo(m, pred, s, |m[s]|)
    ensures LookupUpTo(m, pred, s + 1, 0)
  {
    forall x, j | 0 <= x < s + 1 && 0 <= j < |m[x]| && m[x][j].next < |pred|
      ensures IndexOf(pred[m[x][j].next], m[x][j].input) >= 0
    {
      if x == s {
        assert 0 <= j < |m[s]| && m[s][j].next < |pred|;
      }
    }
  }

  lemma PredInvDone(m: Machine, pred: PredMap)
    requires PredInv(m, pred, |m|, 0)
    ensures IsPredMap(m, pred)
  {
  }

  /** Extending the scanned prefix of a transition list by one transition. */
  lemma ScannedSnoc(m: Machine, t: nat, inp: Pattern, s: nat, k: nat)
    requires s < |m| && k < |m[s]|
    ensures Scanned(m, t, inp, s, k + 1)
      == Scanned(m, t, inp, s, k) + (if m[s][k].next == t && m[s][k].input == inp then [s] else [])
  {
    assert m[s][..k + 1][..k] == m[s][..k];
  }

  /** pred' keeps every entry of pred with its input, possibly with more entries after them. */
  predicate KeepsInputs(pred: PredMap, pred': PredMap) {
    && |pred'| == |pred|
    && (forall u :: 0 <= u < |pred| ==> |pred[u]| <= |pred'[u]|)
    && (forall u, i :: 0 <= u < |pred| && 0 <= i < |pred[u]| ==> pred'[u][i].input == pred[u][i].input)
  }

  lemma FreshKeepsInputs(pred: PredMap, t: nat, e: PredEntry, pred': PredMap)
    requires t < |pred| && pred' == pred[t := pred[t] + [e]]
    ensures KeepsInputs(pred, pred') && pred'[t][|pred[t]|] == e
  {
    forall u, i | 0 <= u < |pred| && 0 <= i < |pred[u]|
      ensures pred'[u][i].input == pred[u][i].input
    {
      if u == t {
        assert pred'[t][i] == pred[t][i];
      }
    }
  }

  lemma ExtendKeepsInputs(pred: PredMap, t: nat, idx: nat, e: PredEntry, pred': PredMap)
    requires t < |pred| && idx < |pred[t]| && e.input == pred[t][idx].input && pred' == pred[t := pred[t][idx := e]]
    ensures KeepsInputs(pred, pred')
  {
    forall u, i | 0 <= u < |pred| && 0 <= i < |pred[u]|
      ensures pred'[u][i].input == pred[u][i].input
    {
      if u == t && i != idx {
        assert pred'[t][i] == pred[t][i];
      }
    }
  }

  /** The map keeps its lookup invariant when the entry for (t, input) is created or extended. */
  lemma AddPredLookup(m: Machine, pred: PredMap, s: nat, k: nat, e: nat, pred': PredMap)
    requires s < |m| && k < |m[s]| && |pred| == |m| && m[s][k].next < |m|
    requires LookupUpTo(m, pred, s, k)
    requires KeepsInputs(pred, pred') && e < |pred'[m[s][k].next]| && pred'[m[s][k].next][e].input == m[s][k].input
    ensures LookupUpTo(m, pred', s, k + 1)
  {
    forall x, j | 0 <= x < s && 0 <= j < |m[x]| && m[x][j].next < |pred'|
      ensures IndexOf(pred'[m[x][j].next], m[x][j].input) >= 0
    {
      var u := m[x][j].next;
      var i := IndexOf(pred[u], m[x][j].input);
      assert pred'[u][i].input == m[x][j].input;
    }
    forall j | 0 <= j < k + 1 && m[s][j].next < |pred'|
      ensures IndexOf(pred'[m[s][j].next], m[s][j].input) >= 0
    {
      var u := m[s][j].next;
      if j < k {
        var i := IndexOf(pred[u], m[s][j].input);
        assert pred'[u][i].input == m[s][j].input;
      } else {
        assert pred'[u][e].input == m[s][j].input;
      }
    }
  }

  /** No transition scanned so far goes to t on `input` when the map has no entry for it. */
  lemma NoEntryNoPreds(m: Machine, pred: PredMap, s: nat, k: nat, t: nat, input: Pattern)
    requires s < |m| && k < |m[s]| && |pred| == |m| && t < |m|
    requires LookupUpTo(m, pred, s, k) && IndexOf(pred[t], input) < 0
    ensures Scanned(m, t, input, s, k) == []
  {
    var xs := Scanned(m, t, input, s, k);
    if xs != [] {
      var p := xs[0];
      PredsOfMembership(m, t, input, s, p);
      HitsMembership(m[s][..k], s, t, input, p);
    }
  }

  /** The lists after appending the fresh entry (input, [s]) to pred[t]. */
  lemma FreshLists(m: Machine, pred: PredMap, s: nat, k: nat, pred': PredMap)
    requires s < |m| && k < |m[s]| && |pred| == |m| && m[s][k].next < |m|
    requires ListsUpTo(m, pred, s, k)
    requires IndexOf(pred[m[s][k].next], m[s][k].input) < 0
    requires Scanned(m, m[s][k].next, m[s][k].input, s, k) == []
    requires pred' == pred[m[s][k].next := pred[m[s][k].next] + [PredEntry(m[s][k].input, [s])]]
    ensures ListsUpTo(m, pred', s, k + 1)
  {
    var t, input := m[s][k].next, m[s][k].input;
    forall u, i | 0 <= u < |pred'| && 0 <= i < |pred'[u]|
      ensures pred'[u][i].preds != [] && pred'[u][i].preds == Scanned(m, u, pred'[u][i].input, s, k + 1)
    {
      ScannedSnoc(m, u, pred'[u][i].input, s, k);
      if u == t && i == |pred[t]| {
        assert pred'[u][i] == PredEntry(input, [s]);
      } else {
        assert pred'[u][i] == pred[u][i];
        assert u == t ==> pred[u][i].input != input;
      }
    }
  }

  lemma FreshKeys(pred: PredMap, t: nat, input: Pattern, s: nat, pred': PredMap)
    requires t < |pred| && KeysDistinct(pred) && IndexOf(pred[t], input) < 0
    requires pred' == pred[t := pred[t] + [PredEntry(input, [s])]]
    ensures KeysDistinct(pred')
  {
    assert DistinctKeys(pred'[t]) by {
      forall i, j | 0 <= i < j < |pred'[t]| ensures pred'[t][i].input != pred'[t][j].input {
        assert pred'[t][i] == pred[t][i];
        if j < |pred[t]| {
          assert pred'[t][j] == pred[t][j];
        }
      }
    }
  }

  /** The lists after appending s to the existing entry idx of pred[t]. */
  lemma ExtendLists(m: Machine, pred: PredMap, s: nat, k: nat, idx: nat, pred': PredMap)
    requires s < |m| && k < |m[s]| && |pred| == |m| && m[s][k].next < |m|
    requires ListsUpTo(m, pred, s, k) && KeysDistinct(pred)
    requires IndexOf(pred[m[s][k].next], m[s][k].input) == idx
    requires pred' == pred[m[s][k].next := pred[m[s][k].next][idx := PredEntry(m[s][k].input, pred[m[s][k].next][idx].preds + [s])]]
    ensures ListsUpTo(m, pred', s, k + 1)
  {
    var t, input := m[s][k].next, m[s][k].input;
    forall u, i | 0 <= u < |pred'| && 0 <= i < |pred'[u]|
      ensures pred'[u][i].preds != [] && pred'[u][i].preds == Scanned(m, u, pred'[u][i].input, s, k + 1)
    {
      ScannedSnoc(m, u, pred'[u][i].input, s, k);
      if u == t && i == idx {
        assert pred'[u][i] == PredEntry(input, pred[t][idx].preds + [s]);
      } else {
        assert pred'[u][i] == pred[u][i];
        assert u == t ==> pred[u][i].input != input by {
          if u == t { assert DistinctKeys(pred[t]); }
        }
      }
    }
  }

  lemma ExtendKeys(pred: PredMap, t: nat, idx: nat, s: nat, pred': PredMap)
    requires t < |pred| && idx < |pred[t]| && KeysDistinct(pred)
    requires pred' == pred[t := pred[t][idx := PredEntry(pred[t][idx].input, pred[t][idx].preds + [s])]]
    ensures KeysDistinct(pred')
  {
    assert DistinctKeys(pred'[t]) by {
      forall i, j | 0 <= i < j < |pred'[t]| ensures pred'[t][i].input != pred'[t][j].input {
        assert pred'[t][i].input == pred[t][i].input && pred'[t][j].input == pred[t][j].input;
      }
    }
  }

  /** The invariant after a fresh entry (input, [s]) is appended to pred[t]. */
  lemma AddPredFresh(m: Machine, pred: PredMap, s: nat, k: nat, pred': PredMap)
    requires s < |m| && k < |m[s]| && TargetsInRange(m) && PredInv(m, pred, s, k)
    requires IndexOf(pred[m[s][k].next], m[s][k].input) < 0
    requires pred' == pred[m[s][k].next := pred[m[s][k].next] + [PredEntry(m[s][k].input, [s])]]
    ensures PredInv(m, pred', s, k + 1)
  {
    var t, input := m[s][k].next, m[s][k].input;
    NoEntryNoPreds(m, pred, s, k, t, input);
    FreshLists(m, pred, s, k, pred');
    FreshKeys(pred, t, input, s, pred');
    FreshKeepsInputs(pred, t, PredEntry(input, [s]), pred');
    AddPredLookup(m, pred, s, k, |pred[t]|, pred');
  }

  /** The invariant after s is appended to the existing entry idx of pred[t]. */
  lemma AddPredExtend(m: Machine, pred: PredMap, s: nat, k: nat, idx: nat, pred': PredMap)
    requires s < |m| && k < |m[s]| && TargetsInRange(m) && PredInv(m, pred, s, k)
    requires IndexOf(pred[m[s][k].next], m[s][k].input) == idx
    requires pred' == pred[m[s][k].next := pred[m[s][k].next][idx := PredEntry(m[s][k].input, pred[m[s][k].next][idx].preds + [s])]]
    ensures PredInv(m, pred', s, k + 1)
  {
    var t := m[s][k].next;
    ExtendLists(m, pred, s, k, idx, pred');
    ExtendKeys(pred, t, idx, s, pred');
    ExtendKeepsInputs(pred, t, idx, pred'[t][idx], pred');
    AddPredLookup(m, pred, s, k, idx, pred');
  }

  /** Line 283: pred[nextS][input].push_back(s) for the transition (s, k). */
  method AddPred(m: Machine, pred: PredMap, s: nat, k: nat) returns (pred': PredMap)
    requires s < |m| && k < |m[s]| && TargetsInRange(m)
    requires PredInv(m, pred, s, k)
    ensures PredInv(m, pred', s, k + 1)
  {
    var input := m[s][k].input;
    var t := m[s][k].next;
    var idx := IndexOf(pred[t], input);
    if idx < 0 {
      pred' := pred[t := pred[t] + [PredEntry(input, [s])]];
      AddPredFresh(m, pred, s, k, pred');
    } else {
      pred' := pred[t := pred[t][idx := PredEntry(input, pred[t][idx].preds + [s])]];
      AddPredExtend(m, pred, s, k, idx, pred');
    }
  }

  /**
   * computePredecessorMap: pred[t] has one entry per distinct input of the
   * transitions into t, listing each source state once per such transition.
   */
  method ComputePredecessorMap(m: Machine) returns (pred: PredMap)
    requires TargetsInRange(m)
    ensures IsPredMap(m, pred)
  {
    pred := seq(|m|, _ => []);
    PredInvStart(m);
    var s := 0;
    while s < |m|
      invariant s <= |m| && PredInv(m, pred, s, 0)
    {
      var k := 0;
      while k < |m[s]|
        invariant k <= |m[s]| && PredInv(m, pred, s, k)
      {
        pred := AddPred(m, pred, s, k);
        k := k + 1;
      }
      PredInvNextState(m, pred, s);
      s := s + 1;
    }
    PredInvDone(m, pred);
  }

  /** Reading the finished map: a listed predecessor has a transition to t on that entry's input. */
  lemma PredEntrySound(m: Machine, pred: PredMap, t: nat, i: nat, p: nat)
    requires IsPredMap(m, pred) && t < |pred| && i < |pred[t]| && p in pred[t][i].preds
    ensures p < |m| && exists k :: 0 <= k < |m[p]| && m[p][k].next == t && m[p][k].input == pred[t][i].input
  {
    PredsOfMembership(m, t, pred[t][i].input, |m|, p);
  }

  /** And every transition is listed in the entry of its input. */
  lemma PredEntryComplete(m: Machine, pred: PredMap, p: nat, k: nat)
    requires IsPredMap(m, pred) && TargetsInRange(m) && p < |m| && k < |m[p]|
    ensures var t := m[p][k].next;
      var i := IndexOf(pred[t], m[p][k].input);
      0 <= i < |pred[t]| && p in pred[t][i].preds
  {
    var t := m[p][k].next;
    var i := IndexOf(pred[t], m[p][k].input);
    PredsOfMembership(m, t, m[p][k].input, |m|, p);
  }
}

=== FILE: Reachability.dfy ===
/**
 * removeUnreachableStates (minimizer.cpp): a breadth-first search from the
 * reset state, then an in-place compaction that fills each hole with the
 * last reachable state, then a renaming of every transition target.
 */
module Reachability {
  import opened Patterns
  import opened Machines

  /** p is a walk along transitions of m. */
  ghost predicate IsPath(m: Machine, p: seq<nat>) {
    && |p| >= 1
    && (forall i :: 0 <= i < |p| ==> p[i] < |m|)
    && (forall i :: 0 <= i < |p| - 1 ==> Succ(m, p[i], p[i + 1]))
  }

  /** p is a walk from r to s. */
  ghost predicate PathFromTo(m: Machine, p: seq<nat>, r: nat, s: nat) {
    IsPath(m, p) && p[0] == r && p[|p| - 1] == s
  }

  ghost predicate Reachable(m: Machine, r: nat, s: nat) {
    exists p :: PathFromTo(m, p, r, s)
  }

  lemma ReachableStart(m: Machine, r: nat)
    requires r < |m|
    ensures Reachable(m, r, r)
  {
    assert PathFromTo(m, [r], r, r);
  }

  lemma ReachableStep(m: Machine, r: nat, s: nat, k: nat)
    requires TargetsInRange(m) && s < |m| && k < |m[s]| && Reachable(m, r, s)
    ensures Reachable(m, r, m[s][k].next)
  {
    var p :| PathFromTo(m, p, r, s);
    var q := p + [m[s][k].next];
    assert PathFromTo(m, q, r, m[s][k].next);
  }

  lemma ReachableInRange(m: Machine, r: nat, s: nat)
    requires Reachable(m, r, s)
    ensures r < |m| && s < |m|
  {
    var p :| PathFromTo(m, p, r, s);
  }

  /**
   * The reachable states are contained in every set that holds r and is
   * closed under successors (so a closed set of reachable states is exactly
   * the reachable set).
   */
  lemma {:induction false} ReachableInClosedSet(m: Machine, r: nat, s: nat, c: set<nat>)
    requires r in c
    requires forall x, k :: x in c && x < |m| && 0 <= k < |m[x]| ==> m[x][k].next in c
    requires Reachable(m, r, s)
    ensures s in c
  {
    var p :| PathFromTo(m, p, r, s);
    var i := 0;
    while i < |p| - 1
      invariant 0 <= i < |p| && p[i] in c
    {
      assert Succ(m, p[i], p[i + 1]);
      i := i + 1;
    }
  }

  /** Lines 230-237: mark and enqueue the successors of one state that are not marked yet. */
  method VisitSuccessors(m: Machine, reset: nat, state: nat, flags: array<bool>, queue: seq<nat>) returns (queue': seq<nat>)
    requires TargetsInRange(m) && state < |m| && flags.Length == |m|
    requires Reachable(m, reset, state)
    requires forall s :: 0 <= s < |m| && flags[s] ==> Reachable(m, reset, s)
    modifies flags
    ensures |queue| <= |queue'| && queue'[..|queue|] == queue
    ensures CountFalse(flags[..]) + (|queue'| - |queue|) == old(CountFalse(flags[..]))
    ensures forall j :: |queue| <= j < |queue'| ==> queue'[j] < |m| && flags[queue'[j]]
    ensures forall s :: 0 <= s < |m| && flags[s] ==> old(flags[s]) || s in queue'[|queue|..]
    ensures forall s :: 0 <= s < |m| && old(flags[s]) ==> flags[s]
    ensures forall k :: 0 <= k < |m[state]| ==> flags[m[state][k].next]
    ensures forall s :: 0 <= s < |m| && flags[s] ==> Reachable(m, reset, s)
  {
    var trans := m[state];
    queue' := queue;
    ghost var added: seq<nat> := [];
    var k := 0;
    while k < |trans|
      invariant 0 <= k <= |trans|
      invariant queue' == queue + added
      invariant CountFalse(flags[..]) + |added| == old(CountFalse(flags[..]))
      invariant forall j :: 0 <= j < |added| ==> added[j] < |m| && flags[added[j]]
      invariant forall s :: 0 <= s < |m| && flags[s] ==> old(flags[s]) || s in added
      invariant forall s :: 0 <= s < |m| && old(flags[s]) ==> flags[s]
      invariant forall i :: 0 <= i < k ==> flags[trans[i].next]
      invariant forall s :: 0 <= s < |m| && flags[s] ==> Reachable(m, reset, s)
    {
      var nextState := trans[k].next;
      if !flags[nextState] {
        ReachableStep(m, reset, state, k);
        CountFalseSet(flags[..], nextState);
        flags[nextState] := true;
        added := added + [nextState];
        queue' := queue' + [nextState];
      }
      k := k + 1;
    }
    assert queue'[|queue|..] == added;
  }

  /** The breadth-first search of lines 218-238: flags[s] holds exactly for the reachable states. */
  method MarkReachable(m: Machine, reset: nat) returns (flags: array<bool>)
    requires TargetsInRange(m) && reset < |m|
    ensures fresh(flags) && flags.Length == |m|
    ensures forall s :: 0 <= s < |m| ==> (flags[s] <==> Reachable(m, reset, s))
  {
    var n := |m|;
    flags := new bool[n](_ => false);
    flags[reset] := true;
    ReachableStart(m, reset);
    var queue: seq<nat> := [reset];
    var head := 0;
    while head < |queue|
      invariant 0 <= head <= |queue|
      invariant forall j :: 0 <= j < |queue| ==> queue[j] < n && flags[queue[j]]
      invariant flags[reset]
      invariant forall s :: 0 <= s < n && flags[s] ==> s in queue
      invariant forall s :: 0 <= s < n && flags[s] ==> Reachable(m, reset, s)
      invariant forall j, k :: 0 <= j < head && 0 <= k < |m[queue[j]]| ==> flags[m[queue[j]][k].next]
      decreases CountFalse(flags[..]), |queue| - head
    {
      var state := queue[head];
      label Before:
      var queue' := VisitSuccessors(m, reset, state, flags, queue);
      forall j, k | 0 <= j <= head && 0 <= k < |m[queue'[j]]|
        ensures flags[m[queue'[j]][k].next]
      {
        assert queue'[j] == queue[j];
        if j < head {
          assert old@Before(flags[m[queue[j]][k].next]);
        }
      }
      forall j | 0 <= j < |queue| ensures queue'[j] == queue[j] {
        assert queue'[..|queue|][j] == queue[j];
      }
      queue := queue';
      head := head + 1;
    }
    SearchComplete(m, reset, flags[..], queue);
  }

  /** When the queue is exhausted, the marked states are closed under successors, so every reachable state is marked. */
  lemma SearchComplete(m: Machine, reset: nat, fl: seq<bool>, queue: seq<nat>)
    requires TargetsInRange(m) && |fl| == |m| && reset < |m| && fl[reset]
    requires forall j :: 0 <= j < |queue| ==> queue[j] < |m|
    requires forall s :: 0 <= s < |m| && fl[s] ==> s in queue
    requires forall j, k :: 0 <= j < |queue| && 0 <= k < |m[queue[j]]| ==> fl[m[queue[j]][k].next]
    ensures forall s :: 0 <= s < |m| && Reachable(m, reset, s) ==> fl[s]
  {
    var c := set x | 0 <= x < |m| && fl[x];
    forall x, k | x in c && x < |m| && 0 <= k < |m[x]| ensures m[x][k].next in c {
      var j :| 0 <= j < |queue| && queue[j] == x;
    }
    forall s | 0 <= s < |m| && Reachable(m, reset, s) ensures fl[s] {
      ReachableInClosedSet(m, reset, s, c);
    }
  }

  /**
   * The state of the compaction loop before slot i: slots below i hold
   * reachable states recorded in rm, slots from i on are untouched, flags
   * beyond the vector are clear, and every reachable state is either placed
   * below i or still marked in its own slot.
   */
  ghost predicate CompactInv(m: Machine, reach: seq<bool>, r: Machine, origin: seq<nat>, fl: seq<bool>, rm: seq<int>, i: nat)
  {
    && |reach| == |fl| == |rm| == |m|
    && i <= |r| <= |m| && |origin| == |r|
    && (forall j :: 0 <= j < |m| ==>
          && (j < |r| ==> origin[j] < |m| && r[j] == m[origin[j]] && (fl[j] ==> reach[origin[j]]))
          && (i <= j < |r| ==> origin[j] == j)
          && (j < i ==> fl[j] && rm[origin[j]] == j)
          && (|r| <= j ==> !fl[j]))
    && (forall a, b :: 0 <= a < i <= b < |r| && fl[b] ==> origin[a] != b)
    && (forall s {:trigger reach[s]} :: 0 <= s < |m| && reach[s] ==>
          (0 <= rm[s] < i && origin[rm[s]] == s) || (i <= s < |r| && fl[s]))
  }

  lemma CompactStart(m: Machine, reach: seq<bool>, rm: seq<int>)
    requires |reach| == |rm| == |m|
    ensures CompactInv(m, reach, m, seq(|m|, j => j), reach, rm, 0)
  {
  }

  lemma CompactDone(m: Machine, reach: seq<bool>, r: Machine, origin: seq<nat>, fl: seq<bool>, rm: seq<int>)
    requires CompactInv(m, reach, r, origin, fl, rm, |r|)
    ensures forall j :: 0 <= j < |r| ==>
      origin[j] < |m| && r[j] == m[origin[j]] && reach[origin[j]] && rm[origin[j]] == j
    ensures forall s :: 0 <= s < |m| && reach[s] ==> 0 <= rm[s] < |r| && origin[rm[s]] == s
  {
  }

  lemma CompactKeep(m: Machine, reach: seq<bool>, r: Machine, origin: seq<nat>, fl: seq<bool>, rm: seq<int>, i: nat,
                    rm': seq<int>)
    requires CompactInv(m, reach, r, origin, fl, rm, i) && i < |r| && fl[i]
    requires rm' == rm[i := i]
    ensures CompactInv(m, reach, r, origin, fl, rm', i + 1)
  {
  }

  lemma CompactMove(m: Machine, reach: seq<bool>, r: Machine, origin: seq<nat>, fl: seq<bool>, rm: seq<int>, i: nat, last: nat,
                    r': Machine, origin': seq<nat>, fl': seq<bool>, rm': seq<int>)
    requires CompactInv(m, reach, r, origin, fl, rm, i) && i < last < |r| && !fl[i] && fl[last]
    requires forall j :: last < j < |r| ==> !fl[j]
    requires r' == r[i := r[last]][..|r| - 1] && origin' == origin[i := origin[last]][..|r| - 1]
    requires fl' == fl[i := true][last := false] && rm' == rm[last := i]
    ensures CompactInv(m, reach, r', origin', fl', rm', i + 1)
  {
    assert origin[last] == last && reach[last];
  }

  lemma CompactCut(m: Machine, reach: seq<bool>, r: Machine, origin: seq<nat>, fl: seq<bool>, rm: seq<int>, i: nat, last: nat,
                   r': Machine, origin': seq<nat>)
    requires CompactInv(m, reach, r, origin, fl, rm, i) && last < i < |r| && !fl[i]
    requires i > 0 ==> last >= i - 1
    requires forall j :: last < j < |r| ==> !fl[j]
    requires r' == r[..last + 1] && origin' == origin[..last + 1]
    ensures CompactInv(m, reach, r', origin', fl, rm, i)
  {
  }

  /** Lines 248-251: the highest marked slot below size (some slot w is known to be marked). */
  method LastMarked(flags: array<bool>, size: nat, ghost w: nat) returns (last: nat)
    requires w < size <= flags.Length && flags[w]
    ensures w <= last < size && flags[last]
    ensures forall j :: last < j < size ==> !flags[j]
  {
    last := size - 1;
    while !flags[last]
      invariant w <= last < size
      invariant forall j :: last < j < size ==> !flags[j]
      decreases last
    {
      last := last - 1;
    }
  }

  /**
   * One pass of the loop at lines 242-262 for slot i: a reachable slot keeps
   * its state; a hole is filled with the last reachable state, which is
   * dropped from the end; when no reachable state is left above i, the vector
   * is cut after the last one (and the loop ends).
   */
  method CompactStep(m: Machine, reset: nat, ghost reach: seq<bool>, flags: array<bool>, remap: array<int>,
                     r: Machine, ghost origin: seq<nat>, i: nat)
    returns (r': Machine, ghost origin': seq<nat>, i': nat)
    requires CompactInv(m, reach, r, origin, flags[..], remap[..], i) && i < |r|
    requires reset < |m| && reach[reset]
    modifies flags, remap
    ensures CompactInv(m, reach, r', origin', flags[..], remap[..], i')
    ensures |r'| - i' < |r| - i
  {
    ghost var fl, rm := flags[..], remap[..];
    if flags[i] {
      remap[i] := i;
      CompactKeep(m, reach, r, origin, fl, rm, i, remap[..]);
      r', origin', i' := r, origin, i + 1;
    } else {
      // a slot that is known to hold a reachable state
      ghost var w: nat;
      if i > 0 {
        w := i - 1;
      } else {
        assert reach[reset];
        w := reset;
      }
      var last := LastMarked(flags, |r|, w);
      if last > i {
        remap[last] := i;
        r' := r[i := r[last]];
        origin' := origin[i := origin[last]];
        flags[i] := true;
        flags[last] := false;
        r' := r'[..|r'| - 1];
        origin' := origin'[..|origin'| - 1];
        CompactMove(m, reach, r, origin, fl, rm, i, last, r', origin', flags[..], remap[..]);
        i' := i + 1;
      } else {
        r' := r[..last + 1];
        origin' := origin[..last + 1];
        CompactCut(m, reach, r, origin, fl, rm, i, last, r', origin');
        i' := i;
      }
    }
  }

  /**
   * Lines 240-262: every hole at slot i is filled with the last reachable
   * state (which is then dropped from the end), or, when none is left above
   * i, the vector is cut after the last reachable state.  remap records the
   * slot each reachable original state ends up in; origin[j] is the original
   * state now in slot j.  reach is the set of reachable states as flags.
   */
  method Compact(m: Machine, reset: nat, ghost reach: seq<bool>, flags: array<bool>, remap: array<int>)
    returns (r: Machine, ghost origin: seq<nat>)
    requires flags.Length == remap.Length == |m| == |reach| && flags[..] == reach
    requires reset < |m| && reach[reset]
    modifies flags, remap
    ensures |origin| == |r| <= |m|
    ensures forall j :: 0 <= j < |r| ==>
      origin[j] < |m| && r[j] == m[origin[j]] && reach[origin[j]] && remap[origin[j]] == j
    ensures forall s :: 0 <= s < |m| && reach[s] ==> 0 <= remap[s] < |r| && origin[remap[s]] == s
  {
    r := m;
    origin := seq(|m|, j => j);
    CompactStart(m, reach, remap[..]);
    var i: nat := 0;
    while i < |r|
      invariant CompactInv(m, reach, r, origin, flags[..], remap[..], i)
      decreases |r| - i
    {
      r, origin, i := CompactStep(m, reset, reach, flags, remap, r, origin, i);
    }
    CompactDone(m, reach, r, origin, flags[..], remap[..]);
  }

  /** Lines 264-272: every transition target t is replaced by remap[t]. */
  method RenameTargets(m: Machine, reset: nat, c: Machine, remap: array<int>, ghost origin: seq<nat>) returns (r: Machine)
    requires TargetsInRange(m) && |origin| == |c| && remap.Length == |m|
    requires forall j :: 0 <= j < |c| ==>
      origin[j] < |m| && c[j] == m[origin[j]] && Reachable(m, reset, origin[j]) && remap[origin[j]] == j
    requires forall s :: 0 <= s < |m| && Reachable(m, reset, s) ==> s in origin
    ensures |r| == |c| && TargetsInRange(r)
    ensures forall j :: 0 <= j < |r| ==> |r[j]| == |c[j]|
    ensures forall j, k :: 0 <= j < |r| && 0 <= k < |r[j]| ==>
      && r[j][k].input == c[j][k].input
      && r[j][k].output == c[j][k].output
      && origin[r[j][k].next] == c[j][k].next
  {
    r := c;
    var i := 0;
    while i < |r|
      invariant 0 <= i <= |r| == |c|
      invariant forall j :: 0 <= j < |r| ==> |r[j]| == |c[j]|
      invariant forall j, k :: 0 <= j < |r| && 0 <= k < |r[j]| ==>
        r[j][k].input == c[j][k].input && r[j][k].output == c[j][k].output
      invariant forall j, k :: 0 <= j < i && 0 <= k < |r[j]| ==>
        r[j][k].next < |r| && origin[r[j][k].next] == c[j][k].next
      invariant forall j :: i <= j < |r| ==> r[j] == c[j]
    {
      var trans := r[i];
      var k := 0;
      while k < |trans|
        invariant 0 <= k <= |trans| == |c[i]|
        invariant forall l :: 0 <= l < |trans| ==>
          trans[l].input == c[i][l].input && trans[l].output == c[i][l].output
        invariant forall l :: 0 <= l < k ==> trans[l].next < |r| && origin[trans[l].next] == c[i][l].next
        invariant forall l :: k <= l < |trans| ==> trans[l] == c[i][l]
      {
        var t := trans[k].next;
        ReachableStep(m, reset, origin[i], k);
        ReachableInRange(m, reset, t);
        ghost var j :| 0 <= j < |c| && origin[j] == t;
        trans := trans[k := trans[k].(next := remap[t])];
        k := k + 1;
      }
      r := r[i := trans];
      i := i + 1;
    }
  }

  /**
   * removeUnreachableStates: the result keeps exactly the states reachable
   * from the reset state, each once, in slots 0 .. |r|-1; origin[j] names the
   * original state now in slot j.  Transitions keep their inputs and outputs,
   * and every target is renamed to the slot of the original target.
   */
  method RemoveUnreachableStates(m: Machine, reset: nat) returns (r: Machine, newReset: nat, ghost origin: seq<nat>)
    requires TargetsInRange(m) && reset < |m|
    ensures |origin| == |r| <= |m| && Distinct(origin)
    ensures forall j :: 0 <= j < |r| ==> origin[j] < |m| && Reachable(m, reset, origin[j])
    ensures forall s :: 0 <= s < |m| && Reachable(m, reset, s) ==> s in origin
    ensures newReset < |r| && origin[newReset] == reset
    ensures TargetsInRange(r)
    ensures forall j :: 0 <= j < |r| ==> |r[j]| == |m[origin[j]]|
    ensures forall j, k :: 0 <= j < |r| && 0 <= k < |r[j]| ==>
      && r[j][k].input == m[origin[j]][k].input
      && r[j][k].output == m[origin[j]][k].output
      && origin[r[j][k].next] == m[origin[j]][k].next
  {
    var flags := MarkReachable(m, reset);
    var remap := new int[|m|];
    ReachableStart(m, reset);
    var compacted;
    compacted, origin := Compact(m, reset, flags[..], flags, remap);
    r := RenameTargets(m, reset, compacted, remap, origin);
    ReachableStart(m, reset);
    ghost var j :| 0 <= j < |r| && origin[j] == reset;
    newReset := remap[reset];
  }
}

=== FILE: SplitTables.dfy ===
/**
 * splitTransitions (minimizer.cpp): the dense next-state and output tables
 * over the atomic input alphabet.  Every group of transitively compatible
 * states gets its atomic inputs, every distinct atomic input gets one dense
 * id, and every state gets one row with a column per id.
 *
 * The output table holds a pattern per cell; a cell whose next state is -1
 * holds the empty pattern, standing for the null pointer of the source.
 */
module SplitTables {
  import opened Patterns
  import opened Machines
  import opened TableIndex
  import opened Incompatibility
  import opened CompatibleGroups
  import opened DisjointInputs

  // ---------------------------------------------------------------------
  // Dense ids (lines 405-417)
  // ---------------------------------------------------------------------

  /** alphabet lists every keyed pattern once, at the position its id names. */
  ghost predicate DenseIds(alphabet: seq<Pattern>, ids: map<Pattern, nat>) {
    Distinct(alphabet)
    && (forall p :: p in ids <==> p in alphabet)
    && (forall j :: 0 <= j < |alphabet| ==> ids[alphabet[j]] == j)
  }

  /** What getDisjointInputSet promises about the atomic inputs D of the group g. */
  ghost predicate AtomsOf(m: Machine, g: seq<bool>, ni: nat, D: seq<Pattern>) {
    Distinct(D) && PairwiseDisjoint(D)
    && (forall p :: p in D ==> |p| == ni && WithinClass(m, g, p))
    && (forall s, k, w :: InClass(m, g, s, k) && Matches(m[s][k].input, w) ==> Covered(D, m[s][k].input, w))
  }

  /** Lines 411-416: give every atomic input of D that has no id yet the next one. */
  method AddIds(D: seq<Pattern>, alphabet: seq<Pattern>, ids: map<Pattern, nat>)
    returns (alphabet': seq<Pattern>, ids': map<Pattern, nat>)
    requires DenseIds(alphabet, ids)
    ensures DenseIds(alphabet', ids')
    ensures |alphabet| <= |alphabet'| && alphabet'[..|alphabet|] == alphabet
    ensures forall p :: p in alphabet' <==> p in alphabet || p in D
  {
    alphabet', ids' := alphabet, ids;
    var k := 0;
    while k < |D|
      invariant k <= |D| && DenseIds(alphabet', ids')
      invariant |alphabet| <= |alphabet'| && alphabet'[..|alphabet|] == alphabet
      invariant forall p :: p in alphabet' <==> p in alphabet || p in D[..k]
    {
      var d := D[k];
      if d !in ids' {
        ids' := ids'[d := |alphabet'|];
        alphabet' := alphabet' + [d];
      }
      assert D[..k + 1] == D[..k] + [d];
      k := k + 1;
    }
    assert D[..k] == D;
  }

  /** Lines 405-417: the atomic inputs of every group, and dense ids for all of them. */
  method AssignIds(m: Machine, groups: seq<seq<bool>>, ghost ni: nat, ghost no: nat)
    returns (atoms: seq<seq<Pattern>>, alphabet: seq<Pattern>, ids: map<Pattern, nat>)
    requires Widths(m, ni, no) && forall i :: 0 <= i < |groups| ==> |groups[i]| == |m|
    ensures |atoms| == |groups| && DenseIds(alphabet, ids)
    ensures forall i :: 0 <= i < |groups| ==> AtomsOf(m, groups[i], ni, atoms[i])
    ensures forall p :: p in alphabet <==> exists i :: 0 <= i < |atoms| && p in atoms[i]
  {
    atoms, alphabet, ids := [], [], map[];
    var i := 0;
    while i < |groups|
      invariant i <= |groups| && |atoms| == i && DenseIds(alphabet, ids)
      invariant forall i' :: 0 <= i' < i ==> AtomsOf(m, groups[i'], ni, atoms[i'])
      invariant forall p :: p in alphabet <==> exists i' :: 0 <= i' < i && p in atoms[i']
    {
      var D := GetDisjointInputSet(m, groups[i], ni, no);
      AtomsOfDisjointSet(m, groups[i], ni, no, D);
      ghost var alphabet0 := alphabet;
      alphabet, ids := AddIds(D, alphabet, ids);
      AtomsStep(m, groups, ni, atoms, D, alphabet0, alphabet);
      atoms := atoms + [D];
      i := i + 1;
    }
  }

  /** The postconditions of getDisjointInputSet make its result the atoms of the class. */
  lemma AtomsOfDisjointSet(m: Machine, g: seq<bool>, ni: nat, no: nat, D: seq<Pattern>)
    requires Distinct(D) && PairwiseDisjoint(D)
    requires forall p :: p in D ==> |p| == ni && WithinClass(m, g, p)
    requires forall s, k, w :: InClass(m, g, s, k) && Matches(m[s][k].input, w) ==> Covered(D, m[s][k].input, w)
    ensures AtomsOf(m, g, ni, D)
  {
  }

  /** One round of AssignIds keeps its invariant. */
  lemma AtomsStep(m: Machine, groups: seq<seq<bool>>, ni: nat, atoms: seq<seq<Pattern>>, D: seq<Pattern>,
                  alphabet: seq<Pattern>, alphabet': seq<Pattern>)
    requires |atoms| < |groups| && AtomsOf(m, groups[|atoms|], ni, D)
    requires forall i' :: 0 <= i' < |atoms| ==> AtomsOf(m, groups[i'], ni, atoms[i'])
    requires forall p :: p in alphabet <==> exists i' :: 0 <= i' < |atoms| && p in atoms[i']
    requires forall p :: p in alphabet' <==> p in alphabet || p in D
    ensures forall i' :: 0 <= i' < |atoms + [D]| ==> AtomsOf(m, groups[i'], ni, (atoms + [D])[i'])
    ensures forall p :: p in alphabet' <==> exists i' :: 0 <= i' < |atoms + [D]| && p in (atoms + [D])[i']
  {
    var atoms' := atoms + [D];
    forall p ensures p in alphabet' <==> exists i' :: 0 <= i' < |atoms'| && p in atoms'[i'] {
      if p in D {
        assert p in atoms'[|atoms|];
      }
      if exists i' :: 0 <= i' < |atoms'| && p in atoms'[i'] {
        var i' :| 0 <= i' < |atoms'| && p in atoms'[i'];
        if i' < |atoms| {
          assert p in atoms[i'];
        }
      }
      if p in alphabet {
        var i' :| 0 <= i' < |atoms| && p in atoms[i'];
        assert p in atoms'[i'];
      }
    }
  }

  // ---------------------------------------------------------------------
  // One row (lines 424-453)
  // ---------------------------------------------------------------------

  /**
   * The transition input `input` writes the column of atom a: an input
   * that is itself an atom writes its own column, any other input writes
   * the columns of the atoms it contains.
   */
  predicate Hits(input: Pattern, a: Pattern, D: seq<Pattern>) {
    if input in D then input == a else |a| == |input| && Subset(a, input)
  }

  /** The last of the first k transitions that writes the column of a, -1 when none does. */
  function LastHit(ts: seq<Transition>, D: seq<Pattern>, a: Pattern, k: nat): (r: int)
    requires k <= |ts|
    ensures -1 <= r < k
    ensures r >= 0 ==> Hits(ts[r].input, a, D)
    ensures forall h :: r < h < k ==> !Hits(ts[h].input, a, D)
  {
    if k == 0 then -1
    else if Hits(ts[k - 1].input, a, D) then k - 1
    else LastHit(ts, D, a, k - 1)
  }

  /** The next state in the column of a after the first k transitions; -1 when a is not an atom of the group or nothing wrote it. */
  function NextCell(ts: seq<Transition>, D: seq<Pattern>, a: Pattern, k: nat): int
    requires k <= |ts|
  {
    var h := LastHit(ts, D, a, k);
    if a in D && h >= 0 then ts[h].next else -1
  }

  /** The output in the column of a after the first k transitions; empty when nothing wrote it. */
  function OutCell(ts: seq<Transition>, D: seq<Pattern>, a: Pattern, k: nat): Pattern
    requires k <= |ts|
  {
    var h := LastHit(ts, D, a, k);
    if a in D && h >= 0 then ts[h].output else []
  }

  /** The row of a state with transitions ts after the first k of them. */
  ghost predicate RowOk(ts: seq<Transition>, D: seq<Pattern>, alphabet: seq<Pattern>, row: seq<int>, outs: seq<Pattern>, k: nat)
    requires k <= |ts|
  {
    |row| == |alphabet| && |outs| == |alphabet|
    && forall j :: 0 <= j < |alphabet| ==>
         row[j] == NextCell(ts, D, alphabet[j], k) && outs[j] == OutCell(ts, D, alphabet[j], k)
  }

  /** Where the id of a keyed pattern points. */
  lemma IdOf(alphabet: seq<Pattern>, ids: map<Pattern, nat>, p: Pattern)
    requires DenseIds(alphabet, ids) && p in alphabet
    ensures p in ids && ids[p] < |alphabet| && alphabet[ids[p]] == p
  {
    var j :| 0 <= j < |alphabet| && alphabet[j] == p;
  }

  /** Transition k writes its target and output exactly into the columns it hits and leaves the others. */
  ghost predicate StepOk(ts: seq<Transition>, k: nat, D: seq<Pattern>, alphabet: seq<Pattern>,
                         row: seq<int>, outs: seq<Pattern>, row': seq<int>, outs': seq<Pattern>)
    requires k < |ts| && |row| == |alphabet| && |outs| == |alphabet|
  {
    |row'| == |alphabet| && |outs'| == |alphabet|
    && forall j :: 0 <= j < |alphabet| ==>
         if alphabet[j] in D && Hits(ts[k].input, alphabet[j], D)
         then row'[j] == ts[k].next && outs'[j] == ts[k].output
         else row'[j] == row[j] && outs'[j] == outs[j]
  }

  lemma CellStep(ts: seq<Transition>, D: seq<Pattern>, a: Pattern, k: nat)
    requires k < |ts|
    ensures a in D && Hits(ts[k].input, a, D) ==>
      NextCell(ts, D, a, k + 1) == ts[k].next && OutCell(ts, D, a, k + 1) == ts[k].output
    ensures !(a in D && Hits(ts[k].input, a, D)) ==>
      NextCell(ts, D, a, k + 1) == NextCell(ts, D, a, k) && OutCell(ts, D, a, k + 1) == OutCell(ts, D, a, k)
  {
  }

  lemma RowStep(ts: seq<Transition>, k: nat, D: seq<Pattern>, alphabet: seq<Pattern>,
                row: seq<int>, outs: seq<Pattern>, row': seq<int>, outs': seq<Pattern>)
    requires k < |ts| && RowOk(ts, D, alphabet, row, outs, k)
    requires StepOk(ts, k, D, alphabet, row, outs, row', outs')
    ensures RowOk(ts, D, alphabet, row', outs', k + 1)
  {
    forall j | 0 <= j < |alphabet|
      ensures row'[j] == NextCell(ts, D, alphabet[j], k + 1) && outs'[j] == OutCell(ts, D, alphabet[j], k + 1)
    {
      CellStep(ts, D, alphabet[j], k);
    }
  }

  /** Lines 443-451: transition k, whose input is not an atom, writes the columns of the atoms it contains. */
  method FillSubsets(ts: seq<Transition>, k: nat, D: seq<Pattern>, alphabet: seq<Pattern>, ids: map<Pattern, nat>,
                     row: seq<int>, outs: seq<Pattern>)
    returns (row': seq<int>, outs': seq<Pattern>)
    requires k < |ts| && ts[k].input !in D && |row| == |alphabet| && |outs| == |alphabet|
    requires DenseIds(alphabet, ids) && forall d :: d in D ==> d in alphabet
    ensures StepOk(ts, k, D, alphabet, row, outs, row', outs')
  {
    var input := ts[k].input;
    row', outs' := row, outs;
    var i := 0;
    while i < |D|
      invariant i <= |D| && |row'| == |alphabet| && |outs'| == |alphabet|
      invariant forall j :: 0 <= j < |alphabet| ==>
        if alphabet[j] in D[..i] && |alphabet[j]| == |input| && Subset(alphabet[j], input)
        then row'[j] == ts[k].next && outs'[j] == ts[k].output
        else row'[j] == row[j] && outs'[j] == outs[j]
    {
      var d := D[i];
      assert D[..i + 1] == D[..i] + [d];
      if |d| == |input| && Subset(d, input) {
        IdOf(alphabet, ids, d);
        var id := ids[d];
        row' := row'[id := ts[k].next];
        outs' := outs'[id := ts[k].output];
      }
      i := i + 1;
    }
    assert D[..i] == D;
  }

  /** Lines 440-442: an input that is itself an atom writes its own column only. */
  lemma AtomStep(ts: seq<Transition>, k: nat, D: seq<Pattern>, alphabet: seq<Pattern>, id: nat,
                 row: seq<int>, outs: seq<Pattern>, row': seq<int>, outs': seq<Pattern>)
    requires k < |ts| && ts[k].input in D && Distinct(alphabet)
    requires id < |alphabet| && alphabet[id] == ts[k].input && |row| == |alphabet| && |outs| == |alphabet|
    requires row' == row[id := ts[k].next] && outs' == outs[id := ts[k].output]
    ensures StepOk(ts, k, D, alphabet, row, outs, row', outs')
  {
  }

  /** Lines 437-452: transition k writes the columns it hits. */
  method FillTransition(ts: seq<Transition>, k: nat, D: seq<Pattern>, alphabet: seq<Pattern>, ids: map<Pattern, nat>,
                        row: seq<int>, outs: seq<Pattern>)
    returns (row': seq<int>, outs': seq<Pattern>)
    requires k < |ts| && |row| == |alphabet| && |outs| == |alphabet|
    requires DenseIds(alphabet, ids) && forall d :: d in D ==> d in alphabet
    ensures StepOk(ts, k, D, alphabet, row, outs, row', outs')
  {
    var input := ts[k].input;
    if input in D {
      IdOf(alphabet, ids, input);
      var id := ids[input];
      row' := row[id := ts[k].next];
      outs' := outs[id := ts[k].output];
      AtomStep(ts, k, D, alphabet, id, row, outs, row', outs');
    } else {
      row', outs' := FillSubsets(ts, k, D, alphabet, ids, row, outs);
    }
  }

  /** Before any transition every cell is empty. */
  lemma EmptyRow(ts: seq<Transition>, D: seq<Pattern>, alphabet: seq<Pattern>, row: seq<int>, outs: seq<Pattern>)
    requires row == seq(|alphabet|, _ => -1) && outs == seq(|alphabet|, _ => [])
    ensures RowOk(ts, D, alphabet, row, outs, 0)
  {
  }

  /** Lines 428-453: the row of one state of the group whose atoms are D. */
  method FillRow(ts: seq<Transition>, D: seq<Pattern>, alphabet: seq<Pattern>, ids: map<Pattern, nat>)
    returns (row: seq<int>, outs: seq<Pattern>)
    requires DenseIds(alphabet, ids) && forall d :: d in D ==> d in alphabet
    ensures RowOk(ts, D, alphabet, row, outs, |ts|)
  {
    row := seq(|alphabet|, _ => -1);
    outs := seq(|alphabet|, _ => []);
    EmptyRow(ts, D, alphabet, row, outs);
    var k := 0;
    while k < |ts|
      invariant k <= |ts| && RowOk(ts, D, alphabet, row, outs, k)
    {
      var row', outs' := FillTransition(ts, k, D, alphabet, ids, row, outs);
      RowStep(ts, k, D, alphabet, row, outs, row', outs');
      row, outs := row', outs';
      k := k + 1;
    }
  }

  /** Lines 420-454 for one group: every member gets its row, every other state keeps its own. */
  method FillGroup(m: Machine, g: seq<bool>, D: seq<Pattern>, alphabet: seq<Pattern>, ids: map<Pattern, nat>,
                   ghost ni: nat, ghost no: nat, nextStates: seq<seq<int>>, outputs: seq<seq<Pattern>>)
    returns (nextStates': seq<seq<int>>, outputs': seq<seq<Pattern>>)
    requires Widths(m, ni, no) && |g| == |m| && |nextStates| == |m| && |outputs| == |m|
    requires DenseIds(alphabet, ids) && forall d :: d in D ==> d in alphabet && |d| == ni
    ensures |nextStates'| == |m| && |outputs'| == |m|
    ensures forall s :: 0 <= s < |m| ==>
      if g[s] then RowOk(m[s], D, alphabet, nextStates'[s], outputs'[s], |m[s]|)
      else nextStates'[s] == nextStates[s] && outputs'[s] == outputs[s]
  {
    nextStates', outputs' := nextStates, outputs;
    var s := 0;
    while s < |m|
      invariant s <= |m| && |nextStates'| == |m| && |outputs'| == |m|
      invariant forall t :: 0 <= t < |m| ==>
        if t < s && g[t] then RowOk(m[t], D, alphabet, nextStates'[t], outputs'[t], |m[t]|)
        else nextStates'[t] == nextStates[t] && outputs'[t] == outputs[t]
    {
      if g[s] {
        var row, outs := FillRow(m[s], D, alphabet, ids);
        nextStates' := nextStates'[s := row];
        outputs' := outputs'[s := outs];
      }
      s := s + 1;
    }
  }

  // ---------------------------------------------------------------------
  // splitTransitions (lines 399-457)
  // ---------------------------------------------------------------------

  /**
   * Lines 399-457: the groups, their atomic inputs, the dense alphabet of
   * all atomic inputs, and the row of every state over that alphabet,
   * built from the atoms of the state's own group.
   */
  method SplitTransitions(m: Machine, Ms: seq<bool>, ghost ni: nat, ghost no: nat)
    returns (nextStates: seq<seq<int>>, outputs: seq<seq<Pattern>>, alphabet: seq<Pattern>,
             ghost groups: seq<seq<bool>>, ghost atoms: seq<seq<Pattern>>)
    requires Widths(m, ni, no) && |Ms| == Ai(|m|, 0, |m|) && Symmetric(Ms, |m|)
    ensures |atoms| == |groups| && forall i :: 0 <= i < |groups| ==> |groups[i]| == |m|
    ensures forall s :: 0 <= s < |m| ==> InSomeClass(groups, s)
    ensures forall i, j, s :: 0 <= i < |groups| && 0 <= j < |groups| && 0 <= s < |m| && groups[i][s] && groups[j][s] ==> i == j
    ensures forall i :: 0 <= i < |groups| ==> AtomsOf(m, groups[i], ni, atoms[i])
    ensures Distinct(alphabet) && forall p :: p in alphabet <==> exists i :: 0 <= i < |atoms| && p in atoms[i]
    ensures |nextStates| == |m| && |outputs| == |m|
    ensures forall i, s :: 0 <= i < |groups| && 0 <= s < |m| && groups[i][s] ==>
      RowOk(m[s], atoms[i], alphabet, nextStates[s], outputs[s], |m[s]|)
  {
    var gs := GetTransitivelyCompatibleStates(Ms, |m|);
    var ds, ids;
    ds, alphabet, ids := AssignIds(m, gs, ni, no);
    groups, atoms := gs, ds;
    nextStates := seq(|m|, _ => []);
    outputs := seq(|m|, _ => []);
    var i := 0;
    while i < |gs|
      invariant i <= |gs| && |nextStates| == |m| && |outputs| == |m|
      invariant forall i', s :: 0 <= i' < i && 0 <= s < |m| && gs[i'][s] ==>
        RowOk(m[s], ds[i'], alphabet, nextStates[s], outputs[s], |m[s]|)
    {
      nextStates, outputs := FillGroup(m, gs[i], ds[i], alphabet, ids, ni, no, nextStates, outputs);
      i := i + 1;
    }
  }

  // ---------------------------------------------------------------------
  // What a cell means
  // ---------------------------------------------------------------------

  /**
   * With pairwise disjoint atoms the two branches of lines 440-451 agree:
   * an input writes the column of atom a exactly when a lies within it.
   */
  lemma HitsIffSubset(input: Pattern, a: Pattern, D: seq<Pattern>)
    requires PairwiseDisjoint(D) && a in D && |a| == |input|
    ensures Hits(input, a, D) <==> Subset(a, input)
  {
    SubsetReflexive(a);
    DisjointIsNotCompatible(a, input);
  }

  /**
   * The cell of atom a in the row of a state with transitions ts: -1
   * exactly when no transition's input contains a, and otherwise the
   * target and output of the last transition whose input contains a.
   */
  lemma {:induction false} CellMeaning(ts: seq<Transition>, D: seq<Pattern>, a: Pattern)
    requires PairwiseDisjoint(D) && a in D && forall k :: 0 <= k < |ts| ==> |ts[k].input| == |a|
    ensures NextCell(ts, D, a, |ts|) == -1 <==> forall k :: 0 <= k < |ts| ==> !Subset(a, ts[k].input)
    ensures NextCell(ts, D, a, |ts|) != -1 ==>
      exists h :: 0 <= h < |ts| && Subset(a, ts[h].input) && NextCell(ts, D, a, |ts|) == ts[h].next
        && OutCell(ts, D, a, |ts|) == ts[h].output && forall k :: h < k < |ts| ==> !Subset(a, ts[k].input)
  {
    forall k | 0 <= k < |ts| ensures Hits(ts[k].input, a, D) <==> Subset(a, ts[k].input) {
      HitsIffSubset(ts[k].input, a, D);
    }
  }

  /**
   * Two states whose rows both have a cell in the column of atom a: if
   * the outputs there contradict, the states conflict directly, since
   * both transitions contain a and so fire on a common word.
   */
  lemma CellsConflict(m: Machine, Ds: seq<Pattern>, Dt: seq<Pattern>, a: Pattern, s: nat, t: nat, no: nat)
    requires s < |m| && t < |m| && Widths(m, |a|, no)
    requires PairwiseDisjoint(Ds) && a in Ds && PairwiseDisjoint(Dt) && a in Dt
    requires NextCell(m[s], Ds, a, |m[s]|) != -1 && NextCell(m[t], Dt, a, |m[t]|) != -1
    ensures |OutCell(m[s], Ds, a, |m[s]|)| == no == |OutCell(m[t], Dt, a, |m[t]|)|
    ensures OutConflict(OutCell(m[s], Ds, a, |m[s]|), OutCell(m[t], Dt, a, |m[t]|)) ==> DirectConflict(m, s, t)
  {
    CellMeaning(m[s], Ds, a);
    CellMeaning(m[t], Dt, a);
    var hs :| 0 <= hs < |m[s]| && Subset(a, m[s][hs].input) && OutCell(m[s], Ds, a, |m[s]|) == m[s][hs].output;
    var ht :| 0 <= ht < |m[t]| && Subset(a, m[t][ht].input) && OutCell(m[t], Dt, a, |m[t]|) == m[t][ht].output;
    var w := SomeWord(a);
    SubsetMatches(a, m[s][hs].input, w);
    SubsetMatches(a, m[t][ht].input, w);
    CommonWordNotDisjoint(m[s][hs].input, m[t][ht].input, w);
    assert Joint(m, s, hs, t, ht);
  }

  /**
   * The split tables and a matrix that marks every incompatible pair meet
   * what the search needs of them: states whose outputs contradict in a
   * column they both fill are marked.
   */
  lemma SplitConflictsMarked(m: Machine, Ms: seq<bool>, ni: nat, no: nat, nextStates: seq<seq<int>>,
                             outputs: seq<seq<Pattern>>, alphabet: seq<Pattern>, groups: seq<seq<bool>>,
                             atoms: seq<seq<Pattern>>)
    requires Widths(m, ni, no)
    requires forall x: nat, y: nat :: x < |m| && y < |m| && Incompatible(m, x, y) ==> Mk(Ms, |m|, x, y)
    requires |atoms| == |groups| && forall i :: 0 <= i < |groups| ==> |groups[i]| == |m|
    requires forall s :: 0 <= s < |m| ==> InSomeClass(groups, s)
    requires forall i :: 0 <= i < |groups| ==> AtomsOf(m, groups[i], ni, atoms[i])
    requires |nextStates| == |m| && |outputs| == |m|
    requires forall i, s :: 0 <= i < |groups| && 0 <= s < |m| && groups[i][s] ==>
      RowOk(m[s], atoms[i], alphabet, nextStates[s], outputs[s], |m[s]|)
    ensures ConflictsMarked(nextStates, outputs, Ms)
  {
    forall s, t, j |
      0 <= s < |nextStates| && 0 <= t < |nextStates| && 0 <= j < |nextStates[s]| && j < |nextStates[t]|
      && j < |outputs[s]| && j < |outputs[t]| && nextStates[s][j] != -1 && nextStates[t][j] != -1
      && OutConflict(outputs[s][j], outputs[t][j])
      ensures Mk(Ms, |nextStates|, s, t)
    {
      assert InSomeClass(groups, s) && InSomeClass(groups, t);
      var gs :| 0 <= gs < |groups| && s < |groups[gs]| && groups[gs][s];
      var gt :| 0 <= gt < |groups| && t < |groups[gt]| && groups[gt][t];
      assert RowOk(m[s], atoms[gs], alphabet, nextStates[s], outputs[s], |m[s]|);
      assert RowOk(m[t], atoms[gt], alphabet, nextStates[t], outputs[t], |m[t]|);
      var a := alphabet[j];
      assert a in atoms[gs] && a in atoms[gt];
      assert AtomsOf(m, groups[gs], ni, atoms[gs]) && AtomsOf(m, groups[gt], ni, atoms[gt]);
      CellsConflict(m, atoms[gs], atoms[gt], a, s, t, no);
      assert IncompWithin(m, s, t, 0);
    }
  }
}

=== FILE: TableIndex.dfy ===
/**
 * The row-major index `ai` (DIMACSWriter.h) used for every rectangular
 * table of the minimiser: the incompatibility matrix and the literal tables.
 * It is defined by adding one row length per row, so that the proofs about
 * the tables stay in linear arithmetic; `AiClosedForm` states the product.
 */
module TableIndex {
  /** Cell (x, y) of a table with ySize columns: x * ySize + y. */
  function Ai(x: nat, y: nat, ySize: nat): (r: nat)
    ensures r >= y
  {
    if x == 0 then y else ySize + Ai(x - 1, y, ySize)
  }

  lemma {:induction false} AiClosedForm(x: nat, y: nat, ySize: nat)
    ensures Ai(x, y, ySize) == x * ySize + y
  {
    if x > 0 {
      AiClosedForm(x - 1, y, ySize);
      assert (x - 1) * ySize + ySize == x * ySize;
    }
  }

  /** A cell of an xSize-by-ySize table lies inside its Ai(xSize, 0, ySize) entries. */
  lemma {:induction false} AiBound(x: nat, y: nat, xSize: nat, ySize: nat)
    requires x < xSize && y < ySize
    ensures Ai(x, y, ySize) < Ai(xSize, 0, ySize)
  {
    if x > 0 {
      AiBound(x - 1, y, xSize - 1, ySize);
    }
  }

  /** The table of xSize rows of ySize cells has xSize * ySize entries. */
  lemma TableSize(xSize: nat, ySize: nat)
    ensures Ai(xSize, 0, ySize) == xSize * ySize
  {
    AiClosedForm(xSize, 0, ySize);
  }

  /** Different cells have different indices: the row and column can be read back. */
  lemma {:induction false} AiInjective(x1: nat, y1: nat, x2: nat, y2: nat, ySize: nat)
    requires y1 < ySize && y2 < ySize && Ai(x1, y1, ySize) == Ai(x2, y2, ySize)
    ensures x1 == x2 && y1 == y2
  {
    if x1 > 0 && x2 > 0 {
      AiInjective(x1 - 1, y1, x2 - 1, y2, ySize);
    }
  }
}
